=== FILE: README.md ===
# Skype4Java core in Dafny

This project models the core of Skype4Java, a Java client library for the
Skype desktop API. It has two parts:

- the connector layer, which finds a running Skype and carries text commands
  to it and notifications back;
- the text-protocol layer, which builds Skype API commands and reads the
  replies to them.

Both API generations of the library are modelled: the `com.skype` packages
and the older `jp.sf.skype` ones. Most of the model is pure functions over
immutable values. Where the source loops over arrays, the model uses
methods with loop invariants, each checked against a functional
definition:

- the X11 fragment sender and the reassembly loop;
- the avatar byte search;
- the reverse-order listener dispatch;
- `extractFriends`;
- `toCommaSeparatedString`.

| file | module | models |
|---|---|---|
| wrappers.dfy | Wrappers, Octets | `Option`, `Result` and the byte type |
| java_text.dfy | JavaText | the `java.lang.String` and `Integer`/`Long` behaviour the library relies on: `startsWith`, `indexOf`, `substring`, `split` (trailing empty pieces dropped), `trim`, `parseInt`, `parseLong`, decimal `toString` |
| connector.dfy | Connector | connector selection by `os.name`, command ids `#n`, reply matching by expected header, the timeout outcome, the two listener lists and their last-to-first dispatch, initialise/dispose |
| x11_framing.dfy | X11Framing | the 20-byte ClientMessage framing of the X11 bridge, the receiving main loop and Skype detection |
| transport.dfy | JavaWrapper | the choice between X11 and DBus in the Linux native library |
| windows_connector.dfy | WindowsConnector, Win32Connector | the attach codes, WM_COPYDATA framing, the connect loops and the registry fallback |
| linux_connector.dfy | LinuxConnector, LinuxDBusConnector | status codes of the Linux bridge, the DBus connect outcome and local avatar commands |
| avatar_reader.dfy | AvatarReader | the byte search, the `l33l` block scan and the JPEG slice |
| csv_player.dfy | CsvPlayer | the replay-file line parser and the reader life cycle |
| skype_utils.dfy | SkypeUtils | `checkError`, `CommandFailedException` parsing, GET/SET command builders, `convertToArray`, `checkNotNull` |
| skype_api.dfy | SkypeApi | `com.skype.Skype`: buttons, audio devices, ids of created objects, the CHATMESSAGE and CALL notification dispatch, listener registration, the exception handler |
| application.dfy, stream.dfy | Application, Stream | AP2AP applications and their streams |
| profile.dfy | Profile | call-forwarding rules, list properties, country and birthday |
| user.dfy, skype_object.dfy | User, SkypeObject | the user registry, friend upgrade and user data |
| event_message.dfy, sms.dfy, chat_message.dfy, contact_list.dfy | EventMessage, Sms, ChatMessage, ContactList | the remaining protocol objects |
| jp_skype.dfy, jp_call.dfy, jp_stream.dfy, jp_application.dfy | JpSkype, JpCall, JpStream, JpApplication | the `jp.sf.skype` API |

How things outside the model are represented:

- Replies from Skype, received notifications, file contents and clock
  readings are inputs.
- A Java exception becomes a `Failure`. Its class, and its text where the
  source builds one, are kept.
- `null` is `None`.
- A listener is an opaque value.
- The `int`/`long` ranges are checked explicitly where the source parses
  or prints numbers.

Where the source has an evident defect, the model has both versions:

- the code as written, named `…AsWritten`, with a lemma that shows the
  defect on a concrete input;
- the intended behaviour, with its property proved.

The rest of the model uses the intended version. The defects are listed
under "Findings".

## Model

| member | source | states |
|---|---|---|
| JavaText.Split | src/com/skype/Utils.java:146 | text without the separator is one piece; otherwise the last piece kept is never empty |
| JavaText.SplitShape | src/com/skype/Utils.java:146 | split keeps a prefix of the raw pieces, leaving off only empty trailing ones |
| JavaText.SplitJoin | src/com/skype/Utils.java:146 | joining separator-free pieces, one piece or a last piece not empty, and splitting again gives the pieces back |
| JavaText.Trim | src/com/skype/Utils.java:148 | the result occurs in the text and neither starts nor ends with a character up to U+0020 |
| JavaText.TrimIdentity | src/com/skype/Utils.java:148 | text that neither starts nor ends with white space is kept as is |
| JavaText.EqualsIgnoreCaseProperties | src/com/skype/SMS.java:121 | texts equal but for case, as Boolean.parseBoolean compares them, have the same length, and a text equals its upper- and lower-cased forms |
| JavaText.ParseInt | src/com/skype/SMS.java:173 | a parsed int lies in the 32-bit range |
| JavaText.ParseIntToString | src/com/skype/SMS.java:173 | every 32-bit integer's decimal text parses back to it |
| JavaText.ParseLong | src/com/skype/connector/test/CSVPlayer.java:62 | a parsed long lies in the 64-bit range |
| JavaText.ParseLongToString | src/com/skype/connector/test/CSVPlayer.java:62 | every 64-bit integer's decimal text parses back to it |
| JavaText.ParseDecimal | src/com/skype/SMS.java:139 | a parsed value's scale fits an int; the lemmas below state what each form of text reads as |
| JavaText.ParseDecimalInteger | src/com/skype/SMS.java:139 | integer text reads as that integer with scale 0 |
| JavaText.ParseDecimalPointed | src/com/skype/SMS.java:139 | digits with a point read as all the digits with scale the number after the point |
| JavaText.ParseDecimalSigned | src/com/skype/SMS.java:139 | digits with at most one point, unsigned, read with a leading minus as the negated value with the same scale |
| JavaText.ParseDecimalExponent | src/com/skype/SMS.java:139 | digits followed by E and an exponent x read as the digits with scale -x |
| JavaText.ParseDecimalWithExponent | src/com/skype/SMS.java:139 | a mantissa followed by e or E and a signed exponent reads as the mantissa's digits with its scale lowered by the exponent, when that scale fits an int |
| JavaText.ScaleByPowerOfTen | src/com/skype/SMS.java:139 | moving the point keeps the digits and lowers the scale by n; a scale past the int range is an ArithmeticException for a non-zero value and is clamped for zero |
| JavaText.ToInt32 | src/com/skype/SMS.java:139 | the Java int equal to n modulo 2^32, which is n itself in the int range |
| SkypeUtils.ConvertToSkypeException | src/com/skype/Utils.java:23-34 | a not-attached connector failure becomes NotAttachedException, a timeout becomes TimeOutException and any other failure a plain SkypeException; the two latter keep the connector's message |
| SkypeUtils.ErrorBody | src/com/skype/CommandFailedException.java:43-47 | one leading "ERROR " is removed and nothing else; text without it is kept whole |
| SkypeUtils.ParseCommandFailure | src/com/skype/CommandFailedException.java:43-51 | a body with no space throws StringIndexOutOfBoundsException; a parsed failure has a 32-bit code and a message shorter than the reply |
| SkypeUtils.CommandFailureParts | src/com/skype/CommandFailedException.java:43-51 | the code comes from the text before the first space of the body and the message is everything after that space |
| SkypeUtils.ErrorReplyRoundTrip | src/com/skype/CommandFailedException.java:43-51 | parsing "ERROR <code> <message>" gives back that code and that message, for every 32-bit code and every message |
| SkypeUtils.InactiveCallExample | src/com/skype/CommandFailedException.java:43-51 | the reply to hanging up an ended call carries code 24 and the text "Cannot hangup inactive call" |
| SkypeUtils.PrefixIsOptional | src/com/skype/CommandFailedException.java:45-47 | a body parses the same with or without the "ERROR " prefix |
| SkypeUtils.CheckError | src/com/skype/Utils.java:36-43 | a reply fails exactly when it is present and starts with "ERROR "; the failure is a CommandFailedException or the exception its parse throws |
| SkypeUtils.GetObjectProperty | src/com/skype/Utils.java:58-69 | the GET command is "GET " followed by the expected reply header without its trailing space |
| SkypeUtils.GetTypeProperty | src/com/skype/Utils.java:71-82 | the GET command is "GET " followed by the expected reply header without its trailing space |
| SkypeUtils.GetGlobalProperty | src/com/skype/Utils.java:84-95 | unlike the other forms, the command keeps the header's trailing space |
| SkypeUtils.SetObjectProperty | src/com/skype/Utils.java:97-106 | the reply header is the SET command without "SET ", so it echoes the value |
| SkypeUtils.SetTypeProperty | src/com/skype/Utils.java:108-117 | the reply header is the SET command without "SET ", so it echoes the value |
| SkypeUtils.SetGlobalProperty | src/com/skype/Utils.java:119-128 | the reply header is the SET command without "SET ", so it echoes the value |
| SkypeUtils.PlainCommand | src/com/skype/Utils.java:130-137 | the command is its own expected reply |
| SkypeUtils.PropertyValue | src/com/skype/Utils.java:58-69 | a connector failure is converted, an error reply fails, and a value is the reply's tail after the header |
| SkypeUtils.PropertyValueRoundTrip | src/com/skype/Utils.java:58-69 | every value Skype reports after the header comes back unchanged |
| SkypeUtils.SetResult | src/com/skype/Utils.java:130-137 | a command succeeds exactly when the connector answered and the answer is absent or not an error |
| SkypeUtils.CheckNotNull | src/com/skype/Utils.java:139-143 | null fails with the NullPointerException "The <name> must not be null.", anything else passes |
| SkypeUtils.ConvertToArray | src/com/skype/Utils.java:145-151 | the list has one trimmed entry per comma-separated piece, in order |
| SkypeUtils.ConvertToArrayJoin | src/com/skype/Utils.java:145-151 | comma-free, trimmed items joined with "," read back as the same items |
| SkypeUtils.EmptyListHasOneElement | src/com/skype/Utils.java:145-151 | an empty list string gives one empty entry, not an empty array |
| SkypeUtils.SearchResult | src/com/skype/ContactList.java:37-50 | a search reply succeeds exactly when the property read does, and lists the comma-separated ids after the header |
| SkypeUtils.SearchResultListed | src/com/skype/ContactList.java:37-50 | a reply listing comma-free, trimmed ids reads back as those ids |
| SkypeApi.ButtonKey | src/com/skype/Skype.java:127-133 | a declared key is sent as is; otherwise the key is the tail of the constant's name after its first '_', or the whole name when it has none |
| SkypeApi.ButtonKeyFromName | src/com/skype/Skype.java:127-133 | a constant named <word>_<key> with no declared key sends <key>, whatever <key> holds |
| SkypeApi.ButtonKeyExamples | src/com/skype/Skype.java:106 | KEY_PAGEUP sends "PAGEUP" and KEY_SHARP sends its declared "#" |
| SkypeApi.DeviceText | src/com/skype/Skype.java:843-849 | null, the default device, is written as ""; any other name is written unchanged |
| SkypeApi.DeviceName | src/com/skype/Skype.java:786-801 | "" reads back as null (the default device) and every other text as itself |
| SkypeApi.DeviceRoundTrip | src/com/skype/Skype.java:786-849 | writing a device and reading it back gives the same device, except a device literally named "" |
| SkypeApi.DeviceTextRoundTrip | src/com/skype/Skype.java:786-849 | every stored device text is written back unchanged |
| SkypeApi.DeviceSetThenGet | src/com/skype/Skype.java:812-836 | setting the audio input, audio output or video device stores the text that the matching getter reads back as the same device |
| SkypeApi.ObjectId | src/com/skype/Skype.java:513-528 | the id is exactly the text from the end of the reply header up to the first " STATUS "; a reply without one after the header fails with StringIndexOutOfBoundsException |
| SkypeApi.ObjectIdOfReply | src/com/skype/Skype.java:519 | the reply <header><id> STATUS <rest> yields <id> for every id without spaces |
| SkypeApi.CreatedObject | src/com/skype/Skype.java:513-528 | a connector failure is converted, an error reply fails, a missing reply throws NullPointerException, and success gives the id of the reply |
| SkypeApi.CallRequest | src/com/skype/Skype.java:513-517 | a null id is refused before anything is sent; otherwise the command is "CALL <id>" awaiting "CALL " |
| SkypeApi.CallGivesId | src/com/skype/Skype.java:513-528 | a call whose reply is CALL <id> STATUS <rest> gives the call <id> |
| SkypeApi.ChatRequest | src/com/skype/Skype.java:546-558 | the command is "CHAT CREATE <id>" awaiting "CHAT " |
| SkypeApi.SmsRequest | src/com/skype/Skype.java:662-674 | the command is "CREATE SMS <type> <number>" awaiting "SMS " |
| SkypeApi.VoiceMailId | src/com/skype/Skype.java:723-734 | the id is exactly the text after "VOICEMAIL " up to the next space, so it holds no space; a reply with no space after the header fails with StringIndexOutOfBoundsException |
| SkypeApi.VoiceMailIdOfReply | src/com/skype/Skype.java:728 | the reply VOICEMAIL <id> <rest> yields <id> |
| SkypeApi.ReadNotification | src/com/skype/Skype.java:916-920 | a message for another object type is not read; a parsed one is exactly prefix, id, property and value joined by spaces |
| SkypeApi.ReadNotificationOf | src/com/skype/Skype.java:916-922 | every well-formed notification reads back as its parts |
| SkypeApi.ChatMessageEvent | src/com/skype/Skype.java:913-946 | a CHATMESSAGE notification fires sent or received only for a STATUS of SENT or RECEIVED, for the message of that id |
| SkypeApi.ChatMessageStatusFires | src/com/skype/Skype.java:921-945 | STATUS SENT fires chatMessageSent and STATUS RECEIVED fires chatMessageReceived; other statuses fire nothing |
| SkypeApi.ChatMessageOtherPropertySilent | src/com/skype/Skype.java:921 | notifications of other chat-message properties fire nothing |
| SkypeApi.OnCallMessage | src/com/skype/Skype.java:983-1036 | a call is announced at most once, before its status change, and only its id is added to the fired set |
| SkypeApi.RingingAnnouncedOnce | src/com/skype/Skype.java:994-1030 | the first RINGING announces the call by its direction and the second announces nothing; both report the status change |
| SkypeApi.OtherStatusOnlyChangesStatus | src/com/skype/Skype.java:994-1032 | any other status only reaches the call's status listeners |
| SkypeApi.Subscribe | src/com/skype/Skype.java:910-948 | the listener is appended and the field set; the connector is asked only when the field was null, and only then can its failure escape; the connector holds the listener afterwards exactly when it did before or, on a first install, when installing succeeded |
| SkypeApi.AddApiListener | src/com/skype/Skype.java:908-950 | a null listener is refused with nothing changed; otherwise it is appended and the field set; the call fails exactly when installing the connector listener fails, with the converted exception, and then the connector holds no listener |
| SkypeApi.FailedInstallNeverRetried | src/com/skype/Skype.java:908-950 | after the first addition fails to install the connector listener, a second addition succeeds without asking the connector, and neither listener is fed |
| SkypeApi.RemoveApiListener | src/com/skype/Skype.java:960-969 | a null listener is refused; otherwise its first occurrence is removed, and when no listener is left the connector listener is removed and the field cleared; otherwise both stay as they were |
| SkypeApi.RegistrationKeepsInvariant | src/com/skype/Skype.java:908-1059 | whatever the connector does, adding and removing keep the field set exactly while someone listens and never leave the connector holding a listener whose field is cleared; the listeners stay fed while installing never fails; removal takes away one copy of the listener |
| SkypeApi.SetSkypeExceptionHandler | src/com/skype/Skype.java:1066-1071 | null restores the default handler; any other handler is used as given |
| SkypeApi.SetSkypeExceptionHandlerIdempotent | src/com/skype/Skype.java:1066-1071 | installing the handler already in use changes nothing, and null installs the same handler as naming the default |
| Connector.UseJniConnector | src/com/skype/connector/Connector.java:69-74 | the JNI choice can be set only before a connector exists; afterwards it is refused with IllegalStateException |
| Connector.GetInstance | src/com/skype/connector/Connector.java:82-112 | an existing connector is returned as is; otherwise Windows picks Win32Connector exactly when SWT is missing or JNI was asked for, Linux/LINUX picks LinuxConnector, Mac OS X picks OSXConnector, and any other platform is refused |
| Connector.GetInstanceIsStable | src/com/skype/connector/Connector.java:69-112 | once a connector exists, later calls return it whatever the platform reports, and the JNI flag can no longer change |
| Connector.Schedule | src/com/skype/connector/Connector.java:307-324 | one delivery task is scheduled per non-empty listener list, the synchronous one first, each carrying the event |
| Connector.SetStatus | src/com/skype/connector/Connector.java:297-301 | the status is recorded, nothing else in the state changes, and a status event is scheduled for each non-empty list |
| Connector.NotificationOrder | src/com/skype/connector/Connector.java:330-335 | listeners are notified from the last registered to the first |
| Connector.LaterRegisteredNotifiedFirst | src/com/skype/connector/Connector.java:767-776 | a listener registered later is notified before one registered earlier |
| Connector.AddListener | src/com/skype/connector/Connector.java:692-704 | the listener is appended to the synchronous or the asynchronous list as asked, and the other list is unchanged |
| Connector.AddConnectorListener | src/com/skype/connector/Connector.java:692-708 | the listener is appended first; the attach check then runs only when asked, and it fails exactly when the connector is not attached and connect() cannot attach it (initialize() or the platform connect raises, the platform reports another status, or NAME or PROTOCOL goes unanswered); when it passes the connector is ATTACHED with the listener registered |
| Connector.ListenerKeptWhenAttachFails | src/com/skype/connector/Connector.java:692-708 | when the attach check fails the exception is raised but the listener stays registered |
| Connector.RemoveFirstCount | src/com/skype/connector/Connector.java:714-729 | removal takes away one copy of a registered listener and keeps every other entry |
| Connector.RemoveListener | src/com/skype/connector/Connector.java:714-729 | removing an unregistered listener changes nothing; status, counter and initialisation are never touched |
| Connector.AddThenRemove | src/com/skype/connector/Connector.java:692-729 | adding a new listener and then removing it restores both lists |
| Connector.AssureAttached | src/com/skype/connector/Connector.java:656-664 | an attached connector does nothing; otherwise connect() runs: an exception from initialize() or the platform connect is the failure, nothing is sent, and the connector counts as initialised only if initialize() returned; a status other than ATTACHED fails with NotAttachedException and sends nothing; on ATTACHED the platform's NAME command, where it has one, and PROTOCOL 9999 go out, an unanswered one leaving NOT_RUNNING; the check passes exactly when the connector is or becomes attached, and then it ends ATTACHED; listeners and counter are kept |
| Connector.AssureAttachedConnects | src/com/skype/connector/Connector.java:656-664 | on an unattached connector the attach check leaves the state, commands and events connect() leaves, and succeeds exactly when connect() reports ATTACHED |
| Connector.MatchReply | src/com/skype/connector/Connector.java:598-609 | the reply is the first delivered message starting with one of the expected headers, and there is none exactly when no message matches |
| Connector.MatchReplyFirst | src/com/skype/connector/Connector.java:598-609 | a matching message preceded only by non-matching ones is the one picked |
| Connector.Execute | src/com/skype/connector/Connector.java:590-633 | with the attach check on an unattached connector, connect() runs first: an exception from initialize() or the platform connect is the failure and nothing is sent; a status other than ATTACHED fails with NotAttachedException; on ATTACHED the NAME command and PROTOCOL 9999 go out, and the command follows only if both are answered, otherwise NOT_RUNNING and NotAttachedException. An unchecked or attached connector sends just the command. A checked command that is answered leaves the connector ATTACHED; a timed-out wait sets NOT_RUNNING and fails the same way; a reply always matches an expected header; listener lists and counter are kept |
| Connector.ExecuteAttachesThroughConnect | src/com/skype/connector/Connector.java:590-593 | the commands connect() sends come first, the command follows exactly when connect() attaches, and a failed connect() is the execute's failure with connect()'s state |
| Connector.AttachedSkipsConnect | src/com/skype/connector/Connector.java:590-593 | on an attached connector checking attachment changes nothing: the exchange is the one without the check |
| Connector.InitializeOnceAcrossCommands | src/com/skype/connector/Connector.java:382-389 | after an execute that had to attach, a later connect() initialises again only when the first initialize() raised |
| Connector.SecondCommandSkipsConnect | src/com/skype/connector/Connector.java:656-664 | after a checked command was answered, the next checked command is sent alone: no second connect() and no second PROTOCOL 9999 |
| Connector.ExecuteWithHeader | src/com/skype/connector/Connector.java:550-554 | a reply starts with the expected header or with "ERROR " |
| Connector.ExecuteCommand | src/com/skype/connector/Connector.java:510-513 | the command text is the expected header, so a reply starts with the command or with "ERROR " |
| Connector.CommandTag | src/com/skype/connector/Connector.java:525 | the tag is "#", the counter in decimal and a space |
| Connector.ExecuteWithId | src/com/skype/connector/Connector.java:522-528 | the counter advances by one with 32-bit wrap-around, the command goes out tagged, and a reply is an untagged message that was delivered with this command's tag; an empty wait raises the unchecked NullPointerException exactly when the command went out and nothing tagged arrived, and every other failure is execute's NotAttachedException or the exception initialize() or the platform connect raised |
| Connector.StripTag | src/com/skype/connector/Connector.java:526-527 | a reply accepted for a tagged command is the tag followed by the header or "ERROR " |
| Connector.ExecuteWithIdReturnsReply | src/com/skype/connector/Connector.java:522-528 | when the first message carrying the tag is tag + header + rest, the caller gets header + rest |
| Connector.TagsDistinct | src/com/skype/connector/Connector.java:174 | tags of commands issued fewer than 2^32 commands apart differ, so their replies cannot be confused |
| Connector.Connect | src/com/skype/connector/Connector.java:382-399 | initialize() runs on the first connect and counts only if it returns; an exception from initialize() or the platform connect escapes with nothing sent; otherwise the platform status is recorded, its status event scheduled first, and returned as getStatus(); only an attached connector sends, first the NAME command where the platform has one, then "PROTOCOL 9999"; an unanswered NAME stops before PROTOCOL, and either timeout leaves NOT_RUNNING and fails with NotAttachedException; the result is ATTACHED exactly when the platform attaches and both are answered |
| Connector.Dispose | src/com/skype/connector/Connector.java:436-444 | disposeImpl() is called only on an initialised connector; when it returns the connector is no longer initialised, and when it raises the exception escapes and the connector stays initialised; status, listeners and counter are kept |
| Connector.InitializeDisposeAlternate | src/com/skype/connector/Connector.java:382-444 | over any sequence of connects and disposes, whatever initialize(), the platform connect and disposeImpl() raise, completed initialisations and disposals alternate: their counts differ by whether the connector is initialised |
| X11Framing.DetectSkype | src_linux/DBus/JNI/x11wrapper.c:49-79 | Skype is found exactly when the property read succeeds with one 32-bit item; the window is then that value cut to 32 bits, and otherwise -1 |
| X11Framing.SendSucceeded | src_linux/DBus/JNI/x11wrapper.c:99-103 | a send counts as failed only for BadValue and BadWindow |
| X11Framing.SendMessage | src_linux/DBus/JNI/x11wrapper.c:106-138 | a text of length n goes out as n/20 + 1 format-8 events of 20-byte chunks, the first under MESSAGE_BEGIN and the rest under MESSAGE, the last carrying the terminating NUL |
| X11Framing.FragmentLength | src_linux/DBus/JNI/x11wrapper.c:178-180 | the receiver copies a payload up to its first NUL and at most 20 bytes |
| X11Framing.FragmentLengthUnique | src_linux/DBus/JNI/x11wrapper.c:178-180 | a NUL-free prefix ended by a NUL, or by the end of the payload, has exactly the fragment's length |
| X11Framing.MainloopStart | src_linux/DBus/JNI/x11wrapper.c:146-167 | the loop starts with status 0 when Skype was detected and 3 otherwise, reports it once, and its buffer holds whatever the stack held |
| X11Framing.CleanMainloopStart | src_linux/DBus/JNI/x11wrapper.c:146-167 | the same start with an empty reassembly buffer |
| X11Framing.Mainloop | src_linux/DBus/JNI/x11wrapper.c:168-192 | copying byte by byte as the C loop does gives the reference reassembly of the events |
| X11Framing.DeliversOnShortFragment | src_linux/DBus/JNI/x11wrapper.c:181-187 | a message is delivered exactly when a fragment is shorter than 20 bytes, and the buffer is then cleared; a full fragment is appended |
| X11Framing.IgnoresAtomAndOtherFormats | src_linux/DBus/JNI/x11wrapper.c:171-177 | the message atom is never looked at, and an event whose format is not 8 changes nothing but the status |
| X11Framing.StatusReportedOnce | src_linux/DBus/JNI/x11wrapper.c:162-175 | the status goes from 0 to 1 on the first client message, whatever its format, and each value is reported once |
| X11Framing.ReceivePrefix | src_linux/DBus/JNI/x11wrapper.c:123-131 | after j full chunks of a framed message the buffer holds its first 20j bytes |
| X11Framing.RoundTrip | src_linux/DBus/JNI/x11wrapper.c:106-187 | the events sent for a NUL-free message shorter than the buffer deliver exactly that message and leave the buffer empty |
| X11Framing.SendThenReceive | src_linux/DBus/JNI/x11wrapper.c:106-187 | a message sent and received by a freshly cleared main loop comes back unchanged |
| X11Framing.StaleBufferCorruptsFirstMessage | src_linux/DBus/JNI/x11wrapper.c:166 | with "A" left on the stack, the first command "x" is delivered as "Ax" |
| JavaWrapper.StartActions | src_linux/DBus/JNI/javawrapper.c:83-93 | X11 starts its main loop thread; DBus initialises its connection and then starts its main loop thread |
| JavaWrapper.InitTransport | src_linux/DBus/JNI/javawrapper.c:65-94 | X11 is probed first and DBus only when X11 is missing; DBus is used exactly when X11 is missing and DBus is found or already chosen |
| JavaWrapper.InitFollowsPriority | src_linux/DBus/JNI/javawrapper.c:75-81 | the chosen transport is the first one detected in the order X11, DBus, else the current one |
| JavaWrapper.NothingFoundStartsX11 | src_linux/DBus/JNI/javawrapper.c:29-86 | on a fresh library with neither transport found the X11 main loop still starts |
| JavaWrapper.SendRoute | src_linux/DBus/JNI/javawrapper.c:99-110 | commands go over X11 exactly when X11 is the chosen transport |
| JavaWrapper.SendUsesStartedTransport | src_linux/DBus/JNI/javawrapper.c:83-107 | commands go through the transport whose threads init started |
| LinuxConnector.CodeForStatus | src/com/skype/connector/linux/LinuxConnector.java:112-121 | every status has a code between 0 and 5 |
| LinuxConnector.StatusForCode | src/com/skype/connector/linux/LinuxConnector.java:112-121 | codes 0 to 4 name PENDING_AUTHORIZATION, ATTACHED, REFUSED, NOT_AVAILABLE and API_AVAILABLE; any other code means NOT_RUNNING |
| LinuxConnector.StatusCodeRoundTrip | src/com/skype/connector/linux/LinuxConnector.java:112-121 | every status has a code that maps back to it, and the codes 0 to 5 are distinct |
| LinuxConnector.SetConnectedStatus | src/com/skype/connector/linux/LinuxConnector.java:112-123 | the mapped status is set and "ConnectorStatusChanged" is always fired after the status event; without a singleton the callback fails |
| LinuxConnector.ReceiveSkypeMessage | src/com/skype/connector/linux/LinuxConnector.java:101-106 | any message makes the connector ATTACHED and is fired last; an attached connector only fires the message |
| LinuxConnector.ReceiveTwiceFiresStatusOnce | src/com/skype/connector/linux/LinuxConnector.java:101-106 | once attached, further messages change no state and fire only themselves |
| LinuxConnector.ConnectImpl | src/com/skype/connector/linux/LinuxConnector.java:76-81 | a pending connector counts as attached and any other status is reported as is |
| LinuxConnector.ConnectImplIdempotent | src/com/skype/connector/linux/LinuxConnector.java:76-81 | connectImpl never reports PENDING_AUTHORIZATION, and reports the same status again for a connector left at what it reported |
| LinuxConnector.Construct | src/com/skype/connector/linux/LinuxConnector.java:26-36 | a new connector is PENDING_AUTHORIZATION whether or not loading the library raised an Exception, and nothing else of its state differs from a fresh connector |
| LinuxConnector.DisposeImpl | src/com/skype/connector/linux/LinuxConnector.java:67-71 | disposal sets NOT_RUNNING through code 5 and clears the singleton |
| LinuxConnector.CallbackAfterDisposeFails | src/com/skype/connector/linux/LinuxConnector.java:67-106 | after disposal a late message callback finds no singleton |
| LinuxConnector.NoSkypeReportsNotAvailable | src_linux/DBus/JNI/x11wrapper.c:158-162 | when no transport finds Skype the X11 loop reports code 3, which the connector reads as NOT_AVAILABLE |
| LinuxDBusConnector.FirstOutcome | src/com/skype/connector/linux/dbus/LinuxDBusConnector.java:107-121 | the attach waits for the first of "OK", "CONNSTATUS OFFLINE" and "ERROR 68"; there is none exactly when no such notification arrives |
| LinuxDBusConnector.Connect | src/com/skype/connector/linux/dbus/LinuxDBusConnector.java:100-134 | without the framework the status is NOT_RUNNING and nothing is sent; otherwise "NAME <application>" is sent and OK, CONNSTATUS OFFLINE and ERROR 68 give ATTACHED, NOT_AVAILABLE and REFUSED |
| LinuxDBusConnector.OtherNotificationsIgnored | src/com/skype/connector/linux/dbus/LinuxDBusConnector.java:108-115 | notifications other than the three outcomes never decide the attach |
| LinuxDBusConnector.SendCommand | src/com/skype/connector/linux/dbus/LinuxDBusConnector.java:141-153 | a command mentioning "avatar" in any letter case is answered from the profile files, with the user id and path taken from its third and sixth words; too few words throw; all else is forwarded |
| LinuxDBusConnector.AvatarRequest | src/com/skype/connector/linux/dbus/LinuxDBusConnector.java:144-147 | the avatar request starts "GET USER <id> AVATAR 1 " and ends with the path, the words the connector picks out |
| LinuxDBusConnector.AvatarRequestPieces | src/com/skype/connector/linux/dbus/LinuxDBusConnector.java:145-147 | the request is its six words joined by single spaces, the words the connector splits it into |
| LinuxDBusConnector.AvatarRequestRoundTrip | src/com/skype/connector/linux/dbus/LinuxDBusConnector.java:144-149 | for "GET USER <id> AVATAR 1 <path>" the avatar of <id> is written to <path> and "USER <id> AVATAR 1 " is announced |
| LinuxDBusConnector.DisposeImpl | src/com/skype/connector/linux/dbus/LinuxDBusConnector.java:158-161 | disposal removes the framework listener and then disposes the framework |
| WindowsConnector.AttachCode | src/com/skype/connector/windows/WindowsConnector.java:60-97 | every status but NOT_RUNNING has an attach code, and each code is one of the five the API defines |
| WindowsConnector.AttachStatus | src/com/skype/connector/windows/WindowsConnector.java:344-364 | success and pending authorization map to ATTACHED and PENDING_AUTHORIZATION, and every unknown code to NOT_RUNNING |
| WindowsConnector.AttachCodeRoundTrip | src/com/skype/connector/windows/WindowsConnector.java:60-97 | the attach codes and the statuses other than NOT_RUNNING correspond one to one |
| WindowsConnector.Frame | src/com/skype/connector/windows/WindowsConnector.java:404 | a command goes out followed by one NUL |
| WindowsConnector.Unframe | src/com/skype/connector/windows/WindowsConnector.java:370-378 | a copied block loses its last character; an empty block gives no text |
| WindowsConnector.FrameRoundTrip | src/com/skype/connector/windows/WindowsConnector.java:370-408 | unframing undoes framing, and a NUL-terminated block is the frame of its text |
| WindowsConnector.WindowProc | src/com/skype/connector/windows/WindowsConnector.java:341-386 | an attach message sets the mapped status and, on success, records Skype's window; a copied block is fired as a message only when it comes from that window, and an empty one throws; other messages go to the default procedure |
| WindowsConnector.SendCommand | src/com/skype/connector/windows/WindowsConnector.java:400-414 | the terminated command is sent to Skype's window from the connector's window, with its length, and unframes to the command |
| WindowsConnector.CopyAcceptedOnlyFromAttachedWindow | src/com/skype/connector/windows/WindowsConnector.java:348-385 | after Skype's window attaches, its copied blocks are delivered and blocks from any other window are not |
| WindowsConnector.RoundStatus | src/com/skype/connector/windows/WindowsConnector.java:304-309 | a wait that used up the timeout reads NOT_RUNNING; otherwise the current status |
| WindowsConnector.Connect | src/com/skype/connector/windows/WindowsConnector.java:289-321 | the result is the first status other than PENDING_AUTHORIZATION read by a pass, and there is none exactly when every pass reads PENDING_AUTHORIZATION |
| WindowsConnector.ConnectGivesUpAfterFullWait | src/com/skype/connector/windows/WindowsConnector.java:305-311 | a pass whose wait ran out ends the loop with NOT_RUNNING unless an earlier pass already returned |
| WindowsConnector.ApplicationNameCommand | src/com/skype/connector/windows/WindowsConnector.java:328-331 | the command is "NAME <application>" and the only reply it accepts is the command itself |
| WindowsConnector.ConnectNamesApplicationFirst | src/com/skype/connector/windows/WindowsConnector.java:328-331 | on ATTACHED, connect() sends "NAME <application>" before "PROTOCOL 9999"; a NAME that goes unanswered leaves NOT_RUNNING with NotAttachedException and PROTOCOL is never sent |
| WindowsConnector.RegistryRead | src/com/skype/connector/windows/WindowsConnector.java:174-196 | a missing key or value gives null; an empty or unreadable value gives ""; otherwise the stored text without its terminator |
| WindowsConnector.RegistryRoundTrip | src/com/skype/connector/windows/WindowsConnector.java:181-189 | a value stored with its terminator reads back as the text |
| WindowsConnector.InstalledPath | src/com/skype/connector/windows/WindowsConnector.java:155-161 | the per-user value is used when present, else the machine-wide one; the path is null only when both are missing |
| WindowsConnector.SetupMessage | src/com/skype/connector/windows/WindowsConnector.java:215-250 | each failed setup step has a message starting "The Windows connector couldn't " and ending with a full stop |
| WindowsConnector.SetupMessagesDistinct | src/com/skype/connector/windows/WindowsConnector.java:215-250 | two steps have the same message only when they are the same step |
| WindowsConnector.FirstFailed | src/com/skype/connector/windows/WindowsConnector.java:210-252 | the step reported is the first failed one in setup order, and there is none exactly when none failed |
| WindowsConnector.Initialize | src/com/skype/connector/windows/WindowsConnector.java:204-281 | initialisation succeeds exactly when every setup step does; otherwise it throws the message of the first step that failed |
| Win32Connector.OnAttach | src/com/skype/connector/win32/Win32Connector.java:94-115 | a known code sets its status and an unknown one changes nothing; "ConnectorStatusChanged" is fired either way |
| Win32Connector.OnAttachAgreesOnKnownCodes | src/com/skype/connector/win32/Win32Connector.java:94-115 | this connector and the SWT one agree on every known code; on the rest the SWT one reports NOT_RUNNING and this one keeps the status |
| Win32Connector.OnSkypeMessage | src/com/skype/connector/win32/Win32Connector.java:117-119 | the message is forwarded unchanged, to every non-empty listener list |
| Win32Connector.TickStatus | src/com/skype/connector/win32/Win32Connector.java:73-77 | NOT_RUNNING is set only when the timeout is at most the measured tick |
| Win32Connector.ConnectAsWritten | src/com/skype/connector/win32/Win32Connector.java:69-86 | the loop leaves only on a status other than PENDING_AUTHORIZATION and NOT_RUNNING, and never leaves when every pass reads one of those |
| Win32Connector.ConnectAsWrittenNeverGivesUp | src/com/skype/connector/win32/Win32Connector.java:71-82 | while Skype answers only pending or not running, the loop never returns, whatever the timeout |
| Win32Connector.ConnectAsWrittenCounterexample | src/com/skype/connector/win32/Win32Connector.java:71-82 | with Skype not running and a one-second timeout, an hour of passes still has not returned |
| Win32Connector.ConnectWithDeadline | src/com/skype/connector/win32/Win32Connector.java:69-86 | with the time spent measured from the start, NOT_RUNNING is returned only once the timeout has elapsed, and any other result is a status a pass read |
| Win32Connector.ConnectWithDeadlineGivesUp | src/com/skype/connector/win32/Win32Connector.java:71-82 | when the passes together outlast the timeout, the corrected loop returns |
| Win32Connector.ConnectWithDeadlineEndsCounterexample | src/com/skype/connector/win32/Win32Connector.java:71-82 | on the counterexample's input the corrected loop returns NOT_RUNNING |
| AvatarReader.ProfilePath | src/com/skype/connector/linux/dbus/AvatarReader.java:49-51 | the profile directory is the home directory, then the separator, ".Skype", the separator and the user, in that order and nothing else |
| AvatarReader.FirstMatch | src/com/skype/connector/linux/dbus/AvatarReader.java:131-148 | the result is -1 exactly when the key occurs at no start in the range, and otherwise is the first start where it does |
| AvatarReader.FirstMatchUnique | src/com/skype/connector/linux/dbus/AvatarReader.java:131-144 | any first occurrence found by other means is the one the search returns |
| AvatarReader.IndexOf | src/com/skype/connector/linux/dbus/AvatarReader.java:131-144 | the two nested loops, bounded so they never read past the end, return the first occurrence in the range, or -1 |
| AvatarReader.CompareAsWritten | src/com/skype/connector/linux/dbus/AvatarReader.java:135-139 | the inner loop succeeds exactly when the rest of the key equals the bytes that follow; it faults only if it must read past the end |
| AvatarReader.IndexOfAsWritten | src/com/skype/connector/linux/dbus/AvatarReader.java:131-144 | whenever the unbounded search returns a start, that start is the first occurrence; when it returns -1, the key occurs nowhere in the range |
| AvatarReader.AsWrittenAgreesUnlessOutOfBounds | src/com/skype/connector/linux/dbus/AvatarReader.java:131-144 | except where it faults, the search as written agrees with the intended one |
| AvatarReader.IndexOfReadsPastEnd | src/com/skype/connector/linux/dbus/AvatarReader.java:131-144 | a one-byte file holding "l" has no "l33l" in it, yet the search as written faults looking for one |
| AvatarReader.ScanFrom | src/com/skype/connector/linux/dbus/AvatarReader.java:63-102 | any picture the block scan returns starts with FF D8, has its only FF D9 at its end, and is a slice of the file |
| AvatarReader.PictureSlice | src/com/skype/connector/linux/dbus/AvatarReader.java:79-86 | the bytes from a start marker to the first end marker after it, end marker included, form a picture |
| AvatarReader.Embedded | src/com/skype/connector/linux/dbus/AvatarReader.java:63-102 | a one-block file is the marker, then the user id, then the picture |
| AvatarReader.EmbeddedMarkerOnce | src/com/skype/connector/linux/dbus/AvatarReader.java:65-73 | when neither the id nor the picture body contains "l", the block marker occurs only at the front of a one-block file |
| AvatarReader.EmbeddedPictureStart | src/com/skype/connector/linux/dbus/AvatarReader.java:79 | when the id contains no FF, the picture's start marker is the first FF D8 in the block |
| AvatarReader.EmbeddedPictureEnd | src/com/skype/connector/linux/dbus/AvatarReader.java:82 | when the picture body contains no FF, the first FF D9 after its start is the picture's last two bytes |
| AvatarReader.ScanFirstBlock | src/com/skype/connector/linux/dbus/AvatarReader.java:63-94 | when the file's only block names the user and holds a start and an end marker, the scan returns the bytes between them |
| AvatarReader.ScanFindsEmbeddedPicture | src/com/skype/connector/linux/dbus/AvatarReader.java:63-94 | a picture stored in the user's block, behind an id and a body free of marker bytes, is found again, byte for byte |
| AvatarReader.DbbPath | src/com/skype/connector/linux/dbus/AvatarReader.java:56 | the path of database file k is the profile directory, the separator and the k-th file name |
| AvatarReader.ReadFrom | src/com/skype/connector/linux/dbus/AvatarReader.java:55-104 | the database files are tried in order: the dummy is written exactly when no file yields a picture, and otherwise the first file's picture is |
| AvatarReader.ReadAvatarToFile | src/com/skype/connector/linux/dbus/AvatarReader.java:53-123 | the dummy picture is written exactly when no database file yields a picture; otherwise what is written is a JPEG, namely the picture of the first file that has one |
| CsvPlayer.DirectionOf | src/com/skype/connector/test/CSVPlayer.java:65-69 | a type field of "sent" means SENT, and every other text means RECEIVED |
| CsvPlayer.GetNextMessage | src/com/skype/connector/test/CSVPlayer.java:56-73 | a missing line, or one without a comma, raises an exception naming the whole line (or "null"); later failures name only the text after the first comma; a parsed time fits a Java long |
| CsvPlayer.FormatLine | src/com/skype/connector/test/CSVPlayer.java:59-69 | the inverse of the parser at these lines (the source has no writer): a line for a message starts with the word the player maps back to its direction, "sent," or "received," |
| CsvPlayer.ParseLine | src/com/skype/connector/test/CSVPlayer.java:59-69 | a line made of a comma-free type, a long in decimal and a message reads back as exactly those parts; commas in the message are kept |
| CsvPlayer.FormatRoundTrip | src/com/skype/connector/test/CSVPlayer.java:56-73 | every message whose time fits a long is read back unchanged from the line a recorder writes for it |
| CsvPlayer.MissingSecondCommaRejected | src/com/skype/connector/test/CSVPlayer.java:60-71 | a line with only one comma is rejected, and the exception names the text after the type, not the whole line |
| CsvPlayer.BadTimeRejected | src/com/skype/connector/test/CSVPlayer.java:60-71 | a line whose time is not a long is rejected, and the exception names the text after the type |
| CsvPlayer.Destroy | src/com/skype/connector/test/CSVPlayer.java:75-83 | a held reader is closed and forgotten; a failing close is swallowed and keeps it; with no reader nothing changes |
| CsvPlayer.DestroyIdempotent | src/com/skype/connector/test/CSVPlayer.java:75-83 | a second successful destroy changes nothing |
| CsvPlayer.Init | src/com/skype/connector/test/CSVPlayer.java:37-46 | a missing file raises "The CSV file is not found."; a found file leaves a reader held; a consistent player stays consistent |
| CsvPlayer.RepeatedInitKeepsOneReader | src/com/skype/connector/test/CSVPlayer.java:37-46 | however often the player is re-initialised, at most one reader is open, and it is the one the player holds |
| Application.GetInstance | src/com/skype/Application.java:48-55 | a registered name yields its application and creates nothing; a new name is registered only when CREATE APPLICATION succeeds, and a failure leaves the registry unchanged |
| Application.GetInstanceCreatesOnce | src/com/skype/Application.java:48-55 | asking twice for the same name creates once; the second call finds the first call's application |
| Application.Finish | src/com/skype/Application.java:161-177 | the first finish removes the data listener and the shutdown hook, marks the application finished and sends DELETE APPLICATION once; a finished application sends nothing |
| Application.FinishIdempotent | src/com/skype/Application.java:161-177 | a second finish sends nothing and changes nothing, whatever the first one's reply was |
| Application.ConnectNew | src/com/skype/Application.java:317-323 | the table gains exactly the listed ids; the ids announced connected are exactly the listed ones not already known, each once, in the order the list first names them |
| Application.FireStreamEvents | src/com/skype/Application.java:312-335 | afterwards the table holds exactly the listed ids ("" lists none); connected is announced once for each id new to the table, in the order the list first names them; the ids removed and announced disconnected are exactly the known ones no longer listed |
| Application.FireStreamEventsIdempotent | src/com/skype/Application.java:312-335 | reporting the same list again announces nothing and changes nothing |
| Application.GetAllStreams | src/com/skype/Application.java:291-306 | the table is brought up to date first; the result is empty for "" and otherwise names every listed stream, in the reply's order, each of them in the table |
| Application.ReceivedStream | src/com/skype/Application.java:435-436 | the stream a RECEIVED notice names is the text after the prefix, up to the first '='; with no '=' there is none |
| Application.ReceivedStreamOf | src/com/skype/Application.java:433-436 | a RECEIVED notice built from a stream id without '=' is recognised as received text and names that stream |
| Application.DatagramParts | src/com/skype/Application.java:449-451 | a DATAGRAM notice splits at its first space into the stream id and the datagram, and the two rebuild the notice |
| Application.DatagramPartsOf | src/com/skype/Application.java:449-451 | every datagram sent on a stream whose id has no space reaches that stream intact, spaces included |
| Application.ReadCommand | src/com/skype/Application.java:437-438 | the READ command names the application and ends with the stream id |
| Application.HandleData | src/com/skype/Application.java:432-462 | text goes only to streams in the table, and only for RECEIVED notices; datagrams likewise only for DATAGRAM notices; other data causes nothing |
| Application.TextDelivered | src/com/skype/Application.java:434-447 | text written on a known stream reaches it: the READ reply echoes the header and a space, and exactly the rest is handed over |
| Application.OnMessage | src/com/skype/Application.java:413-424 | a STREAMS notice for this application updates the table as fireStreamEvents does; a message for another application changes nothing and causes nothing |
| Application.UserOfEntry | src/com/skype/Application.java:576-581 | the user id of an entry is its text before the first ':', or the whole entry when it has no ':' |
| Application.FirstOccurrences | src/com/skype/Application.java:582-591 | the result names exactly the listed ids that are friends, each once |
| Application.FirstOccurrencesPrefix | src/com/skype/Application.java:583-591 | reading more of the list only appends, so friends keep the order of their first mention |
| Application.ListedUsers | src/com/skype/Application.java:572-581 | one user id per space-separated entry, in order, each cut at its first ':' |
| Application.ExtractFriends | src/com/skype/Application.java:570-593 | the loop keeps each known friend once, in the order of first mention, and skips unknown ids; "" gives no friends |
| Stream.FriendOfStream | src/com/skype/Stream.java:101-103 | a stream has a friend exactly when its id contains ':'; the friend is the colon-free text before the first one |
| Stream.FriendOfStreamId | src/com/skype/Stream.java:101-103 | the stream "<friend>:<n>" belongs to that friend, for any friend id without ':' |
| Stream.WriteHeader | src/com/skype/Stream.java:151 | the WRITE header names the application and ends with the stream id |
| Stream.WriteRequestAsWritten | src/com/skype/Stream.java:110-152 | with the swapped null check, write never refuses: a null text is sent as the characters "null" after the header |
| Stream.WriteNullNotRefused | src/com/skype/Stream.java:110-152 | writing null succeeds and puts "null" on the stream |
| Stream.WriteRequest | src/com/skype/Stream.java:110-152 | with the null check the right way round, exactly a null text is refused, with NullPointerException naming "text"; otherwise the command is the header, a space and the text, and the header is the expected reply |
| Stream.WriteTextRecovered | src/com/skype/Stream.java:151-153 | the text is the whole of the command after the header and one space, which is how the READ reply is cut on the receiving side |
| Stream.SendRequestAsWritten | src/com/skype/Stream.java:175-180 | with the swapped null check, send never refuses: a null datagram is sent as "null" |
| Stream.SendRequest | src/com/skype/Stream.java:175-180 | with the null check the right way round, exactly a null datagram is refused; otherwise the request is the one send builds |
| Stream.SendMatchesDatagramNotice | src/com/skype/Stream.java:178-179 | what a DATAGRAM command carries after the application's name is the notice the receiving side gets, and it parses back into the same stream id and datagram |
| Stream.DisconnectRequest | src/com/skype/Stream.java:241-243 | the DISCONNECT command names this stream's own id and is its own expected reply |
| Stream.StillSending | src/com/skype/Stream.java:126-132 | when the writer is released, no entry of the SENDING list names its stream |
| Stream.StillSendingIff | src/com/skype/Stream.java:126-132 | on a list whose entries all contain '=', the writer keeps waiting exactly when some entry names its stream |
| Stream.WriteWaitEnds | src/com/skype/Stream.java:116-147 | the disconnection of this stream ends the wait and that of another does not; a SENDING notice with an empty list ends it; other messages do not |
| Stream.WriteWaitsWhileListed | src/com/skype/Stream.java:118-135 | a SENDING notice listing entries ends the wait exactly when none of them names this stream |
| Stream.SendNullNotRefused | src/com/skype/Stream.java:175-180 | as written a null datagram goes out exactly as the text "null" would; the intended check refuses it |
| Profile.NormalizeTarget | src/com/skype/Profile.java:114-117 | a target starting with '+' keeps its '+' and loses every '-'; any other target is stored as given |
| Profile.NormalizeTargetIdempotent | src/com/skype/Profile.java:111-118 | building a rule from a stored target stores the same target again |
| Profile.NewRule | src/com/skype/Profile.java:111-118 | the rule keeps both seconds as given and stores the normalised target |
| Profile.RuleText | src/com/skype/Profile.java:143-145 | the rule's text ends with a comma and the target |
| Profile.ParseRule | src/com/skype/Profile.java:647-648 | a rule read from text has int-sized seconds and a target already in stored form |
| Profile.RuleTextRoundTrip | src/com/skype/Profile.java:647-648 | a rule with int-sized seconds and a non-empty stored target free of ',' and ' ' reads back from its text unchanged |
| Profile.ParseEach | src/com/skype/Profile.java:646-649 | a successful read gives exactly one rule per entry |
| Profile.EachRuleParsed | src/com/skype/Profile.java:646-649 | when every entry parses, the rules are the entries' rules, one each, in order |
| Profile.ParseRules | src/com/skype/Profile.java:644-651 | one rule per space-separated entry |
| Profile.NoRulesThrows | src/com/skype/Profile.java:644-651 | an empty rule list cannot be read back: its single empty entry is not a number |
| Profile.ConcatAsWritten | src/com/skype/Profile.java:351-357 | the values are appended with no separator; a single value is stored as itself |
| Profile.LanguagesConcatenated | src/com/skype/Profile.java:334-357 | setting the languages "en" and "ja" stores "enja", which reads back as one language |
| Profile.SpaceSeparated | src/com/skype/Profile.java:351-357 | the values separated by single spaces; a single value is stored as itself |
| Profile.LanguagesValue | src/com/skype/Profile.java:344-349 | a null list stores no languages |
| Profile.Languages | src/com/skype/Profile.java:334-336 | a value without a space is a single language |
| Profile.LanguagesRoundTrip | src/com/skype/Profile.java:334-357 | with the separator in place, languages free of spaces whose last is not empty read back as set |
| Profile.RuleTexts | src/com/skype/Profile.java:659-661 | one text per rule, in order |
| Profile.RulesRoundTrip | src/com/skype/Profile.java:644-661 | with the separator in place, any non-empty list of rules with int-sized seconds and plain stored targets reads back as set |
| Profile.EachParsed | src/com/skype/Profile.java:646-649 | texts that each parse to the matching rule parse together to the whole list |
| Profile.CountryIsoCode | src/com/skype/Profile.java:366-369 | the ISO code is the space-free text before the first space of COUNTRY; a value without a space has none, because the source throws |
| Profile.CountryName | src/com/skype/Profile.java:391-394 | the country is what follows the first space, strictly shorter than the value, or the whole value when there is no space |
| Profile.CountryParts | src/com/skype/Profile.java:366-394 | a COUNTRY value built from a space-free code and a name gives back that code and that name |
| Profile.SetCountry | src/com/skype/Profile.java:402-407 | the new value can be built exactly when the current one has an ISO code |
| Profile.SetCountryThenGet | src/com/skype/Profile.java:378-407 | after setting the country to x (null as ""), the country reads back as x and the ISO code is kept |
| Profile.SetCountryIsoCode | src/com/skype/Profile.java:378-383 | the new value starts with the new code (null as "") and a space |
| Profile.SetCountryIsoCodeThenGet | src/com/skype/Profile.java:366-394 | after setting a space-free ISO code, the code reads back and the country name is unchanged |
| Profile.BirthdayText | src/com/skype/Profile.java:298-306 | "0" is written exactly for a missing birthday |
| Profile.BirthdayOf | src/com/skype/Profile.java:279-290 | "0" reads as no birthday; a date reads as the date the text spells |
| Profile.BirthdayRoundTrip | src/com/skype/Profile.java:279-306 | every birthday, none included, reads back as written |
| Profile.CallForwardingFlag | src/com/skype/Profile.java:634-636 | the flag is written as "TRUE" or "FALSE" |
| Profile.CallForwardingRoundTrip | src/com/skype/Profile.java:624-636 | isCallForwarding reads back the flag setCallForwarding wrote |
| SkypeObject.GetData | src/com/skype/SkypeObject.java:46-48 | a name never set reads as null; a value read back is the one stored under the name |
| SkypeObject.SetData | src/com/skype/SkypeObject.java:56-58 | the name is added, and every other name keeps its value |
| SkypeObject.SetThenGet | src/com/skype/SkypeObject.java:46-58 | getData(n) after setData(n, v) is v, and every other name reads as before |
| SkypeObject.FreshHasNoData | src/com/skype/SkypeObject.java:46-48 | an object with no user data reads null for every name |
| SkypeObject.CopyFrom | src/com/skype/SkypeObject.java:64-68 | copying from a SkypeObject adds all its names, its values winning on a clash, and keeps every other name; copying from anything else changes nothing |
| SkypeObject.CopyFromThenGet | src/com/skype/SkypeObject.java:64-68 | after a copy a name reads as in the source when the source has it, and as before otherwise |
| SkypeObject.CopyIntoFresh | src/com/skype/SkypeObject.java:64-68 | copying into an object without data gives exactly the source's data |
| User.GetInstance | src/com/skype/User.java:46-53 | the object returned is filed under the id; a known id returns its object and changes nothing; an unknown id gets a new plain User with no data; no other entry changes |
| User.GetInstanceStable | src/com/skype/User.java:46-53 | asking twice for the same id gives the same object and leaves the registry as it was |
| User.GetFriendInstance | src/com/skype/User.java:60-78 | the result is a Friend with the id, filed under it; a Friend already there is returned unchanged; a plain User is replaced by a Friend carrying its user data; no other entry changes |
| User.LookupsKeepValid | src/com/skype/User.java:46-78 | both lookups keep every entry filed under its own id |
| User.FriendIsInterned | src/com/skype/User.java:46-78 | once an id has a Friend, both lookups return that same Friend and change nothing |
| User.Dispose | src/com/skype/User.java:437-439 | only this id leaves the registry, and every other entry is kept as it was |
| User.DisposeForgets | src/com/skype/User.java:437-439 | after dispose, the next lookup of the id creates a fresh plain User with no data |
| User.IsVideoCapable | src/com/skype/User.java:325-327 | false for every user, because a literal is parsed instead of the property |
| User.VideoCapable | src/com/skype/User.java:321-327 | as documented, the IS_VIDEO_CAPABLE property read as a boolean ("true" in any case); a failed read is passed on |
| User.VideoCapableRoundTrip | src/com/skype/User.java:321-327 | the flag Skype reports for a user is the flag read back |
| User.VideoCapableIgnored | src/com/skype/User.java:321-327 | for a user Skype reports video-capable, the documented reading is true while the method as written answers false |
| User.HistoryRequest | src/com/skype/User.java:421-424 | the history search is "SEARCH <type> <id>" and expects the type and a space as reply header |
| User.Reverse | src/com/skype/User.java:397 | the sequence backwards: same length, element k is element n-1-k |
| User.ReverseReverse | src/com/skype/User.java:397 | reversing twice gives the original order |
| User.AllChatMessages | src/com/skype/User.java:390-399 | the chat history succeeds exactly when the search does, with the same ids in reverse order |
| User.ChatHistoryReversed | src/com/skype/User.java:390-399 | for a reply listing message ids, the messages come back newest first |
| User.CallHistoryInOrder | src/com/skype/User.java:406-432 | for a reply listing call ids, the calls come back in the order listed |
| User.AllCalls | src/com/skype/User.java:406-432 | a connector failure is converted; the call history succeeds exactly when the CALLS reply reads, and is its comma list, each id trimmed, in order |
| User.BirthDay | src/com/skype/User.java:200-211 | "0" reads as no birthday, a date reads as the date the property spells, and a failed read is passed on |
| EventMessage.EventId | src/com/skype/EventMessage.java:47 | every id is "eventMessage" followed by the counter value |
| EventMessage.EventIdInjective | src/com/skype/EventMessage.java:32-47 | different counter values give different ids |
| EventMessage.InitialValid | src/com/skype/EventMessage.java:31-35 | before any message is added the registry is consistent and the shared listener is not installed |
| EventMessage.AddEventMessage | src/com/skype/EventMessage.java:41-47 | the new id comes from the next counter value, no registered message has it, the counter grows by exactly one, and only the new message is added |
| EventMessage.AddedIdsDiffer | src/com/skype/EventMessage.java:32-47 | two messages added one after the other get different ids, and the first stays registered |
| EventMessage.GetInstance | src/com/skype/EventMessage.java:37-39 | a message is found exactly when it is registered under the id |
| EventMessage.AddedIsRegistered | src/com/skype/EventMessage.java:37-45 | an added message is found under its id |
| EventMessage.ClickedId | src/com/skype/EventMessage.java:89-90 | a message that does not both start with "EVENT " and end with " CLICKED" is ignored; an id that is cut out rebuilds the message between prefix and suffix |
| EventMessage.ClickedIdOf | src/com/skype/EventMessage.java:89-90 | the click notification for an id gives back exactly that id |
| EventMessage.OverlapThrows | src/com/skype/EventMessage.java:89-90 | "EVENT CLICKED" passes both tests, but its prefix and suffix overlap, so cutting out the id throws |
| EventMessage.OnClick | src/com/skype/EventMessage.java:87-103 | a click calls the listeners of the clicked message, in order; an unknown id or a message that is not a click calls none |
| EventMessage.UnknownIdFiresNothing | src/com/skype/EventMessage.java:91-92 | a click on an id nobody registered calls no listener |
| EventMessage.ClickReachesListeners | src/com/skype/EventMessage.java:91-100 | a click on a registered message calls its listeners |
| EventMessage.AddListener | src/com/skype/EventMessage.java:81-112 | a null listener is refused; otherwise it is appended and the shared listener is installed; the call fails only when installing it meets a connector failure |
| EventMessage.RemoveListener | src/com/skype/EventMessage.java:114-127 | a null listener is refused; otherwise its first occurrence is dropped and other messages are untouched; the shared listener stays installed exactly when it was and some message still has a listener; the call throws NullPointerException exactly when no message has a listener and the shared listener was not installed, because null then reaches the connector |
| EventMessage.RemoveWhileUnlistenedThrows | src/com/skype/EventMessage.java:114-127 | removing any listener while no message has one throws the connector's NullPointerException for a null "listener" and leaves the shared listener uninstalled |
| EventMessage.ListenersKeepInvariant | src/com/skype/EventMessage.java:81-127 | adding and removing listeners keep the shared listener installed exactly while some registered message has a listener |
| EventMessage.DisposeRequest | src/com/skype/EventMessage.java:129-133 | the DELETE EVENT command names exactly this message's id and is its own expected reply |
| Sms.TargetStateName | src/com/skype/SMS.java:39-41 | every target status has a non-empty name free of '=' and ',' |
| Sms.TargetStateOf | src/com/skype/SMS.java:39-41 | a name is accepted only when it is the name of the status returned |
| Sms.TargetStateRoundTrip | src/com/skype/SMS.java:39-41 | every target status is found again under its name |
| Sms.ParseTarget | src/com/skype/SMS.java:166-167 | a parsed target has the number before the first '=' and the status named after it |
| Sms.TargetText | src/com/skype/SMS.java:162-170 | a target's entry starts with its number and '=' |
| Sms.ParseTargetText | src/com/skype/SMS.java:166-167 | a target whose number has no '=' reads back from its entry |
| Sms.TargetStatuses | src/com/skype/SMS.java:162-170 | one target per ", "-separated entry, each the entry's parse, in order |
| Sms.ParseTargets | src/com/skype/SMS.java:165-168 | a successful read gives exactly one target per entry |
| Sms.EachTargetParsed | src/com/skype/SMS.java:165-168 | when every entry parses, the targets are the entries' targets, one each, in order |
| Sms.TargetsParsed | src/com/skype/SMS.java:165-168 | entries that each parse to the matching target parse together to the whole list |
| Sms.TargetStatusesText | src/com/skype/SMS.java:162-170 | a single target's value is its entry |
| Sms.TargetStatusesRoundTrip | src/com/skype/SMS.java:162-170 | a non-empty list of targets whose numbers have neither ',' nor '=' reads back in order |
| Sms.NoTargetsThrows | src/com/skype/SMS.java:162-170 | with no targets the value is "", and reading it throws instead of giving none |
| Sms.TargetNumbers | src/com/skype/SMS.java:154-156 | a value without ", " is a single number |
| Sms.TargetNumbersRoundTrip | src/com/skype/SMS.java:154-156 | numbers without commas, the last one not empty, read back from the ", "-separated list |
| Sms.IsCheckedFailure | src/com/skype/SMS.java:120-122 | a failure is checked exactly when IS_FAILED_UNSEEN is not "true", in any case |
| Sms.CheckedFailureFlag | src/com/skype/SMS.java:120-122 | a failure is checked exactly when Skype does not report it unseen |
| Sms.Price | src/com/skype/SMS.java:138-140 | malformed PRICE or PRICE_PRECISION text is a NumberFormatException; otherwise the unscaled value is PRICE's and the scale is PRICE's scale plus the precision, and a scale pushed past the int range is an ArithmeticException, only for a non-zero value |
| Sms.PriceOf | src/com/skype/SMS.java:139 | a parsed PRICE moved by a parsed precision whose negation needs no wrap-around keeps its digits and adds the precision to its scale |
| Sms.PriceRoundTrip | src/com/skype/SMS.java:138-140 | PRICE u with precision p reads back as u × 10^(−p), so 1234 with 2 is 12.34 |
| Sms.PricePointed | src/com/skype/SMS.java:139 | a PRICE with a decimal point keeps its fraction digits in the scale: "12.5" with precision 2 is 1250 with scale 3 |
| Sms.PriceExponent | src/com/skype/SMS.java:139 | a PRICE in exponent form lowers the scale by the exponent: "1E3" with precision 2 is 1 with scale -1 |
| Sms.ContentChunks | src/com/skype/SMS.java:172-179 | CHUNKING that is not an int throws NumberFormatException and a negative count NegativeArraySizeException; otherwise one chunk per index, chunk i the value of the CHUNK i reply |
| Sms.ChunkRequest | src/com/skype/SMS.java:176 | the request for chunk i expects a reply header ending in i and a space |
| Sms.ReadChunks | src/com/skype/SMS.java:175-177 | the chunks are read in index order: the read succeeds exactly when every chunk's reply does, and otherwise fails with the first failing chunk's exception |
| Sms.ChunkValueRoundTrip | src/com/skype/SMS.java:176 | a chunk written after its reply header reads back as written |
| Sms.ContentChunksRoundTrip | src/com/skype/SMS.java:172-179 | when CHUNKING is the number of chunks and each CHUNK i reply carries chunk i, the chunks come back in order |
| Sms.ActionRequest | src/com/skype/SMS.java:126-187 | marking seen, sending and deleting send "SET SMS <id> SEEN", "ALTER SMS <id> SEND" and "DELETE SMS <id>", each its own expected reply |
| Sms.EqualsAsWritten | src/com/skype/SMS.java:88-94 | as written an SMS equals exactly a Chat with the same id |
| Sms.NotEqualToItself | src/com/skype/SMS.java:88-94 | as written an SMS is not equal to itself, yet equal to a Chat with its id |
| Sms.Equals | src/com/skype/SMS.java:83-94 | as intended an SMS equals exactly another SMS with the same id |
| Sms.EqualsIsIdentity | src/com/skype/SMS.java:83-94 | the intended test is reflexive and symmetric, holds only for equal ids, and rejects Chats |
| ChatMessage.PropertyRequest | src/com/skype/ChatMessage.java:104-105 | a chat-message property is asked for with "GET CHATMESSAGE <id> <name>" and read after "CHATMESSAGE <id> <name> " |
| ChatMessage.AllUsers | src/com/skype/ChatMessage.java:91-102 | the users are read exactly when USERS is; "" gives none, and otherwise one user per space-separated id, in order |
| ChatMessage.AllUsersRoundTrip | src/com/skype/ChatMessage.java:91-102 | the users Skype lists for a message come back in order |
| ChatMessage.NoUsers | src/com/skype/ChatMessage.java:93-95 | an empty USERS value gives no users |
| ChatMessage.ChatOf | src/com/skype/ChatMessage.java:87-89 | a failed read of CHATNAME is passed on; otherwise the chat is named by the end of the reply |
| ChatMessage.ChatOfNamed | src/com/skype/ChatMessage.java:87-89 | the chat whose name Skype reports is the chat returned |
| ContactList.Friends | src/com/skype/ContactList.java:37-53 | a connector failure is converted; the friends are read exactly when the USERS reply reads, one per comma-separated, trimmed id, in order |
| ContactList.FriendsListed | src/com/skype/ContactList.java:37-53 | the friends Skype lists after "USERS " come back one per comma-separated id, in order |
| ContactList.GetFriendAsWritten | src/com/skype/ContactList.java:61-69 | with the swapped null check a null id is never refused: it throws NullPointerException in the loop when there is any friend and gives null when there is none; a present id behaves as intended |
| ContactList.NullIdNotRefused | src/com/skype/ContactList.java:61-69 | a null id fails inside the loop with one friend, and is answered with null with none |
| ContactList.GetFriend | src/com/skype/ContactList.java:61-69 | with the null check the right way round, exactly a null id is refused; otherwise the friend with that id is returned exactly when it is listed, else null |
| ContactList.GroupTypeName | src/com/skype/Group.java:20-22 | every group type has a non-empty name |
| ContactList.GroupTypeOf | src/com/skype/Group.java:20-22 | a name is accepted only when it is the name of the type returned |
| ContactList.GroupTypeRoundTrip | src/com/skype/Group.java:20-22 | every group type is found again under its name |
| ContactList.GroupsRequest | src/com/skype/ContactList.java:114-120 | system groups are searched as HARDWIRED, custom groups as CUSTOM, and the reply is read after "GROUPS " |
| ContactList.GetSystemGroup | src/com/skype/ContactList.java:87-97 | the custom type is refused with IllegalArgumentException; a group returned is the first listed of that type; null means every listed group has another known type |
| ContactList.FindType | src/com/skype/ContactList.java:91-96 | the scan returns the first group of the type, or null only when every group has another known type |
| ContactList.SystemGroupFound | src/com/skype/ContactList.java:87-97 | when every listed group has a known type, a system group of a non-custom type is found exactly when one of that type is listed |
| ContactList.TypedScanSucceeds | src/com/skype/ContactList.java:91-96 | when every listed group has a known type, the scan does not throw |
| ContactList.GetGroupAsWritten | src/com/skype/ContactList.java:138-146 | with the swapped null check a null name is never refused: it throws in the loop when there is any group and gives null when there is none |
| ContactList.FirstNamed | src/com/skype/ContactList.java:140-145 | the index of the first group with the display name, or -1 when none has it |
| ContactList.GetGroup | src/com/skype/ContactList.java:138-146 | with the null check the right way round, exactly a null name is refused; otherwise the group returned has that display name, and null means no listed group has it |
| ContactList.NullNameNotRefused | src/com/skype/ContactList.java:138-146 | a null display name with one group listed fails inside the loop |
| ContactList.AddGroupAsWritten | src/com/skype/ContactList.java:154-165 | a connector failure is passed on; any id returned has no space |
| ContactList.ErrorTakenForId | src/com/skype/ContactList.java:156-160 | an "ERROR <code> <message>" reply is not detected: the code is taken for the new group's id |
| ContactList.AddGroup | src/com/skype/ContactList.java:154-165 | with the reply checked before it is cut, an error reply is refused, and an id returned is the space-free text after "GROUP " up to the next space |
| ContactList.AddGroupError | src/com/skype/ContactList.java:154-165 | with the check first, an error reply raises Skype's code and message |
| ContactList.AddGroupId | src/com/skype/ContactList.java:156-160 | with the check first, a "GROUP <id> ..." reply gives the id |
| JpCall.StatusName | src/jp/sf/skype/Call.java:22-24 | every call status has a non-empty name without spaces |
| JpCall.StatusOf | src/jp/sf/skype/Call.java:22-24 | a name is accepted only when it is the name of the status returned |
| JpCall.StatusRoundTrip | src/jp/sf/skype/Call.java:22-24 | every call status reads back from its name |
| JpCall.TargetStatus | src/jp/sf/skype/Call.java:48-66 | hold asks for ONHOLD, resume and answer for INPROGRESS, finish and cancel for FINISHED, and no other pairing occurs |
| JpCall.SetStatusRequest | src/jp/sf/skype/Call.java:68-75 | the command is "SET " followed by the awaited header and the target status name; the header starts with "CALL <id> " |
| JpCall.SetStatusReplyMatches | src/jp/sf/skype/Call.java:68-75 | the reply Skype sends for a made change carries the header the setter waits for, and the status in it reads back as the one asked for |
| JpCall.VideoEnabledName | src/jp/sf/skype/Call.java:34-36 | every video setting has a non-empty name |
| JpCall.VideoEnabledOf | src/jp/sf/skype/Call.java:34-36 | a name is accepted only when it is the name of the setting returned |
| JpCall.VideoEnabledRoundTrip | src/jp/sf/skype/Call.java:34-36 | every video setting reads back from its name |
| JpCall.IsReceiveVideoEnabled | src/jp/sf/skype/Call.java:119-131 | an unknown VIDEO_STATUS throws; receiving is on exactly for VIDEO_RECV_ENABLED and VIDEO_BOTH_ENABLED |
| JpCall.IsSendVideoEnabled | src/jp/sf/skype/Call.java:143-155 | an unknown VIDEO_STATUS throws; sending is on exactly for VIDEO_SEND_ENABLED and VIDEO_BOTH_ENABLED |
| JpCall.VideoEnabledFrom | src/jp/sf/skype/Call.java:119-155 | the setting built from a pair of directions reads back as that pair through both getters |
| JpCall.VideoReadingsDetermineStatus | src/jp/sf/skype/Call.java:119-155 | the two getters together tell every setting apart |
| JpCall.VideoCommandName | src/jp/sf/skype/Call.java:110-134 | a video command starts with START_VIDEO_ or STOP_VIDEO_ as it switches on or off |
| JpCall.VideoRequest | src/jp/sf/skype/Call.java:112 | the command is "ALTER CALL <id> " followed by the video command, and is its own expected reply |
| JpCall.AlterVideo | src/jp/sf/skype/Call.java:109-141 | START/STOP_VIDEO_SEND sets this side's sending and START/STOP_VIDEO_RECEIVE its receiving; the other direction is kept |
| JpCall.SetReceiveVideoCommandAsWritten | src/jp/sf/skype/Call.java:109-110 | as written, setReceiveVideoEnabled sends START_VIDEO_SEND or STOP_VIDEO_SEND |
| JpCall.SetSendVideoCommandAsWritten | src/jp/sf/skype/Call.java:133-134 | as written, setSendVideoEnabled sends START_VIDEO_RECEIVE or STOP_VIDEO_RECEIVE |
| JpCall.CrossedVideoCommands | src/jp/sf/skype/Call.java:109-155 | on a call without video, switching receiving on leaves isReceiveVideoEnabled false and turns sending on; switching sending on leaves isSendVideoEnabled false |
| JpCall.SetReceiveVideoCommand | src/jp/sf/skype/Call.java:109-131 | as intended, setReceiveVideoEnabled sends START_VIDEO_RECEIVE or STOP_VIDEO_RECEIVE |
| JpCall.SetSendVideoCommand | src/jp/sf/skype/Call.java:133-155 | as intended, setSendVideoEnabled sends START_VIDEO_SEND or STOP_VIDEO_SEND |
| JpCall.VideoSwitchesMatchGetters | src/jp/sf/skype/Call.java:109-155 | with the names the right way round, each switch sets exactly the direction its getter reads and leaves the other alone |
| JpSkype.JoinSnoc | src/jp/sf/skype/Skype.java:542-551 | appending one more entry to the list adds the separator and the entry to the joined text |
| JpSkype.ToCommaSeparatedString | src/jp/sf/skype/Skype.java:542-551 | the loop builds the entries joined with ", " |
| JpSkype.CommaSeparatedRoundTrip | src/jp/sf/skype/Skype.java:542-551 | ids free of ", " (and not ending in an empty one) are recovered by splitting the joined text at ", " |
| JpSkype.CallCommand | src/jp/sf/skype/Skype.java:237-274 | a null target is refused with NullPointerException; otherwise the command is "CALL " followed by the target unchanged |
| JpSkype.CallCommandNamesTargets | src/jp/sf/skype/Skype.java:232-274 | a call to several ids names each of them, in order, after "CALL " |
| JpSkype.ProcessStatus | src/jp/sf/skype/Skype.java:262-272 | a response without "STATUS " leaves the wait open; a known status ends it exactly for FAILED, FINISHED, MISSED, REFUSED, BUSY and CANCELLED; an unknown name throws |
| JpSkype.CallStep | src/jp/sf/skype/Skype.java:243-260 | once a call id is fixed it never changes; only an ERROR reply can set the kept error, and then to the text after "ERROR "; messages for neither CALL nor ERROR are ignored; a release never fires anything else; the processor's consistency is kept |
| JpSkype.Run | src/jp/sf/skype/Skype.java:243-274 | a released command ignores further messages; the fixed call is kept; a kept error was in some message or was there before |
| JpSkype.UnrelatedMessageIgnored | src/jp/sf/skype/Skype.java:243-260 | a message for neither CALL nor ERROR does not change the outcome |
| JpSkype.CallStatusParts | src/jp/sf/skype/Skype.java:244-251 | cutting "CALL <id> STATUS <name>" the way the listeners do gives back the id and the status name |
| JpSkype.LastIndexOfJoined | src/jp/sf/skype/Skype.java:500 | the last occurrence of a character is the one placed before a tail that does not contain it |
| JpSkype.CallReplyFixesCall | src/jp/sf/skype/Skype.java:243-272 | the first CALL reply fixes its id, releases the command, and ends the wait exactly on an end status |
| JpSkype.ErrorReplyKept | src/jp/sf/skype/Skype.java:254-258 | an ERROR reply before any call keeps the text after "ERROR " and releases the command |
| JpSkype.TimeOut | src/jp/sf/skype/Skype.java:274 | a command never released fails with a time-out naming the command |
| JpSkype.CheckKeptErrorAsWritten | src/jp/sf/skype/Utils.java:33-40 | as written, the kept text is passed to checkError, which raises only if it still starts with "ERROR " |
| JpSkype.KeptErrorSwallowed | src/jp/sf/skype/Skype.java:254-275 | the kept text of a Skype error reply no longer starts with "ERROR ", so it is never raised |
| JpSkype.CheckKeptError | src/jp/sf/skype/Utils.java:33-40 | as intended, any kept error fails, just as checkError fails on the full reply |
| JpSkype.KeptErrorRaised | src/jp/sf/skype/Utils.java:33-40 | as intended, a kept error gives Skype's code and message to the caller |
| JpSkype.CallResultAsWritten | src/jp/sf/skype/Skype.java:274-276 | as written, call times out when never released and returns the fixed call when no error was kept |
| JpSkype.ErrorReplySwallowed | src/jp/sf/skype/Skype.java:254-276 | as written, an error reply to CALL makes call return null and raise nothing |
| JpSkype.CallResult | src/jp/sf/skype/Skype.java:274-276 | as intended, call times out when never released, fails exactly when an error was kept, and otherwise returns a call |
| JpSkype.ErrorReplyRaised | src/jp/sf/skype/Skype.java:254-276 | as intended, an error reply to CALL raises Skype's code and message |
| JpSkype.CallReplyGivesCall | src/jp/sf/skype/Skype.java:243-276 | both versions return the call that Skype reports first |
| JpSkype.ReceivedMessageId | src/jp/sf/skype/Skype.java:408-415 | only "MESSAGE " notifications are looked at; one without a space after the id throws; a fired id is the text up to the first space, and only notifications ending with " STATUS RECEIVED" fire |
| JpSkype.ReceivedMessageFires | src/jp/sf/skype/Skype.java:408-415 | a RECEIVED status fires for the message's id |
| JpSkype.OtherMessageStatusSilent | src/jp/sf/skype/Skype.java:412 | every other status of a message fires nothing |
| JpSkype.NotReceivedSuffix | src/jp/sf/skype/Skype.java:412 | a text ending in another one-word status does not end with " STATUS RECEIVED" |
| JpSkype.DistinctDrop | src/jp/sf/skype/Skype.java:503-513 | dropping one entry from distinct delivered ids keeps them distinct and leaves that id out altogether |
| JpSkype.RemoveFirstDistinct | src/jp/sf/skype/Skype.java:503-513 | LinkedList.remove (the shared Connector.RemoveFirst) on distinct ids leaves distinct ids without the removed one |
| JpSkype.RemoveFirstDistinctIf | src/jp/sf/skype/Skype.java:503-513 | removal keeps the delivered calls distinct |
| JpSkype.OnCallReceived | src/jp/sf/skype/Skype.java:494-516 | only "CALL … STATUS …" notifications are looked at; a fired call was not yet delivered and is appended; otherwise nothing is added; the delivered calls stay distinct |
| JpSkype.CallStatusMessage | src/jp/sf/skype/Skype.java:497-500 | a "CALL <id> STATUS <name>" notification passes the filter and gives back its id and status when cut |
| JpSkype.RingingDeliveredOnce | src/jp/sf/skype/Skype.java:502-509 | a RINGING call is announced once; a second RINGING fires nothing |
| JpSkype.EndedCallRingsAgain | src/jp/sf/skype/Skype.java:510-513 | FINISHED, MISSED and REFUSED forget the call, so it is announced again when it next rings |
| JpSkype.OtherCallStatusKeeps | src/jp/sf/skype/Skype.java:501-514 | every other status leaves the delivered calls as they are and fires nothing |
| JpSkype.MessageDelivery | src/jp/sf/skype/Skype.java:406-443 | listeners are told only when the connector holds their connector listener, and then all of them are told of a received message |
| JpSkype.AddReceivedListener | src/jp/sf/skype/Skype.java:401-424 | a null listener is refused with nothing changed; otherwise it is appended and the field set; the call fails exactly when installing the connector listener fails, with jp's conversion of the failure, and then the connector holds no listener |
| JpSkype.AddMessageListener | src/jp/sf/skype/Skype.java:401-424 | a null listener is refused; otherwise it is appended and the field set, the call failing exactly when installing the connector listener fails; the ChatMessage side is untouched |
| JpSkype.AddChatMessageListener | src/jp/sf/skype/Skype.java:445-468 | a null listener is refused; otherwise it is appended and the field set, the call failing exactly when installing the connector listener fails; the Message side is untouched |
| JpSkype.RemoveMessageListener | src/jp/sf/skype/Skype.java:426-435 | a null listener is refused; otherwise one occurrence is removed and the ChatMessage side is untouched |
| JpSkype.RemoveChatMessageListenerAsWritten | src/jp/sf/skype/Skype.java:470-479 | as written, removing the last ChatMessage listener uninstalls the Message side's connector listener and leaves its own installed |
| JpSkype.MessageListenersCutOff | src/jp/sf/skype/Skype.java:401-479 | as written, removing the only ChatMessage listener stops every received message from reaching a registered Message listener |
| JpSkype.RemoveChatMessageListener | src/jp/sf/skype/Skype.java:470-479 | as intended, removal touches only the ChatMessage side |
| JpSkype.ListenersKeepValid | src/jp/sf/skype/Skype.java:401-479 | as intended, every add and remove, whatever the connector does, keeps each connector listener's field set exactly while its list is non-empty, and removing a ChatMessage listener never changes Message delivery |
| JpStream.StreamId | src/jp/sf/skype/Stream.java:46-48 | the id is the friend's id, ':' and the stream number; for a friend id without ':' the first ':' marks where the number starts |
| JpStream.StreamIdInjective | src/jp/sf/skype/Stream.java:46-48 | streams of friends without ':' in their ids have the same id only when friend and number agree |
| JpStream.SendingHeader | src/jp/sf/skype/Stream.java:56-57 | the notice that nothing is left to send ends with " SENDING " |
| JpStream.StreamCommand | src/jp/sf/skype/Stream.java:65-87 | the WRITE and DATAGRAM commands share one shape: the application, the verb, the stream id and a space, then the payload |
| JpStream.WriteCommand | src/jp/sf/skype/Stream.java:65 | the WRITE command names the application and the stream and ends with the text |
| JpStream.DatagramCommand | src/jp/sf/skype/Stream.java:87 | the DATAGRAM command names the application and the stream and ends with the datagram |
| JpStream.PayloadRecovered | src/jp/sf/skype/Stream.java:65 | the text or datagram follows the command's fixed part unchanged |
| JpStream.SendStep | src/jp/sf/skype/Stream.java:54-64 | only the bare sending notice or an ERROR reply releases; only an ERROR reply sets the kept error, to the text after "ERROR " |
| JpStream.SendRun | src/jp/sf/skype/Stream.java:54-65 | a released command ignores further messages; a release was caused by some message; with no ERROR reply the kept error stays as it was |
| JpStream.SendingThenDone | src/jp/sf/skype/Stream.java:56-58 | notices that this stream is still sending keep the command waiting; the bare notice then releases it with no error |
| JpStream.SendingPrefix | src/jp/sf/skype/Stream.java:56 | notices that this stream is still sending do not change the outcome of what follows |
| JpStream.SendResultAsWritten | src/jp/sf/skype/Stream.java:65-66 | as written, a command never released times out, and a released one is checked through checkError on the kept text |
| JpStream.SendResult | src/jp/sf/skype/Stream.java:65-66 | as intended, a command never released times out, and a released one fails exactly when an error was kept |
| JpStream.WriteErrorOutcomes | src/jp/sf/skype/Stream.java:59-66 | as written, an error reply to WRITE returns normally; as intended it raises Skype's code and message |
| JpStream.DisconnectCommandAsWritten | src/jp/sf/skype/Stream.java:120-123 | as written, the DISCONNECT command names the application and always stream 1 of the friend |
| JpStream.DisconnectNamesOtherStream | src/jp/sf/skype/Stream.java:120-123 | as written, disconnecting stream 2 names a different stream |
| JpStream.DisconnectCommand | src/jp/sf/skype/Stream.java:120-123 | as intended, the DISCONNECT command names the application and the stream's own id |
| JpApplication.CreateCommand | src/jp/sf/skype/Application.java:35 | the command is "CREATE APPLICATION " followed by the name, unchanged |
| JpApplication.DeleteCommand | src/jp/sf/skype/Application.java:39 | the command is "DELETE APPLICATION " followed by the name, unchanged |
| JpApplication.CommandsDistinct | src/jp/sf/skype/Application.java:35-52 | a CREATE command never equals a DELETE command, and two commands of one kind are equal exactly when they name the same application |
| JpSkype.ConvertConnectorFailure | src/jp/sf/skype/Utils.java:20-31 | not-attached and timeout failures become the API exceptions of the same kind, the timeout keeping its message; any other failure raises IllegalStateException, and none becomes CommandFailedException |
| JpSkype.ConversionsAgree | src/jp/sf/skype/Utils.java:20-31 | the older conversion equals the newer API's except on failures that are neither not-attached nor timeout, which one makes unchecked and the other general |
| JpApplication.CheckReply | src/jp/sf/skype/Utils.java:33-40 | a reply passes exactly when the connector answered and the answer is null or not an error reply; a connector failure is converted; apart from the unnamed failures this is the newer API's setResult check |
| JpApplication.Listen | src/jp/sf/skype/Application.java:44-46 | the data listener counts as installed, and the result is normal, exactly when registering it raised nothing; a raised failure is converted |
| JpApplication.Initialize | src/jp/sf/skype/Application.java:33-48 | a normal CREATE reply goes on to register the data listener; a CommandFailed reply leads to DELETE and one more CREATE, whose failure is the result; a malformed reply or a connector failure is not retried, and a connector failure is converted; the data listener is installed exactly when the result is normal, which needs a normal registration |
| JpApplication.InitializeRetriesOnce | src/jp/sf/skype/Application.java:36-43 | a refused CREATE is retried once after DELETE; a second refusal is raised, not retried |
| JpApplication.ConnectorFailureNotRetried | src/jp/sf/skype/Application.java:33-48 | a connector failure at CREATE ends initalize with the converted exception and nothing more sent; one at DELETE ends it before the second CREATE |
| JpApplication.MalformedRefusalNotRetried | src/jp/sf/skype/Application.java:36-43 | an error reply whose code cannot be read throws past the retry |
| JpApplication.ParseStreamId | src/jp/sf/skype/Application.java:159-167 | an entry without ':' throws; otherwise the friend is the text before the first ':' and the number parses from the rest |
| JpApplication.ParseStreamIdRoundTrip | src/jp/sf/skype/Application.java:159-167 | every stream id of a friend without ':' parses back to that friend and number |
| JpApplication.AddNew | src/jp/sf/skype/Application.java:155-171 | known streams are kept unchanged; new listed ids are added, each announced connected once; without an exception every listed id is in the table; each added entry holds the friend and number its id parses to |
| JpApplication.AddNewKnown | src/jp/sf/skype/Application.java:155-158 | ids the table already holds add and announce nothing |
| JpApplication.OnStreamsAsWritten | src/jp/sf/skype/Application.java:150-180 | as written, every stream in the table is announced disconnected, and no entry is removed |
| JpApplication.ListedStreamReportedDisconnected | src/jp/sf/skype/Application.java:172-179 | as written, a stream that is still listed is announced disconnected |
| JpApplication.EmptyStreamListThrows | src/jp/sf/skype/Application.java:154-160 | as written, an empty STREAMS list splits into one empty id whose parse throws |
| JpApplication.OnStreams | src/jp/sf/skype/Application.java:150-180 | as intended, the table gains the listed streams, exactly the unlisted known streams are announced disconnected, and an empty list names no stream |
| JpApplication.OnStreamsStable | src/jp/sf/skype/Application.java:150-180 | as intended, reporting the same list twice announces nothing new and disconnects the same streams |
| JpApplication.FirstIndex | src/jp/sf/skype/Application.java:240 | the index at which an entry first occurs: it holds the entry and no earlier index does |
| JpApplication.FirstIndexInPrefix | src/jp/sf/skype/Application.java:238-243 | an entry of a prefix first occurs at the same index in the whole sequence |
| JpApplication.Dedupe | src/jp/sf/skype/Application.java:237-243 | the result holds exactly the entries of the input, each once, ordered by where each first occurs in the input |
| JpApplication.Lookup | src/jp/sf/skype/Application.java:239 | a friend is found exactly when the id is in the contact list, and it is that friend |
| JpApplication.ExtractFriends | src/jp/sf/skype/Application.java:225-245 | an empty list gives none; a friend is returned exactly when listed; one null stands for all listed ids not in the contact list; no entry twice; friends come in the order of their first listing |
| JpApplication.LookupAllFacts | src/jp/sf/skype/Application.java:238-239 | the looked-up sequence holds each listed friend, a null for any listed stranger, and each friend first where it is first listed |
| JpApplication.LookupFirstIndex | src/jp/sf/skype/Application.java:238-239 | a friend is first looked up where it is first listed |
| JpApplication.StrangersGiveOneNull | src/jp/sf/skype/Application.java:237-244 | any number of listed strangers give exactly one null |
| JpApplication.DistinctCountsOnce | src/jp/sf/skype/Application.java:240-242 | an entry of a list without repeats occurs once |
| JpApplication.ReceivedTextNeedsData | src/jp/sf/skype/Application.java:81-83 | a RECEIVED notice is text exactly when something follows "RECEIVED "; the bare prefix is not |

## Left out

- Native bindings: libdbus, Xlib, SWT, Win32, the macOS framework and the JNI glue. These are foreign code. Only the decisions the bridges make are modelled, and what the native calls return is an input.
- Threads, `wait`/`notify`, executors and timers. A blocking wait is modelled as the sequence of messages seen while waiting, plus whether it timed out. The status events the connector schedules are a list of tasks.
- Clocks. Elapsed time is an input, both for the connect loops and for the command timeout.
- Dates. `Utils.parseUnixTime` and `SimpleDateFormat` are left out; a birthday is kept as its `yyyyMMdd` text (see Profile.BirthdayOf).
- File, process and jar I/O: library extraction, `loadLibrary`, the avatar file read and write, and `CSVPlayer.hasNextMessage`. Files are byte sequences or lines given as input. An `IOException` from `readLine` in `getNextMessage` is not modelled.
- Encodings. Text is modelled as Dafny characters standing in for bytes: WindowsConnector's UTF-8 encoding step is left out, so a multi-byte character counts as one unit and the 20-byte chunk boundaries of the X11 framing fall on characters, not on the encoded bytes. There is no Unicode normalisation.
- `HashMap` and `HashSet` iteration order. Where the source iterates a map, the model uses sets, or sequences in insertion order.
- The stream number format. A stream id is `<friend>:<number>`, with the number in decimal as `Integer.toString` prints it.
- Object identity. `Stream`, `User`, `ChatMessage` and `EventMessage` objects equal each other exactly when their ids do. Each is therefore represented by its id, and `equals`, `hashCode` and `toString` have no separate member.
- Plain property getters are left out. Examples are `ChatMessage.getTime` and `Call.getStartTime`/`getDuration`, each a single `getProperty` call. Their shared mechanism is SkypeUtils.PropertyValue.
- Sms.Price: `new BigDecimal` is modelled for ASCII text only; the non-ASCII digits BigDecimal also accepts and its `MathContext` rounding are not modelled. The value is kept as unscaled digits and a scale, so no `BigDecimal` arithmetic beyond `scaleByPowerOfTen` is modelled.
- EventMessage.AddEventMessage / EventMessage.EventId: the `AtomicInteger` counter is treated as unbounded. Its wrap-around to negative values after 2^31 messages is not modelled, so the ids are promised distinct for every count.
- EventMessage.AddListener and EventMessage.RemoveListener: these cover only messages in the registry. Listeners of a message that was never added are not modelled.
- `Profile.CallForwardingRule.equals` casts its argument to `Profile` and always throws. It is not modelled, and rules are compared as values.
- `Group.dispose`, `Chat`, `VoiceMail`, and the listener interfaces and adapters are left out. They hold no logic beyond building a command string.
- com `Application.connect`, `getAllStreams(Friend)` and the `getAll…Friends` family block on replies. Only their reply handling is modelled, through `extractFriends` and `fireStreamEvents`.
- Different revisions of the connector API:
  - `Win32Connector` and `LinuxConnector` override `initialize(int)`, and `LinuxConnector` also `connectImpl`. These belong to a `Connector` revision other than the one shown.
  - com `Skype` calls `addConnectorMessageReceivedListener`, which is not in the `Connector.java` shown.
  - The model keeps the decision logic of each file as written.
- jp connector failures. The jp.sf.skype.connector package is not part of this model: its failures take the shapes of the com `Connector`'s (not attached, timeout, other). Whether its `addConnectorListener` raises is an input of JpApplication.Initialize and of JpSkype.AddReceivedListener, which convert the failure as jp `Utils.convertToSkypeException` does (JpSkype.ConvertConnectorFailure); the other jp operations take Skype's replies as given.
- jp `addCallReceivedListener` and `removeCallReceivedListener` keep their list the same way as the com registrations (SkypeApi.AddApiListener and SkypeApi.RemoveApiListener). Only the call listener's message handling is modelled, as JpSkype.OnCallReceived.
- LinuxConnector.Construct: a missing library raises `UnsatisfiedLinkError`, an `Error` that the constructor's `catch (Exception)` does not catch, so construction fails. That path is not modelled; the contract covers loading that returns or raises an `Exception`.
- AvatarReader.ScanFrom, AvatarReader.ReadFrom and AvatarReader.ReadAvatarToFile use the corrected search AvatarReader.IndexOf. As written, the `ArrayIndexOutOfBoundsException` the search can raise (see Findings) escapes `readAvatarToFile`, which catches only `FileNotFoundException` and `IOException`, and nothing is written. These members do not model that outcome.
- A jp or com listener that throws during dispatch is not modelled. Each listener is assumed to return normally.
- jp `Skype.connect`, `chat` and `leaveVoiceMail`, and jp `Application.connect`, duplicate the reply handling modelled for com `Skype` and for `JpSkype.call`. They are not modelled again. jp `Application.connect` loses the "ERROR " prefix the same way `call` does.
- jp `Application.handleData`, `finish` and `add/removeApplicationListener` follow the com versions. Only the com ones are modelled, as Application.HandleData and Application.Finish.
- jp `Application`'s STREAMS listener calls `getFriend` for a new id. A failure there (IllegalStateException) is not modelled: the friend is represented by its id.
- jp `Stream.write` and `send` call `checkNotNull(text, "text")` with swapped arguments, as com `Stream` does. A null text is therefore never refused. The jp model takes the payload as present text; the defect is modelled once, for com `Stream`.
- JpCall.AlterVideo: this is the call's video state as the Skype API defines the ALTER CALL video commands. It is not code of the library. It serves only as the reference against which the crossed command names are shown.
- JpSkype.CallResultAsWritten: states only the timeout and success outcomes. What it does with a kept error is stated by JpSkype.ErrorReplySwallowed.
- Profile.BirthdayOf: Java's lenient `SimpleDateFormat("yyyyMMdd")` is not modelled. The model accepts exactly eight decimal digits and keeps them as text. Texts Java also accepts, such as "1970011" or "19700101x", are rejected here with IllegalStateException. A month or day out of range, as in "19701301", is kept as written rather than rolled over to 1971-01-01 as Java does.
- User.BirthDay: reads the BIRTHDAY value through Profile.BirthdayOf, so it has the same gap in lenient date parsing.

## Findings

| source | as written | input that shows it | evidently intended | confidence | as-written member | corrected member |
|---|---|---|---|---|---|---|
| src_linux/DBus/JNI/x11wrapper.c:166 | the reassembly buffer `char buffer[17000]` is never cleared before the first `strcat` | stack bytes "A" in the buffer, then the one-event message "x" | the first message is delivered as "x", not "Ax" | not executed | X11Framing.StaleBufferCorruptsFirstMessage | X11Framing.SendThenReceive |
| src/com/skype/connector/win32/Win32Connector.java:71-82 | the start time is read just before the elapsed check, and NOT_RUNNING keeps the loop going, so `connect` never gives up | Skype not running, timeout 1000 ms, 3600 one-second passes | return NOT_RUNNING once the timeout has passed | not executed | Win32Connector.ConnectAsWrittenCounterexample | Win32Connector.ConnectWithDeadlineGivesUp |
| src/com/skype/connector/linux/dbus/AvatarReader.java:131-144 | `bytes[i + j]` is read with no bound, so a key whose start matches the file's tail reads past the end | file bytes "l", key "l33l", range [0, 1) | -1 (no match) | not executed | AvatarReader.IndexOfReadsPastEnd | AvatarReader.IndexOf |
| src/com/skype/Stream.java:110-111 | `checkNotNull(text, "text")` has its arguments swapped, so a null text is not refused | `write(null)` | NullPointerException "The text must not be null." | not executed | Stream.WriteNullNotRefused | Stream.WriteRequest |
| src/com/skype/Stream.java:175-180 | `send` has the same swapped check | `send(null)` | NullPointerException "The datagram must not be null." | not executed | Stream.SendNullNotRefused | Stream.SendRequest |
| src/com/skype/Profile.java:351-357 | `toSpaceSeparatedString` appends the values with no separator | languages ["en", "ja"] | "en ja" | not executed | Profile.LanguagesConcatenated | Profile.LanguagesRoundTrip |
| src/com/skype/SMS.java:88-94 | `equals` is true only for a `Chat` with the same id | an SMS compared with itself | true exactly for an SMS with the same id | not executed | Sms.NotEqualToItself | Sms.EqualsIsIdentity |
| src/com/skype/ContactList.java:61-69 | `checkNotNull(skypeId, "skypeId")` is swapped, so a null id is not refused | `getFriend(null)` with one friend | NullPointerException "The skypeId must not be null." | not executed | ContactList.NullIdNotRefused | ContactList.GetFriend |
| src/com/skype/ContactList.java:138-146 | `getGroup` has the same swapped check | `getGroup(null)` with one group | NullPointerException naming the display name | not executed | ContactList.NullNameNotRefused | ContactList.GetGroup |
| src/com/skype/ContactList.java:154-165 | "GROUP " is cut before `checkError`, so an error reply loses "ERROR " and its code is taken for the new group's id | reply "ERROR 1 x" | CommandFailedException with code 1 and message "x" | not executed | ContactList.ErrorTakenForId | ContactList.AddGroupError |
| src/jp/sf/skype/Call.java:109-141 | `setReceiveVideoEnabled` sends START/STOP_VIDEO_SEND and `setSendVideoEnabled` sends START/STOP_VIDEO_RECEIVE | `setReceiveVideoEnabled(true)` on a call with no video | receiving on, sending unchanged | not executed | JpCall.CrossedVideoCommands | JpCall.VideoSwitchesMatchGetters |
| src/jp/sf/skype/Skype.java:254-275 | the kept error has "ERROR " removed before `checkError`, which then never raises | reply "ERROR 1 x" to CALL | CommandFailedException with code 1 and message "x" | not executed | JpSkype.ErrorReplySwallowed | JpSkype.ErrorReplyRaised |
| src/jp/sf/skype/Stream.java:59-66 | `write` and `send` keep the error the same way and return normally | reply "ERROR 1 x" to WRITE | CommandFailedException with code 1 and message "x" | not executed | JpStream.SendResultAsWritten | JpStream.SendResult |
| src/jp/sf/skype/Skype.java:470-479 | removing the last ChatMessage listener uninstalls the Message side's connector listener | one Message and one ChatMessage listener, then the ChatMessage one removed | the Message listener still receives messages | not executed | JpSkype.MessageListenersCutOff | JpSkype.ListenersKeepValid |
| src/jp/sf/skype/Stream.java:120-123 | `disconnect` always names stream number 1 | `disconnect()` on stream 2 | DISCONNECT names `<friend>:2` | not executed | JpStream.DisconnectNamesOtherStream | JpStream.DisconnectCommand |
| src/jp/sf/skype/Application.java:172-179 | the `continue` in the NEXT loop continues the inner loop, so every known stream is announced disconnected and none is removed | a table holding "bob:1" and the list "bob:1" | nothing announced disconnected | not executed | JpApplication.ListedStreamReportedDisconnected | JpApplication.OnStreamsStable |
| src/jp/sf/skype/Application.java:154-160 | `"".split(" ")` gives one empty id, whose parse throws | the list "" | every known stream announced disconnected | not executed | JpApplication.EmptyStreamListThrows | JpApplication.OnStreams |
| src/com/skype/User.java:325-327 | `isVideoCapable` parses the literal "IS_VIDEO_CAPABLE" instead of the property's value, so it is always false | a user whose IS_VIDEO_CAPABLE is TRUE | true, as the method's documentation at 321-324 says | not executed | User.VideoCapableIgnored | User.VideoCapable |

=== FILE: application.dfy ===
/** com.skype.Application: an AP2AP application. Modelled are the registry
    of applications by name, `finish`, the stream table kept in step with
    the STREAMS lists Skype reports, the parsing of the data notifications,
    and the friend list built from a search reply. Replies from Skype are
    inputs. */
module Application {
  import opened Wrappers
  import opened JavaText
  import opened SkypeUtils
  import Connector

  // ---------------------------------------------------------------------
  // Registry and lifecycle
  // ---------------------------------------------------------------------

  /** `getInstance(name)`: the application registered under the name, or a
      new one whose CREATE APPLICATION command must succeed first. The
      registry is the set of registered names; `created` says whether the
      call made a new Application. */
  function GetInstance(registry: set<string>, name: string, createFails: bool): (r: Result<(set<string>, bool), SkypeError>)
    ensures name in registry ==> r == Success((registry, false))
    ensures name !in registry && !createFails ==> r == Success((registry + {name}, true))
    ensures name !in registry && createFails ==> r.Failure?
  {
    if name in registry then Success((registry, false))
    else if createFails then Failure(GeneralError("CREATE APPLICATION " + name))
    else Success((registry + {name}, true))
  }

  /** Asking twice for the same name yields the object created the first time. */
  lemma GetInstanceCreatesOnce(registry: set<string>, name: string)
    ensures var first := GetInstance(registry, name, false);
      first.Success? && GetInstance(first.value.0, name, false) == Success((first.value.0, false))
  {
  }

  /** The part of an application `finish` changes: whether it has finished,
      whether its data listener and shutdown hook are installed. */
  datatype AppState = AppState(name: string, finished: bool, listening: bool, hookInstalled: bool)

  /** `finish()`: the first call removes the listener and the hook, marks the
      application finished and sends DELETE APPLICATION; later calls do
      nothing. The result of the command is the reply check. */
  function Finish(st: AppState, reply: Result<Option<string>, Connector.ConnectorError>): (r: (AppState, seq<string>, Result<(), SkypeError>))
    ensures st.finished ==> r == (st, [], Success(()))
    ensures !st.finished ==> r.1 == ["DELETE APPLICATION " + st.name]
    ensures !st.finished ==> r.0.finished && !r.0.listening && !r.0.hookInstalled && r.0.name == st.name
  {
    if st.finished then (st, [], Success(()))
    else (AppState(st.name, true, false, false), ["DELETE APPLICATION " + st.name], SetResult(reply))
  }

  /** A second `finish` sends nothing and changes nothing, whatever the first one met. */
  lemma FinishIdempotent(st: AppState, reply1: Result<Option<string>, Connector.ConnectorError>, reply2: Result<Option<string>, Connector.ConnectorError>)
    ensures var once := Finish(st, reply1).0;
      Finish(once, reply2) == (once, [], Success(()))
  {
  }

  // ---------------------------------------------------------------------
  // Stream table
  // ---------------------------------------------------------------------

  /** The stream ids of a list that are not yet in `known`, each once, in the
      order the list first names them (the list's own order of first
      occurrence), and the table that results. */
  function ConnectNew(known: set<string>, ids: seq<string>): (r: (set<string>, seq<string>))
    ensures r.0 == known + set x | x in ids
    ensures forall x :: x in r.1 <==> x in ids && x !in known
    ensures forall i, j :: 0 <= i < j < |r.1| ==> r.1[i] != r.1[j]
    ensures forall i, j :: 0 <= i < j < |r.1| ==> Connector.Position(ids, r.1[i]) < Connector.Position(ids, r.1[j])
    ensures (forall x :: x in ids ==> x in known) ==> r.1 == []
    decreases |ids|
  {
    if |ids| == 0 then (known, [])
    else if ids[0] in known then
      var r := ConnectNew(known, ids[1..]);
      assert forall x :: x in ids <==> x == ids[0] || x in ids[1..];
      assert forall x :: x in r.1 ==> Connector.Position(ids, x) == 1 + Connector.Position(ids[1..], x);
      r
    else
      var rest := ConnectNew(known + {ids[0]}, ids[1..]);
      assert forall x :: x in ids <==> x == ids[0] || x in ids[1..];
      assert forall x :: x in rest.1 ==> Connector.Position(ids, x) == 1 + Connector.Position(ids[1..], x);
      (rest.0, [ids[0]] + rest.1)
  }

  /** What `fireStreamEvents` does to the table: the new key set, the
      streams announced as connected (in order), and those announced as
      disconnected (in the table's own iteration order, which is not
      modelled). */
  datatype StreamUpdate = StreamUpdate(streams: set<string>, connected: seq<string>, disconnected: set<string>)

  /** `fireStreamEvents(list)`: afterwards the table holds exactly the listed
      ids; each id new to the table is announced connected once, and each
      id no longer listed is removed and announced disconnected. */
  function FireStreamEvents(streams: set<string>, list: string): (r: StreamUpdate)
    ensures r.streams == set x | x in SpaceList(list)
    ensures forall x :: x in r.connected <==> x in SpaceList(list) && x !in streams
    ensures forall i, j :: 0 <= i < j < |r.connected| ==> r.connected[i] != r.connected[j]
    ensures forall i, j :: 0 <= i < j < |r.connected| ==>
      Connector.Position(SpaceList(list), r.connected[i]) < Connector.Position(SpaceList(list), r.connected[j])
    ensures (forall x :: x in SpaceList(list) ==> x in streams) ==> r.connected == []
    ensures r.disconnected == streams - set x | x in SpaceList(list)
  {
    var ids := SpaceList(list);
    var added := ConnectNew(streams, ids);
    var listed := set x | x in ids;
    StreamUpdate(added.0 - (added.0 - listed), added.1, added.0 - listed)
  }

  /** Reporting the same list again announces nothing and changes nothing. */
  lemma FireStreamEventsIdempotent(streams: set<string>, list: string)
    ensures var once := FireStreamEvents(streams, list);
      FireStreamEvents(once.streams, list) == StreamUpdate(once.streams, [], {})
  {
    var once := FireStreamEvents(streams, list);
    var again := FireStreamEvents(once.streams, list);
    assert forall x :: x in SpaceList(list) ==> x in once.streams;
  }

  /** `getAllStreams()` after the STREAMS reply `list`: the table is updated
      as by `fireStreamEvents`, and the result names every listed stream in
      the reply's order. */
  function GetAllStreams(streams: set<string>, list: string): (r: (StreamUpdate, seq<string>))
    ensures r.0 == FireStreamEvents(streams, list)
    ensures list == "" ==> r.1 == []
    ensures forall k :: 0 <= k < |r.1| ==> r.1[k] in r.0.streams
    ensures r.1 == SpaceList(list)
  {
    (FireStreamEvents(streams, list), SpaceList(list))
  }

  // ---------------------------------------------------------------------
  // Data notifications
  // ---------------------------------------------------------------------

  const ReceivedPrefix := "RECEIVED "
  const DatagramPrefix := "DATAGRAM "

  /** `isReceivedText`: the notice says text is waiting, and names something after the prefix. */
  predicate IsReceivedText(data: string) {
    StartsWith(data, ReceivedPrefix) && |ReceivedPrefix| < |data|
  }

  /** The stream a RECEIVED notice names: the text after the prefix up to the first '='. */
  function ReceivedStream(data: string): (r: Option<string>)
    requires IsReceivedText(data)
    ensures r.Some? ==> '=' !in r.value && StartsWith(data, ReceivedPrefix + r.value + "=")
    ensures r.None? <==> '=' !in data[|ReceivedPrefix|..]
  {
    var rest := data[|ReceivedPrefix|..];
    var b := Before(rest, '=');
    if b.Some? then
      assert data == ReceivedPrefix + rest;
      assert StartsWith(rest, b.value + "=");
      assert (ReceivedPrefix + b.value + "=") == ReceivedPrefix + (b.value + "=");
      assert data[..|ReceivedPrefix + b.value + "="|] == ReceivedPrefix + rest[..|b.value + "="|];
      b
    else b
  }

  /** A RECEIVED notice for a stream names that stream. */
  lemma ReceivedStreamOf(id: string, rest: string)
    requires '=' !in id
    ensures IsReceivedText(ReceivedPrefix + id + "=" + rest)
    ensures ReceivedStream(ReceivedPrefix + id + "=" + rest) == Some(id)
  {
    var data := ReceivedPrefix + id + "=" + rest;
    assert data[..|ReceivedPrefix|] == ReceivedPrefix;
    assert data[|ReceivedPrefix|..] == id + ['='] + rest;
    IndexOfJoined(id, '=', rest);
  }

  /** A DATAGRAM notice: the stream id up to the first space and the datagram after it. */
  function DatagramParts(data: string): (r: Option<(string, string)>)
    requires StartsWith(data, DatagramPrefix)
    ensures r.None? <==> ' ' !in data[|DatagramPrefix|..]
    ensures r.Some? ==> ' ' !in r.value.0 && data == DatagramPrefix + r.value.0 + " " + r.value.1
  {
    var rest := data[|DatagramPrefix|..];
    var space := IndexOf(rest, ' ');
    if space < 0 then None
    else
      assert rest == rest[..space] + " " + rest[space + 1..];
      assert data == DatagramPrefix + rest;
      Some((rest[..space], rest[space + 1..]))
  }

  /** Every datagram sent on a stream is delivered to it intact, spaces included. */
  lemma DatagramPartsOf(id: string, datagram: string)
    requires ' ' !in id
    ensures DatagramParts(DatagramPrefix + id + " " + datagram) == Some((id, datagram))
  {
    var data := DatagramPrefix + id + " " + datagram;
    assert data[..|DatagramPrefix|] == DatagramPrefix;
    assert data[|DatagramPrefix|..] == id + [' '] + datagram;
    IndexOfJoined(id, ' ', datagram);
  }

  /** What the data listener does with a notice for this application. */
  datatype DataOutcome =
    | NoEvent
    | TextReceived(stream: string, text: string)
    | DatagramReceived(stream: string, datagram: string)
    | CannotHandle

  /** The READ command a RECEIVED notice triggers; it is also the reply header. */
  function ReadCommand(name: string, stream: string): (r: string)
    ensures StartsWith(r, "ALTER APPLICATION " + name + " READ ")
    ensures EndsWith(r, stream)
  {
    "ALTER APPLICATION " + name + " READ " + stream
  }

  /** `handleData`: a RECEIVED notice reads the waiting text with READ and
      hands the text after the echoed header to the stream; a DATAGRAM
      notice hands its datagram to the stream. Only streams in the table
      are told. Any failure on the way becomes IllegalStateException. */
  function HandleData(name: string, streams: set<string>, data: string, readReply: Result<Option<string>, Connector.ConnectorError>): (r: DataOutcome)
    ensures r.TextReceived? ==> IsReceivedText(data) && r.stream in streams
    ensures r.DatagramReceived? ==> !IsReceivedText(data) && r.stream in streams
    ensures !IsReceivedText(data) && !StartsWith(data, DatagramPrefix) ==> r == NoEvent
  {
    if IsReceivedText(data) then
      match ReceivedStream(data)
      case None => CannotHandle
      case Some(stream) =>
        var header := ReadCommand(name, stream);
        match PropertyValue(header, readReply)
        case Failure(_) => CannotHandle
        case Success(afterHeader) =>
          if |afterHeader| == 0 then CannotHandle
          else if stream in streams then TextReceived(stream, afterHeader[1..])
          else NoEvent
    else if StartsWith(data, DatagramPrefix) then
      match DatagramParts(data)
      case None => CannotHandle
      case Some((stream, datagram)) =>
        if stream in streams then DatagramReceived(stream, datagram) else NoEvent
    else NoEvent
  }

  /** Text written on a known stream reaches it: the READ reply echoes the
      header, a space and the text. */
  lemma TextDelivered(name: string, streams: set<string>, stream: string, rest: string, text: string)
    requires '=' !in stream && stream in streams
    requires !StartsWith(ReadCommand(name, stream) + " " + text, ErrorPrefix)
    ensures HandleData(name, streams, ReceivedPrefix + stream + "=" + rest, Success(Some(ReadCommand(name, stream) + " " + text))) ==
      TextReceived(stream, text)
  {
    ReceivedStreamOf(stream, rest);
    var header := ReadCommand(name, stream);
    assert header + " " + text == header + (" " + text);
    PropertyValueRoundTrip(header, " " + text);
    assert (" " + text)[1..] == text;
  }

  /** A STREAMS notice of an application is a notice for that application. */
  lemma StreamsNoticeIsData(name: string, message: string)
    ensures StartsWith(message, "APPLICATION " + name + " STREAMS ") ==> StartsWith(message, "APPLICATION " + name + " ")
  {
    var streamsHeader := "APPLICATION " + name + " STREAMS ";
    var dataHeader := "APPLICATION " + name + " ";
    assert streamsHeader == dataHeader + "STREAMS ";
    if StartsWith(message, streamsHeader) {
      assert message[..|dataHeader|] == streamsHeader[..|dataHeader|];
    }
  }

  /** The listener's dispatch of one notice: a STREAMS list updates the
      table; a notice for this application is handed to `handleData` (a
      STREAMS notice is one too, and there it is no data). */
  function OnMessage(name: string, streams: set<string>, message: string, readReply: Result<Option<string>, Connector.ConnectorError>): (r: (StreamUpdate, DataOutcome))
    ensures var streamsHeader := "APPLICATION " + name + " STREAMS ";
      StartsWith(message, streamsHeader) ==> r.0 == FireStreamEvents(streams, message[|streamsHeader|..])
    ensures !StartsWith(message, "APPLICATION " + name + " ") ==> r == (StreamUpdate(streams, [], {}), NoEvent)
  {
    var streamsHeader := "APPLICATION " + name + " STREAMS ";
    var dataHeader := "APPLICATION " + name + " ";
    var update :=
      if StartsWith(message, streamsHeader) then FireStreamEvents(streams, message[|streamsHeader|..])
      else StreamUpdate(streams, [], {});
    StreamsNoticeIsData(name, message);
    var outcome :=
      if StartsWith(message, dataHeader) then HandleData(name, update.streams, message[|dataHeader|..], readReply)
      else NoEvent;
    (update, outcome)
  }

  // ---------------------------------------------------------------------
  // Friends in a search reply
  // ---------------------------------------------------------------------

  /** The user id of a list entry: the text before its first ':' if it has one. */
  function UserOfEntry(entry: string): (r: string)
    ensures ':' !in r
    ensures ':' !in entry ==> r == entry
    ensures StartsWith(entry, r)
  {
    if ':' in entry then Before(entry, ':').value else entry
  }

  /** The friends named by `ids`, each once, in the order of first mention.
      `friends` holds the ids the contact list knows. */
  function FirstOccurrences(ids: seq<string>, friends: set<string>): (r: seq<string>)
    ensures forall x :: x in r <==> x in ids && x in friends
    ensures forall i, j :: 0 <= i < j < |r| ==> r[i] != r[j]
    decreases |ids|
  {
    if |ids| == 0 then []
    else
      var r := FirstOccurrences(ids[..|ids| - 1], friends);
      var x := ids[|ids| - 1];
      assert forall y :: y in ids <==> y in ids[..|ids| - 1] || y == x;
      if x in friends && x !in r then r + [x] else r
  }

  /** Reading more of the list only appends: an earlier friend stays ahead
      of every later one. */
  lemma {:induction false} FirstOccurrencesPrefix(ids: seq<string>, friends: set<string>, n: nat)
    requires n <= |ids|
    ensures var whole := FirstOccurrences(ids, friends);
      var part := FirstOccurrences(ids[..n], friends);
      |part| <= |whole| && whole[..|part|] == part
    decreases |ids| - n
  {
    if n < |ids| {
      FirstOccurrencesPrefix(ids, friends, n + 1);
      assert ids[..n + 1][..n] == ids[..n];
    } else {
      assert ids[..n] == ids;
    }
  }

  /** The user ids of the entries of a search reply. */
  function ListedUsers(list: string): (r: seq<string>)
    ensures |r| == |SpaceList(list)|
    ensures forall k :: 0 <= k < |r| ==> r[k] == UserOfEntry(SpaceList(list)[k])
  {
    var entries := SpaceList(list);
    seq(|entries|, k requires 0 <= k < |entries| => UserOfEntry(entries[k]))
  }

  /** `extractFriends(list)`: for "" nothing; otherwise the entries split on
      spaces, each cut at its first ':', looked up in the contact list
      (unknown ids are skipped) and kept once each, in order. */
  method ExtractFriends(list: string, friends: set<string>) returns (r: seq<string>)
    ensures r == FirstOccurrences(ListedUsers(list), friends)
    ensures list == "" ==> r == []
  {
    var ids := ListedUsers(list);
    assert list == "" ==> ids == [];
    r := [];
    var i := 0;
    while i < |ids|
      invariant 0 <= i <= |ids|
      invariant r == FirstOccurrences(ids[..i], friends)
    {
      var id := ids[i];
      assert ids[..i + 1][..i] == ids[..i] && ids[..i + 1][i] == id;
      assert FirstOccurrences(ids[..i + 1], friends) == if id in friends && id !in r then r + [id] else r;
      if id in friends && id !in r {
        r := r + [id];
      }
      i := i + 1;
    }
    assert ids[..i] == ids;
  }
}

=== FILE: avatar_reader.dfy ===
/** com.skype.connector.linux.dbus.AvatarReader: finds a user's picture in
    Skype's `.dbb` database files. A file is a run of blocks that each begin
    with the marker "l33l"; the picture is the JPEG (from FF D8 to FF D9) in
    the first block that mentions the user id. The file system is an input:
    a map from path to contents. */
module AvatarReader {
  import opened Wrappers
  import opened Octets
  import JavaText

  /** The JPEG start-of-image and end-of-image markers. */
  const JpegStart: seq<byte> := [0xFF, 0xD8]
  const JpegEnd: seq<byte> := [0xFF, 0xD9]

  /** "l33l" in ASCII, the marker that separates user entries. */
  const BlockMarker: seq<byte> := [0x6C, 0x33, 0x33, 0x6C]

  /** The database files searched, in order. */
  const DbbFiles: seq<string> := ["user1024.dbb", "user4096.dbb", "user16384.dbb", "user32768.dbb", "user65536.dbb"]

  /** The constructor's `profilePath`: the user's directory under `~/.Skype`. */
  function ProfilePath(home: string, separator: string, user: string): (r: string)
    ensures |r| == |home| + 2 * |separator| + 6 + |user|
    ensures r[..|home|] == home && r[|r| - |user|..] == user
  {
    home + separator + ".Skype" + separator + user
  }

  /** `key` occurs in `bytes` starting at `i`. */
  predicate MatchesAt(bytes: seq<byte>, key: seq<byte>, i: int) {
    0 <= i && i + |key| <= |bytes| && forall k :: 0 <= k < |key| ==> bytes[i + k] == key[k]
  }

  /** `i` is the first start in `[from, bound)` where `key` occurs. */
  predicate FirstMatchAt(bytes: seq<byte>, key: seq<byte>, from: int, bound: int, i: int) {
    from <= i < bound && MatchesAt(bytes, key, i) &&
    forall k :: from <= k < i ==> !MatchesAt(bytes, key, k)
  }

  /** The search the reader means: the first start in `[from, bound)` where
      the whole key lies inside `bytes`, or -1. */
  function FirstMatch(bytes: seq<byte>, key: seq<byte>, from: int, bound: int): (r: int)
    ensures r == -1 <==> (forall k :: from <= k < bound ==> !MatchesAt(bytes, key, k))
    ensures r != -1 ==> FirstMatchAt(bytes, key, from, bound, r)
    decreases bound - from
  {
    if from >= bound then -1
    else if MatchesAt(bytes, key, from) then from
    else FirstMatch(bytes, key, from + 1, bound)
  }

  /** A first match found by other means is the one `FirstMatch` finds. */
  lemma FirstMatchUnique(bytes: seq<byte>, key: seq<byte>, from: int, bound: int, i: int)
    requires FirstMatchAt(bytes, key, from, bound, i)
    ensures FirstMatch(bytes, key, from, bound) == i
  {
    var f := FirstMatch(bytes, key, from, bound);
    assert f != -1;
    assert !(f < i) && !(i < f);
  }

  /** The two nested loops of `indexOf`, with the bound the source lacks:
      a start is tried only while the whole key fits in `bytes`. */
  method IndexOf(bytes: seq<byte>, key: seq<byte>, from: int, bound: int) returns (r: int)
    ensures r == FirstMatch(bytes, key, from, bound)
  {
    var i := if from < 0 then 0 else from;
    while i < bound && i + |key| <= |bytes|
      invariant from <= i || i == 0
      invariant (forall k :: from <= k < i ==> !MatchesAt(bytes, key, k))
      decreases bound - i
    {
      var j := 0;
      while j < |key| && bytes[i + j] == key[j]
        invariant 0 <= j <= |key|
        invariant forall k :: 0 <= k < j ==> bytes[i + k] == key[k]
      {
        j := j + 1;
      }
      if j == |key| {
        FirstMatchUnique(bytes, key, from, bound, i);
        return i;
      }
      i := i + 1;
    }
    forall k | i <= k < bound
      ensures !MatchesAt(bytes, key, k)
    {
    }
    return -1;
  }

  /** The outcome of the source's `indexOf`: a start, none, or an
      ArrayIndexOutOfBoundsException. */
  datatype Search = Found(index: nat) | NotFound | OutOfBounds

  /** The inner loop as written: compares `key[j..]` with the bytes from
      `i + j`, reading past the end of `bytes` if the key runs over it. */
  function CompareAsWritten(bytes: seq<byte>, key: seq<byte>, i: nat, j: nat): (r: Option<bool>)
    requires j <= |key| && i + j <= |bytes|
    ensures r == Some(true) <==>
      i + |key| <= |bytes| && forall k :: j <= k < |key| ==> bytes[i + k] == key[k]
    decreases |key| - j
  {
    if j == |key| then Some(true)
    else if i + j >= |bytes| then None
    else if key[j] != bytes[i + j] then Some(false)
    else CompareAsWritten(bytes, key, i, j + 1)
  }

  /** `indexOf(bytes, key, from, bound)` as written: every start in
      `[from, bound)` whose byte equals `key[0]` is compared without checking
      that the key fits. */
  function IndexOfAsWritten(bytes: seq<byte>, key: seq<byte>, from: int, bound: int): (r: Search)
    ensures r.Found? ==> FirstMatchAt(bytes, key, from, bound, r.index)
    ensures r.NotFound? ==> (forall k :: from <= k < bound ==> !MatchesAt(bytes, key, k))
    decreases bound - from
  {
    if from >= bound then NotFound
    else if from < 0 || from >= |bytes| || |key| == 0 then OutOfBounds
    else if bytes[from] != key[0] then IndexOfAsWritten(bytes, key, from + 1, bound)
    else
      match CompareAsWritten(bytes, key, from, 0)
      case None => OutOfBounds
      case Some(true) => Found(from)
      case Some(false) => IndexOfAsWritten(bytes, key, from + 1, bound)
  }

  /** Where it does not fault, the source's search agrees with the intended one. */
  lemma AsWrittenAgreesUnlessOutOfBounds(bytes: seq<byte>, key: seq<byte>, from: int, bound: int)
    ensures IndexOfAsWritten(bytes, key, from, bound).Found? ==>
      FirstMatch(bytes, key, from, bound) == IndexOfAsWritten(bytes, key, from, bound).index
    ensures IndexOfAsWritten(bytes, key, from, bound).NotFound? ==> FirstMatch(bytes, key, from, bound) == -1
  {
    var r := IndexOfAsWritten(bytes, key, from, bound);
    if r.Found? {
      FirstMatchUnique(bytes, key, from, bound, r.index);
    }
  }

  /** A file that ends in "l", the first byte of the block marker: the
      source faults where the intended search finds nothing. */
  lemma IndexOfReadsPastEnd()
    ensures IndexOfAsWritten([0x6C], BlockMarker, 0, 1) == OutOfBounds
    ensures FirstMatch([0x6C], BlockMarker, 0, 1) == -1
  {
  }

  /** What one database file yields. */
  datatype FileOutcome = Picture(image: seq<byte>) | NotInFile

  /** The shape of a picture: it starts with FF D8 and its only FF D9 is at its end. */
  predicate IsJpeg(image: seq<byte>) {
    |image| >= 4 && image[..2] == JpegStart && image[|image| - 2..] == JpegEnd &&
    forall k :: 0 <= k < |image| - 2 ==> !MatchesAt(image, JpegEnd, k)
  }

  /** `bytes[a..a + |image|]` is `image`. */
  predicate SliceAt(bytes: seq<byte>, image: seq<byte>, a: int) {
    0 <= a && a + |image| <= |bytes| && bytes[a..a + |image|] == image
  }

  /** The block scan of `readAvatarToFile` from position `pos`: the
      current block runs from its marker to the next marker (or the last
      byte). A block that names the user but holds no JPEG start ends the
      scan of the file; one with a start but no end is skipped. */
  function ScanFrom(bytes: seq<byte>, userId: seq<byte>, pos: nat): (r: FileOutcome)
    requires pos <= |bytes|
    ensures r.Picture? ==> IsJpeg(r.image) && exists a :: SliceAt(bytes, r.image, a)
    decreases |bytes| - pos
  {
    if pos == |bytes| - 1 then NotInFile
    else
      var first := FirstMatch(bytes, BlockMarker, pos, |bytes|);
      if first == -1 then NotInFile
      else
        var next := FirstMatch(bytes, BlockMarker, first + 1, |bytes|);
        var end := if next == -1 then |bytes| - 1 else next;
        if FirstMatch(bytes, userId, first, end) != -1 then
          var start := FirstMatch(bytes, JpegStart, first, end);
          if start == -1 then NotInFile
          else
            var stop := FirstMatch(bytes, JpegEnd, start, end);
            if stop != -1 then
              PictureSlice(bytes, start, stop, end);
              Picture(bytes[start..stop + 2])
            else ScanFrom(bytes, userId, end)
        else ScanFrom(bytes, userId, end)
  }

  /** The bytes from a JPEG start to the first end marker after it form a picture. */
  lemma PictureSlice(bytes: seq<byte>, start: int, stop: int, bound: int)
    requires MatchesAt(bytes, JpegStart, start)
    requires FirstMatchAt(bytes, JpegEnd, start, bound, stop)
    ensures IsJpeg(bytes[start..stop + 2]) && SliceAt(bytes, bytes[start..stop + 2], start)
  {
    assert bytes[start] == JpegStart[0] && bytes[start + 1] == JpegStart[1];
    assert bytes[stop] == JpegEnd[0] && bytes[stop + 1] == JpegEnd[1];
    var image := bytes[start..stop + 2];
    assert image[..2] == JpegStart;
    assert image[|image| - 2..] == JpegEnd;
    forall k | 0 <= k < |image| - 2
      ensures !MatchesAt(image, JpegEnd, k)
    {
      assert !MatchesAt(bytes, JpegEnd, start + k);
    }
  }

  /** No byte of `s` is `b`. */
  predicate Avoids(s: seq<byte>, b: byte) {
    forall k :: 0 <= k < |s| ==> s[k] != b
  }

  /** A one-block file: the marker, the user id, and the picture. */
  function Embedded(userId: seq<byte>, image: seq<byte>): (bytes: seq<byte>)
    ensures |bytes| == 4 + |userId| + |image|
  {
    BlockMarker + userId + image
  }

  /** The byte of a one-block file at each position. */
  lemma EmbeddedBytes(userId: seq<byte>, image: seq<byte>)
    ensures var bytes := Embedded(userId, image);
      (forall k :: 0 <= k < 4 ==> bytes[k] == BlockMarker[k]) &&
      (forall k :: 0 <= k < |userId| ==> bytes[4 + k] == userId[k]) &&
      (forall k :: 0 <= k < |image| ==> bytes[4 + |userId| + k] == image[k])
  {
  }

  /** The byte of a picture `JpegStart + body + JpegEnd` at each position. */
  lemma PictureBytes(body: seq<byte>)
    ensures var image := JpegStart + body + JpegEnd;
      |image| == |body| + 4 && image[0] == 0xFF && image[1] == 0xD8 &&
      image[|image| - 2] == 0xFF && image[|image| - 1] == 0xD9 &&
      forall k :: 0 <= k < |body| ==> image[2 + k] == body[k]
  {
  }

  /** The id carries no marker byte, so the block marker occurs only at the front. */
  lemma EmbeddedMarkerOnce(userId: seq<byte>, body: seq<byte>)
    requires Avoids(userId, 0x6C) && Avoids(body, 0x6C)
    ensures var bytes := Embedded(userId, JpegStart + body + JpegEnd);
      FirstMatch(bytes, BlockMarker, 0, |bytes|) == 0 && FirstMatch(bytes, BlockMarker, 1, |bytes|) == -1
  {
    var image := JpegStart + body + JpegEnd;
    var bytes := Embedded(userId, image);
    var s := 4 + |userId|;
    EmbeddedBytes(userId, image);
    PictureBytes(body);
    assert MatchesAt(bytes, BlockMarker, 0);
    FirstMatchUnique(bytes, BlockMarker, 0, |bytes|, 0);
    forall k | 1 <= k < |bytes| && k + 4 <= |bytes|
      ensures !MatchesAt(bytes, BlockMarker, k)
    {
      var m := if k == 3 then 6 else k;
      assert bytes[m] != 0x6C by {
        if m >= s { assert bytes[m] == image[m - s]; }
        else if m >= 4 { assert bytes[m] == userId[m - 4]; }
      }
      assert BlockMarker[m - k] == 0x6C;
      assert bytes[k + (m - k)] != BlockMarker[m - k];
    }
  }

  /** The picture's start marker is the first in the block. */
  lemma EmbeddedPictureStart(userId: seq<byte>, body: seq<byte>)
    requires Avoids(userId, 0xFF)
    ensures var bytes := Embedded(userId, JpegStart + body + JpegEnd);
      FirstMatch(bytes, JpegStart, 0, |bytes| - 1) == 4 + |userId|
  {
    var image := JpegStart + body + JpegEnd;
    var bytes := Embedded(userId, image);
    var s := 4 + |userId|;
    EmbeddedBytes(userId, image);
    PictureBytes(body);
    assert MatchesAt(bytes, JpegStart, s);
    forall k | 0 <= k < s
      ensures !MatchesAt(bytes, JpegStart, k)
    {
      if k >= 4 { assert bytes[k] == userId[k - 4]; }
    }
    FirstMatchUnique(bytes, JpegStart, 0, |bytes| - 1, s);
  }

  /** The first end marker after the picture's start is its last two bytes. */
  lemma EmbeddedPictureEnd(userId: seq<byte>, body: seq<byte>)
    requires Avoids(body, 0xFF)
    ensures var bytes := Embedded(userId, JpegStart + body + JpegEnd);
      FirstMatch(bytes, JpegEnd, 4 + |userId|, |bytes| - 1) == |bytes| - 2
  {
    var image := JpegStart + body + JpegEnd;
    var bytes := Embedded(userId, image);
    var s := 4 + |userId|;
    var n := |bytes|;
    PictureBytes(body);
    assert MatchesAt(bytes, JpegEnd, n - 2);
    forall k | s <= k < n - 2
      ensures !MatchesAt(bytes, JpegEnd, k)
    {
      if k == s {
        assert bytes[k + 1] == image[1];
      } else if k == s + 1 {
        assert bytes[k] == image[1];
      } else {
        assert bytes[k] == image[k - s] == body[k - s - 2];
      }
    }
    FirstMatchUnique(bytes, JpegEnd, s, n - 1, n - 2);
  }

  /** The id follows the marker, and the picture ends the file. */
  lemma EmbeddedMentionsUser(userId: seq<byte>, image: seq<byte>)
    requires |image| >= 2
    ensures var bytes := Embedded(userId, image);
      FirstMatch(bytes, userId, 0, |bytes| - 1) != -1 && bytes[4 + |userId|..|bytes|] == image
  {
    var bytes := Embedded(userId, image);
    assert MatchesAt(bytes, userId, 4);
    assert bytes == BlockMarker + userId + image;
  }

  /** The scan of a file whose first block is the only one and holds the user's picture. */
  lemma ScanFirstBlock(bytes: seq<byte>, userId: seq<byte>, start: int, stop: int)
    requires |bytes| >= 2
    requires FirstMatch(bytes, BlockMarker, 0, |bytes|) == 0 && FirstMatch(bytes, BlockMarker, 1, |bytes|) == -1
    requires FirstMatch(bytes, userId, 0, |bytes| - 1) != -1
    requires start != -1 && FirstMatch(bytes, JpegStart, 0, |bytes| - 1) == start
    requires stop != -1 && FirstMatch(bytes, JpegEnd, start, |bytes| - 1) == stop
    ensures ScanFrom(bytes, userId, 0) == Picture(bytes[start..stop + 2])
  {
    var end := |bytes| - 1;
    assert 0 != end;
    assert FirstMatch(bytes, JpegStart, 0, end) == start && FirstMatch(bytes, JpegEnd, start, end) == stop;
  }

  /** A block for `userId` holding a picture is found again by the scan:
      the file is the marker, the id, and a JPEG, with no "l" or FF byte
      in the id or the JPEG's body and no "3" in the id. */
  lemma ScanFindsEmbeddedPicture(userId: seq<byte>, body: seq<byte>)
    requires Avoids(userId, 0x6C) && Avoids(userId, 0x33) && Avoids(userId, 0xFF)
    requires Avoids(body, 0x6C) && Avoids(body, 0xFF)
    ensures ScanFrom(Embedded(userId, JpegStart + body + JpegEnd), userId, 0) == Picture(JpegStart + body + JpegEnd)
  {
    var image := JpegStart + body + JpegEnd;
    var bytes := Embedded(userId, image);
    var n := |bytes|;
    var start := 4 + |userId|;
    assert FirstMatch(bytes, BlockMarker, 0, n) == 0 && FirstMatch(bytes, BlockMarker, 1, n) == -1 by {
      EmbeddedMarkerOnce(userId, body);
    }
    assert FirstMatch(bytes, JpegStart, 0, n - 1) == start by {
      EmbeddedPictureStart(userId, body);
    }
    assert FirstMatch(bytes, JpegEnd, start, n - 1) == n - 2 by {
      EmbeddedPictureEnd(userId, body);
    }
    assert FirstMatch(bytes, userId, 0, n - 1) != -1 && bytes[start..n] == image by {
      EmbeddedMentionsUser(userId, image);
    }
    ScanFirstBlock(bytes, userId, start, n - 2);
  }

  /** What `readAvatarToFile` writes: the first picture found, or the bundled dummy image. */
  datatype AvatarOutcome = WroteImage(image: seq<byte>) | WroteDummy

  /** The path of the `k`-th database file. */
  function DbbPath(profile: string, separator: string, k: nat): (r: string)
    requires k < |DbbFiles|
    ensures JavaText.StartsWith(r, profile + separator) && JavaText.EndsWith(r, DbbFiles[k])
  {
    var r := profile + separator + DbbFiles[k];
    assert r[..|profile + separator|] == profile + separator;
    assert r[|r| - |DbbFiles[k]|..] == DbbFiles[k];
    r
  }

  /** What database file `k` yields; a missing file yields nothing. */
  function FileResult(files: map<string, seq<byte>>, profile: string, separator: string, userId: seq<byte>, k: nat): FileOutcome
    requires k < |DbbFiles|
  {
    var path := DbbPath(profile, separator, k);
    if path in files then ScanFrom(files[path], userId, 0) else NotInFile
  }

  /** The files from the `k`-th on, in order. */
  function ReadFrom(files: map<string, seq<byte>>, profile: string, separator: string, userId: seq<byte>, k: nat): (r: AvatarOutcome)
    requires k <= |DbbFiles|
    ensures r.WroteDummy? <==>
      forall i :: k <= i < |DbbFiles| ==> FileResult(files, profile, separator, userId, i).NotInFile?
    ensures r.WroteImage? ==>
      exists i :: k <= i < |DbbFiles| && FirstPictureAt(files, profile, separator, userId, k, i) &&
        FileResult(files, profile, separator, userId, i) == Picture(r.image)
    decreases |DbbFiles| - k
  {
    if k == |DbbFiles| then WroteDummy
    else match FileResult(files, profile, separator, userId, k)
      case Picture(image) =>
        assert FirstPictureAt(files, profile, separator, userId, k, k);
        WroteImage(image)
      case NotInFile =>
        var r := ReadFrom(files, profile, separator, userId, k + 1);
        if r.WroteImage? then
          var i :| k + 1 <= i < |DbbFiles| && FirstPictureAt(files, profile, separator, userId, k + 1, i) &&
            FileResult(files, profile, separator, userId, i) == Picture(r.image);
          assert FirstPictureAt(files, profile, separator, userId, k, i);
          r
        else r
  }

  /** File `i` is the first from `k` on that yields a picture. */
  predicate FirstPictureAt(files: map<string, seq<byte>>, profile: string, separator: string, userId: seq<byte>, k: nat, i: nat)
    requires k <= i < |DbbFiles|
  {
    FileResult(files, profile, separator, userId, i).Picture? &&
    forall j :: k <= j < i ==> FileResult(files, profile, separator, userId, j).NotInFile?
  }

  /** `readAvatarToFile(userId, path)`: the first picture any database file yields, else the dummy. */
  function ReadAvatarToFile(files: map<string, seq<byte>>, profile: string, separator: string, userId: seq<byte>): (r: AvatarOutcome)
    ensures r.WroteDummy? <==>
      forall i :: 0 <= i < |DbbFiles| ==> FileResult(files, profile, separator, userId, i).NotInFile?
    ensures r.WroteImage? ==> IsJpeg(r.image)
    ensures r.WroteImage? ==>
      exists i :: 0 <= i < |DbbFiles| && FirstPictureAt(files, profile, separator, userId, 0, i) &&
        FileResult(files, profile, separator, userId, i) == Picture(r.image)
  {
    ReadFrom(files, profile, separator, userId, 0)
  }
}

=== FILE: chat_message.dfy ===
/** com.skype.ChatMessage: the USERS property of a chat message, read as
    the users it was sent to, and the CHATNAME property, read as the chat
    the message belongs to. A chat message is identified by its id, as
    its `equals` and `hashCode` are. */
module ChatMessage {
  import opened Wrappers
  import opened JavaText
  import opened SkypeUtils
  import Connector

  /** The request behind `getProperty(name)` of a chat message. */
  function PropertyRequest(id: string, name: string): (r: Request)
    ensures r.command == "GET CHATMESSAGE " + id + " " + name
    ensures r.header == "CHATMESSAGE " + id + " " + name + " "
  {
    GetObjectProperty("CHATMESSAGE", id, name)
  }

  /** `getAllUsers()`: the ids in the USERS value, none for "", otherwise
      one User per space-separated id in order. */
  function AllUsers(id: string, reply: Result<Option<string>, Connector.ConnectorError>): (r: Result<seq<string>, SkypeError>)
    ensures var value := PropertyValue(PropertyRequest(id, "USERS").header, reply);
      (r.Success? <==> value.Success?) &&
      (value == Success("") ==> r == Success([])) &&
      (r.Success? ==> r.value == SpaceList(value.value))
  {
    match PropertyValue(PropertyRequest(id, "USERS").header, reply)
    case Failure(e) => Failure(e)
    case Success(value) => Success(SpaceList(value))
  }

  /** The users Skype lists for a message come back in order. */
  lemma AllUsersRoundTrip(id: string, users: seq<string>)
    requires |users| > 0 && users[|users| - 1] != ""
    requires forall k :: 0 <= k < |users| ==> ' ' !in users[k]
    ensures var header := PropertyRequest(id, "USERS").header;
      AllUsers(id, Success(Some(header + Join(users, " ")))) == Success(users)
  {
    var header := PropertyRequest(id, "USERS").header;
    var list := Join(users, " ");
    assert AllUsers(id, Success(Some(header + list))) == Success(SpaceList(list)) by {
      UsersValue(id, list);
    }
    assert SpaceList(list) == users by {
      SpaceListJoin(users);
    }
  }

  /** The USERS reply for a message carries its value after the header. */
  lemma UsersValue(id: string, list: string)
    ensures var header := PropertyRequest(id, "USERS").header;
      PropertyValue(header, Success(Some(header + list))) == Success(list)
  {
    var header := PropertyRequest(id, "USERS").header;
    assert !StartsWith(header + list, ErrorPrefix) by {
      assert (header + list)[0] == 'C';
    }
    PropertyValueRoundTrip(header, list);
  }

  /** An empty USERS value gives no users. */
  lemma NoUsers(id: string)
    ensures var header := PropertyRequest(id, "USERS").header;
      AllUsers(id, Success(Some(header))) == Success([])
  {
    var header := PropertyRequest(id, "USERS").header;
    assert !StartsWith(header + "", ErrorPrefix) by {
      assert (header + "")[0] == 'C';
    }
    PropertyValueRoundTrip(header, "");
    assert header + "" == header;
  }

  /** `getChat()`: the chat named by the CHATNAME value; a failed read is passed on. */
  function ChatOf(id: string, reply: Result<Option<string>, Connector.ConnectorError>): (r: Result<string, SkypeError>)
    ensures reply.Failure? ==> r == Failure(ConvertToSkypeException(reply.error))
    ensures r.Success? ==> reply.Success? && reply.value.Some? && EndsWith(reply.value.value, r.value)
  {
    PropertyValue(PropertyRequest(id, "CHATNAME").header, reply)
  }

  /** The chat whose name Skype reports is the chat returned. */
  lemma ChatOfNamed(id: string, chatName: string)
    ensures var header := PropertyRequest(id, "CHATNAME").header;
      ChatOf(id, Success(Some(header + chatName))) == Success(chatName)
  {
    var header := PropertyRequest(id, "CHATNAME").header;
    assert !StartsWith(header + chatName, ErrorPrefix) by {
      assert (header + chatName)[0] == 'C';
    }
    PropertyValueRoundTrip(header, chatName);
  }
}

=== FILE: connector.dfy ===
/** The platform-independent half of com.skype.connector.Connector: choice of
    the platform connector, the attach status, the two listener lists and
    their notification order, command tagging and reply correlation, and the
    initialise/dispose flag. Threads and monitors are abstracted: a command's
    wait is described by the messages delivered while it waits and by whether
    the elapsed time reached the command timeout. */
module Connector {
  import opened Wrappers
  import opened JavaText

  /** `Connector.Status` */
  datatype Status = PendingAuthorization | Attached | Refused | NotAvailable | ApiAvailable | NotRunning

  // ---------------------------------------------------------------------
  // Choice of the platform connector
  // ---------------------------------------------------------------------

  /** The platform connector classes `getInstance` can load. */
  datatype Implementation = Win32Connector | WindowsConnector | LinuxConnector | OSXConnector

  /** The static fields `_useJNIConnector` and `_instance` (only the instance's class matters). */
  datatype Selection = Selection(useJni: bool, instance: Option<Implementation>)

  /** IllegalStateException raised by the static methods. */
  datatype SelectionError = PlatformNotSupported | AlreadyCreated

  const NoSelection := Selection(false, None)

  predicate IsWindows(osName: string) {
    StartsWith(osName, "Windows")
  }

  predicate IsLinux(osName: string) {
    StartsWith(osName, "Linux") || StartsWith(osName, "LINUX")
  }

  predicate IsMac(osName: string) {
    StartsWith(osName, "Mac OS X")
  }

  /** `useJNIConnector(on)`: refused once a connector exists. */
  function UseJniConnector(sel: Selection, on: bool): (r: Result<Selection, SelectionError>)
    ensures r.Failure? <==> sel.instance.Some?
    ensures r.Success? ==> r.value.useJni == on && r.value.instance.None?
  {
    if sel.instance.Some? then Failure(AlreadyCreated) else Success(sel.(useJni := on))
  }

  /** `getInstance()`: the singleton, created on first use from the `os.name` prefix. */
  function GetInstance(sel: Selection, osName: string, swtAvailable: bool): (r: Result<(Selection, Implementation), SelectionError>)
    ensures sel.instance.Some? ==> r == Success((sel, sel.instance.value))
    ensures sel.instance.None? ==>
      (r.Failure? <==> !IsWindows(osName) && !IsLinux(osName) && !IsMac(osName))
    ensures r.Success? ==> r.value.0.instance == Some(r.value.1)
    ensures r.Success? && sel.instance.None? ==>
      (r.value.1 == Win32Connector <==> IsWindows(osName) && (!swtAvailable || sel.useJni)) &&
      (r.value.1 == WindowsConnector <==> IsWindows(osName) && swtAvailable && !sel.useJni) &&
      (r.value.1 == LinuxConnector <==> !IsWindows(osName) && IsLinux(osName)) &&
      (r.value.1 == OSXConnector <==> !IsWindows(osName) && !IsLinux(osName) && IsMac(osName))
  {
    if sel.instance.Some? then Success((sel, sel.instance.value))
    else if IsWindows(osName) then
      var jni := sel.useJni || !swtAvailable;
      var impl := if jni then Win32Connector else WindowsConnector;
      Success((Selection(jni, Some(impl)), impl))
    else if IsLinux(osName) then Success((sel.(instance := Some(LinuxConnector)), LinuxConnector))
    else if IsMac(osName) then Success((sel.(instance := Some(OSXConnector)), OSXConnector))
    else Failure(PlatformNotSupported)
  }

  /** Once a connector exists, later calls return it whatever the platform
      reports, and the JNI flag can no longer be changed. */
  lemma GetInstanceIsStable(sel: Selection, os1: string, swt1: bool, os2: string, swt2: bool, on: bool)
    requires GetInstance(sel, os1, swt1).Success?
    ensures var (sel1, impl) := GetInstance(sel, os1, swt1).value;
      GetInstance(sel1, os2, swt2) == Success((sel1, impl)) &&
      UseJniConnector(sel1, on) == Failure(AlreadyCreated)
  {
  }

  // ---------------------------------------------------------------------
  // Listener lists and notification
  // ---------------------------------------------------------------------

  /** A registered ConnectorListener, compared by identity. */
  datatype Listener = Listener(id: nat)

  /** The mutable state of a connector instance. `commandCount` is a Java `int`. */
  datatype ConnectorState = ConnectorState(
    status: Status,
    syncListeners: seq<Listener>,
    asyncListeners: seq<Listener>,
    commandCount: int,
    initialized: bool)

  /** A fresh connector: NOT_RUNNING, no listeners, counter 0, not initialised. */
  const NewConnector := ConnectorState(NotRunning, [], [], 0, false)

  /** The two single-thread executors that deliver events. */
  datatype Sender = SyncSender | AsyncSender

  /** What a scheduled task delivers to the listeners of its list. */
  datatype Notice = StatusChanged(status: Status) | MessageReceived(message: string) | MessageSent(message: string)

  datatype Task = Task(sender: Sender, notice: Notice)

  /** The tasks `fireStatusChanged`/`fireMessageEvent` schedule: one for each non-empty list, synchronous first. */
  function Schedule(st: ConnectorState, notice: Notice): (r: seq<Task>)
    ensures |r| == (if |st.syncListeners| > 0 then 1 else 0) + (if |st.asyncListeners| > 0 then 1 else 0)
    ensures forall k :: 0 <= k < |r| ==> r[k].notice == notice
    ensures Task(SyncSender, notice) in r <==> |st.syncListeners| > 0
    ensures Task(AsyncSender, notice) in r <==> |st.asyncListeners| > 0
    ensures |r| == 2 ==> r[0].sender == SyncSender
  {
    (if |st.syncListeners| > 0 then [Task(SyncSender, notice)] else []) +
    (if |st.asyncListeners| > 0 then [Task(AsyncSender, notice)] else [])
  }

  /** `setStatus(s)`: records `s` and schedules one status event per non-empty list. */
  function SetStatus(st: ConnectorState, s: Status): (r: (ConnectorState, seq<Task>))
    ensures r.0.status == s
    ensures r.0.syncListeners == st.syncListeners && r.0.asyncListeners == st.asyncListeners
    ensures r.0.commandCount == st.commandCount && r.0.initialized == st.initialized
    ensures r.1 == Schedule(st, StatusChanged(s))
  {
    (st.(status := s), Schedule(st, StatusChanged(s)))
  }

  /** The listeners of `ls` from the last registered to the first. */
  function Reversed(ls: seq<Listener>): (r: seq<Listener>)
    ensures |r| == |ls|
  {
    if |ls| == 0 then [] else [ls[|ls| - 1]] + Reversed(ls[..|ls| - 1])
  }

  /** The order in which one event reaches the listeners of a list
      (`fireStatusChanged`/`fireMessageEvent` count down from the end). */
  method NotificationOrder(ls: seq<Listener>) returns (calls: seq<Listener>)
    ensures calls == Reversed(ls)
  {
    calls := [];
    var i := |ls| - 1;
    while 0 <= i
      invariant -1 <= i < |ls|
      invariant calls == Reversed(ls[i + 1..])
    {
      assert ls[i..][1..] == ls[i + 1..];
      assert ls[i..][..|ls[i..]| - 1] == ls[i..|ls| - 1];
      ReversedAppend(ls[i + 1..], ls[i]);
      assert ls[i..] == [ls[i]] + ls[i + 1..];
      calls := calls + [ls[i]];
      i := i - 1;
    }
    assert ls[0..] == ls;
  }

  /** Reversing `[x] + ls` puts `x` last. */
  lemma {:induction false} ReversedAppend(ls: seq<Listener>, x: Listener)
    ensures Reversed([x] + ls) == Reversed(ls) + [x]
    decreases |ls|
  {
    if |ls| > 0 {
      var xs := [x] + ls;
      assert xs[|xs| - 1] == ls[|ls| - 1];
      assert xs[..|xs| - 1] == [x] + ls[..|ls| - 1];
      ReversedAppend(ls[..|ls| - 1], x);
    } else {
      assert Reversed([x]) == [x] + Reversed([]);
    }
  }

  /** The listener at position `k` of the list is the `|ls|-1-k`-th to be notified. */
  lemma {:induction false} ReversedIndex(ls: seq<Listener>, k: nat)
    requires k < |ls|
    ensures Reversed(ls)[|ls| - 1 - k] == ls[k]
    decreases |ls|
  {
    if k < |ls| - 1 {
      ReversedIndex(ls[..|ls| - 1], k);
    }
  }

  /** A listener registered later is notified earlier. */
  lemma LaterRegisteredNotifiedFirst(ls: seq<Listener>, i: nat, j: nat)
    requires i < j < |ls|
    ensures Reversed(ls)[|ls| - 1 - j] == ls[j] && Reversed(ls)[|ls| - 1 - i] == ls[i]
    ensures |ls| - 1 - j < |ls| - 1 - i
  {
    ReversedIndex(ls, i);
    ReversedIndex(ls, j);
  }

  /** `addConnectorListener(l, _, isSynchronous)` without the attach check:
      appends to exactly one list (duplicates allowed). */
  function AddListener(st: ConnectorState, l: Listener, isSync: bool): (r: ConnectorState)
    ensures r.status == st.status && r.commandCount == st.commandCount && r.initialized == st.initialized
    ensures isSync ==> r.syncListeners == st.syncListeners + [l] && r.asyncListeners == st.asyncListeners
    ensures !isSync ==> r.asyncListeners == st.asyncListeners + [l] && r.syncListeners == st.syncListeners
  {
    if isSync then st.(syncListeners := st.syncListeners + [l])
    else st.(asyncListeners := st.asyncListeners + [l])
  }

  /** The index of the first occurrence of `l`. */
  function Position<T(==)>(ls: seq<T>, l: T): (i: nat)
    requires l in ls
    ensures i < |ls| && ls[i] == l && l !in ls[..i]
  {
    if ls[0] == l then 0
    else
      var i := 1 + Position(ls[1..], l);
      assert ls[..i] == [ls[0]] + ls[1..][..i - 1];
      i
  }

  /** `List.remove(l)`: deletes the first occurrence of `l`, if any. */
  function RemoveFirst<T(==)>(ls: seq<T>, l: T): seq<T> {
    if l in ls then ls[..Position(ls, l)] + ls[Position(ls, l) + 1..] else ls
  }

  /** Removal takes out exactly one copy of a registered listener and keeps every other entry. */
  lemma RemoveFirstCount<T>(ls: seq<T>, l: T)
    ensures l in ls ==> |RemoveFirst(ls, l)| == |ls| - 1
    ensures multiset(RemoveFirst(ls, l)) == multiset(ls) - multiset{l}
  {
    if l in ls {
      var i := Position(ls, l);
      assert ls == ls[..i] + [l] + ls[i + 1..];
    }
  }

  /** `removeConnectorListener(l)`: removes the first occurrence from each list. */
  function RemoveListener(st: ConnectorState, l: Listener): (r: ConnectorState)
    ensures r.status == st.status && r.commandCount == st.commandCount && r.initialized == st.initialized
    ensures l !in st.syncListeners && l !in st.asyncListeners ==> r == st
  {
    st.(syncListeners := RemoveFirst(st.syncListeners, l), asyncListeners := RemoveFirst(st.asyncListeners, l))
  }

  lemma RemoveFirstAppended(ls: seq<Listener>, l: Listener)
    requires l !in ls
    ensures RemoveFirst(ls + [l], l) == ls
  {
    var xs := ls + [l];
    var i := Position(xs, l);
    assert xs[..|ls|] == ls;
  }

  /** Adding a listener that is not registered and then removing it restores both lists. */
  lemma AddThenRemove(st: ConnectorState, l: Listener, isSync: bool)
    requires l !in st.syncListeners && l !in st.asyncListeners
    ensures RemoveListener(AddListener(st, l, isSync), l) == st
  {
    if isSync {
      RemoveFirstAppended(st.syncListeners, l);
    } else {
      RemoveFirstAppended(st.asyncListeners, l);
    }
  }

  // ---------------------------------------------------------------------
  // Connecting
  // ---------------------------------------------------------------------

  /** ConnectorException and its subclasses. */
  datatype ConnectorError = NotAttached(status: Status) | TimeOut(message: string) | OtherFailure(message: string)

  /** The command `connect()` sends once the platform reports ATTACHED. */
  const ProtocolCommand := "PROTOCOL 9999"

  /** The message of the NullPointerException `ConnectorUtils.checkNotNull`
      throws; unlike the one in `com.skype.Utils` it has no space after "The". */
  function NullArgumentMessage(name: string): string {
    "The" + name + " must not be null."
  }

  /** What the platform connector does during one `connect()`: the
      exception its `initialize()` raises, if any (it runs only on a
      connector not yet initialised); what its `connect(timeout)` reports or
      raises; the NAME command its `sendApplicationName` sends (`None` for
      the base class's empty method, which the Linux and OS X connectors
      keep, while the Windows and Win32 connectors send "NAME <application>"
      and wait for it to be echoed); and whether the NAME and the
      "PROTOCOL 9999" exchanges reach the command timeout. */
  datatype Platform = Platform(initFailure: Option<ConnectorError>, connectOutcome: Result<Status, ConnectorError>,
                               nameCommand: Option<string>, nameTimedOut: bool, protocolTimedOut: bool)

  /** `initialize()` is not needed or returns normally. */
  predicate InitializeReturns(st: ConnectorState, p: Platform) {
    st.initialized || p.initFailure.None?
  }

  /** The status the platform `connect(timeout)` reports, when it is reached and returns. */
  function Reported(st: ConnectorState, p: Platform): Option<Status> {
    if InitializeReturns(st, p) && p.connectOutcome.Success? then Some(p.connectOutcome.value) else None
  }

  /** The exception `initialize()` or the platform `connect(timeout)` raises, if any. */
  function PlatformFailure(st: ConnectorState, p: Platform): Option<ConnectorError> {
    if !InitializeReturns(st, p) then p.initFailure
    else if p.connectOutcome.Failure? then Some(p.connectOutcome.error)
    else None
  }

  /** The NAME exchange happens and reaches the command timeout. */
  predicate NameTimesOut(p: Platform) {
    p.nameCommand.Some? && p.nameTimedOut
  }

  /** What `connect()` sends once the platform reports ATTACHED: the NAME
      command, if the platform has one, then PROTOCOL 9999 unless the NAME
      exchange timed out. */
  function ConnectSent(p: Platform): (r: seq<string>)
    ensures |r| == (if p.nameCommand.Some? then 1 else 0) + (if NameTimesOut(p) then 0 else 1)
    ensures !NameTimesOut(p) ==> r[|r| - 1] == ProtocolCommand
    ensures p.nameCommand.None? ==> r == [ProtocolCommand]
    ensures p.nameCommand.Some? ==> |r| > 0 && r[0] == p.nameCommand.value
  {
    (if p.nameCommand.Some? then [p.nameCommand.value] else []) + (if NameTimesOut(p) then [] else [ProtocolCommand])
  }

  /** `connect()` attaches: the platform reports ATTACHED and neither the
      NAME nor the PROTOCOL exchange times out. */
  predicate Attaches(st: ConnectorState, p: Platform) {
    Reported(st, p) == Some(Attached) && !NameTimesOut(p) && !p.protocolTimedOut
  }

  /** The result of `connect()`: new state, whether `initialize()` ran to
      completion, the commands sent after attaching, the events scheduled
      meanwhile, and the status or exception. */
  datatype Connection = Connection(state: ConnectorState, initializeRan: bool, sent: seq<string>,
                                   tasks: seq<Task>, result: Result<Status, ConnectorError>)

  /** One command `connect()` sends with `execute(command, headers, false)`:
      its MessageSent event, and on a timeout NOT_RUNNING with its status
      event and NotAttachedException, which the `catch (TimeOutException)`
      around it does not intercept. While the command waits, its temporary
      listener keeps the asynchronous list non-empty, so its events always
      reach the asynchronous sender; which listener stands for it does not
      matter to `Schedule`. */
  function ConnectExchange(st: ConnectorState, command: string, timedOut: bool): (r: (ConnectorState, seq<Task>))
    ensures r.0 == (if timedOut then st.(status := NotRunning) else st)
    ensures Task(AsyncSender, MessageSent(command)) in r.1
    ensures timedOut <==> Task(AsyncSender, StatusChanged(NotRunning)) in r.1
  {
    var waiting := AddListener(st, Listener(0), false);
    var sentTasks := Schedule(waiting, MessageSent(command));
    if timedOut then (st.(status := NotRunning), sentTasks + Schedule(waiting, StatusChanged(NotRunning)))
    else (st, sentTasks)
  }

  /** What `connect()` does once the platform has reported ATTACHED: the
      NAME exchange, if the platform has one, and then PROTOCOL 9999 unless
      the NAME exchange timed out. */
  function AttachExchanges(st: ConnectorState, p: Platform): (r: Connection)
    ensures r.sent == ConnectSent(p) && !r.initializeRan
    ensures forall k :: 0 <= k < |r.sent| ==> Task(AsyncSender, MessageSent(r.sent[k])) in r.tasks
    ensures NameTimesOut(p) || p.protocolTimedOut ==>
      r.result == Failure(NotAttached(NotRunning)) && r.state == st.(status := NotRunning) &&
      Task(AsyncSender, StatusChanged(NotRunning)) in r.tasks
    ensures !NameTimesOut(p) && !p.protocolTimedOut ==> r.result == Success(st.status) && r.state == st
  {
    var (named, nameTasks) :=
      if p.nameCommand.Some? then ConnectExchange(st, p.nameCommand.value, p.nameTimedOut) else (st, []);
    if NameTimesOut(p) then Connection(named, false, [p.nameCommand.value], nameTasks, Failure(NotAttached(NotRunning)))
    else
      var (done, protocolTasks) := ConnectExchange(named, ProtocolCommand, p.protocolTimedOut);
      var tasks := nameTasks + protocolTasks;
      var sent := ConnectSent(p);
      assert forall k :: 0 <= k < |sent| ==> Task(AsyncSender, MessageSent(sent[k])) in tasks by {
        if p.nameCommand.Some? {
          assert sent == [p.nameCommand.value, ProtocolCommand];
        }
      }
      Connection(done, false, sent, tasks, if p.protocolTimedOut then Failure(NotAttached(NotRunning)) else Success(st.status))
  }

  /** `connect()`. The platform `connect(timeout)` records the status it
      reports through `setStatus` before it returns `getStatus()`, so that
      status is recorded here with its status event; the intermediate
      statuses a platform may pass through on the way (PENDING_AUTHORIZATION
      while Skype asks the user) are not. On ATTACHED, `sendApplicationName`
      and PROTOCOL 9999 follow. */
  function Connect(st: ConnectorState, p: Platform): (r: Connection)
    ensures r.initializeRan <==> !st.initialized && p.initFailure.None?
    ensures r.state.initialized <==> InitializeReturns(st, p)
    ensures r.state.syncListeners == st.syncListeners && r.state.asyncListeners == st.asyncListeners
    ensures r.state.commandCount == st.commandCount
    ensures r.result.Success? ==> r.result.value == r.state.status
    ensures forall k :: 0 <= k < |r.sent| ==> Task(AsyncSender, MessageSent(r.sent[k])) in r.tasks
    ensures PlatformFailure(st, p).Some? ==>
      r.result == Failure(PlatformFailure(st, p).value) && r.sent == [] && r.tasks == [] &&
      r.state == st.(initialized := InitializeReturns(st, p))
    ensures Reported(st, p).Some? ==>
      var reported := Schedule(st, StatusChanged(Reported(st, p).value));
      |reported| <= |r.tasks| && r.tasks[..|reported|] == reported
    ensures Reported(st, p).Some? && Reported(st, p) != Some(Attached) ==>
      r.result == Success(Reported(st, p).value) && r.sent == [] &&
      r.state == st.(initialized := true, status := Reported(st, p).value) &&
      r.tasks == Schedule(st, StatusChanged(Reported(st, p).value))
    ensures Reported(st, p) == Some(Attached) ==> r.sent == ConnectSent(p)
    ensures Reported(st, p) == Some(Attached) && !Attaches(st, p) ==>
      r.result == Failure(NotAttached(NotRunning)) && r.state == st.(initialized := true, status := NotRunning) &&
      Task(AsyncSender, StatusChanged(NotRunning)) in r.tasks
    ensures r.result == Success(Attached) <==> Attaches(st, p)
    ensures Attaches(st, p) ==> r.state == st.(initialized := true, status := Attached)
  {
    if !InitializeReturns(st, p) then Connection(st, false, [], [], Failure(p.initFailure.value))
    else
      var ready := st.(initialized := true);
      match p.connectOutcome
      case Failure(e) => Connection(ready, !st.initialized, [], [], Failure(e))
      case Success(ps) =>
        var (recorded, reported) := SetStatus(ready, ps);
        if ps != Attached then Connection(recorded, !st.initialized, [], reported, Success(ps))
        else
          var a := AttachExchanges(recorded, p);
          var tasks := reported + a.tasks;
          assert tasks[..|reported|] == reported;
          assert forall k :: 0 <= k < |a.sent| ==> Task(AsyncSender, MessageSent(a.sent[k])) in tasks;
          assert Task(AsyncSender, StatusChanged(NotRunning)) in a.tasks ==> Task(AsyncSender, StatusChanged(NotRunning)) in tasks;
          a.(initializeRan := !st.initialized, tasks := tasks)
  }

  /** What `assureAttached` leaves behind: the new state, the commands
      `connect()` sent, the events it scheduled, and the exception, if any. */
  datatype Attachment = Attachment(state: ConnectorState, sent: seq<string>, tasks: seq<Task>, error: Option<ConnectorError>)

  /** The connector would go out to Skype: it is attached, or `connect()` attaches it. */
  predicate AttachSucceeds(st: ConnectorState, p: Platform) {
    st.status == Attached || Attaches(st, p)
  }

  /** `assureAttached`: nothing to do when ATTACHED; otherwise `connect()`
      runs (initialising the connector and sending NAME and PROTOCOL) and
      must report ATTACHED. */
  function AssureAttached(st: ConnectorState, p: Platform): (r: Attachment)
    ensures st.status == Attached ==> r == Attachment(st, [], [], None)
    ensures r.error.None? <==> AttachSucceeds(st, p)
    ensures st.status != Attached ==> (r.state.initialized <==> InitializeReturns(st, p))
    ensures r.state.syncListeners == st.syncListeners && r.state.asyncListeners == st.asyncListeners
    ensures r.state.commandCount == st.commandCount
    ensures st.status != Attached && PlatformFailure(st, p).Some? ==>
      r.error == PlatformFailure(st, p) && r.sent == [] && r.tasks == [] &&
      r.state == st.(initialized := InitializeReturns(st, p))
    ensures st.status != Attached && Reported(st, p).Some? && Reported(st, p) != Some(Attached) ==>
      r.error == Some(NotAttached(Reported(st, p).value)) && r.sent == [] &&
      r.state == st.(initialized := true, status := Reported(st, p).value)
    ensures st.status != Attached && Reported(st, p) == Some(Attached) ==> r.sent == ConnectSent(p)
    ensures st.status != Attached && Reported(st, p) == Some(Attached) && !Attaches(st, p) ==>
      r.error == Some(NotAttached(NotRunning)) && r.state.status == NotRunning
    ensures r.error.None? ==> r.state == st.(initialized := st.initialized || st.status != Attached, status := Attached)
  {
    if st.status == Attached then Attachment(st, [], [], None)
    else
      var c := Connect(st, p);
      match c.result
      case Failure(e) => Attachment(c.state, c.sent, c.tasks, Some(e))
      case Success(s) => Attachment(c.state, c.sent, c.tasks, if s == Attached then None else Some(NotAttached(s)))
  }

  /** `assureAttached` on an unattached connector is `connect()` followed by
      the status check: it keeps `connect()`'s state, commands and events. */
  lemma AssureAttachedConnects(st: ConnectorState, p: Platform)
    requires st.status != Attached
    ensures var c := Connect(st, p);
      var a := AssureAttached(st, p);
      a.state == c.state && a.sent == c.sent && a.tasks == c.tasks &&
      (a.error.None? <==> c.result == Success(Attached))
  {
  }

  /** `addConnectorListener(l, checkAttached, isSynchronous)`: the listener is
      appended first and the attach check runs afterwards, so a listener
      whose attach check fails stays registered. */
  function AddConnectorListener(st: ConnectorState, l: Listener, checkAttached: bool, isSync: bool, p: Platform): (r: Attachment)
    ensures r.state.syncListeners == AddListener(st, l, isSync).syncListeners
    ensures r.state.asyncListeners == AddListener(st, l, isSync).asyncListeners
    ensures !checkAttached ==> r == Attachment(AddListener(st, l, isSync), [], [], None)
    ensures r.error.Some? <==> checkAttached && !AttachSucceeds(st, p)
    ensures checkAttached && r.error.None? ==>
      r.state == AddListener(st, l, isSync).(initialized := st.initialized || st.status != Attached, status := Attached)
  {
    var added := AddListener(st, l, isSync);
    if checkAttached then AssureAttached(added, p)
    else Attachment(added, [], [], None)
  }

  /** A failed attach check does not undo the registration: the listener is
      the last entry of its list whatever `connect()` reports. */
  lemma ListenerKeptWhenAttachFails(st: ConnectorState, l: Listener, isSync: bool, p: Platform)
    requires !AttachSucceeds(st, p)
    ensures var r := AddConnectorListener(st, l, true, isSync, p);
      r.error.Some? && l in (if isSync then r.state.syncListeners else r.state.asyncListeners) &&
      RemoveListener(r.state, l).syncListeners == RemoveListener(AddListener(st, l, isSync), l).syncListeners
  {
  }

  // ---------------------------------------------------------------------
  // Commands and replies
  // ---------------------------------------------------------------------

  predicate MatchesAny(message: string, headers: seq<string>) {
    exists h :: h in headers && StartsWith(message, h)
  }

  /** The message at `i` matches and none before it does. */
  predicate FirstMatchAt(received: seq<string>, headers: seq<string>, i: int) {
    0 <= i < |received| && MatchesAny(received[i], headers) &&
    forall j :: 0 <= j < i ==> !MatchesAny(received[j], headers)
  }

  /** The reply picked by the temporary listener: the first delivered message
      starting with one of the expected headers. */
  function MatchReply(received: seq<string>, headers: seq<string>): (r: Option<string>)
    ensures r.None? <==> forall j :: 0 <= j < |received| ==> !MatchesAny(received[j], headers)
    ensures r.Some? ==> MatchesAny(r.value, headers)
    ensures r.Some? ==> exists i :: FirstMatchAt(received, headers, i) && received[i] == r.value
  {
    if |received| == 0 then None
    else if MatchesAny(received[0], headers) then Some(received[0])
    else
      var r := MatchReply(received[1..], headers);
      assert forall j :: 1 <= j < |received| ==> received[j] == received[1..][j - 1];
      if r.Some? then
        var i :| FirstMatchAt(received[1..], headers, i) && received[1..][i] == r.value;
        assert FirstMatchAt(received, headers, i + 1);
        r
      else r
  }

  /** How one command's wait went: what the platform would do if the
      connector has to attach first, the messages delivered while the
      command waits, and whether that wait reached the command timeout. */
  datatype Wait = Wait(platform: Platform, received: seq<string>, timedOut: bool)

  /** The effect of one `execute`: the new state, the commands sent in order
      (PROTOCOL first when the connector attached on the way), the events
      scheduled, and the reply (`None` for a null reply). */
  datatype Exchange = Exchange(state: ConnectorState, sent: seq<string>, tasks: seq<Task>, reply: Result<Option<string>, ConnectorError>)

  /** The command itself goes out: no attach check is asked for, or it passes. */
  predicate CommandGoesOut(st: ConnectorState, checkAttached: bool, w: Wait) {
    !checkAttached || AttachSucceeds(st, w.platform)
  }

  /** The private `execute(command, responseHeaders, checkAttached, withoutTimeout)`.
      `probe` is the freshly created temporary listener. */
  function Execute(st: ConnectorState, command: string, headers: seq<string>, checkAttached: bool,
                   withoutTimeout: bool, w: Wait, probe: Listener): (r: Exchange)
    requires probe !in st.syncListeners && probe !in st.asyncListeners
    ensures r.state.syncListeners == st.syncListeners && r.state.asyncListeners == st.asyncListeners
    ensures r.state.commandCount == st.commandCount
    ensures !checkAttached || st.status == Attached ==> r.sent == [command] && r.state.initialized == st.initialized
    ensures checkAttached && st.status != Attached ==> (r.state.initialized <==> InitializeReturns(st, w.platform))
    ensures checkAttached && st.status != Attached && PlatformFailure(st, w.platform).Some? ==>
      r.sent == [] && r.tasks == [] && r.state == st.(initialized := InitializeReturns(st, w.platform)) &&
      r.reply == Failure(PlatformFailure(st, w.platform).value)
    ensures var reported := Reported(st, w.platform);
      checkAttached && st.status != Attached && reported.Some? && reported != Some(Attached) ==>
        r.sent == [] && r.tasks == Schedule(st, StatusChanged(reported.value)) &&
        r.state == st.(initialized := true, status := reported.value) && r.reply == Failure(NotAttached(reported.value))
    ensures checkAttached && st.status != Attached && Reported(st, w.platform) == Some(Attached) && !Attaches(st, w.platform) ==>
      r.sent == ConnectSent(w.platform) && r.state.status == NotRunning && r.reply == Failure(NotAttached(NotRunning))
    ensures checkAttached && st.status != Attached && Attaches(st, w.platform) ==>
      r.sent == ConnectSent(w.platform) + [command]
    ensures CommandGoesOut(st, checkAttached, w) && !withoutTimeout && w.timedOut ==>
      r.state.status == NotRunning && r.reply == Failure(NotAttached(NotRunning))
    ensures CommandGoesOut(st, checkAttached, w) && (withoutTimeout || !w.timedOut) ==>
      r.state == st.(initialized := st.initialized || (checkAttached && st.status != Attached),
                     status := if checkAttached then Attached else st.status) &&
      r.reply == Success(MatchReply(w.received, headers))
    ensures checkAttached && r.reply.Success? ==> r.state.status == Attached
    ensures r.reply.Success? && r.reply.value.Some? ==> MatchesAny(r.reply.value.value, headers)
  {
    var attach := if checkAttached then AssureAttached(st, w.platform) else Attachment(st, [], [], None);
    if attach.error.Some? then Exchange(attach.state, attach.sent, attach.tasks, Failure(attach.error.value))
    else
      var ready := attach.state;
      var listening := AddListener(ready, probe, false);
      var sentTasks := Schedule(listening, MessageSent(command));
      AddThenRemove(ready, probe, false);
      if !withoutTimeout && w.timedOut then
        var (stopped, statusTasks) := SetStatus(listening, NotRunning);
        Exchange(RemoveListener(stopped, probe), attach.sent + [command], attach.tasks + sentTasks + statusTasks,
                 Failure(NotAttached(NotRunning)))
      else
        Exchange(RemoveListener(listening, probe), attach.sent + [command], attach.tasks + sentTasks,
                 Success(MatchReply(w.received, headers)))
  }

  /** On a connector that is not attached, `execute` with the attach check
      is `connect()` followed by the command: it sends what `connect()`
      sends, ends initialised as `connect()` leaves it, and sends the command
      exactly when `connect()` reports ATTACHED. */
  lemma ExecuteAttachesThroughConnect(st: ConnectorState, command: string, headers: seq<string>,
                                      withoutTimeout: bool, w: Wait, probe: Listener)
    requires probe !in st.syncListeners && probe !in st.asyncListeners
    requires st.status != Attached
    ensures var c := Connect(st, w.platform);
      var r := Execute(st, command, headers, true, withoutTimeout, w, probe);
      |c.sent| <= |r.sent| && r.sent[..|c.sent|] == c.sent && r.state.initialized == c.state.initialized &&
      (r.sent == c.sent + [command] <==> c.result == Success(Attached)) &&
      (c.result.Failure? ==> r.reply == Failure(c.result.error) && r.state == c.state)
  {
    var c := Connect(st, w.platform);
    var r := Execute(st, command, headers, true, withoutTimeout, w, probe);
    if c.result != Success(Attached) {
      assert |r.sent| == |c.sent|;
    }
  }

  /** On an attached connector the attach check does nothing: `execute`
      behaves the same with and without it. */
  lemma AttachedSkipsConnect(st: ConnectorState, command: string, headers: seq<string>,
                             withoutTimeout: bool, w: Wait, probe: Listener)
    requires probe !in st.syncListeners && probe !in st.asyncListeners
    requires st.status == Attached
    ensures Execute(st, command, headers, true, withoutTimeout, w, probe) ==
            Execute(st, command, headers, false, withoutTimeout, w, probe)
  {
  }

  /** `initialize()` completes at most once across commands: after an
      `execute` that had to attach, a later `connect()` initialises again
      only when the first `initialize()` raised. */
  lemma InitializeOnceAcrossCommands(st: ConnectorState, command: string, headers: seq<string>,
                                     withoutTimeout: bool, w: Wait, probe: Listener, later: Platform)
    requires probe !in st.syncListeners && probe !in st.asyncListeners
    requires st.status != Attached
    ensures var r := Execute(st, command, headers, true, withoutTimeout, w, probe);
      Connect(r.state, later).initializeRan ==> !st.initialized && w.platform.initFailure.Some?
  {
  }

  /** A checked command that got its answer leaves the connector ATTACHED, so
      the next checked command goes out alone: `assureAttached` does not
      connect again and no second PROTOCOL 9999 is sent. */
  lemma SecondCommandSkipsConnect(st: ConnectorState, c1: string, h1: seq<string>, t1: bool, w1: Wait, p1: Listener,
                                  c2: string, h2: seq<string>, t2: bool, w2: Wait, p2: Listener)
    requires p1 !in st.syncListeners && p1 !in st.asyncListeners
    requires p2 !in st.syncListeners && p2 !in st.asyncListeners
    requires Execute(st, c1, h1, true, t1, w1, p1).reply.Success?
    ensures var r1 := Execute(st, c1, h1, true, t1, w1, p1);
      var r2 := Execute(r1.state, c2, h2, true, t2, w2, p2);
      r2.sent == [c2] && r2.state.initialized == r1.state.initialized
  {
    var r1 := Execute(st, c1, h1, true, t1, w1, p1);
    assert r1.state.status == Attached;
    AttachedSkipsConnect(r1.state, c2, h2, t2, w2, p2);
  }

  /** `execute(command, responseHeader)`: accepts the header or "ERROR ". */
  function ExecuteWithHeader(st: ConnectorState, command: string, responseHeader: string, w: Wait, probe: Listener): (r: Exchange)
    requires probe !in st.syncListeners && probe !in st.asyncListeners
    ensures r.reply.Success? && r.reply.value.Some? ==>
      StartsWith(r.reply.value.value, responseHeader) || StartsWith(r.reply.value.value, "ERROR ")
  {
    var r := Execute(st, command, [responseHeader, "ERROR "], true, false, w, probe);
    assert r.reply.Success? && r.reply.value.Some? ==> MatchesAny(r.reply.value.value, [responseHeader, "ERROR "]);
    r
  }

  /** `execute(command)`: the command text itself is the expected header. */
  function ExecuteCommand(st: ConnectorState, command: string, w: Wait, probe: Listener): (r: Exchange)
    requires probe !in st.syncListeners && probe !in st.asyncListeners
    ensures r.reply.Success? && r.reply.value.Some? ==>
      StartsWith(r.reply.value.value, command) || StartsWith(r.reply.value.value, "ERROR ")
  {
    ExecuteWithHeader(st, command, command, w, probe)
  }

  /** The id tag `"#" + n + " "` put in front of a command. */
  function CommandTag(n: int): (r: string)
    ensures |r| >= 3 && r[0] == '#' && r[|r| - 1] == ' '
  {
    "#" + IntToString(n) + " "
  }

  /** How `executeWithId` fails: the ConnectorException `execute` raised, or
      the NullPointerException `response.substring` throws when the wait
      ended without a reply. The latter is unchecked, so no
      `catch (ConnectorException)` of a caller converts it. */
  datatype TaggedFailure = Raised(error: ConnectorError) | NullResponse

  /** The result of `executeWithId`: the reply with the tag removed. */
  datatype TaggedExchange = TaggedExchange(state: ConnectorState, sent: seq<string>, reply: Result<string, TaggedFailure>)

  /** `executeWithId(command, responseHeader)`. */
  function ExecuteWithId(st: ConnectorState, command: string, responseHeader: string, w: Wait, probe: Listener): (r: TaggedExchange)
    requires probe !in st.syncListeners && probe !in st.asyncListeners
    ensures r.state.commandCount == ToInt32(st.commandCount + 1)
    ensures AttachSucceeds(st, w.platform) ==>
      |r.sent| > 0 && r.sent[|r.sent| - 1] == CommandTag(st.commandCount) + command
    ensures r.reply.Success? ==>
      (StartsWith(r.reply.value, responseHeader) || StartsWith(r.reply.value, "ERROR ")) &&
      CommandTag(st.commandCount) + r.reply.value in w.received
    ensures var tag := CommandTag(st.commandCount);
      r.reply == Failure(NullResponse) <==>
        AttachSucceeds(st, w.platform) && !w.timedOut &&
        MatchReply(w.received, [tag + responseHeader, tag + "ERROR "]).None?
    ensures r.reply.Failure? && r.reply.error.Raised? ==>
      r.reply.error.error.NotAttached? || Some(r.reply.error.error) == PlatformFailure(st, w.platform)
  {
    var tag := CommandTag(st.commandCount);
    var counted := st.(commandCount := ToInt32(st.commandCount + 1));
    var headers := [tag + responseHeader, tag + "ERROR "];
    var e := Execute(counted, tag + command, headers, true, false, w, probe);
    match e.reply
    case Failure(err) => TaggedExchange(e.state, e.sent, Failure(Raised(err)))
    case Success(None) => TaggedExchange(e.state, e.sent, Failure(NullResponse))
    case Success(Some(m)) =>
      StripTag(m, tag, responseHeader);
      TaggedExchange(e.state, e.sent, Success(m[|tag|..]))
  }

  /** A reply accepted for a tagged command is the tag followed by the header or "ERROR ". */
  lemma StripTag(m: string, tag: string, responseHeader: string)
    requires MatchesAny(m, [tag + responseHeader, tag + "ERROR "])
    ensures |tag| <= |m| && m == tag + m[|tag|..]
    ensures StartsWith(m[|tag|..], responseHeader) || StartsWith(m[|tag|..], "ERROR ")
  {
    var h :| h in [tag + responseHeader, tag + "ERROR "] && StartsWith(m, h);
    assert m[..|h|] == h;
    assert m[|tag|..][..|h| - |tag|] == m[|tag|..|h|];
  }

  /** When the first reply carrying this command's tag is `tag + header + rest`,
      `executeWithId` returns `header + rest`. */
  lemma ExecuteWithIdReturnsReply(st: ConnectorState, command: string, responseHeader: string, rest: string,
                                  before: seq<string>, after: seq<string>, p: Platform, probe: Listener)
    requires probe !in st.syncListeners && probe !in st.asyncListeners
    requires AttachSucceeds(st, p)
    requires forall j :: 0 <= j < |before| ==>
      !StartsWith(before[j], CommandTag(st.commandCount) + responseHeader) &&
      !StartsWith(before[j], CommandTag(st.commandCount) + "ERROR ")
    ensures var w := Wait(p, before + [CommandTag(st.commandCount) + responseHeader + rest] + after, false);
      ExecuteWithId(st, command, responseHeader, w, probe).reply == Success(responseHeader + rest)
  {
    var tag := CommandTag(st.commandCount);
    var headers := [tag + responseHeader, tag + "ERROR "];
    var m := tag + responseHeader + rest;
    var received := before + [m] + after;
    assert MatchReply(received, headers) == Some(m) by {
      assert StartsWith(m, tag + responseHeader) by {
        assert m[..|tag + responseHeader|] == tag + responseHeader;
      }
      assert MatchesAny(m, headers);
      forall j | 0 <= j < |before|
        ensures !MatchesAny(received[j], headers)
      {
        assert received[j] == before[j];
      }
      assert received[|before|] == m;
      MatchReplyFirst(received, headers, |before|);
    }
    TaggedReplyStripped(st, command, responseHeader, Wait(p, received, false), probe);
    TagCutOff(tag, responseHeader, rest);
  }

  /** Cutting the tag off a tagged reply leaves the reply. */
  lemma TagCutOff(tag: string, header: string, rest: string)
    ensures (tag + header + rest)[|tag|..] == header + rest
  {
  }

  /** On an attached connector that does not time out, `executeWithId`
      returns the first tagged reply with its tag cut off. */
  lemma TaggedReplyStripped(st: ConnectorState, command: string, responseHeader: string, w: Wait, probe: Listener)
    requires probe !in st.syncListeners && probe !in st.asyncListeners
    requires AttachSucceeds(st, w.platform)
    requires !w.timedOut
    ensures var tag := CommandTag(st.commandCount);
      var found := MatchReply(w.received, [tag + responseHeader, tag + "ERROR "]);
      found.Some? ==> ExecuteWithId(st, command, responseHeader, w, probe).reply == Success(found.value[|tag|..])
  {
    var counted := st.(commandCount := ToInt32(st.commandCount + 1));
    assert AssureAttached(counted, w.platform).error.None?;
  }

  /** `MatchReply` picks the message at `i` when it matches and none before it does. */
  lemma {:induction false} MatchReplyFirst(received: seq<string>, headers: seq<string>, i: nat)
    requires i < |received| && MatchesAny(received[i], headers)
    requires forall j :: 0 <= j < i ==> !MatchesAny(received[j], headers)
    ensures MatchReply(received, headers) == Some(received[i])
    decreases i
  {
    if i > 0 {
      assert received[1..][i - 1] == received[i];
      MatchReplyFirst(received[1..], headers, i - 1);
    }
  }

  /** Tags of commands issued fewer than 2^32 commands apart differ, so their replies cannot be confused. */
  lemma TagsDistinct(a: int, b: int)
    requires a < b < a + 0x1_0000_0000
    ensures CommandTag(ToInt32(a)) != CommandTag(ToInt32(b))
  {
    ToInt32Distinct(a, b);
    if CommandTag(ToInt32(a)) == CommandTag(ToInt32(b)) {
      var ta := IntToString(ToInt32(a));
      var tb := IntToString(ToInt32(b));
      assert ta == CommandTag(ToInt32(a))[1..|CommandTag(ToInt32(a))| - 1];
      assert tb == CommandTag(ToInt32(b))[1..|CommandTag(ToInt32(b))| - 1];
      IntToStringInjective(ToInt32(a), ToInt32(b));
    }
  }

  // ---------------------------------------------------------------------
  // Disposing
  // ---------------------------------------------------------------------

  /** The outcome of `dispose()`: the new state, whether `disposeImpl()` ran
      to completion, and the unchecked exception it raised, if any. */
  datatype Disposal = Disposal(state: ConnectorState, disposed: bool, error: Option<string>)

  /** `dispose()`. `implFailure` is the exception the platform `disposeImpl()`
      raises: the Windows and Win32 connectors raise
      UnsupportedOperationException, which leaves `_isInitialized` set. */
  function Dispose(st: ConnectorState, implFailure: Option<string>): (r: Disposal)
    ensures r.state.initialized <==> st.initialized && implFailure.Some?
    ensures r.disposed <==> st.initialized && implFailure.None?
    ensures r.error.Some? <==> st.initialized && implFailure.Some?
    ensures r.error.Some? ==> r.error == implFailure
    ensures r.state.status == st.status && r.state.syncListeners == st.syncListeners
    ensures r.state.asyncListeners == st.asyncListeners && r.state.commandCount == st.commandCount
  {
    if !st.initialized then Disposal(st, false, None)
    else if implFailure.Some? then Disposal(st, false, implFailure)
    else Disposal(st.(initialized := false), true, None)
  }

  datatype Lifecycle = DoConnect(platform: Platform) | DoDispose(implFailure: Option<string>)

  /** Runs a sequence of connects and disposes; returns the final state and
      how many times `initialize()` and `disposeImpl()` ran to completion. */
  function RunLifecycle(st: ConnectorState, ops: seq<Lifecycle>): (r: (ConnectorState, nat, nat))
    decreases |ops|
  {
    if |ops| == 0 then (st, 0, 0)
    else
      var (next, inits, disposals) := match ops[0]
        case DoConnect(p) => var c := Connect(st, p); (c.state, if c.initializeRan then 1 else 0, 0)
        case DoDispose(f) => var d := Dispose(st, f); (d.state, 0, if d.disposed then 1 else 0);
      var (last, moreInits, moreDisposals) := RunLifecycle(next, ops[1..]);
      (last, inits + moreInits, disposals + moreDisposals)
  }

  /** Completed `initialize()` and `disposeImpl()` calls alternate, whatever
      the platform raises on the way: starting uninitialised, the
      number of initialisations equals the number of disposals, plus one while
      the connector is initialised. */
  lemma {:induction false} InitializeDisposeAlternate(st: ConnectorState, ops: seq<Lifecycle>)
    ensures var (last, inits, disposals) := RunLifecycle(st, ops);
      (if st.initialized then 1 else 0) + inits == disposals + (if last.initialized then 1 else 0)
    decreases |ops|
  {
    if |ops| > 0 {
      match ops[0]
      case DoConnect(p) => InitializeDisposeAlternate(Connect(st, p).state, ops[1..]);
      case DoDispose(f) => InitializeDisposeAlternate(Dispose(st, f).state, ops[1..]);
    }
  }
}

=== FILE: contact_list.dfy ===
/** com.skype.ContactList: the friend and group lists read from SEARCH
    replies, the lookups over them, and the creation of a group. The
    properties of each listed group are inputs. */
module ContactList {
  import opened Wrappers
  import opened JavaText
  import opened SkypeUtils
  import Connector

  // ---------------------------------------------------------------------
  // Friends
  // ---------------------------------------------------------------------

  /** `getAllFriends()`: "SEARCH FRIENDS" expecting "USERS ". */
  const FriendsRequest := Request("SEARCH FRIENDS", "USERS ")

  /** One Friend per comma-separated id of the reply, in order. */
  function Friends(reply: Result<Option<string>, Connector.ConnectorError>): (r: Result<seq<string>, SkypeError>)
    ensures reply.Failure? ==> r == Failure(ConvertToSkypeException(reply.error))
    ensures r.Success? <==> PropertyValue("USERS ", reply).Success?
    ensures r.Success? ==> r.value == ConvertToArray(PropertyValue("USERS ", reply).value)
  {
    SearchResult(FriendsRequest.header, reply)
  }

  /** The friends Skype lists come back in order. */
  lemma FriendsListed(ids: seq<string>)
    requires SeparatorFree(ids, ",") && SplitKeepsAll(ids)
    requires forall k :: 0 <= k < |ids| ==> TrimmedPiece(ids[k])
    ensures Friends(Success(Some("USERS " + Join(ids, ",")))) == Success(ids)
  {
    SearchResultListed("USERS ", ids);
  }

  /** `getFriend(skypeId)` as written over the listed friends:
      `checkNotNull(skypeId, "skypeId")` has its arguments swapped and never
      throws, so a null id reaches `skypeId.equals(...)`, which throws
      NullPointerException when there is any friend and returns null when
      there is none. A present id gives the first friend with that id. */
  function GetFriendAsWritten(skypeId: Option<string>, friends: seq<string>): (r: Result<Option<string>, SkypeError>)
    ensures skypeId.None? ==> r == (if |friends| == 0 then Success(None) else Failure(Unchecked("NullPointerException")))
    ensures skypeId.Some? ==> r == GetFriend(skypeId, friends)
  {
    var shown := if skypeId.Some? then skypeId.value else "null";
    match CheckNotNull(shown, Some("skypeId"))
    case Failure(e) => Failure(e)
    case Success(_) =>
      if skypeId.None? then
        if |friends| == 0 then Success(None) else Failure(Unchecked("NullPointerException"))
      else GetFriend(skypeId, friends)
  }

  /** A null id is not refused with the library's message: with friends it
      fails inside the loop, and without any it is answered with null. */
  lemma NullIdNotRefused(friend: string)
    ensures GetFriendAsWritten(None, [friend]) == Failure(Unchecked("NullPointerException"))
    ensures GetFriendAsWritten(None, []) == Success(None)
  {
  }

  /** `getFriend(skypeId)` with the null check in its intended order: a
      null id is refused; otherwise the friend with that id, if listed. */
  function GetFriend(skypeId: Option<string>, friends: seq<string>): (r: Result<Option<string>, SkypeError>)
    ensures skypeId.None? <==> r.Failure?
    ensures r.Failure? ==> r.error == NullPointer(NullMessage("skypeId"))
    ensures skypeId.Some? ==> (r == Success(Some(skypeId.value)) <==> skypeId.value in friends)
    ensures skypeId.Some? && skypeId.value !in friends ==> r == Success(None)
  {
    match CheckNotNull("skypeId", skypeId)
    case Failure(e) => Failure(e)
    case Success(_) => if skypeId.value in friends then Success(Some(skypeId.value)) else Success(None)
  }

  // ---------------------------------------------------------------------
  // Groups
  // ---------------------------------------------------------------------

  /** `Group.Type` */
  datatype GroupType =
    | AllUsers | AllFriends | SkypeFriends | SkypeOutFriends | OnlineFriends
    | UnknownOrPendingAuthFriends | RecentlyContactedUsers | UsersWaitingMyAuthorization
    | UsersAuthorizedByMe | UsersBlockedByMe | UngroupedFriends | CustomGroup

  /** The enum constant's name, as Skype spells the group type. */
  function GroupTypeName(t: GroupType): (r: string)
    ensures r != ""
  {
    match t
    case AllUsers => "ALL_USERS"
    case AllFriends => "ALL_FRIENDS"
    case SkypeFriends => "SKYPE_FRIENDS"
    case SkypeOutFriends => "SKYPEOUT_FRIENDS"
    case OnlineFriends => "ONLINE_FRIENDS"
    case UnknownOrPendingAuthFriends => "UNKNOWN_OR_PENDINGAUTH_FRIENDS"
    case RecentlyContactedUsers => "RECENTLY_CONTACTED_USERS"
    case UsersWaitingMyAuthorization => "USERS_WAITING_MY_AUTHORIZATION"
    case UsersAuthorizedByMe => "USERS_AUTHORIZED_BY_ME"
    case UsersBlockedByMe => "USERS_BLOCKED_BY_ME"
    case UngroupedFriends => "UNGROUPED_FRIENDS"
    case CustomGroup => "CUSTOM_GROUP"
  }

  /** `Group.Type.valueOf(name)`: None where Java throws IllegalArgumentException. */
  function GroupTypeOf(name: string): (r: Option<GroupType>)
    ensures r.Some? ==> GroupTypeName(r.value) == name
  {
    if name == "ALL_USERS" then Some(AllUsers)
    else if name == "ALL_FRIENDS" then Some(AllFriends)
    else if name == "SKYPE_FRIENDS" then Some(SkypeFriends)
    else if name == "SKYPEOUT_FRIENDS" then Some(SkypeOutFriends)
    else if name == "ONLINE_FRIENDS" then Some(OnlineFriends)
    else if name == "UNKNOWN_OR_PENDINGAUTH_FRIENDS" then Some(UnknownOrPendingAuthFriends)
    else if name == "RECENTLY_CONTACTED_USERS" then Some(RecentlyContactedUsers)
    else if name == "USERS_WAITING_MY_AUTHORIZATION" then Some(UsersWaitingMyAuthorization)
    else if name == "USERS_AUTHORIZED_BY_ME" then Some(UsersAuthorizedByMe)
    else if name == "USERS_BLOCKED_BY_ME" then Some(UsersBlockedByMe)
    else if name == "UNGROUPED_FRIENDS" then Some(UngroupedFriends)
    else if name == "CUSTOM_GROUP" then Some(CustomGroup)
    else None
  }

  /** Every group type is found again under its name. */
  lemma GroupTypeRoundTrip(t: GroupType)
    ensures GroupTypeOf(GroupTypeName(t)) == Some(t)
  {
    match t
    case AllUsers =>
    case AllFriends =>
    case SkypeFriends =>
    case SkypeOutFriends =>
    case OnlineFriends =>
    case UnknownOrPendingAuthFriends =>
    case RecentlyContactedUsers =>
    case UsersWaitingMyAuthorization =>
    case UsersAuthorizedByMe =>
    case UsersBlockedByMe =>
    case UngroupedFriends =>
    case CustomGroup =>
  }

  /** A listed group with the values of its TYPE and DISPLAYNAME properties. */
  datatype GroupInfo = GroupInfo(id: string, typeName: string, displayName: string)

  /** `getAllGroups(type)`: "SEARCH GROUPS <type>" expecting "GROUPS ". */
  function GroupsRequest(system: bool): (r: Request)
    ensures r.header == "GROUPS "
    ensures r.command == "SEARCH GROUPS " + (if system then "HARDWIRED" else "CUSTOM")
  {
    Request("SEARCH GROUPS " + (if system then "HARDWIRED" else "CUSTOM"), "GROUPS ")
  }

  /** The group `getSystemGroup(type)` looks for is the first of the listed
      system groups of that type: every group before it has a known,
      different type. */
  predicate FirstOfType(groups: seq<GroupInfo>, t: GroupType, k: int) {
    0 <= k < |groups| && GroupTypeOf(groups[k].typeName) == Some(t) &&
    forall j :: 0 <= j < k ==> GroupTypeOf(groups[j].typeName).Some? && GroupTypeOf(groups[j].typeName) != Some(t)
  }

  /** `getSystemGroup(type)`: the custom type is refused with
      IllegalArgumentException; otherwise the groups are tried in order,
      and a group whose TYPE is not a known name throws when it is reached. */
  function GetSystemGroup(t: GroupType, groups: seq<GroupInfo>): (r: Result<Option<string>, SkypeError>)
    ensures t == CustomGroup ==> r == Failure(Unchecked("IllegalArgumentException"))
    ensures r.Success? && r.value.Some? ==> exists k :: FirstOfType(groups, t, k) && groups[k].id == r.value.value
    ensures r == Success(None) ==> forall j :: 0 <= j < |groups| ==>
      GroupTypeOf(groups[j].typeName).Some? && GroupTypeOf(groups[j].typeName) != Some(t)
  {
    if t == CustomGroup then Failure(Unchecked("IllegalArgumentException"))
    else FindType(t, groups, 0)
  }

  function FindType(t: GroupType, groups: seq<GroupInfo>, from: nat): (r: Result<Option<string>, SkypeError>)
    requires from <= |groups|
    requires forall j :: 0 <= j < from ==> GroupTypeOf(groups[j].typeName).Some? && GroupTypeOf(groups[j].typeName) != Some(t)
    ensures r.Success? && r.value.Some? ==> exists k :: FirstOfType(groups, t, k) && groups[k].id == r.value.value
    ensures r == Success(None) ==> forall j :: 0 <= j < |groups| ==>
      GroupTypeOf(groups[j].typeName).Some? && GroupTypeOf(groups[j].typeName) != Some(t)
    decreases |groups| - from
  {
    if from == |groups| then Success(None)
    else match GroupTypeOf(groups[from].typeName)
      case None => Failure(Unchecked("IllegalArgumentException"))
      case Some(u) =>
        if u == t then
          assert FirstOfType(groups, t, from);
          Success(Some(groups[from].id))
        else FindType(t, groups, from + 1)
  }

  /** When every listed group has a known type, the system group of a
      non-custom type is found exactly when one of that type is listed. */
  lemma SystemGroupFound(t: GroupType, groups: seq<GroupInfo>)
    requires t != CustomGroup
    requires forall j :: 0 <= j < |groups| ==> GroupTypeOf(groups[j].typeName).Some?
    ensures GetSystemGroup(t, groups).Success?
    ensures GetSystemGroup(t, groups).value.Some? <==> exists k :: 0 <= k < |groups| && GroupTypeOf(groups[k].typeName) == Some(t)
  {
    TypedScanSucceeds(t, groups, 0);
  }

  lemma {:induction false} TypedScanSucceeds(t: GroupType, groups: seq<GroupInfo>, from: nat)
    requires from <= |groups|
    requires forall j :: 0 <= j < from ==> GroupTypeOf(groups[j].typeName).Some? && GroupTypeOf(groups[j].typeName) != Some(t)
    requires forall j :: 0 <= j < |groups| ==> GroupTypeOf(groups[j].typeName).Some?
    ensures FindType(t, groups, from).Success?
    decreases |groups| - from
  {
    if from < |groups| && GroupTypeOf(groups[from].typeName) != Some(t) {
      TypedScanSucceeds(t, groups, from + 1);
    }
  }

  /** `getGroup(displayName)` as written over the listed custom groups: the
      null check has its arguments swapped, so a null name throws
      NullPointerException in the loop when there is any group and gives
      null when there is none. */
  function GetGroupAsWritten(displayName: Option<string>, groups: seq<GroupInfo>): (r: Result<Option<string>, SkypeError>)
    ensures displayName.None? ==> r == (if |groups| == 0 then Success(None) else Failure(Unchecked("NullPointerException")))
    ensures displayName.Some? ==> r == GetGroup(displayName, groups)
  {
    var shown := if displayName.Some? then displayName.value else "null";
    match CheckNotNull(shown, Some("displayName"))
    case Failure(e) => Failure(e)
    case Success(_) =>
      if displayName.None? then
        if |groups| == 0 then Success(None) else Failure(Unchecked("NullPointerException"))
      else GetGroup(displayName, groups)
  }

  /** The first group whose display name is `name`, as an index. */
  function FirstNamed(groups: seq<GroupInfo>, name: string): (r: int)
    ensures -1 <= r < |groups|
    ensures r >= 0 ==> groups[r].displayName == name
    ensures forall j :: 0 <= j < |groups| && (r < 0 || j < r) ==> groups[j].displayName != name
    decreases |groups|
  {
    if |groups| == 0 then -1
    else if groups[0].displayName == name then 0
    else
      var rest := FirstNamed(groups[1..], name);
      assert forall j :: 1 <= j < |groups| ==> groups[j] == groups[1..][j - 1];
      if rest < 0 then -1 else rest + 1
  }

  /** `getGroup(displayName)` with the intended null check: a null name is
      refused; otherwise the id of the first group with that display name,
      or null. */
  function GetGroup(displayName: Option<string>, groups: seq<GroupInfo>): (r: Result<Option<string>, SkypeError>)
    ensures displayName.None? <==> r.Failure?
    ensures r.Failure? ==> r.error == NullPointer(NullMessage("displayName"))
    ensures r.Success? && r.value.Some? ==> exists k :: 0 <= k < |groups| && groups[k].displayName == displayName.value && groups[k].id == r.value.value
    ensures r == Success(None) ==> forall j :: 0 <= j < |groups| ==> groups[j].displayName != displayName.value
  {
    match CheckNotNull("displayName", displayName)
    case Failure(e) => Failure(e)
    case Success(_) =>
      var k := FirstNamed(groups, displayName.value);
      if k < 0 then Success(None) else Success(Some(groups[k].id))
  }

  /** A null display name is not refused with the library's message. */
  lemma NullNameNotRefused(g: GroupInfo)
    ensures GetGroupAsWritten(None, [g]) == Failure(Unchecked("NullPointerException"))
  {
  }

  // ---------------------------------------------------------------------
  // addGroup
  // ---------------------------------------------------------------------

  const GroupHeader := "GROUP "

  /** `addGroup(name)` as written: the reply is cut after "GROUP " before
      `checkError` sees it, and the id is the text up to the first space.
      An ERROR reply is as long before the cut, so it loses its "ERROR "
      and its code is taken for the new group's id. */
  function AddGroupAsWritten(reply: Result<Option<string>, Connector.ConnectorError>): (r: Result<string, SkypeError>)
    ensures reply.Failure? ==> r == Failure(ConvertToSkypeException(reply.error))
    ensures r.Success? ==> reply.Success? && reply.value.Some? && ' ' !in r.value
  {
    match reply
    case Failure(e) => Failure(ConvertToSkypeException(e))
    case Success(None) => Failure(Unchecked("NullPointerException"))
    case Success(Some(text)) =>
      if |text| < |GroupHeader| then Failure(Unchecked("StringIndexOutOfBoundsException"))
      else
        var response := text[|GroupHeader|..];
        match CheckError(Some(response))
        case Failure(e) => Failure(e)
        case Success(_) =>
          match Before(response, ' ')
          case None => Failure(Unchecked("StringIndexOutOfBoundsException"))
          case Some(id) => Success(id)
  }

  /** An error reply creates a group whose id is the error code. */
  lemma ErrorTakenForId(code: int, message: string)
    ensures AddGroupAsWritten(Success(Some(ErrorReply(code, message)))) == Success(IntToString(code))
  {
    var code_text := IntToString(code);
    var text := ErrorReply(code, message);
    var response := code_text + " " + message;
    assert text == ErrorPrefix + response;
    assert text[|GroupHeader|..] == response;
    assert !StartsWith(response, ErrorPrefix) by {
      assert response[0] == code_text[0];
      assert code_text[0] == '-' || IsDigit(code_text[0]);
    }
    IntToStringHasNo(code, ' ');
    IndexOfJoined(code_text, ' ', message);
    assert response == code_text + [' '] + message;
  }

  /** `addGroup(name)` as intended: the whole reply goes through
      `checkError` first, then the id after "GROUP " is taken. */
  function AddGroup(reply: Result<Option<string>, Connector.ConnectorError>): (r: Result<string, SkypeError>)
    ensures reply.Failure? ==> r == Failure(ConvertToSkypeException(reply.error))
    ensures reply.Success? && reply.value.Some? && StartsWith(reply.value.value, ErrorPrefix) ==> r.Failure?
    ensures r.Success? ==> reply.Success? && reply.value.Some? && |GroupHeader| <= |reply.value.value|
    ensures r.Success? ==> StartsWith(reply.value.value[|GroupHeader|..], r.value + " ") && ' ' !in r.value
  {
    match reply
    case Failure(e) => Failure(ConvertToSkypeException(e))
    case Success(response) =>
      match CheckError(response)
      case Failure(e) => Failure(e)
      case Success(_) =>
        match response
        case None => Failure(Unchecked("NullPointerException"))
        case Some(text) =>
          if |text| < |GroupHeader| then Failure(Unchecked("StringIndexOutOfBoundsException"))
          else
            var rest := text[|GroupHeader|..];
            match Before(rest, ' ')
            case None => Failure(Unchecked("StringIndexOutOfBoundsException"))
            case Some(id) => Success(id)
  }

  /** The intended reading reports an error reply as the command failure it is. */
  lemma AddGroupError(code: int, message: string)
    requires IntMin <= code <= IntMax
    ensures AddGroup(Success(Some(ErrorReply(code, message)))) == Failure(CommandFailed(code, message))
  {
    ErrorReplyRoundTrip(code, message);
  }

  /** The intended reading takes the id of a "GROUP <id> ..." reply. */
  lemma AddGroupId(id: string, rest: string)
    requires ' ' !in id
    ensures AddGroup(Success(Some(GroupHeader + id + " " + rest))) == Success(id)
  {
    var text := GroupHeader + id + " " + rest;
    assert !StartsWith(text, ErrorPrefix) by {
      assert text[0] == 'G';
    }
    assert text[|GroupHeader|..] == id + [' '] + rest;
    IndexOfJoined(id, ' ', rest);
  }
}

=== FILE: csv_player.dfy ===
/** com.skype.connector.test.CSVPlayer: replays a recorded session from a
    CSV file whose lines read `type,time,message`. The file is an input:
    the line read (absent at the end of the stream), whether it opens, and
    whether closing it fails. */
module CsvPlayer {
  import opened Wrappers
  import opened JavaText

  /** PlayerMessage.Type */
  datatype Direction = Sent | Received

  /** A replayed message: its direction, its time offset and its text. */
  datatype PlayerMessage = PlayerMessage(direction: Direction, time: int, message: string)

  /** The type field: "sent" is SENT and every other text is RECEIVED. */
  function DirectionOf(typeText: string): (d: Direction)
    ensures d == Sent <==> typeText == "sent"
  {
    if typeText == "sent" then Sent else Received
  }

  /** The IllegalStateException text for a line that cannot be read; a missing line prints as "null". */
  function MalformedLine(line: Option<string>): string {
    "A message couldn't be taken from the line (=\"" + (if line.Some? then line.value else "null") + "\")."
  }

  /** `getNextMessage()` on the line `readLine` returned: the text before
      the first comma is the type, the text up to the next comma the time,
      and everything after it the message. A missing line, a missing comma
      or a time that is not a long raises IllegalStateException, whose text
      shows `line` as it then was: past the first comma, the variable
      already holds only the rest. */
  function GetNextMessage(line: Option<string>): (r: Result<PlayerMessage, string>)
    ensures line.None? || ',' !in line.value ==> r == Failure(MalformedLine(line))
    ensures r.Failure? && line.Some? && ',' in line.value ==>
      r.error == MalformedLine(Some(line.value[IndexOf(line.value, ',') + 1..]))
    ensures r.Success? ==> LongMin <= r.value.time <= LongMax
  {
    match line
    case None => Failure(MalformedLine(line))
    case Some(text) =>
      var first := IndexOf(text, ',');
      if first < 0 then Failure(MalformedLine(line))
      else
        var typeText := text[..first];
        var rest := text[first + 1..];
        var second := IndexOf(rest, ',');
        if second < 0 then Failure(MalformedLine(Some(rest)))
        else
          match ParseLong(rest[..second])
          case None => Failure(MalformedLine(Some(rest)))
          case Some(time) =>
            Success(PlayerMessage(DirectionOf(typeText), time, rest[second + 1..]))
  }

  /** The line a recorder writes for a message. */
  function FormatLine(m: PlayerMessage): (line: string)
    ensures StartsWith(line, if m.direction == Sent then "sent," else "received,")
  {
    (if m.direction == Sent then "sent" else "received") + "," + IntToString(m.time) + "," + m.message
  }

  /** A well-formed line reads back as its parts, the message keeping any further commas. */
  lemma ParseLine(typeText: string, time: int, message: string)
    requires ',' !in typeText
    requires LongMin <= time <= LongMax
    ensures GetNextMessage(Some(typeText + "," + IntToString(time) + "," + message)) ==
      Success(PlayerMessage(DirectionOf(typeText), time, message))
  {
    var digits := IntToString(time);
    var rest := digits + "," + message;
    assert typeText + "," + digits + "," + message == typeText + [','] + rest;
    IndexOfJoined(typeText, ',', rest);
    IntToStringHasNo(time, ',');
    IndexOfJoined(digits, ',', message);
    ParseLongToString(time);
  }

  /** Every message whose time is a long survives a write and a replay. */
  lemma FormatRoundTrip(m: PlayerMessage)
    requires LongMin <= m.time <= LongMax
    ensures GetNextMessage(Some(FormatLine(m))) == Success(m)
  {
    var typeText := if m.direction == Sent then "sent" else "received";
    ParseLine(typeText, m.time, m.message);
  }

  /** A line with only one comma is rejected; the exception names only the
      text after the type. */
  lemma MissingSecondCommaRejected(typeText: string, rest: string)
    requires ',' !in typeText && ',' !in rest
    ensures GetNextMessage(Some(typeText + "," + rest)) == Failure(MalformedLine(Some(rest)))
  {
    assert typeText + "," + rest == typeText + [','] + rest;
    IndexOfJoined(typeText, ',', rest);
  }

  /** A time that is not a long is rejected; the exception again names the
      text after the type. */
  lemma BadTimeRejected(typeText: string, timeText: string, message: string)
    requires ',' !in typeText && ',' !in timeText
    requires ParseLong(timeText).None?
    ensures GetNextMessage(Some(typeText + "," + timeText + "," + message)) ==
      Failure(MalformedLine(Some(timeText + "," + message)))
  {
    var rest := timeText + "," + message;
    assert typeText + "," + timeText + "," + message == typeText + [','] + rest;
    IndexOfJoined(typeText, ',', rest);
    assert rest == timeText + [','] + message;
    IndexOfJoined(timeText, ',', message);
    assert rest[..|timeText|] == timeText;
  }

  /** The player's reader: whether the field holds one, and how many
      readers are open. */
  datatype PlayerState = PlayerState(hasReader: bool, openReaders: nat)

  const NewPlayer := PlayerState(false, 0)

  /** Every open reader is the one the field holds. */
  predicate Consistent(st: PlayerState) {
    st.openReaders == if st.hasReader then 1 else 0
  }

  /** `destory()`: closes and forgets the reader; a failing close is swallowed and keeps it. */
  function Destroy(st: PlayerState, closeFails: bool): (r: PlayerState)
    ensures !st.hasReader ==> r == st
    ensures st.hasReader && !closeFails ==> !r.hasReader
    ensures Consistent(st) && !closeFails ==> r == NewPlayer
    ensures closeFails ==> r == st
  {
    if !st.hasReader || closeFails then st
    else PlayerState(false, if st.openReaders > 0 then st.openReaders - 1 else 0)
  }

  /** A second `destory()` does nothing. */
  lemma DestroyIdempotent(st: PlayerState, closeFails: bool)
    requires !closeFails
    ensures Destroy(Destroy(st, closeFails), closeFails) == Destroy(st, closeFails)
  {
  }

  /** `init()`: destroys any reader first, then opens the file; a missing
      file raises IllegalStateException. */
  function Init(st: PlayerState, fileFound: bool, closeFails: bool): (r: (PlayerState, Option<string>))
    ensures r.1.None? <==> fileFound
    ensures r.1.Some? ==> r.1.value == "The CSV file is not found."
    ensures fileFound ==> r.0.hasReader
    ensures Consistent(st) && !closeFails ==> Consistent(r.0)
  {
    var cleared := Destroy(st, closeFails);
    if fileFound then (PlayerState(true, cleared.openReaders + 1), None)
    else (cleared, Some("The CSV file is not found."))
  }

  /** Re-initialising any number of times keeps at most one reader open. */
  lemma {:induction false} RepeatedInitKeepsOneReader(st: PlayerState, found: seq<bool>)
    requires Consistent(st)
    ensures Consistent(InitAll(st, found))
    decreases |found|
  {
    if |found| > 0 {
      RepeatedInitKeepsOneReader(Init(st, found[0], false).0, found[1..]);
    }
  }

  /** `init()` called once per entry of `found`, every close succeeding. */
  function InitAll(st: PlayerState, found: seq<bool>): PlayerState
    decreases |found|
  {
    if |found| == 0 then st else InitAll(Init(st, found[0], false).0, found[1..])
  }
}

=== FILE: event_message.dfy ===
/** com.skype.EventMessage: the event messages an application adds to the
    Skype window. Each gets the id `eventMessage<n>` from a shared counter
    and is filed in a registry; one connector listener, shared by all of
    them, turns `EVENT <id> CLICKED` notifications into calls of the
    message's own listeners. An event message is identified by its id, as
    its `equals` and `hashCode` are. */
module EventMessage {
  import opened Wrappers
  import opened JavaText
  import opened SkypeUtils
  import Connector

  /** One event message: the counter value its id was made from, its texts
      and its listeners in registration order. */
  datatype Message = Message(number: nat, caption: string, hint: string, listeners: seq<Connector.Listener>)

  /** The static state: the counter, the registry and whether the shared
      connector listener is installed. */
  datatype Events = Events(next: nat, messages: map<string, Message>, installed: bool)

  const IdPrefix := "eventMessage"

  /** The id made from counter value `n`. */
  function EventId(n: nat): (r: string)
    ensures StartsWith(r, IdPrefix)
  {
    var r := IdPrefix + IntToString(n);
    assert r[..|IdPrefix|] == IdPrefix;
    r
  }

  /** Different counter values give different ids. */
  lemma EventIdInjective(a: nat, b: nat)
    requires EventId(a) == EventId(b)
    ensures a == b
  {
    assert IntToString(a) == EventId(a)[|IdPrefix|..];
    assert IntToString(b) == EventId(b)[|IdPrefix|..];
    IntToStringInjective(a, b);
  }

  /** Every registered message sits under the id made from its number, and
      that number was handed out already. */
  predicate Valid(st: Events) {
    forall id :: id in st.messages ==>
      st.messages[id].number < st.next && id == EventId(st.messages[id].number)
  }

  /** Some registered message has a listener. */
  predicate Listened(st: Events) {
    exists id :: id in st.messages && |st.messages[id].listeners| > 0
  }

  /** The state before any message is added. */
  const Initial := Events(0, map[], false)

  lemma InitialValid()
    ensures Valid(Initial) && (Initial.installed <==> Listened(Initial))
  {
  }

  /** `addEventMessage(caption, hint)`: takes the next counter value for
      the id, which no registered message has, and registers the new
      message under it. */
  function AddEventMessage(st: Events, caption: string, hint: string): (r: (Events, string))
    requires Valid(st)
    ensures r.1 == EventId(st.next) && r.1 !in st.messages
    ensures r.0.next == st.next + 1 && r.0.installed == st.installed
    ensures r.0.messages == st.messages[r.1 := Message(st.next, caption, hint, [])]
    ensures Valid(r.0)
    ensures Listened(r.0) <==> Listened(st)
  {
    var id := EventId(st.next);
    assert id !in st.messages by {
      if id in st.messages {
        EventIdInjective(st.messages[id].number, st.next);
      }
    }
    var after := Events(st.next + 1, st.messages[id := Message(st.next, caption, hint, [])], st.installed);
    assert Listened(after) ==> Listened(st) by {
      if Listened(after) {
        var w :| w in after.messages && |after.messages[w].listeners| > 0;
        assert w != id && w in st.messages;
      }
    }
    assert Listened(st) ==> Listened(after) by {
      if Listened(st) {
        var w :| w in st.messages && |st.messages[w].listeners| > 0;
        assert w in after.messages && after.messages[w] == st.messages[w];
      }
    }
    (after, id)
  }

  /** Two messages added one after the other get different ids. */
  lemma AddedIdsDiffer(st: Events, c1: string, h1: string, c2: string, h2: string)
    requires Valid(st)
    ensures var (once, first) := AddEventMessage(st, c1, h1);
      AddEventMessage(once, c2, h2).1 != first && first in AddEventMessage(once, c2, h2).0.messages
  {
    var (once, first) := AddEventMessage(st, c1, h1);
    assert first in once.messages;
  }

  /** `getInstance(id)`: the registered message, or null. */
  function GetInstance(st: Events, id: string): (r: Option<Message>)
    ensures r.Some? <==> id in st.messages
    ensures r.Some? ==> r.value == st.messages[id]
  {
    if id in st.messages then Some(st.messages[id]) else None
  }

  /** An added message is found under its id. */
  lemma AddedIsRegistered(st: Events, caption: string, hint: string)
    requires Valid(st)
    ensures var (after, id) := AddEventMessage(st, caption, hint);
      GetInstance(after, id) == Some(Message(st.next, caption, hint, []))
  {
  }

  const ClickPrefix := "EVENT "
  const ClickSuffix := " CLICKED"

  /** The test and the cut of the shared listener: a message starting with
      "EVENT " and ending with " CLICKED" names the id between the two. When
      the two overlap ("EVENT CLICKED") the cut throws
      StringIndexOutOfBoundsException; other messages are ignored. */
  function ClickedId(message: string): (r: Result<Option<string>, string>)
    ensures !StartsWith(message, ClickPrefix) || !EndsWith(message, ClickSuffix) ==> r == Success(None)
    ensures r.Success? && r.value.Some? ==> message == ClickPrefix + r.value.value + ClickSuffix
  {
    if StartsWith(message, ClickPrefix) && EndsWith(message, ClickSuffix) then
      if |ClickPrefix| <= |message| - |ClickSuffix| then
        var id := message[|ClickPrefix|..|message| - |ClickSuffix|];
        assert message == message[..|ClickPrefix|] + id + message[|message| - |ClickSuffix|..];
        Success(Some(id))
      else Failure("StringIndexOutOfBoundsException")
    else Success(None)
  }

  /** The click notification for an id gives back exactly that id. */
  lemma ClickedIdOf(id: string)
    ensures ClickedId(ClickPrefix + id + ClickSuffix) == Success(Some(id))
  {
    var m := ClickPrefix + id + ClickSuffix;
    assert m[..|ClickPrefix|] == ClickPrefix;
    assert m[|m| - |ClickSuffix|..] == ClickSuffix;
    assert m[|ClickPrefix|..|m| - |ClickSuffix|] == id;
  }

  /** "EVENT CLICKED" passes both tests, but its prefix and suffix overlap. */
  lemma OverlapThrows()
    ensures ClickedId("EVENT CLICKED") == Failure("StringIndexOutOfBoundsException")
  {
    var m := "EVENT CLICKED";
    assert m[..|ClickPrefix|] == ClickPrefix;
    assert m[|m| - |ClickSuffix|..] == ClickSuffix;
  }

  /** The listeners the shared connector listener calls for a message, in
      registration order: those of the clicked message, or none when the
      id is unknown or the message is not a click. */
  function OnClick(st: Events, message: string): (r: Result<seq<Connector.Listener>, string>)
    ensures ClickedId(message) == Success(None) ==> r == Success([])
    ensures forall id :: ClickedId(message) == Success(Some(id)) ==>
      r == Success(if id in st.messages then st.messages[id].listeners else [])
  {
    match ClickedId(message)
    case Failure(e) => Failure(e)
    case Success(None) => Success([])
    case Success(Some(id)) =>
      match GetInstance(st, id)
      case None => Success([])
      case Some(m) => Success(m.listeners)
  }

  /** A click on an id nobody registered calls no listener. */
  lemma UnknownIdFiresNothing(st: Events, id: string)
    requires id !in st.messages
    ensures OnClick(st, ClickPrefix + id + ClickSuffix) == Success([])
  {
    ClickedIdOf(id);
  }

  /** A click on a registered message calls its listeners. */
  lemma ClickReachesListeners(st: Events, id: string)
    requires id in st.messages
    ensures OnClick(st, ClickPrefix + id + ClickSuffix) == Success(st.messages[id].listeners)
  {
    ClickedIdOf(id);
  }

  /** `addEventMessageListener(listener)` on the registered message `id`: a
      null listener is refused; otherwise it is appended and the shared
      connector listener is installed if it was not. The field is set
      before the connector is asked, so it stays set when that fails. */
  function AddListener(st: Events, id: string, listener: Option<Connector.Listener>,
                       connectorFailure: Option<Connector.ConnectorError>): (r: (Events, Result<(), SkypeError>))
    requires id in st.messages
    ensures listener.None? ==> r.0 == st && r.1.Failure? && r.1.error.NullPointer?
    ensures listener.Some? ==> r.0.installed && r.0.next == st.next
    ensures listener.Some? ==>
      r.0.messages == st.messages[id := st.messages[id].(listeners := st.messages[id].listeners + [listener.value])]
    ensures listener.Some? ==> (r.1.Failure? <==> !st.installed && connectorFailure.Some?)
  {
    match CheckNotNull("listener", listener)
    case Failure(e) => (st, Failure(e))
    case Success(_) =>
      var m := st.messages[id];
      var after := Events(st.next, st.messages[id := m.(listeners := m.listeners + [listener.value])], true);
      if !st.installed && connectorFailure.Some? then
        (after, Failure(ConvertToSkypeException(connectorFailure.value)))
      else (after, Success(()))
  }

  /** `removeEventMessageListener(listener)` on the registered message `id`:
      a null listener is refused; otherwise its first occurrence is
      dropped, and when no registered message has a listener left the
      shared connector listener is handed to `removeConnectorListener` and
      the field cleared. When that field is already null (the listener was
      never installed, or was removed before), the connector's own null
      check throws NullPointerException, after the listener was dropped. */
  function RemoveListener(st: Events, id: string, listener: Option<Connector.Listener>): (r: (Events, Result<(), SkypeError>))
    requires id in st.messages
    ensures listener.None? ==> r.0 == st && r.1 == Failure(NullPointer(NullMessage("listener")))
    ensures listener.Some? ==> r.0.next == st.next && r.0.messages.Keys == st.messages.Keys
    ensures listener.Some? ==> r.0.messages[id].listeners == Connector.RemoveFirst(st.messages[id].listeners, listener.value)
    ensures listener.Some? ==> forall other :: other in st.messages && other != id ==> r.0.messages[other] == st.messages[other]
    ensures listener.Some? ==> (r.0.installed <==> st.installed && Listened(r.0))
    ensures listener.Some? ==> (r.1.Failure? <==> !st.installed && !Listened(r.0))
    ensures listener.Some? && r.1.Failure? ==> r.1.error == NullPointer(Connector.NullArgumentMessage("listener"))
  {
    match CheckNotNull("listener", listener)
    case Failure(e) => (st, Failure(e))
    case Success(_) =>
      var m := st.messages[id];
      var messages := st.messages[id := m.(listeners := Connector.RemoveFirst(m.listeners, listener.value))];
      var allEmpty := forall other :: other in messages ==> |messages[other].listeners| == 0;
      var after := Events(st.next, messages, if allEmpty then false else st.installed);
      if allEmpty && !st.installed then (after, Failure(NullPointer(Connector.NullArgumentMessage("listener"))))
      else (after, Success(()))
  }

  /** Adding and removing listeners keep the shared connector listener
      installed exactly while some registered message has a listener. */
  lemma ListenersKeepInvariant(st: Events, id: string, l: Connector.Listener, failure: Option<Connector.ConnectorError>)
    requires id in st.messages
    requires st.installed <==> Listened(st)
    ensures var after := AddListener(st, id, Some(l), failure).0;
      after.installed <==> Listened(after)
    ensures var after := RemoveListener(st, id, Some(l)).0;
      after.installed <==> Listened(after)
  {
    var added := AddListener(st, id, Some(l), failure).0;
    assert |added.messages[id].listeners| > 0;
    var removed := RemoveListener(st, id, Some(l)).0;
    if Listened(removed) {
      var w :| w in removed.messages && |removed.messages[w].listeners| > 0;
      if w == id {
        Connector.RemoveFirstCount(st.messages[id].listeners, l);
        assert multiset(removed.messages[id].listeners) <= multiset(st.messages[id].listeners);
        assert |st.messages[id].listeners| > 0;
      }
      assert Listened(st);
    }
  }

  /** Removing a listener while no registered message has one, for instance
      one that was never added, throws NullPointerException: the shared
      connector listener is not installed, and null reaches the connector. */
  lemma RemoveWhileUnlistenedThrows(st: Events, id: string, l: Connector.Listener)
    requires id in st.messages
    requires st.installed <==> Listened(st)
    requires !Listened(st)
    ensures RemoveListener(st, id, Some(l)) ==
      (st.(installed := false), Failure(NullPointer(Connector.NullArgumentMessage("listener"))))
  {
    assert |st.messages[id].listeners| == 0;
    assert st.messages[id].(listeners := Connector.RemoveFirst(st.messages[id].listeners, l)) == st.messages[id];
    assert st.messages[id := st.messages[id]] == st.messages;
  }

  /** `dispose()` asks Skype to delete the event; the registry keeps the message. */
  function DisposeRequest(id: string): (r: Request)
    ensures r.header == r.command
    ensures StartsWith(r.command, "DELETE EVENT ") && r.command[|"DELETE EVENT "|..] == id
  {
    var r := PlainCommand("DELETE EVENT " + id);
    assert r.command[..|"DELETE EVENT "|] == "DELETE EVENT ";
    r
  }
}

=== FILE: java_text.dfy ===
/** The subset of java.lang.String, Integer, Long and Boolean behaviour the
    Skype4Java text protocol relies on. Java exceptions (index out of range,
    number format) are modelled as an absent result. */
module JavaText {
  import opened Wrappers

  // ---------------------------------------------------------------------
  // Prefixes, suffixes and occurrences
  // ---------------------------------------------------------------------

  /** `s.startsWith(p)` */
  predicate StartsWith(s: string, p: string) {
    |p| <= |s| && s[..|p|] == p
  }

  /** `s.endsWith(p)` */
  predicate EndsWith(s: string, p: string) {
    |p| <= |s| && s[|s| - |p|..] == p
  }

  /** `t` occurs in `s` starting at index `i`. */
  predicate OccursAt(s: string, t: string, i: int) {
    0 <= i && i + |t| <= |s| && s[i..i + |t|] == t
  }

  /** `s.indexOf(c, from)`: the least index at or after `from` holding `c`, or -1. */
  function IndexOfFrom(s: string, c: char, from: nat): (r: int)
    ensures r == -1 || (from <= r < |s| && s[r] == c)
    ensures forall k :: from <= k < |s| && (r == -1 || k < r) ==> s[k] != c
    decreases |s| - from
  {
    if from >= |s| then -1
    else if s[from] == c then from
    else IndexOfFrom(s, c, from + 1)
  }

  /** `s.indexOf(c)` */
  function IndexOf(s: string, c: char): (r: int)
    ensures r == -1 <==> c !in s
    ensures r != -1 ==> 0 <= r < |s| && s[r] == c && c !in s[..r]
  {
    var r := IndexOfFrom(s, c, 0);
    assert r != -1 ==> forall k :: 0 <= k < r ==> s[..r][k] == s[k];
    r
  }

  /** A first `c` found by other means is the one `IndexOf` finds. */
  lemma IndexOfIs(s: string, c: char, i: int)
    requires 0 <= i < |s| && s[i] == c && c !in s[..i]
    ensures IndexOf(s, c) == i
  {
    forall k | 0 <= k < i
      ensures s[k] != c
    {
      assert s[..i][k] == s[k];
    }
    assert IndexOfFrom(s, c, 0) == i;
  }

  /** In `a + [c] + b` with `c` not in `a`, the first `c` splits the text back into `a` and `b`. */
  lemma IndexOfJoined(a: string, c: char, b: string)
    requires c !in a
    ensures var s := a + [c] + b;
      IndexOf(s, c) == |a| && s[..|a|] == a && s[|a| + 1..] == b
  {
    var s := a + [c] + b;
    assert s[..|a|] == a;
    IndexOfIs(s, c, |a|);
  }

  /** A `c` at or after `from` with none between them is the one `IndexOfFrom` finds. */
  lemma IndexOfFromIs(s: string, c: char, from: nat, i: int)
    requires from <= i < |s| && s[i] == c
    requires forall k :: from <= k < i ==> s[k] != c
    ensures IndexOfFrom(s, c, from) == i
  {
  }

  /** `s.lastIndexOf(c)` */
  function LastIndexOf(s: string, c: char): (r: int)
    ensures r == -1 <==> c !in s
    ensures r != -1 ==> 0 <= r < |s| && s[r] == c && c !in s[r + 1..]
  {
    if |s| == 0 then -1
    else if s[|s| - 1] == c then |s| - 1
    else
      var r := LastIndexOf(s[..|s| - 1], c);
      assert s == s[..|s| - 1] + [s[|s| - 1]];
      r
  }

  /** `s.indexOf(t, from)`: the least index at or after `from` where `t` occurs, or -1. */
  function FindFrom(s: string, t: string, from: nat): (r: int)
    ensures r == -1 || (from <= r && OccursAt(s, t, r))
    ensures forall k :: from <= k && (r == -1 || k < r) ==> !OccursAt(s, t, k)
    decreases |s| + 1 - from
  {
    if from + |t| > |s| then -1
    else if s[from..from + |t|] == t then from
    else FindFrom(s, t, from + 1)
  }

  /** `s.indexOf(t)` */
  function Find(s: string, t: string): (r: int)
    ensures r == -1 || OccursAt(s, t, r)
    ensures forall k :: 0 <= k && (r == -1 || k < r) ==> !OccursAt(s, t, k)
  {
    FindFrom(s, t, 0)
  }

  /** The first occurrence of `t` found by other means is the one `Find` finds. */
  lemma FindIs(s: string, t: string, i: int)
    requires OccursAt(s, t, i)
    requires forall k :: 0 <= k < i ==> !OccursAt(s, t, k)
    ensures Find(s, t) == i
  {
  }

  /** `s.contains(t)` */
  predicate Contains(s: string, t: string) {
    Find(s, t) != -1
  }

  /** `s.substring(b, e)`: absent where Java throws StringIndexOutOfBoundsException. */
  function Substring(s: string, b: int, e: int): Option<string> {
    if 0 <= b <= e <= |s| then Some(s[b..e]) else None
  }

  /** `s.substring(b)` */
  function SubstringFrom(s: string, b: int): Option<string> {
    Substring(s, b, |s|)
  }

  /** The text before the first `c`; Java's `s.substring(0, s.indexOf(c))`,
      which throws when `c` is absent. */
  function Before(s: string, c: char): (r: Option<string>)
    ensures r.Some? <==> c in s
    ensures r.Some? ==> StartsWith(s, r.value + [c]) && c !in r.value
  {
    var i := IndexOf(s, c);
    var r := Substring(s, 0, i);
    assert r.Some? ==> s[..i + 1] == r.value + [c];
    r
  }

  // ---------------------------------------------------------------------
  // Splitting and joining
  // ---------------------------------------------------------------------

  /** The pieces of `s` between the successive leftmost non-overlapping
      occurrences of `sep`, keeping every empty piece. */
  function RawSplit(s: string, sep: string): (r: seq<string>)
    requires |sep| > 0
    ensures |r| >= 1
    decreases |s|
  {
    var i := Find(s, sep);
    if i < 0 then [s] else [s[..i]] + RawSplit(s[i + |sep|..], sep)
  }

  /** Removes the empty strings at the end of `ps`. */
  function DropTrailingEmpty(ps: seq<string>): (r: seq<string>)
    ensures |r| <= |ps| && r == ps[..|r|]
    ensures |r| > 0 ==> r[|r| - 1] != ""
    ensures forall k :: |r| <= k < |ps| ==> ps[k] == ""
  {
    if |ps| > 0 && ps[|ps| - 1] == "" then DropTrailingEmpty(ps[..|ps| - 1]) else ps
  }

  /** `s.split(sep)` for a separator without regular-expression
      metacharacters: no occurrence gives `[s]` (so `"".split(",")` is `[""]`);
      otherwise the trailing empty pieces are dropped (so `",".split(",")` is `[]`). */
  function Split(s: string, sep: string): (r: seq<string>)
    requires |sep| > 0
    ensures Find(s, sep) < 0 ==> r == [s]
    ensures Find(s, sep) >= 0 ==> |r| > 0 ==> r[|r| - 1] != ""
  {
    if Find(s, sep) < 0 then [s] else DropTrailingEmpty(RawSplit(s, sep))
  }

  /** The pieces separated by `sep`; the inverse of `Split` on pieces free of `sep`. */
  function Join(ps: seq<string>, sep: string): string
    decreases |ps|
  {
    if |ps| == 0 then ""
    else if |ps| == 1 then ps[0]
    else ps[0] + sep + Join(ps[1..], sep)
  }

  /** A piece in front of a non-empty list joins with one separator between. */
  lemma JoinCons(p: string, ps: seq<string>, sep: string)
    requires |ps| > 0
    ensures Join([p] + ps, sep) == p + sep + Join(ps, sep)
  {
    assert ([p] + ps)[1..] == ps;
  }

  /** No piece contains the first character of `sep`. */
  predicate SeparatorFree(ps: seq<string>, sep: string)
    requires |sep| > 0
  {
    forall k :: 0 <= k < |ps| ==> sep[0] !in ps[k]
  }

  /** Joined pieces whose last one is not empty are not empty. */
  lemma {:induction false} JoinNonEmpty(ps: seq<string>, sep: string)
    requires |ps| > 0 && ps[|ps| - 1] != ""
    ensures Join(ps, sep) != ""
    decreases |ps|
  {
    if |ps| > 1 {
      JoinNonEmpty(ps[1..], sep);
      assert |Join(ps, sep)| >= |Join(ps[1..], sep)|;
    }
  }

  /** Java's split keeps every piece of joined text when the last piece is not empty. */
  predicate SplitKeepsAll(ps: seq<string>) {
    |ps| == 1 || (|ps| > 1 && ps[|ps| - 1] != "")
  }

  /** A piece free of `sep[0]` holds no occurrence of `sep`, whatever follows it. */
  lemma {:induction false} NoOccurrenceInside(p: string, rest: string, sep: string, k: nat)
    requires |sep| > 0 && sep[0] !in p && k < |p|
    ensures !OccursAt(p + rest, sep, k)
  {
    assert (p + rest)[k] == p[k];
  }

  /** A piece free of `sep[0]` holds no occurrence of `sep`. */
  lemma NotFoundInPiece(p: string, sep: string)
    requires |sep| > 0 && sep[0] !in p
    ensures Find(p, sep) == -1
  {
    forall k | 0 <= k
      ensures !OccursAt(p, sep, k)
    {
      if k < |p| {
        NoOccurrenceInside(p, "", sep, k);
        assert p + "" == p;
      }
    }
  }

  /** In `p + sep + rest` with `p` free of `sep[0]`, the first occurrence of
      `sep` is the one right after `p`, and cutting there gives `p` and `rest`. */
  lemma FoundAfterPiece(p: string, sep: string, rest: string)
    requires |sep| > 0 && sep[0] !in p
    ensures var s := p + (sep + rest);
      Find(s, sep) == |p| && s[..|p|] == p && s[|p| + |sep|..] == rest
  {
    var s := p + (sep + rest);
    forall k | 0 <= k < |p|
      ensures !OccursAt(s, sep, k)
    {
      NoOccurrenceInside(p, sep + rest, sep, k);
    }
    assert s[|p|..|p| + |sep|] == sep;
    FindIs(s, sep, |p|);
    assert s[..|p|] == p;
    assert s[|p| + |sep|..] == rest;
  }

  /** The pieces after the first are still free of the separator. */
  lemma SeparatorFreeTail(ps: seq<string>, sep: string)
    requires |sep| > 0 && |ps| > 0 && SeparatorFree(ps, sep)
    ensures SeparatorFree(ps[1..], sep)
  {
    forall k | 0 <= k < |ps[1..]|
      ensures sep[0] !in ps[1..][k]
    {
      assert ps[1..][k] == ps[k + 1];
    }
  }

  lemma {:induction false} RawSplitJoin(ps: seq<string>, sep: string)
    requires |sep| > 0 && |ps| > 0 && SeparatorFree(ps, sep)
    ensures RawSplit(Join(ps, sep), sep) == ps
    decreases |ps|
  {
    if |ps| == 1 {
      NotFoundInPiece(ps[0], sep);
    } else {
      var tail := Join(ps[1..], sep);
      var s := Join(ps, sep);
      assert s == ps[0] + (sep + tail) by { }
      assert RawSplit(s, sep) == [ps[0]] + RawSplit(tail, sep) by {
        FoundAfterPiece(ps[0], sep, tail);
      }
      SeparatorFreeTail(ps, sep);
      RawSplitJoin(ps[1..], sep);
      assert ps == [ps[0]] + ps[1..];
    }
  }

  /** Joining pieces free of the separator and splitting again gives the
      pieces back, provided Java's split does not drop a trailing empty piece. */
  lemma {:induction false} SplitJoin(ps: seq<string>, sep: string)
    requires |sep| > 0 && SeparatorFree(ps, sep) && SplitKeepsAll(ps)
    ensures Split(Join(ps, sep), sep) == ps
  {
    RawSplitJoin(ps, sep);
    var s := Join(ps, sep);
    if |ps| == 1 {
      assert Split(s, sep) == [ps[0]];
    } else {
      assert DropTrailingEmpty(ps) == ps;
    }
  }

  /** `Split` keeps a prefix of the `RawSplit` pieces, and what it leaves
      off is empty pieces only, unless it returns the input unsplit. */
  lemma SplitShape(s: string, sep: string)
    requires |sep| > 0
    ensures |Split(s, sep)| <= |RawSplit(s, sep)|
    ensures Split(s, sep) == RawSplit(s, sep)[..|Split(s, sep)|]
    ensures Find(s, sep) >= 0 ==> forall k :: |Split(s, sep)| <= k < |RawSplit(s, sep)| ==> RawSplit(s, sep)[k] == ""
  {
    if Find(s, sep) < 0 {
      assert RawSplit(s, sep) == [s];
    }
  }

  // ---------------------------------------------------------------------
  // Whitespace and case
  // ---------------------------------------------------------------------

  /** Java's `trim` treats every character up to U+0020 as white space. */
  predicate IsTrimmed(c: char) {
    c <= ' '
  }

  function TrimStart(s: string): (r: string)
    ensures |r| <= |s| && r == s[|s| - |r|..]
    ensures |r| > 0 ==> !IsTrimmed(r[0])
    ensures forall k :: 0 <= k < |s| - |r| ==> IsTrimmed(s[k])
  {
    if |s| > 0 && IsTrimmed(s[0]) then
      var r := TrimStart(s[1..]);
      assert forall k :: 1 <= k < |s| - |r| ==> s[1..][k - 1] == s[k];
      r
    else s
  }

  function TrimEnd(s: string): (r: string)
    ensures |r| <= |s| && r == s[..|r|]
    ensures |r| > 0 ==> !IsTrimmed(r[|r| - 1])
    ensures forall k :: |r| <= k < |s| ==> IsTrimmed(s[k])
  {
    if |s| > 0 && IsTrimmed(s[|s| - 1]) then TrimEnd(s[..|s| - 1]) else s
  }

  /** `s.trim()`: `s` without its leading and trailing white space. */
  function Trim(s: string): (r: string)
    ensures |r| > 0 ==> !IsTrimmed(r[0]) && !IsTrimmed(r[|r| - 1])
    ensures exists b :: OccursAt(s, r, b)
  {
    var t := TrimStart(s);
    var r := TrimEnd(t);
    var b := |s| - |t|;
    assert OccursAt(s, r, b);
    r
  }

  /** Trimming text that neither starts nor ends with white space changes nothing. */
  lemma TrimIdentity(s: string)
    requires |s| > 0 ==> !IsTrimmed(s[0]) && !IsTrimmed(s[|s| - 1])
    ensures Trim(s) == s
  {
  }

  /** ASCII upper-casing of one character, as `toUpperCase` does for ASCII text. */
  function UpperChar(c: char): char {
    if 'a' <= c <= 'z' then (c as int - 32) as char else c
  }

  function ToUpper(s: string): (r: string)
    ensures |r| == |s|
    ensures forall k :: 0 <= k < |s| ==> r[k] == UpperChar(s[k])
  {
    seq(|s|, k requires 0 <= k < |s| => UpperChar(s[k]))
  }

  /** ASCII lower-casing of one character, as `toLowerCase` does for ASCII text. */
  function LowerChar(c: char): char {
    if 'A' <= c <= 'Z' then (c as int + 32) as char else c
  }

  function ToLower(s: string): (r: string)
    ensures |r| == |s|
    ensures forall k :: 0 <= k < |s| ==> r[k] == LowerChar(s[k])
  {
    seq(|s|, k requires 0 <= k < |s| => LowerChar(s[k]))
  }

  /** `a.equalsIgnoreCase(b)` restricted to ASCII letters. */
  predicate EqualsIgnoreCase(a: string, b: string) {
    ToLower(a) == ToLower(b)
  }

  /** Texts equal but for case have the same length, and a text equals its
      upper-cased and its lower-cased form. */
  lemma EqualsIgnoreCaseProperties(a: string, b: string)
    ensures EqualsIgnoreCase(a, b) ==> |a| == |b|
    ensures EqualsIgnoreCase(ToUpper(a), a) && EqualsIgnoreCase(ToLower(a), a)
  {
    if EqualsIgnoreCase(a, b) {
      assert |ToLower(a)| == |ToLower(b)|;
    }
    assert forall k :: 0 <= k < |a| ==> LowerChar(UpperChar(a[k])) == LowerChar(a[k]);
    assert ToLower(ToUpper(a)) == ToLower(a);
    assert forall k :: 0 <= k < |a| ==> LowerChar(LowerChar(a[k])) == LowerChar(a[k]);
    assert ToLower(ToLower(a)) == ToLower(a);
  }

  /** `Boolean.parseBoolean(s)`: true exactly for "true" in any letter case. */
  predicate ParseBoolean(s: string) {
    EqualsIgnoreCase(s, "true")
  }

  /** `Boolean.toString(b).toUpperCase()`, the protocol's spelling of a flag. */
  function BooleanText(b: bool): (r: string)
    ensures ParseBoolean(r) == b
  {
    if b then "TRUE" else "FALSE"
  }

  /** Characters removed: `s.replaceAll(c, "")` for a one-character literal. */
  function RemoveAll(s: string, c: char): (r: string)
    ensures c !in r
    ensures |r| <= |s|
    ensures c !in s ==> r == s
  {
    if |s| == 0 then ""
    else if s[0] == c then RemoveAll(s[1..], c)
    else [s[0]] + RemoveAll(s[1..], c)
  }

  // ---------------------------------------------------------------------
  // Decimal numbers
  // ---------------------------------------------------------------------

  const IntMin: int := -0x8000_0000
  const IntMax: int := 0x7fff_ffff
  const LongMin: int := -0x8000_0000_0000_0000
  const LongMax: int := 0x7fff_ffff_ffff_ffff

  predicate IsDigit(c: char) {
    '0' <= c <= '9'
  }

  predicate AllDigits(s: string) {
    forall k :: 0 <= k < |s| ==> IsDigit(s[k])
  }

  /** The value of a string of decimal digits, most significant first. */
  function DigitsValue(s: string): nat
    requires AllDigits(s)
  {
    if |s| == 0 then 0
    else DigitsValue(s[..|s| - 1]) * 10 + (s[|s| - 1] as int - '0' as int)
  }

  /** The shortest decimal spelling of `n`, as `Integer.toString` writes it. */
  function NatToString(n: nat): (r: string)
    ensures |r| > 0 && AllDigits(r)
    ensures |r| > 1 ==> r[0] != '0'
  {
    if n < 10 then [('0' as int + n) as char]
    else
      var r := NatToString(n / 10) + [('0' as int + n % 10) as char];
      assert r[0] == NatToString(n / 10)[0];
      r
  }

  /** `String.valueOf(n)` for any integer. */
  function IntToString(n: int): (r: string)
    ensures |r| > 0
  {
    if n < 0 then "-" + NatToString(-n) else NatToString(n)
  }

  /** The value of optionally signed decimal text with no range limit, as
      `Integer.parseInt`, `Long.parseLong` and `new BigDecimal` read an integer. */
  function ParseSigned(s: string): (r: Option<int>)
    ensures r.Some? ==> |s| > 0
  {
    if |s| == 0 then None
    else
      var digits := if s[0] == '-' || s[0] == '+' then s[1..] else s;
      if |digits| == 0 || !AllDigits(digits) then None
      else if s[0] == '-' then Some(0 - DigitsValue(digits))
      else Some(DigitsValue(digits))
  }

  /** Signed decimal text whose value lies in `[lo, hi]`; otherwise a
      NumberFormatException. */
  function ParseBounded(s: string, lo: int, hi: int): (r: Option<int>)
    ensures r.Some? ==> lo <= r.value <= hi
  {
    match ParseSigned(s)
    case Some(v) => if lo <= v <= hi then Some(v) else None
    case None => None
  }

  /** `Integer.parseInt(s)` */
  function ParseInt(s: string): (r: Option<int>)
    ensures r.Some? ==> IntMin <= r.value <= IntMax
  {
    ParseBounded(s, IntMin, IntMax)
  }

  /** `Long.parseLong(s)` */
  function ParseLong(s: string): (r: Option<int>)
    ensures r.Some? ==> LongMin <= r.value <= LongMax
  {
    ParseBounded(s, LongMin, LongMax)
  }

  lemma {:induction false} DigitsOfNat(n: nat)
    ensures DigitsValue(NatToString(n)) == n
  {
    if n >= 10 {
      var s := NatToString(n);
      DigitsOfNat(n / 10);
      assert s[..|s| - 1] == NatToString(n / 10);
    }
  }

  /** Reading back what `IntToString` wrote gives the same number. */
  lemma ParseSignedToString(n: int)
    ensures ParseSigned(IntToString(n)) == Some(n)
  {
    if n < 0 {
      var d := NatToString(-n);
      assert IntToString(n)[1..] == d;
      DigitsOfNat(-n);
    } else {
      DigitsOfNat(n);
    }
  }

  /** `Integer.parseInt(String.valueOf(n)) == n` for every 32-bit `n`. */
  lemma ParseIntToString(n: int)
    requires IntMin <= n <= IntMax
    ensures ParseInt(IntToString(n)) == Some(n)
  {
    ParseSignedToString(n);
  }

  /** `Long.parseLong(String.valueOf(n)) == n` for every 64-bit `n`. */
  lemma ParseLongToString(n: int)
    requires LongMin <= n <= LongMax
    ensures ParseLong(IntToString(n)) == Some(n)
  {
    ParseSignedToString(n);
  }

  /** Distinct numbers have distinct decimal spellings. */
  lemma IntToStringInjective(a: int, b: int)
    requires IntToString(a) == IntToString(b)
    ensures a == b
  {
    ParseSignedToString(a);
    ParseSignedToString(b);
  }

  /** The decimal spelling of a number holds no separator character. */
  lemma IntToStringHasNo(n: int, c: char)
    requires c != '-' && !IsDigit(c)
    ensures c !in IntToString(n)
  {
    var d := NatToString(if n < 0 then -n else n);
    assert forall k :: 0 <= k < |d| ==> d[k] != c;
  }

  // ---------------------------------------------------------------------
  // java.math.BigDecimal
  // ---------------------------------------------------------------------

  /** A BigDecimal: the value `unscaled × 10^(−scale)`, its scale a Java `int`. */
  datatype Decimal = Decimal(unscaled: int, scale: int)

  /** The index of the first `e` or `E` in `s`, or `|s|` when there is none. */
  function ExponentAt(s: string): (r: nat)
    ensures r <= |s|
    ensures forall k :: 0 <= k < r ==> s[k] != 'e' && s[k] != 'E'
    ensures r < |s| ==> s[r] == 'e' || s[r] == 'E'
  {
    if |s| == 0 || s[0] == 'e' || s[0] == 'E' then 0
    else
      var r := 1 + ExponentAt(s[1..]);
      assert forall k :: 1 <= k < r ==> s[k] == s[1..][k - 1];
      r
  }

  /** The significand of BigDecimal text without its sign: decimal digits
      with at most one point and at least one digit, read as all its digits
      over ten to the number of digits after the point. */
  function ParseSignificand(s: string): (r: Option<Decimal>)
    ensures r.Some? ==> |s| > 0 && r.value.unscaled >= 0 && r.value.scale >= 0
  {
    var p := IndexOf(s, '.');
    var whole := if p < 0 then s else s[..p];
    var fraction := if p < 0 then "" else s[p + 1..];
    if |whole| + |fraction| == 0 || !AllDigits(whole) || !AllDigits(fraction) then None
    else
      assert p < 0 ==> whole + fraction == s;
      Some(Decimal(DigitsValue(whole + fraction), |fraction|))
  }

  /** The mantissa of BigDecimal text: an optional sign before the significand. */
  function ParseMantissa(m: string): (r: Option<Decimal>)
    ensures r.Some? ==> |m| > 0
  {
    var signed := |m| > 0 && (m[0] == '-' || m[0] == '+');
    var d := ParseSignificand(if signed then m[1..] else m);
    if d.None? then None
    else if signed && m[0] == '-' then Some(d.value.(unscaled := 0 - d.value.unscaled))
    else d
  }

  /** `new BigDecimal(s)` for ASCII text: the mantissa, then optionally `e`
      or `E` and a signed decimal exponent. The scale is the number of
      fraction digits less the exponent; text of any other shape, or a scale
      outside the `int` range, is a NumberFormatException. */
  function ParseDecimal(s: string): (r: Option<Decimal>)
    ensures r.Some? ==> IntMin <= r.value.scale <= IntMax
  {
    var e := ExponentAt(s);
    var m := ParseMantissa(s[..e]);
    var x := if e == |s| then Some(0) else ParseSigned(s[e + 1..]);
    if m.None? || x.None? || !(IntMin <= m.value.scale - x.value <= IntMax) then None
    else Some(Decimal(m.value.unscaled, m.value.scale - x.value))
  }

  /** Text of decimal digits holds no other character. */
  lemma DigitsHaveNo(s: string, c: char)
    requires AllDigits(s) && !IsDigit(c)
    ensures c !in s
  {
    assert forall k :: 0 <= k < |s| ==> IsDigit(s[k]);
  }

  /** Text without an exponent marker reads as its mantissa. */
  lemma ParseDecimalWithoutExponent(s: string, d: Decimal)
    requires 'e' !in s && 'E' !in s
    requires ParseMantissa(s) == Some(d) && d.scale <= IntMax
    ensures ParseDecimal(s) == Some(d)
  {
    assert ExponentAt(s) == |s|;
    assert s[..|s|] == s;
  }

  /** The significand `whole.fraction` is all its digits with `|fraction|` places. */
  lemma SignificandPointed(whole: string, fraction: string)
    requires AllDigits(whole) && AllDigits(fraction) && |whole| + |fraction| > 0
    ensures ParseSignificand(whole + "." + fraction) == Some(Decimal(DigitsValue(whole + fraction), |fraction|))
  {
    var body := whole + "." + fraction;
    DigitsHaveNo(whole, '.');
    IndexOfIs(body, '.', |whole|);
    assert body[..|whole|] == whole && body[|whole| + 1..] == fraction;
  }

  /** A minus sign in front of a significand that starts with no sign negates it; no sign keeps it. */
  lemma MantissaSigned(negative: bool, body: string, d: Decimal)
    requires |body| > 0 && body[0] != '-' && body[0] != '+'
    requires ParseSignificand(body) == Some(d)
    ensures ParseMantissa((if negative then "-" else "") + body) ==
      Some(if negative then d.(unscaled := 0 - d.unscaled) else d)
  {
    var m := (if negative then "-" else "") + body;
    if negative {
      assert m[0] == '-' && m[1..] == body;
    } else {
      assert m == body;
    }
  }

  /** Digits around a point hold no exponent marker and start with no sign. */
  lemma PointedShape(whole: string, fraction: string)
    requires AllDigits(whole) && AllDigits(fraction) && |whole| + |fraction| > 0
    ensures var s := whole + "." + fraction; 'e' !in s && 'E' !in s
    ensures var body := whole + "." + fraction; body[0] != '-' && body[0] != '+'
  {
    DigitsHaveNo(whole, 'e');
    DigitsHaveNo(whole, 'E');
    DigitsHaveNo(fraction, 'e');
    DigitsHaveNo(fraction, 'E');
    if |whole| > 0 {
      assert IsDigit(whole[0]);
    }
  }

  /** A minus sign in front of an unsigned mantissa without exponent
      negates its value and keeps its scale; no sign keeps both. */
  lemma ParseDecimalSigned(negative: bool, body: string, d: Decimal)
    requires |body| > 0 && body[0] != '-' && body[0] != '+' && 'e' !in body && 'E' !in body
    requires ParseSignificand(body) == Some(d) && d.scale <= IntMax
    ensures ParseDecimal((if negative then "-" else "") + body) == Some(Decimal(if negative then 0 - d.unscaled else d.unscaled, d.scale))
  {
    MantissaSigned(negative, body, d);
    ParseDecimalWithoutExponent((if negative then "-" else "") + body, if negative then d.(unscaled := 0 - d.unscaled) else d);
  }

  /** Digits with a point read as all their digits over ten to the number
      after the point: "12.50" is 1250 with scale 2. */
  lemma ParseDecimalPointed(whole: string, fraction: string)
    requires AllDigits(whole) && AllDigits(fraction) && |whole| + |fraction| > 0
    requires |fraction| <= IntMax
    ensures ParseDecimal(whole + "." + fraction) == Some(Decimal(DigitsValue(whole + fraction), |fraction|))
  {
    PointedShape(whole, fraction);
    SignificandPointed(whole, fraction);
    ParseDecimalSigned(false, whole + "." + fraction, Decimal(DigitsValue(whole + fraction), |fraction|));
    assert "" + (whole + "." + fraction) == whole + "." + fraction;
  }

  /** A mantissa of plain digits reads as their value with no places. */
  lemma MantissaOfDigits(digits: string)
    requires AllDigits(digits) && |digits| > 0
    ensures ParseMantissa(digits) == Some(Decimal(DigitsValue(digits), 0))
  {
    DigitsHaveNo(digits, '.');
    assert IsDigit(digits[0]);
    assert digits + "" == digits;
  }

  /** The first `e` or `E` found by other means is where `ExponentAt` stops. */
  lemma ExponentAtIs(s: string, e: nat)
    requires e < |s| && (s[e] == 'e' || s[e] == 'E') && 'e' !in s[..e] && 'E' !in s[..e]
    ensures ExponentAt(s) == e
  {
    assert forall k :: 0 <= k < e ==> s[k] == s[..e][k];
  }

  /** Text whose first exponent marker is at `e` reads as the mantissa before it, scaled by the exponent after it. */
  lemma ParseDecimalWithExponent(m: string, marker: char, t: string, d: Decimal, x: int)
    requires marker == 'e' || marker == 'E'
    requires 'e' !in m && 'E' !in m
    requires ParseMantissa(m) == Some(d) && ParseSigned(t) == Some(x)
    requires IntMin <= d.scale - x <= IntMax
    ensures ParseDecimal(m + [marker] + t) == Some(Decimal(d.unscaled, d.scale - x))
  {
    var s := m + [marker] + t;
    assert s[..|m|] == m;
    assert s[|m| + 1..] == t;
    ExponentAtIs(s, |m|);
  }

  /** An exponent moves the point: `digits E x` has scale `−x`, so "1E3" is 1 with scale -3. */
  lemma ParseDecimalExponent(digits: string, t: string, x: int)
    requires AllDigits(digits) && |digits| > 0
    requires ParseSigned(t) == Some(x) && IntMin <= 0 - x <= IntMax
    ensures ParseDecimal(digits + "E" + t) == Some(Decimal(DigitsValue(digits), 0 - x))
  {
    ExponentDigits(digits);
    MantissaOfDigits(digits);
    var d := Decimal(DigitsValue(digits), 0);
    ParseDecimalWithExponent(digits, 'E', t, d, x);
    assert ParseDecimal(digits + ['E'] + t) == Some(Decimal(d.unscaled, d.scale - x));
    assert Decimal(d.unscaled, d.scale - x) == Decimal(DigitsValue(digits), 0 - x);
    assert digits + ['E'] + t == digits + "E" + t;
  }

  /** Decimal digits hold no exponent marker. */
  lemma ExponentDigits(digits: string)
    requires AllDigits(digits)
    ensures 'e' !in digits && 'E' !in digits
  {
    DigitsHaveNo(digits, 'e');
    DigitsHaveNo(digits, 'E');
  }

  /** Integer text reads as the integer with scale 0. */
  lemma ParseDecimalInteger(n: int)
    ensures ParseDecimal(IntToString(n)) == Some(Decimal(n, 0))
  {
    var s := IntToString(n);
    IntToStringHasNo(n, 'e');
    IntToStringHasNo(n, 'E');
    var d := NatToString(if n < 0 then -n else n);
    DigitsOfNat(if n < 0 then -n else n);
    MantissaOfDigits(d);
    if n < 0 {
      assert s[1..] == d;
      DigitsHaveNo(d, '.');
    }
    ParseDecimalWithoutExponent(s, Decimal(n, 0));
  }

  /** `scaleByPowerOfTen(n)`: the scale drops by `n`. A scale beyond the
      `int` range is an ArithmeticException, except for a zero value, whose
      scale is clamped to the nearest bound instead. */
  function ScaleByPowerOfTen(d: Decimal, n: int): (r: Option<Decimal>)
    ensures r.Some? ==> r.value.unscaled == d.unscaled && IntMin <= r.value.scale <= IntMax
    ensures IntMin <= d.scale - n <= IntMax ==> r == Some(Decimal(d.unscaled, d.scale - n))
    ensures r.None? <==> d.unscaled != 0 && !(IntMin <= d.scale - n <= IntMax)
    ensures d.unscaled == 0 && d.scale - n > IntMax ==> r == Some(Decimal(0, IntMax))
    ensures d.unscaled == 0 && d.scale - n < IntMin ==> r == Some(Decimal(0, IntMin))
  {
    var scale := d.scale - n;
    if IntMin <= scale <= IntMax then Some(Decimal(d.unscaled, scale))
    else if d.unscaled != 0 then None
    else Some(Decimal(0, if scale > IntMax then IntMax else IntMin))
  }

  // ---------------------------------------------------------------------
  // 32-bit wrap-around
  // ---------------------------------------------------------------------

  /** The Java `int` value of the mathematical integer `n` (two's complement wrap). */
  function ToInt32(n: int): (r: int)
    ensures IntMin <= r <= IntMax
    ensures (r - n) % 0x1_0000_0000 == 0
    ensures IntMin <= n <= IntMax ==> r == n
  {
    var m := n % 0x1_0000_0000;
    if m <= IntMax then m else m - 0x1_0000_0000
  }

  /** Two integers less than 2^32 apart keep distinct Java `int` values. */
  lemma ToInt32Distinct(a: int, b: int)
    requires a < b < a + 0x1_0000_0000
    ensures ToInt32(a) != ToInt32(b)
  {
  }
}

=== FILE: jp_application.dfy ===
/** jp.sf.skype.Application: an AP2AP application of the older API.
    Modelled are `initalize` with its single retry, the stream table kept
    from the STREAMS notices, and the friend list of a GET APPLICATION
    reply. Replies from Skype are inputs. */
module JpApplication {
  import opened Wrappers
  import opened JavaText
  import opened SkypeUtils
  import Connector
  import Application
  import JpStream
  import JpSkype

  // ---------------------------------------------------------------------
  // initalize
  // ---------------------------------------------------------------------

  /** The command that registers application `name`; the name follows the
      fixed 19-character head unchanged. */
  function CreateCommand(name: string): (r: string)
    ensures StartsWith(r, "CREATE APPLICATION ") && r[19..] == name
  {
    var r := "CREATE APPLICATION " + name;
    assert r[..19] == "CREATE APPLICATION ";
    r
  }

  /** The command that unregisters application `name`, shaped the same way. */
  function DeleteCommand(name: string): (r: string)
    ensures StartsWith(r, "DELETE APPLICATION ") && r[19..] == name
  {
    var r := "DELETE APPLICATION " + name;
    assert r[..19] == "DELETE APPLICATION ";
    r
  }

  /** The two commands never coincide, and each names one application. */
  lemma CommandsDistinct(a: string, b: string)
    ensures CreateCommand(a) != DeleteCommand(b)
    ensures CreateCommand(a) == CreateCommand(b) <==> a == b
    ensures DeleteCommand(a) == DeleteCommand(b) <==> a == b
  {
    assert CreateCommand(a)[0] == 'C' && DeleteCommand(b)[0] == 'D';
  }

  /** A reply as `initalize` checks it: a connector failure is converted,
      a reply goes through `checkError`. */
  function CheckReply(reply: Result<Option<string>, Connector.ConnectorError>): (r: Result<(), SkypeError>)
    ensures r.Success? <==> reply.Success? && (reply.value.None? || !StartsWith(reply.value.value, ErrorPrefix))
    ensures reply.Failure? ==> r == Failure(JpSkype.ConvertConnectorFailure(reply.error))
    ensures !(reply.Failure? && reply.error.OtherFailure?) ==> r == SetResult(reply)
  {
    match reply
    case Failure(e) => Failure(JpSkype.ConvertConnectorFailure(e))
    case Success(response) => CheckError(response)
  }

  /** The commands `initalize` sent, what it returned, and whether it
      installed its data listener. */
  datatype InitOutcome = InitOutcome(commands: seq<string>, result: Result<(), SkypeError>, listening: bool)

  /** The last step of `initalize`: registering the data listener, which
      counts as installed only when the registration returns normally;
      `listen` is the connector failure it raised, if any. */
  function Listen(commands: seq<string>, listen: Option<Connector.ConnectorError>): (r: InitOutcome)
    ensures r.commands == commands && (r.listening <==> listen.None?) && (r.result.Success? <==> listen.None?)
    ensures listen.Some? ==> r.result == Failure(JpSkype.ConvertConnectorFailure(listen.value))
  {
    match listen
    case None => InitOutcome(commands, Success(()), true)
    case Some(e) => InitOutcome(commands, Failure(JpSkype.ConvertConnectorFailure(e)), false)
  }

  /** `initalize()` given what the connector answered to CREATE, DELETE and
      the second CREATE, and how registering the data listener ended. An
      error reply to CREATE (a CommandFailedException) makes it delete the
      application and create it once more; an error reply it cannot parse
      throws past that handler, and so does a connector failure, which the
      outer handler converts. */
  function Initialize(name: string, create: Result<Option<string>, Connector.ConnectorError>,
                      delete: Result<Option<string>, Connector.ConnectorError>,
                      retry: Result<Option<string>, Connector.ConnectorError>,
                      listen: Option<Connector.ConnectorError>): (r: InitOutcome)
    ensures r.result.Success? <==> r.listening
    ensures 1 <= |r.commands| <= 3 && r.commands[0] == CreateCommand(name)
    ensures CheckReply(create).Success? ==> r == Listen([CreateCommand(name)], listen)
    ensures |r.commands| == 1 && CheckReply(create).Failure? ==> r.result == CheckReply(create)
    ensures |r.commands| > 1 ==>
      r.commands[1] == DeleteCommand(name) && CheckReply(create).Failure? && CheckReply(create).error.CommandFailed?
    ensures |r.commands| == 2 ==> r.result == CheckReply(delete)
    ensures |r.commands| == 3 ==> r.commands[2] == CreateCommand(name) && CheckReply(delete).Success?
    ensures |r.commands| == 3 && CheckReply(retry).Failure? ==> r.result == CheckReply(retry)
    ensures r.listening <==>
      listen.None? && (CheckReply(create).Success? || (|r.commands| == 3 && CheckReply(retry).Success?))
  {
    match CheckReply(create)
    case Success(_) => Listen([CreateCommand(name)], listen)
    case Failure(e) =>
      if !e.CommandFailed? then InitOutcome([CreateCommand(name)], Failure(e), false)
      else
        match CheckReply(delete)
        case Failure(d) => InitOutcome([CreateCommand(name), DeleteCommand(name)], Failure(d), false)
        case Success(_) =>
          var commands := [CreateCommand(name), DeleteCommand(name), CreateCommand(name)];
          match CheckReply(retry)
          case Failure(again) => InitOutcome(commands, Failure(again), false)
          case Success(_) => Listen(commands, listen)
  }

  /** An application left over from before is deleted and created again,
      once: a second refusal is returned, not retried. */
  lemma InitializeRetriesOnce(name: string, code1: int, message1: string, code2: int, message2: string)
    requires IntMin <= code1 <= IntMax && IntMin <= code2 <= IntMax
    ensures var refused := Success(Some(ErrorReply(code1, message1)));
      Initialize(name, refused, Success(None), Success(None), None) ==
        InitOutcome([CreateCommand(name), DeleteCommand(name), CreateCommand(name)], Success(()), true) &&
      Initialize(name, refused, Success(None), Success(Some(ErrorReply(code2, message2))), None) ==
        InitOutcome([CreateCommand(name), DeleteCommand(name), CreateCommand(name)], Failure(CommandFailed(code2, message2)), false)
  {
    ErrorReplyRoundTrip(code1, message1);
    ErrorReplyRoundTrip(code2, message2);
  }

  /** A connector failure is converted where it happens and never retried:
      at CREATE nothing more is sent, at DELETE the second CREATE is not. */
  lemma ConnectorFailureNotRetried(name: string, e: Connector.ConnectorError, code: int, message: string,
                                   delete: Result<Option<string>, Connector.ConnectorError>,
                                   retry: Result<Option<string>, Connector.ConnectorError>,
                                   listen: Option<Connector.ConnectorError>)
    requires IntMin <= code <= IntMax
    ensures Initialize(name, Failure(e), delete, retry, listen) ==
      InitOutcome([CreateCommand(name)], Failure(JpSkype.ConvertConnectorFailure(e)), false)
    ensures Initialize(name, Success(Some(ErrorReply(code, message))), Failure(e), retry, listen) ==
      InitOutcome([CreateCommand(name), DeleteCommand(name)], Failure(JpSkype.ConvertConnectorFailure(e)), false)
  {
    ErrorReplyRoundTrip(code, message);
  }

  /** An error reply without a code is not retried: its parse throws. */
  lemma MalformedRefusalNotRetried(name: string, delete: Result<Option<string>, Connector.ConnectorError>,
                                   retry: Result<Option<string>, Connector.ConnectorError>,
                                   listen: Option<Connector.ConnectorError>)
    ensures Initialize(name, Success(Some("ERROR x")), delete, retry, listen).commands == [CreateCommand(name)]
  {
    assert "ERROR x"[..|ErrorPrefix|] == ErrorPrefix;
    assert ErrorBody("ERROR x") == "x";
  }

  /** `isReceivedText` is the same test as in the newer API: a RECEIVED
      notice counts as text only when something follows the prefix. */
  lemma ReceivedTextNeedsData(data: string)
    ensures !Application.IsReceivedText(Application.ReceivedPrefix)
    ensures Application.IsReceivedText(data) <==>
      StartsWith(data, Application.ReceivedPrefix) && data != Application.ReceivedPrefix
  {
    if StartsWith(data, Application.ReceivedPrefix) && data != Application.ReceivedPrefix {
      assert data[..|Application.ReceivedPrefix|] == Application.ReceivedPrefix;
      assert |data| != |Application.ReceivedPrefix|;
    }
  }

  // ---------------------------------------------------------------------
  // The stream table
  // ---------------------------------------------------------------------

  /** The friend id and number of a STREAMS entry `<friend>:<n>`: the text
      before the first ':' (none throws StringIndexOutOfBoundsException)
      and the `Integer.parseInt` of the rest (NumberFormatException). */
  function ParseStreamId(streamId: string): (r: Result<(string, int), string>)
    ensures ':' !in streamId ==> r == Failure("StringIndexOutOfBoundsException")
    ensures r.Success? ==> ':' !in r.value.0 && StartsWith(streamId, r.value.0 + ":")
    ensures r.Success? ==> ParseInt(streamId[|r.value.0| + 1..]) == Some(r.value.1)
  {
    var i := IndexOf(streamId, ':');
    if i < 0 then Failure("StringIndexOutOfBoundsException")
    else
      match ParseInt(streamId[i + 1..])
      case None => Failure("NumberFormatException")
      case Some(n) =>
        assert streamId[..i + 1] == streamId[..i] + ":";
        Success((streamId[..i], n))
  }

  /** The parse inverts `Stream.getId()`. */
  lemma ParseStreamIdRoundTrip(friend: string, number: int)
    requires ':' !in friend && IntMin <= number <= IntMax
    ensures ParseStreamId(JpStream.StreamId(friend, number)) == Success((friend, number))
  {
    var s := JpStream.StreamId(friend, number);
    assert s[..|friend|] == friend;
    ParseIntToString(number);
  }

  /** A stream's friend id and number. */
  datatype StreamInfo = StreamInfo(friend: string, number: int)

  type Streams = map<string, StreamInfo>

  /** The first loop over the listed ids: each id not in the table is
      parsed, stored and announced connected, in list order; a parse that
      throws stops the loop, keeping what was stored before it. */
  datatype Added = Added(streams: Streams, connected: seq<string>, thrown: Option<string>)

  function AddNew(streams: Streams, ids: seq<string>): (r: Added)
    ensures streams.Keys <= r.streams.Keys
    ensures forall x :: x in streams ==> r.streams[x] == streams[x]
    ensures forall x :: x in r.streams ==> x in streams || x in ids
    ensures forall x :: x in r.connected <==> x in r.streams && x !in streams
    ensures forall i, j :: 0 <= i < j < |r.connected| ==> r.connected[i] != r.connected[j]
    ensures r.thrown.None? ==> forall x :: x in ids ==> x in r.streams
    ensures forall x :: x in r.streams && x !in streams ==> ParseStreamId(x) == Success((r.streams[x].friend, r.streams[x].number))
    decreases |ids|
  {
    if |ids| == 0 then Added(streams, [], None)
    else
      var id := ids[0];
      assert forall x :: x in ids ==> x == id || x in ids[1..];
      if id in streams then AddNew(streams, ids[1..])
      else
        match ParseStreamId(id)
        case Failure(e) => Added(streams, [], Some(e))
        case Success(p) =>
          var rest := AddNew(streams[id := StreamInfo(p.0, p.1)], ids[1..]);
          Added(rest.streams, [id] + rest.connected, rest.thrown)
  }

  /** What a STREAMS notice does: the table afterwards, the streams
      announced connected (in order), those announced disconnected (in the
      table's iteration order, which is not modelled), and the exception
      the listener threw, if any. */
  datatype StreamsOutcome = StreamsOutcome(streams: Streams, connected: seq<string>, disconnected: set<string>, thrown: Option<string>)

  /** The listener as written: the list is `split(" ")` with no case for
      the empty list, and the `continue` of the second loop continues the
      inner loop, so every stream in the table is announced disconnected.
      No entry is ever removed. */
  function OnStreamsAsWritten(streams: Streams, list: string): (r: StreamsOutcome)
    ensures r.thrown.None? ==> r.disconnected == r.streams.Keys
    ensures r.streams.Keys >= streams.Keys
  {
    var added := AddNew(streams, Split(list, " "));
    if added.thrown.Some? then StreamsOutcome(added.streams, added.connected, {}, added.thrown)
    else StreamsOutcome(added.streams, added.connected, added.streams.Keys, None)
  }

  /** A stream that is still listed is announced disconnected all the same,
      and stays in the table. */
  lemma ListedStreamReportedDisconnected(streams: Streams, id: string)
    requires id in streams && id != "" && ' ' !in id
    ensures var r := OnStreamsAsWritten(streams, id);
      r.thrown.None? && id in r.disconnected && r.streams == streams && r.connected == []
  {
    assert SpaceList(id) == [id];
    assert Split(id, " ") == [id];
    var added := AddNew(streams, [id]);
    assert AddNew(streams, [id]) == AddNew(streams, []);
  }

  /** When the last stream closes Skype lists none, and `"".split(" ")`
      gives one empty id, whose parse throws before any disconnection is
      announced. */
  lemma EmptyStreamListThrows(streams: Streams)
    requires "" !in streams
    ensures OnStreamsAsWritten(streams, "") == StreamsOutcome(streams, [], {}, Some("StringIndexOutOfBoundsException"))
  {
    assert Find("", " ") == -1;
    assert Split("", " ") == [""];
  }

  /** The listener as intended: an empty list names no stream, and a
      stream is announced disconnected exactly when it is no longer listed. */
  function OnStreams(streams: Streams, list: string): (r: StreamsOutcome)
    ensures r.thrown.None? ==> r.streams.Keys == streams.Keys + (set x | x in SpaceList(list))
    ensures r.thrown.None? ==> forall x :: x in r.disconnected <==> x in streams && x !in SpaceList(list)
    ensures forall x :: x in r.connected <==> x in r.streams && x !in streams
    ensures list == "" ==> r == StreamsOutcome(streams, [], streams.Keys, None)
  {
    var ids := SpaceList(list);
    var added := AddNew(streams, ids);
    if added.thrown.Some? then StreamsOutcome(added.streams, added.connected, {}, added.thrown)
    else StreamsOutcome(added.streams, added.connected, added.streams.Keys - (set x | x in ids), None)
  }

  /** Reporting the same list twice announces nothing new the second time
      and disconnects the same streams. */
  lemma OnStreamsStable(streams: Streams, list: string)
    requires OnStreams(streams, list).thrown.None?
    ensures var once := OnStreams(streams, list);
      var again := OnStreams(once.streams, list);
      again.thrown.None? && again.streams == once.streams && again.connected == [] &&
      again.disconnected == once.streams.Keys - (set x | x in SpaceList(list))
  {
    var once := OnStreams(streams, list);
    var ids := SpaceList(list);
    AddNewKnown(once.streams, ids);
  }

  /** Ids the table already holds add nothing. */
  lemma {:induction false} AddNewKnown(streams: Streams, ids: seq<string>)
    requires forall x :: x in ids ==> x in streams
    ensures AddNew(streams, ids) == Added(streams, [], None)
    decreases |ids|
  {
    if |ids| > 0 {
      assert ids[0] in streams;
      assert forall x :: x in ids[1..] ==> x in ids;
      AddNewKnown(streams, ids[1..]);
    }
  }

  // ---------------------------------------------------------------------
  // extractFriends
  // ---------------------------------------------------------------------

  /** The index at which `x` first occurs in `xs`. */
  function FirstIndex<T(==)>(xs: seq<T>, x: T): (k: nat)
    requires x in xs
    ensures k < |xs| && xs[k] == x
    ensures forall j :: 0 <= j < k ==> xs[j] != x
  {
    if xs[0] == x then 0 else 1 + FirstIndex(xs[1..], x)
  }

  /** What occurs in a prefix first occurs at the same index in the whole. */
  lemma FirstIndexInPrefix<T>(xs: seq<T>, n: nat, x: T)
    requires n <= |xs| && x in xs[..n]
    ensures FirstIndex(xs, x) == FirstIndex(xs[..n], x)
  {
    var k := FirstIndex(xs[..n], x);
    assert xs[k] == x;
    var m := FirstIndex(xs, x);
    assert m <= k;
    assert xs[..n][m] == x;
  }

  /** The entries of `xs`, each once, in the order of first occurrence. */
  function Dedupe(xs: seq<Option<string>>): (r: seq<Option<string>>)
    ensures forall x :: x in r <==> x in xs
    ensures forall i, j :: 0 <= i < j < |r| ==> r[i] != r[j]
    ensures forall i, j :: 0 <= i < j < |r| ==> FirstIndex(xs, r[i]) < FirstIndex(xs, r[j])
    decreases |xs|
  {
    if |xs| == 0 then []
    else
      var front := xs[..|xs| - 1];
      var r := Dedupe(front);
      var x := xs[|xs| - 1];
      assert forall y :: y in xs <==> y in front || y == x;
      assert forall i :: 0 <= i < |r| ==> FirstIndex(xs, r[i]) == FirstIndex(front, r[i]) by {
        forall i | 0 <= i < |r| {
          FirstIndexInPrefix(xs, |xs| - 1, r[i]);
        }
      }
      if x in r then r
      else
        assert FirstIndex(xs, x) == |xs| - 1;
        r + [x]
  }

  /** `getFriend(id)` of the contact list: the friend, or null for an id
      that is not a friend. */
  function Lookup(id: string, friends: set<string>): (r: Option<string>)
    ensures r.Some? <==> id in friends
    ensures r.Some? ==> r.value == id
  {
    if id in friends then Some(id) else None
  }

  /** Each id looked up, in order. */
  function LookupAll(ids: seq<string>, friends: set<string>): (r: seq<Option<string>>)
    ensures |r| == |ids|
    ensures forall k :: 0 <= k < |r| ==> r[k] == Lookup(ids[k], friends)
  {
    seq(|ids|, k requires 0 <= k < |ids| => Lookup(ids[k], friends))
  }

  /** `extractFriends(list)`: nothing for ""; otherwise each space-separated
      entry cut at its first ':', looked up, and kept once, in order. An id
      that is no friend gives null, which is kept once too. */
  function ExtractFriends(list: string, friends: set<string>): (r: seq<Option<string>>)
    ensures list == "" ==> r == []
    ensures forall u :: Some(u) in r <==> u in friends && u in Application.ListedUsers(list)
    ensures None in r <==> exists k :: 0 <= k < |Application.ListedUsers(list)| && Application.ListedUsers(list)[k] !in friends
    ensures forall i, j :: 0 <= i < j < |r| ==> r[i] != r[j]
    ensures forall i, j :: 0 <= i < j < |r| && r[i].Some? && r[j].Some? ==>
      FirstIndex(Application.ListedUsers(list), r[i].value) < FirstIndex(Application.ListedUsers(list), r[j].value)
  {
    var users := Application.ListedUsers(list);
    LookupAllFacts(users, friends);
    Dedupe(LookupAll(users, friends))
  }

  /** What the looked-up sequence holds: each listed friend, a null for any
      listed stranger, and each friend first where it is first listed. */
  lemma LookupAllFacts(users: seq<string>, friends: set<string>)
    ensures var looked := LookupAll(users, friends);
      forall u :: Some(u) in looked <==> u in friends && u in users
    ensures None in LookupAll(users, friends) <==> exists k :: 0 <= k < |users| && users[k] !in friends
    ensures forall u :: Some(u) in LookupAll(users, friends) ==>
      FirstIndex(LookupAll(users, friends), Some(u)) == FirstIndex(users, u)
  {
    var looked := LookupAll(users, friends);
    forall u
      ensures Some(u) in looked <==> u in friends && u in users
    {
      if u in friends && u in users {
        var k :| 0 <= k < |users| && users[k] == u;
        assert looked[k] == Some(u);
      }
    }
    if exists k :: 0 <= k < |users| && users[k] !in friends {
      var k :| 0 <= k < |users| && users[k] !in friends;
      assert looked[k] == None;
    }
    forall u | Some(u) in looked {
      LookupFirstIndex(users, friends, u);
    }
  }

  /** A friend is first looked up where it is first listed. */
  lemma LookupFirstIndex(ids: seq<string>, friends: set<string>, u: string)
    requires u in ids && u in friends
    ensures Some(u) in LookupAll(ids, friends)
    ensures FirstIndex(LookupAll(ids, friends), Some(u)) == FirstIndex(ids, u)
  {
    var looked := LookupAll(ids, friends);
    var k := FirstIndex(ids, u);
    assert looked[k] == Some(u);
    var m := FirstIndex(looked, Some(u));
    assert ids[m] == u;
  }

  /** Any number of entries that are no friend give one null between them. */
  lemma StrangersGiveOneNull(list: string, friends: set<string>, stranger: string)
    requires stranger in Application.ListedUsers(list) && stranger !in friends
    ensures multiset(ExtractFriends(list, friends))[None] == 1
  {
    var r := ExtractFriends(list, friends);
    var users := Application.ListedUsers(list);
    var k :| 0 <= k < |users| && users[k] == stranger;
    assert None in r;
    var i :| 0 <= i < |r| && r[i] == None;
    DistinctCountsOnce(r, i);
  }

  lemma {:induction false} DistinctCountsOnce(r: seq<Option<string>>, i: int)
    requires 0 <= i < |r|
    requires forall a, b :: 0 <= a < b < |r| ==> r[a] != r[b]
    ensures multiset(r)[r[i]] == 1
    decreases |r|
  {
    var last := |r| - 1;
    assert r == r[..last] + [r[last]];
    if i == last {
      assert r[i] !in r[..last];
    } else {
      assert r[..last][i] == r[i];
      DistinctCountsOnce(r[..last], i);
    }
  }
}

=== FILE: jp_call.dfy ===
/** jp.sf.skype.Call: a call handle known by its id. Its status setters send
    `SET CALL <id> STATUS <status>`; its video switches send
    `ALTER CALL <id> <command>`; its VIDEO_STATUS value tells which video
    directions are enabled. */
module JpCall {
  import opened Wrappers
  import opened JavaText
  import opened SkypeUtils

  /** Call.Status, in declaration order. */
  datatype Status =
    | Unplaced | Routing | EarlyMedia | Failed | Ringing | InProgress | OnHold
    | Finished | Missed | Refused | Busy | Cancelled
    | VmBufferingGreeting | VmPlayingGreeting | VmRecording | VmUploading
    | VmSent | VmCancelled | VmFailed

  /** The constant's name, which is the text Skype uses for the status. */
  function StatusName(s: Status): (r: string)
    ensures r != "" && ' ' !in r
  {
    match s
    case Unplaced => "UNPLACED"
    case Routing => "ROUTING"
    case EarlyMedia => "EARLYMEDIA"
    case Failed => "FAILED"
    case Ringing => "RINGING"
    case InProgress => "INPROGRESS"
    case OnHold => "ONHOLD"
    case Finished => "FINISHED"
    case Missed => "MISSED"
    case Refused => "REFUSED"
    case Busy => "BUSY"
    case Cancelled => "CANCELLED"
    case VmBufferingGreeting => "VM_BUFFERING_GREETING"
    case VmPlayingGreeting => "VM_PLAYING_GREETING"
    case VmRecording => "VM_RECORDING"
    case VmUploading => "VM_UPLOADING"
    case VmSent => "VM_SENT"
    case VmCancelled => "VM_CANCELLED"
    case VmFailed => "VM_FAILED"
  }

  /** `Status.valueOf(name)`: None where Java throws IllegalArgumentException. */
  function StatusOf(name: string): (r: Option<Status>)
    ensures r.Some? ==> StatusName(r.value) == name
  {
    if name == "UNPLACED" then Some(Unplaced)
    else if name == "ROUTING" then Some(Routing)
    else if name == "EARLYMEDIA" then Some(EarlyMedia)
    else if name == "FAILED" then Some(Failed)
    else if name == "RINGING" then Some(Ringing)
    else if name == "INPROGRESS" then Some(InProgress)
    else if name == "ONHOLD" then Some(OnHold)
    else if name == "FINISHED" then Some(Finished)
    else if name == "MISSED" then Some(Missed)
    else if name == "REFUSED" then Some(Refused)
    else if name == "BUSY" then Some(Busy)
    else if name == "CANCELLED" then Some(Cancelled)
    else if name == "VM_BUFFERING_GREETING" then Some(VmBufferingGreeting)
    else if name == "VM_PLAYING_GREETING" then Some(VmPlayingGreeting)
    else if name == "VM_RECORDING" then Some(VmRecording)
    else if name == "VM_UPLOADING" then Some(VmUploading)
    else if name == "VM_SENT" then Some(VmSent)
    else if name == "VM_CANCELLED" then Some(VmCancelled)
    else if name == "VM_FAILED" then Some(VmFailed)
    else None
  }

  /** Every status reads back from its name. */
  lemma StatusRoundTrip(s: Status)
    ensures StatusOf(StatusName(s)) == Some(s)
  {
    if s == Unplaced || s == Routing || s == EarlyMedia || s == Failed || s == Ringing || s == InProgress || s == OnHold || s == Finished || s == Missed || s == Refused {
      EarlyStatusRoundTrip(s);
    } else {
      LateStatusRoundTrip(s);
    }
  }

  /** The first ten statuses read back from their names. */
  lemma EarlyStatusRoundTrip(s: Status)
    requires s == Unplaced || s == Routing || s == EarlyMedia || s == Failed || s == Ringing || s == InProgress || s == OnHold || s == Finished || s == Missed || s == Refused
    ensures StatusOf(StatusName(s)) == Some(s)
  {
    match s
    case Unplaced =>
    case Routing =>
    case EarlyMedia =>
    case Failed =>
    case Ringing =>
    case InProgress =>
    case OnHold =>
    case Finished =>
    case Missed =>
    case Refused =>
    case _ =>
  }

  /** The remaining statuses read back from their names. */
  lemma LateStatusRoundTrip(s: Status)
    requires s == Busy || s == Cancelled || s == VmBufferingGreeting || s == VmPlayingGreeting || s == VmRecording || s == VmUploading || s == VmSent || s == VmCancelled || s == VmFailed
    ensures StatusOf(StatusName(s)) == Some(s)
  {
    match s
    case Busy =>
    case Cancelled =>
    case VmBufferingGreeting =>
    case VmPlayingGreeting =>
    case VmRecording =>
    case VmUploading =>
    case VmSent =>
    case VmCancelled =>
    case VmFailed =>
    case _ =>
  }

  /** The five status setters. */
  datatype StatusChange = Hold | Resume | Finish | Answer | Cancel

  /** The status each setter asks for. */
  function TargetStatus(c: StatusChange): (r: Status)
    ensures r == OnHold <==> c == Hold
    ensures r == InProgress <==> c == Resume || c == Answer
    ensures r == Finished <==> c == Finish || c == Cancel
  {
    match c
    case Hold => OnHold
    case Resume => InProgress
    case Answer => InProgress
    case Finish => Finished
    case Cancel => Finished
  }

  /** `setStatus(status)`: the SET command and the header of the reply it waits for. */
  function SetStatusRequest(id: string, c: StatusChange): (r: Request)
    ensures r.command == "SET " + r.header + StatusName(TargetStatus(c))
    ensures StartsWith(r.header, "CALL " + id + " ")
  {
    var header := "CALL " + id + " STATUS ";
    assert header[..|"CALL " + id + " "|] == "CALL " + id + " ";
    Request("SET CALL " + id + " STATUS " + StatusName(TargetStatus(c)), header)
  }

  /** The reply Skype sends when the change is made is the command without
      "SET ", and it carries the header the setter waits for; the status in
      it reads back as the one asked for. */
  lemma SetStatusReplyMatches(id: string, c: StatusChange)
    ensures var q := SetStatusRequest(id, c);
      var reply := q.command[4..];
      StartsWith(reply, q.header) && StatusOf(reply[|q.header|..]) == Some(TargetStatus(c))
  {
    var q := SetStatusRequest(id, c);
    var reply := q.command[4..];
    var name := StatusName(TargetStatus(c));
    assert reply == q.header + name by { }
    assert StartsWith(reply, q.header) && reply[|q.header|..] == name by {
      assert reply[..|q.header|] == q.header;
    }
    StatusRoundTrip(TargetStatus(c));
  }

  /** The private VideoEnabled enum: which directions of video are on. */
  datatype VideoEnabled = VideoNone | VideoSendEnabled | VideoRecvEnabled | VideoBothEnabled

  function VideoEnabledName(v: VideoEnabled): (r: string)
    ensures r != ""
  {
    match v
    case VideoNone => "VIDEO_NONE"
    case VideoSendEnabled => "VIDEO_SEND_ENABLED"
    case VideoRecvEnabled => "VIDEO_RECV_ENABLED"
    case VideoBothEnabled => "VIDEO_BOTH_ENABLED"
  }

  /** `VideoEnabled.valueOf(name)`. */
  function VideoEnabledOf(name: string): (r: Option<VideoEnabled>)
    ensures r.Some? ==> VideoEnabledName(r.value) == name
  {
    if name == "VIDEO_NONE" then Some(VideoNone)
    else if name == "VIDEO_SEND_ENABLED" then Some(VideoSendEnabled)
    else if name == "VIDEO_RECV_ENABLED" then Some(VideoRecvEnabled)
    else if name == "VIDEO_BOTH_ENABLED" then Some(VideoBothEnabled)
    else None
  }

  lemma VideoEnabledRoundTrip(v: VideoEnabled)
    ensures VideoEnabledOf(VideoEnabledName(v)) == Some(v)
  {
  }

  /** `isReceiveVideoEnabled()` for a VIDEO_STATUS value: an unknown name
      throws IllegalArgumentException. */
  function IsReceiveVideoEnabled(value: string): (r: Result<bool, string>)
    ensures r.Failure? <==> VideoEnabledOf(value).None?
    ensures r == Success(true) <==> value == "VIDEO_RECV_ENABLED" || value == "VIDEO_BOTH_ENABLED"
  {
    match VideoEnabledOf(value)
    case None => Failure("IllegalArgumentException")
    case Some(v) =>
      match v
      case VideoNone => Success(false)
      case VideoSendEnabled => Success(false)
      case VideoRecvEnabled => Success(true)
      case VideoBothEnabled => Success(true)
  }

  /** `isSendVideoEnabled()` for a VIDEO_STATUS value. */
  function IsSendVideoEnabled(value: string): (r: Result<bool, string>)
    ensures r.Failure? <==> VideoEnabledOf(value).None?
    ensures r == Success(true) <==> value == "VIDEO_SEND_ENABLED" || value == "VIDEO_BOTH_ENABLED"
  {
    match VideoEnabledOf(value)
    case None => Failure("IllegalArgumentException")
    case Some(v) =>
      match v
      case VideoNone => Success(false)
      case VideoRecvEnabled => Success(false)
      case VideoSendEnabled => Success(true)
      case VideoBothEnabled => Success(true)
  }

  /** The status from the two directions it enables. */
  function VideoEnabledFrom(send: bool, receive: bool): (r: VideoEnabled)
    ensures IsSendVideoEnabled(VideoEnabledName(r)) == Success(send)
    ensures IsReceiveVideoEnabled(VideoEnabledName(r)) == Success(receive)
  {
    if send && receive then VideoBothEnabled
    else if send then VideoSendEnabled
    else if receive then VideoRecvEnabled
    else VideoNone
  }

  /** The two readings tell every known status apart: each one is the
      status made from the pair of answers it gives. */
  lemma VideoReadingsDetermineStatus(v: VideoEnabled)
    ensures var name := VideoEnabledName(v);
      VideoEnabledFrom(IsSendVideoEnabled(name).value, IsReceiveVideoEnabled(name).value) == v
  {
  }

  /** An ALTER CALL video command: start or stop, sending or receiving. */
  datatype VideoCommand = VideoCommand(start: bool, send: bool)

  function VideoCommandName(c: VideoCommand): (r: string)
    ensures StartsWith(r, if c.start then "START_VIDEO_" else "STOP_VIDEO_")
  {
    var verb := if c.start then "START_VIDEO_" else "STOP_VIDEO_";
    var r := verb + (if c.send then "SEND" else "RECEIVE");
    assert r[..|verb|] == verb;
    r
  }

  /** The command `ALTER CALL <id> <name>` (sent without a reply header). */
  function VideoRequest(id: string, c: VideoCommand): (r: Request)
    ensures r.command == "ALTER CALL " + id + " " + VideoCommandName(c) && r.header == r.command
  {
    PlainCommand("ALTER CALL " + id + " " + VideoCommandName(c))
  }

  /** What the command does to the call's VIDEO_STATUS, as the Skype API
      defines it: START/STOP_VIDEO_SEND switches this side's sending and
      START/STOP_VIDEO_RECEIVE its receiving, leaving the other direction
      as it was. */
  function AlterVideo(v: VideoEnabled, c: VideoCommand): (r: VideoEnabled)
    ensures var name := VideoEnabledName(v);
      var after := VideoEnabledName(r);
      (c.send ==> IsSendVideoEnabled(after) == Success(c.start) && IsReceiveVideoEnabled(after) == IsReceiveVideoEnabled(name)) &&
      (!c.send ==> IsReceiveVideoEnabled(after) == Success(c.start) && IsSendVideoEnabled(after) == IsSendVideoEnabled(name))
  {
    var name := VideoEnabledName(v);
    var send := IsSendVideoEnabled(name).value;
    var receive := IsReceiveVideoEnabled(name).value;
    if c.send then VideoEnabledFrom(c.start, receive) else VideoEnabledFrom(send, c.start)
  }

  /** The command `setReceiveVideoEnabled(on)` is meant to send. */
  function SetReceiveVideoCommand(on: bool): (r: VideoCommand)
    ensures VideoCommandName(r) == (if on then "START_VIDEO_RECEIVE" else "STOP_VIDEO_RECEIVE")
  {
    VideoCommand(on, false)
  }

  /** The command `setSendVideoEnabled(on)` is meant to send. */
  function SetSendVideoCommand(on: bool): (r: VideoCommand)
    ensures VideoCommandName(r) == (if on then "START_VIDEO_SEND" else "STOP_VIDEO_SEND")
  {
    VideoCommand(on, true)
  }

  /** `setReceiveVideoEnabled(on)` as written: it sends the command meant
      for `setSendVideoEnabled(on)`, START/STOP_VIDEO_SEND. */
  function SetReceiveVideoCommandAsWritten(on: bool): (r: VideoCommand)
    ensures VideoCommandName(r) == (if on then "START_VIDEO_SEND" else "STOP_VIDEO_SEND")
  {
    SetSendVideoCommand(on)
  }

  /** `setSendVideoEnabled(on)` as written: it sends the command meant for
      `setReceiveVideoEnabled(on)`, START/STOP_VIDEO_RECEIVE. */
  function SetSendVideoCommandAsWritten(on: bool): (r: VideoCommand)
    ensures VideoCommandName(r) == (if on then "START_VIDEO_RECEIVE" else "STOP_VIDEO_RECEIVE")
  {
    SetReceiveVideoCommand(on)
  }

  /** The crossed names: switching receiving on for a call without video
      leaves `isReceiveVideoEnabled()` false and turns sending on instead,
      and switching sending on leaves `isSendVideoEnabled()` false. */
  lemma CrossedVideoCommands()
    ensures var after := AlterVideo(VideoNone, SetReceiveVideoCommandAsWritten(true));
      IsReceiveVideoEnabled(VideoEnabledName(after)) == Success(false) &&
      IsSendVideoEnabled(VideoEnabledName(after)) == Success(true)
    ensures var after := AlterVideo(VideoNone, SetSendVideoCommandAsWritten(true));
      IsSendVideoEnabled(VideoEnabledName(after)) == Success(false)
  {
  }

  /** With the names the right way round, each switch sets exactly the
      direction its getter reads and leaves the other one alone. */
  lemma VideoSwitchesMatchGetters(v: VideoEnabled, on: bool)
    ensures var name := VideoEnabledName(v);
      var received := VideoEnabledName(AlterVideo(v, SetReceiveVideoCommand(on)));
      IsReceiveVideoEnabled(received) == Success(on) && IsSendVideoEnabled(received) == IsSendVideoEnabled(name)
    ensures var name := VideoEnabledName(v);
      var sent := VideoEnabledName(AlterVideo(v, SetSendVideoCommand(on)));
      IsSendVideoEnabled(sent) == Success(on) && IsReceiveVideoEnabled(sent) == IsReceiveVideoEnabled(name)
  {
  }
}

=== FILE: jp_skype.dfy ===
/** jp.sf.skype.Skype: the static entry point of the older API. Modelled
    here: the processor that waits for the reply to `CALL`, the connector
    listeners that turn MESSAGE and CALL notifications into listener calls
    (with the de-duplication of ringing calls), the registration of the
    message listeners, and the comma-separated target list. */
module JpSkype {
  import opened Wrappers
  import opened JavaText
  import opened SkypeUtils
  import Connector
  import SkypeApi
  import JpCall

  // ---------------------------------------------------------------------
  // Utils.convertToSkypeException
  // ---------------------------------------------------------------------

  /** jp.sf.skype.Utils.convertToSkypeException: NotAttached and TimeOut
      become the API exceptions of the same kind; any other connector
      failure raises IllegalStateException instead, an unchecked exception
      no caller converts. */
  function ConvertConnectorFailure(e: Connector.ConnectorError): (r: SkypeError)
    ensures r.NotAttachedError? <==> e.NotAttached?
    ensures r.TimeOutError? <==> e.TimeOut?
    ensures e.TimeOut? ==> r.message == e.message
    ensures e.OtherFailure? ==> r == Unchecked("IllegalStateException")
    ensures !r.CommandFailed?
  {
    match e
    case NotAttached(_) => NotAttachedError
    case TimeOut(m) => TimeOutError(m)
    case OtherFailure(_) => Unchecked("IllegalStateException")
  }

  /** The older conversion agrees with the newer API's except on the
      failures neither API names, which the newer one wraps as a general
      SkypeException. */
  lemma ConversionsAgree(e: Connector.ConnectorError)
    ensures !e.OtherFailure? ==> ConvertConnectorFailure(e) == ConvertToSkypeException(e)
    ensures e.OtherFailure? ==> ConvertConnectorFailure(e).Unchecked? && ConvertToSkypeException(e).GeneralError?
  {
  }

  // ---------------------------------------------------------------------
  // toCommaSeparatedString
  // ---------------------------------------------------------------------

  /** Appending one more piece adds the separator and the piece. */
  lemma {:induction false} JoinSnoc(ps: seq<string>, x: string, sep: string)
    requires |ps| > 0
    ensures Join(ps + [x], sep) == Join(ps, sep) + sep + x
    decreases |ps|
  {
    if |ps| == 1 {
      assert (ps + [x])[1..] == [x];
    } else {
      assert (ps + [x])[1..] == ps[1..] + [x];
      JoinSnoc(ps[1..], x, sep);
    }
  }

  /** `toCommaSeparatedString(array)`: the entries with ", " between
      neighbours and none after the last. */
  method ToCommaSeparatedString(entries: seq<string>) returns (r: string)
    ensures r == Join(entries, ", ")
  {
    r := "";
    var i := 0;
    while i < |entries|
      invariant 0 <= i <= |entries|
      invariant r == Join(entries[..i], ", ")
    {
      if i != 0 {
        r := r + ", ";
      }
      r := r + entries[i];
      if i == 0 {
        assert entries[..1] == [entries[0]];
      } else {
        assert entries[..i + 1] == entries[..i] + [entries[i]];
        JoinSnoc(entries[..i], entries[i], ", ");
      }
      i := i + 1;
    }
    assert entries[..|entries|] == entries;
  }

  /** Ids free of commas come back from the joined text, split at ", ",
      as they were given. */
  lemma CommaSeparatedRoundTrip(ids: seq<string>)
    requires SeparatorFree(ids, ", ") && SplitKeepsAll(ids)
    ensures Split(Join(ids, ", "), ", ") == ids
  {
    SplitJoin(ids, ", ");
  }

  /** The command `call(skypeId)` sends: a null target is refused with a
      NullPointerException. `call(String[])` passes the comma-separated
      list of its targets. */
  function CallCommand(skypeId: Option<string>): (r: Result<string, SkypeError>)
    ensures r.Failure? <==> skypeId.None?
    ensures r.Failure? ==> r.error == NullPointer(NullMessage("skypeIds"))
    ensures r.Success? ==> StartsWith(r.value, "CALL ") && r.value[5..] == skypeId.value
  {
    match CheckNotNull("skypeIds", skypeId)
    case Failure(e) => Failure(e)
    case Success(_) =>
      var command := "CALL " + skypeId.value;
      assert command[..5] == "CALL ";
      Success(command)
  }

  /** A call to several targets names each of them in the command, in order. */
  lemma CallCommandNamesTargets(ids: seq<string>)
    requires SeparatorFree(ids, ", ") && SplitKeepsAll(ids)
    ensures Split(CallCommand(Some(Join(ids, ", "))).value[5..], ", ") == ids
  {
    CommaSeparatedRoundTrip(ids);
  }

  // ---------------------------------------------------------------------
  // The call processor
  // ---------------------------------------------------------------------

  /** The call statuses after which the processor has seen all it needs. */
  predicate EndStatus(s: JpCall.Status) {
    s.Failed? || s.Finished? || s.Missed? || s.Refused? || s.Busy? || s.Cancelled?
  }

  /** `processStatus(response)`: whether a "STATUS <name>" response ends
      the call; an unknown name throws IllegalArgumentException and any
      other property ends nothing. */
  function ProcessStatus(response: string): (r: Result<bool, string>)
    ensures !StartsWith(response, "STATUS ") ==> r == Success(false)
    ensures forall s :: StartsWith(response, "STATUS ") && JpCall.StatusOf(response[7..]) == Some(s) ==> r == Success(EndStatus(s))
    ensures StartsWith(response, "STATUS ") && JpCall.StatusOf(response[7..]).None? ==> r == Failure("IllegalArgumentException")
  {
    if !StartsWith(response, "STATUS ") then Success(false)
    else
      match JpCall.StatusOf(response[7..])
      case None => Failure("IllegalArgumentException")
      case Some(s) => Success(EndStatus(s))
  }

  /** The processor's state: the call it has fixed on, the error text it
      kept, whether it released the waiting command and whether it saw an
      end status. */
  datatype CallWait = CallWait(call: Option<string>, error: Option<string>, released: bool, ended: bool)

  const CallWaitStart := CallWait(None, None, false, false)

  /** A kept error releases the command at once, and a released command
      holds either a call or an error. */
  predicate Consistent(w: CallWait) {
    (!w.released ==> w.error.None?) &&
    (w.released ==> (w.call.Some? <==> w.error.None?))
  }

  /** The processor's `messageReceived` for one message before the command
      is released: the first "CALL <id> …" fixes the call, and a message
      about that call releases the command after its status is processed;
      "ERROR <text>" before any call keeps the text after "ERROR " and
      releases. The second component is the exception the message threw,
      which leaves the updates made before it. */
  function CallStep(w: CallWait, message: string): (r: (CallWait, Option<string>))
    requires !w.released
    ensures w.call.Some? ==> r.0.call == w.call
    ensures r.0.released ==> r.1.None?
    ensures Consistent(w) ==> Consistent(r.0)
    ensures r.0.error != w.error ==> StartsWith(message, ErrorPrefix) && r.0.error == Some(message[|ErrorPrefix|..])
    ensures !StartsWith(message, "CALL ") && !StartsWith(message, ErrorPrefix) ==> r == (w, None)
  {
    if StartsWith(message, "CALL ") then
      var response := message[5..];
      var space := IndexOf(response, ' ');
      if space < 0 then (w, Some("StringIndexOutOfBoundsException"))
      else
        var id := response[..space];
        var fixed := if w.call.None? then w.(call := Some(id)) else w;
        if fixed.call.value == id then
          match ProcessStatus(response[space + 1..])
          case Failure(e) => (fixed, Some(e))
          case Success(end) => (fixed.(released := true, ended := fixed.ended || end), None)
        else (fixed, None)
    else if StartsWith(message, ErrorPrefix) then
      if w.call.None? then (w.(error := Some(message[|ErrorPrefix|..]), released := true), None)
      else (w, None)
    else (w, None)
  }

  /** The messages the processor sees while `execute` waits: once the
      command is released its connector listener is removed and the rest
      go unseen. */
  function Run(w: CallWait, messages: seq<string>): (r: CallWait)
    ensures w.released ==> r == w
    ensures w.call.Some? ==> r.call == w.call
    ensures Consistent(w) ==> Consistent(r)
    ensures r.error.Some? ==> r.error == w.error || exists k :: 0 <= k < |messages| && StartsWith(messages[k], ErrorPrefix)
    decreases |messages|
  {
    if w.released || |messages| == 0 then w
    else Run(CallStep(w, messages[0]).0, messages[1..])
  }

  /** A message for neither CALL nor ERROR changes nothing. */
  lemma UnrelatedMessageIgnored(message: string, rest: seq<string>)
    requires !StartsWith(message, "CALL ") && !StartsWith(message, ErrorPrefix)
    ensures Run(CallWaitStart, [message] + rest) == Run(CallWaitStart, rest)
  {
    assert ([message] + rest)[1..] == rest;
  }

  /** The parts of "CALL <id> STATUS <name>" as the listeners cut them. */
  lemma CallStatusParts(id: string, name: string)
    requires ' ' !in id && ' ' !in name
    ensures var m := "CALL " + id + " STATUS " + name;
      var data := m[5..];
      StartsWith(m, "CALL ") && Contains(m, " STATUS ") &&
      data == id + " STATUS " + name &&
      IndexOf(data, ' ') == |id| && data[..|id|] == id && data[|id| + 1..] == "STATUS " + name &&
      LastIndexOf(data, ' ') == |data| - |name| - 1 && data[|data| - |name|..] == name
  {
    CallMessageHead(id, name);
    CallDataSpaces(id, name);
  }

  /** "CALL <id> STATUS <name>" starts with "CALL ", mentions " STATUS ", and holds the data after it. */
  lemma CallMessageHead(id: string, name: string)
    ensures var m := "CALL " + id + " STATUS " + name;
      StartsWith(m, "CALL ") && Contains(m, " STATUS ") && m[5..] == id + " STATUS " + name
  {
    var m := "CALL " + id + " STATUS " + name;
    assert m[..5] == "CALL ";
    assert m[5 + |id|..5 + |id| + 8] == " STATUS ";
    assert OccursAt(m, " STATUS ", 5 + |id|);
    assert m[5..] == id + " STATUS " + name;
  }

  /** The first space of "<id> STATUS <name>" ends the id and the last one starts the name. */
  lemma CallDataSpaces(id: string, name: string)
    requires ' ' !in id && ' ' !in name
    ensures var data := id + " STATUS " + name;
      IndexOf(data, ' ') == |id| && data[..|id|] == id && data[|id| + 1..] == "STATUS " + name &&
      LastIndexOf(data, ' ') == |data| - |name| - 1 && data[|data| - |name|..] == name
  {
    var data := id + " STATUS " + name;
    assert IndexOf(data, ' ') == |id| && data[..|id|] == id && data[|id| + 1..] == "STATUS " + name by {
      assert data == id + [' '] + ("STATUS " + name);
      IndexOfJoined(id, ' ', "STATUS " + name);
    }
    assert LastIndexOf(data, ' ') == |data| - |name| - 1 && data[|data| - |name|..] == name by {
      assert data == (id + " STATUS") + [' '] + name;
      LastIndexOfJoined(id + " STATUS", ' ', name);
    }
  }

  /** The last `c` of `a + [c] + b` is the one between them when `b` has none. */
  lemma LastIndexOfJoined(a: string, c: char, b: string)
    requires c !in b
    ensures var s := a + [c] + b;
      LastIndexOf(s, c) == |a| && s[|a| + 1..] == b
  {
    var s := a + [c] + b;
    var r := LastIndexOf(s, c);
    assert s[|a|] == c;
    assert forall k :: |a| < k < |s| ==> s[k] == b[k - |a| - 1];
    assert forall k :: r < k < |s| ==> s[k] == s[r + 1..][k - r - 1];
    assert s[|a| + 1..] == b;
  }

  /** The reply for the call: its id is fixed and the command released,
      ending the wait when the status is an end status. */
  lemma CallReplyFixesCall(id: string, s: JpCall.Status, rest: seq<string>)
    requires ' ' !in id
    ensures Run(CallWaitStart, ["CALL " + id + " STATUS " + JpCall.StatusName(s)] + rest) ==
      CallWait(Some(id), None, true, EndStatus(s))
  {
    var name := JpCall.StatusName(s);
    var m := "CALL " + id + " STATUS " + name;
    CallStatusParts(id, name);
    var response := m[5..];
    assert response[|id| + 1..][..7] == "STATUS ";
    assert response[|id| + 1..][7..] == name;
    JpCall.StatusRoundTrip(s);
    assert CallStep(CallWaitStart, m) == (CallWait(Some(id), None, true, EndStatus(s)), None);
  }

  /** An error reply before any call releases the command and keeps the
      text after "ERROR ". */
  lemma ErrorReplyKept(body: string, rest: seq<string>)
    ensures Run(CallWaitStart, [ErrorPrefix + body] + rest) == CallWait(None, Some(body), true, false)
  {
    var m := ErrorPrefix + body;
    assert m[..|ErrorPrefix|] == ErrorPrefix;
    assert !StartsWith(m, "CALL ") by {
      assert m[0] == 'E';
    }
    assert m[|ErrorPrefix|..] == body;
  }

  /** The TimeOutException of a command that was never released. */
  function TimeOut(command: string): (r: SkypeError)
    ensures r.TimeOutError? && StartsWith(r.message, "The '" + command + "'")
  {
    var prefix := "The '" + command + "'";
    var message := prefix + " command failed by timeout.";
    assert message[..|prefix|] == prefix;
    TimeOutError(message)
  }

  /** `checkError(error[0])` as the processors of `call`, `connect`,
      `write` and `send` do it: the kept text has lost its "ERROR " prefix,
      so it raises only when the text itself starts with "ERROR ". */
  function CheckKeptErrorAsWritten(error: Option<string>): (r: Result<(), SkypeError>)
    ensures r.Failure? <==> error.Some? && StartsWith(error.value, ErrorPrefix)
  {
    CheckError(error)
  }

  /** A kept error reply is never raised. */
  lemma KeptErrorSwallowed(code: int, message: string)
    ensures CheckKeptErrorAsWritten(Some(ErrorReply(code, message)[|ErrorPrefix|..])) == Success(())
  {
    var body := IntToString(code) + " " + message;
    assert ErrorReply(code, message)[|ErrorPrefix|..] == body;
    IntToStringHasNo(code, 'E');
    assert !StartsWith(body, ErrorPrefix) by {
      assert body[0] == IntToString(code)[0];
    }
  }

  /** The check the processors evidently mean: the kept text is checked
      as the error reply it was cut from. */
  function CheckKeptError(error: Option<string>): (r: Result<(), SkypeError>)
    ensures r.Failure? <==> error.Some?
    ensures error.Some? ==> r == CheckError(Some(ErrorPrefix + error.value))
  {
    match error
    case None => Success(())
    case Some(text) =>
      var reply := ErrorPrefix + text;
      assert reply[..|ErrorPrefix|] == ErrorPrefix;
      CheckError(Some(reply))
  }

  /** Checked as a reply, a kept error gives back Skype's code and message. */
  lemma KeptErrorRaised(code: int, message: string)
    requires IntMin <= code <= IntMax
    ensures CheckKeptError(Some(ErrorReply(code, message)[|ErrorPrefix|..])) == Failure(CommandFailed(code, message))
  {
    var reply := ErrorReply(code, message);
    assert ErrorPrefix + reply[|ErrorPrefix|..] == reply;
    ErrorReplyRoundTrip(code, message);
  }

  /** What `call` returns once the processor has seen `messages`, as
      written: `checkError` is given the kept text. */
  function CallResultAsWritten(command: string, messages: seq<string>): (r: Result<Option<string>, SkypeError>)
    ensures var w := Run(CallWaitStart, messages);
      (!w.released ==> r == Failure(TimeOut(command))) &&
      (w.released && w.error.None? ==> r == Success(w.call))
  {
    var w := Run(CallWaitStart, messages);
    if !w.released then Failure(TimeOut(command))
    else
      match CheckKeptErrorAsWritten(w.error)
      case Failure(e) => Failure(e)
      case Success(_) => Success(w.call)
  }

  /** The error reply is swallowed: `call` returns no call and raises nothing. */
  lemma ErrorReplySwallowed(code: int, message: string, command: string, rest: seq<string>)
    ensures CallResultAsWritten(command, [ErrorReply(code, message)] + rest) == Success(None)
  {
    var reply := ErrorReply(code, message);
    assert reply == ErrorPrefix + reply[|ErrorPrefix|..];
    ErrorReplyKept(reply[|ErrorPrefix|..], rest);
    KeptErrorSwallowed(code, message);
  }

  /** What `call` is meant to return: a kept error is raised. */
  function CallResult(command: string, messages: seq<string>): (r: Result<Option<string>, SkypeError>)
    ensures var w := Run(CallWaitStart, messages);
      (!w.released ==> r == Failure(TimeOut(command))) &&
      (w.released ==> (r.Failure? <==> w.error.Some?)) &&
      (w.released && w.error.None? ==> r == Success(w.call) && w.call.Some?)
  {
    var w := Run(CallWaitStart, messages);
    if !w.released then Failure(TimeOut(command))
    else
      match CheckKeptError(w.error)
      case Failure(e) => Failure(e)
      case Success(_) => Success(w.call)
  }

  /** With the intended check Skype's error code and message reach the caller. */
  lemma ErrorReplyRaised(code: int, message: string, command: string, rest: seq<string>)
    requires IntMin <= code <= IntMax
    ensures CallResult(command, [ErrorReply(code, message)] + rest) == Failure(CommandFailed(code, message))
  {
    var reply := ErrorReply(code, message);
    assert reply == ErrorPrefix + reply[|ErrorPrefix|..];
    ErrorReplyKept(reply[|ErrorPrefix|..], rest);
    KeptErrorRaised(code, message);
  }

  /** Both versions return the call Skype reports first. */
  lemma CallReplyGivesCall(id: string, s: JpCall.Status, command: string, rest: seq<string>)
    requires ' ' !in id
    ensures var messages := ["CALL " + id + " STATUS " + JpCall.StatusName(s)] + rest;
      CallResult(command, messages) == Success(Some(id)) &&
      CallResultAsWritten(command, messages) == Success(Some(id))
  {
    CallReplyFixesCall(id, s, rest);
  }

  // ---------------------------------------------------------------------
  // The MESSAGE filter
  // ---------------------------------------------------------------------

  const MessagePrefix := "MESSAGE "
  const ReceivedSuffix := " STATUS RECEIVED"

  /** The filter both message listeners apply: after "MESSAGE " the id
      runs to the first space (none throws StringIndexOutOfBoundsException),
      and only a message ending with " STATUS RECEIVED" fires. */
  function ReceivedMessageId(message: string): (r: Result<Option<string>, string>)
    ensures !StartsWith(message, MessagePrefix) ==> r == Success(None)
    ensures r.Failure? <==> StartsWith(message, MessagePrefix) && ' ' !in message[|MessagePrefix|..]
    ensures r.Success? && r.value.Some? ==>
      StartsWith(message, MessagePrefix + r.value.value + " ") && ' ' !in r.value.value && EndsWith(message, ReceivedSuffix)
    ensures r.Success? && !EndsWith(message, ReceivedSuffix) ==> r == Success(None)
  {
    if !StartsWith(message, MessagePrefix) then Success(None)
    else
      var data := message[|MessagePrefix|..];
      var space := IndexOf(data, ' ');
      if space < 0 then Failure("StringIndexOutOfBoundsException")
      else
        var id := data[..space];
        if EndsWith(message, ReceivedSuffix) then
          IdThroughSpace(message, space);
          Success(Some(id))
        else Success(None)
  }

  /** The text after "MESSAGE " up to a space, with that space, follows the prefix. */
  lemma IdThroughSpace(message: string, space: nat)
    requires StartsWith(message, MessagePrefix)
    requires space < |message| - |MessagePrefix| && message[|MessagePrefix|..][space] == ' '
    ensures StartsWith(message, MessagePrefix + message[|MessagePrefix|..][..space] + " ")
  {
    var data := message[|MessagePrefix|..];
    var id := data[..space];
    assert message == MessagePrefix + data;
    assert data[..space + 1] == id + " ";
    assert message[..|MessagePrefix + id + " "|] == MessagePrefix + id + " ";
  }

  /** A RECEIVED status fires for the message's id. */
  lemma ReceivedMessageFires(id: string)
    requires ' ' !in id
    ensures ReceivedMessageId(MessagePrefix + id + ReceivedSuffix) == Success(Some(id))
  {
    var m := MessagePrefix + id + ReceivedSuffix;
    assert m[..|MessagePrefix|] == MessagePrefix;
    assert m[|m| - |ReceivedSuffix|..] == ReceivedSuffix;
    assert m[|MessagePrefix|..] == id + [' '] + "STATUS RECEIVED";
    IndexOfJoined(id, ' ', "STATUS RECEIVED");
  }

  /** Any other status of a message fires nothing. */
  lemma OtherMessageStatusSilent(id: string, status: string)
    requires ' ' !in id && ' ' !in status && status != "RECEIVED"
    ensures ReceivedMessageId(MessagePrefix + id + " STATUS " + status) == Success(None)
  {
    var m := MessagePrefix + id + " STATUS " + status;
    assert m[..|MessagePrefix|] == MessagePrefix;
    assert m[|MessagePrefix|..] == id + [' '] + ("STATUS " + status);
    IndexOfJoined(id, ' ', "STATUS " + status);
    NotReceivedSuffix(MessagePrefix + id, status);
  }

  /** Text ending in " STATUS <status>" ends with " STATUS RECEIVED" only
      when the status is RECEIVED, for a status without spaces. */
  lemma NotReceivedSuffix(head: string, status: string)
    requires ' ' !in status && status != "RECEIVED"
    ensures !EndsWith(head + " STATUS " + status, ReceivedSuffix)
  {
    var m := head + " STATUS " + status;
    var n := |status|;
    var suffix: string := [' ', 'S', 'T', 'A', 'T', 'U', 'S', ' ', 'R', 'E', 'C', 'E', 'I', 'V', 'E', 'D'];
    assert suffix == ReceivedSuffix;
    if 16 <= |m| {
      var tail := m[|m| - 16..];
      if n >= 16 {
        assert tail[0] == status[n - 16];
        assert tail[0] != suffix[0];
      } else if n == 8 {
        assert tail[8..] == status;
        assert tail[8..] != suffix[8..];
      } else if n == 15 {
        assert tail[7] == status[6];
        assert tail[7] != suffix[7];
      } else {
        assert tail[15 - n] == m[|m| - n - 1] == ' ';
        assert suffix[15 - n] != ' ';
      }
    }
  }

  // ---------------------------------------------------------------------
  // The CALL listener and its delivered calls
  // ---------------------------------------------------------------------

  /** No id occurs twice. */
  predicate Distinct(s: seq<string>) {
    forall i, j :: 0 <= i < j < |s| ==> s[i] != s[j]
  }

  /** Dropping one position from distinct ids keeps them distinct and
      removes that id altogether. */
  lemma DistinctDrop(ds: seq<string>, p: nat)
    requires Distinct(ds) && p < |ds|
    ensures Distinct(ds[..p] + ds[p + 1..]) && ds[p] !in ds[..p] + ds[p + 1..]
  {
    var r := ds[..p] + ds[p + 1..];
    forall i, j | 0 <= i < j < |r| ensures r[i] != r[j] {
      assert r[i] == ds[if i < p then i else i + 1];
      assert r[j] == ds[if j < p then j else j + 1];
    }
    forall k | 0 <= k < |r| ensures r[k] != ds[p] {
      assert r[k] == ds[if k < p then k else k + 1];
    }
  }

  /** `LinkedList.remove(id)`, which is `Connector.RemoveFirst`: removing
      from distinct ids leaves distinct ids without the removed one. */
  lemma RemoveFirstDistinct(ds: seq<string>, id: string)
    requires Distinct(ds)
    ensures Distinct(Connector.RemoveFirst(ds, id)) && id !in Connector.RemoveFirst(ds, id)
  {
    if id in ds {
      DistinctDrop(ds, Connector.Position(ds, id));
    }
  }

  lemma RemoveFirstDistinctIf(ds: seq<string>, id: string)
    ensures Distinct(ds) ==> Distinct(Connector.RemoveFirst(ds, id)) && id !in Connector.RemoveFirst(ds, id)
  {
    if Distinct(ds) {
      RemoveFirstDistinct(ds, id);
    }
  }

  /** The call listener for one message: for "CALL <id> … STATUS …" the id
      is the first word and the status the last. RINGING fires for a call
      not delivered yet and marks it delivered; FINISHED, MISSED and REFUSED
      forget it; other statuses do nothing, and an unknown status name
      throws IllegalArgumentException. The second component is the call
      the listeners are told of. */
  function OnCallReceived(delivered: seq<string>, message: string): (r: Result<(seq<string>, Option<string>), string>)
    ensures !StartsWith(message, "CALL ") || !Contains(message, " STATUS ") ==> r == Success((delivered, None))
    ensures r.Success? && r.value.1.Some? ==> r.value.1.value !in delivered && r.value.0 == delivered + [r.value.1.value]
    ensures r.Success? && r.value.1.None? ==> multiset(r.value.0) <= multiset(delivered)
    ensures Distinct(delivered) && r.Success? ==> Distinct(r.value.0)
  {
    if !(StartsWith(message, "CALL ") && Contains(message, " STATUS ")) then Success((delivered, None))
    else
      var data := message[5..];
      var space := IndexOf(data, ' ');
      if space < 0 then Failure("StringIndexOutOfBoundsException")
      else
        var id := data[..space];
        match JpCall.StatusOf(data[LastIndexOf(data, ' ') + 1..])
        case None => Failure("IllegalArgumentException")
        case Some(status) =>
          if status.Ringing? then
            if id in delivered then Success((delivered, None))
            else Success((delivered + [id], Some(id)))
          else if status.Finished? || status.Missed? || status.Refused? then
            RemoveFirstDistinctIf(delivered, id);
            Connector.RemoveFirstCount(delivered, id);
            Success((Connector.RemoveFirst(delivered, id), None))
          else Success((delivered, None))
  }

  /** The message carrying a status for a call. */
  function CallStatusMessage(id: string, s: JpCall.Status): (r: string)
    requires ' ' !in id
    ensures StartsWith(r, "CALL ") && Contains(r, " STATUS ")
    ensures IndexOf(r[5..], ' ') == |id| && r[5..][..|id|] == id
    ensures LastIndexOf(r[5..], ' ') < |r[5..]| && JpCall.StatusOf(r[5..][LastIndexOf(r[5..], ' ') + 1..]) == Some(s)
  {
    var name := JpCall.StatusName(s);
    CallStatusParts(id, name);
    JpCall.StatusRoundTrip(s);
    "CALL " + id + " STATUS " + name
  }

  /** A ringing call is announced once: the second RINGING fires nothing. */
  lemma RingingDeliveredOnce(delivered: seq<string>, id: string)
    requires ' ' !in id && id !in delivered
    ensures var m := CallStatusMessage(id, JpCall.Ringing);
      OnCallReceived(delivered, m) == Success((delivered + [id], Some(id))) &&
      OnCallReceived(delivered + [id], m) == Success((delivered + [id], None))
  {
  }

  /** FINISHED, MISSED and REFUSED forget the call, so it is announced
      again when it next rings. */
  lemma EndedCallRingsAgain(delivered: seq<string>, id: string, s: JpCall.Status)
    requires ' ' !in id && Distinct(delivered)
    requires s.Finished? || s.Missed? || s.Refused?
    ensures var ended := OnCallReceived(delivered, CallStatusMessage(id, s));
      ended == Success((Connector.RemoveFirst(delivered, id), None)) && id !in ended.value.0 &&
      OnCallReceived(ended.value.0, CallStatusMessage(id, JpCall.Ringing)).value.1 == Some(id)
  {
    RemoveFirstDistinct(delivered, id);
    var m := CallStatusMessage(id, s);
    assert OnCallReceived(delivered, m) == Success((Connector.RemoveFirst(delivered, id), None));
  }

  /** Other statuses leave the delivered calls as they are and fire nothing. */
  lemma OtherCallStatusKeeps(delivered: seq<string>, id: string, s: JpCall.Status)
    requires ' ' !in id
    requires !s.Ringing? && !s.Finished? && !s.Missed? && !s.Refused?
    ensures OnCallReceived(delivered, CallStatusMessage(id, s)) == Success((delivered, None))
  {
  }

  // ---------------------------------------------------------------------
  // Message listener registration
  // ---------------------------------------------------------------------

  /** The MESSAGE listeners for Message and for ChatMessage events, each
      with the connector listener that feeds it. */
  datatype MessageListeners = MessageListeners(message: SkypeApi.Registration, chatMessage: SkypeApi.Registration)

  /** Each connector listener's field is set exactly while its list has a
      listener, and the connector holds it only while its field is set. */
  predicate Valid(st: MessageListeners) {
    SkypeApi.InstalledWhileListened(st.message) && SkypeApi.InstalledWhileListened(st.chatMessage)
  }

  /** The Message listeners a MESSAGE notification reaches: none unless
      the connector holds their connector listener and the filter fires. */
  function MessageDelivery(st: MessageListeners, notification: string): (r: seq<Connector.Listener>)
    ensures |r| > 0 ==> st.message.registered && r == st.message.listeners
    ensures (st.message.registered && ReceivedMessageId(notification).Success? &&
             ReceivedMessageId(notification).value.Some?) ==> r == st.message.listeners
  {
    match ReceivedMessageId(notification)
    case Success(Some(_)) => if st.message.registered then st.message.listeners else []
    case _ => []
  }

  /** The shared body of the two `add...ReceivedListener` methods: a null
      listener is refused; otherwise it is appended and, when the field is
      null, the connector listener is set and installed. A failure to
      install it is converted by jp `Utils.convertToSkypeException` and
      raised after the listener was appended and the field set. */
  function AddReceivedListener(g: SkypeApi.Registration, l: Option<Connector.Listener>,
                               connectorFailure: Option<Connector.ConnectorError>)
    : (r: (SkypeApi.Registration, Result<(), SkypeError>))
    ensures l.None? ==> r == (g, Failure(NullPointer(NullMessage("listener"))))
    ensures l.Some? ==> r.0.listeners == g.listeners + [l.value] && r.0.installed
    ensures l.Some? ==> (r.1.Failure? <==> !g.installed && connectorFailure.Some?)
    ensures l.Some? && r.1.Failure? ==> r.1.error == ConvertConnectorFailure(connectorFailure.value) && !r.0.registered
    ensures l.Some? ==> (r.0.registered <==> if g.installed then g.registered else connectorFailure.None?)
  {
    match CheckNotNull("listener", l)
    case Failure(e) => (g, Failure(e))
    case Success(_) =>
      var (after, failure) := SkypeApi.Subscribe(g, l.value, connectorFailure);
      if failure.Some? then (after, Failure(ConvertConnectorFailure(failure.value)))
      else (after, Success(()))
  }

  /** `addMessageReceivedListener(listener)`. */
  function AddMessageListener(st: MessageListeners, l: Option<Connector.Listener>,
                              connectorFailure: Option<Connector.ConnectorError>)
    : (r: (MessageListeners, Result<(), SkypeError>))
    ensures r.0.chatMessage == st.chatMessage
    ensures l.None? ==> r == (st, Failure(NullPointer(NullMessage("listener"))))
    ensures l.Some? ==> r.0.message.installed && r.0.message.listeners == st.message.listeners + [l.value]
    ensures l.Some? ==> (r.1.Failure? <==> !st.message.installed && connectorFailure.Some?)
    ensures l.Some? && r.1.Failure? ==> !r.0.message.registered
  {
    var (g, result) := AddReceivedListener(st.message, l, connectorFailure);
    (st.(message := g), result)
  }

  /** `addChatMessageReceivedListener(listener)`. */
  function AddChatMessageListener(st: MessageListeners, l: Option<Connector.Listener>,
                                  connectorFailure: Option<Connector.ConnectorError>)
    : (r: (MessageListeners, Result<(), SkypeError>))
    ensures r.0.message == st.message
    ensures l.None? ==> r == (st, Failure(NullPointer(NullMessage("listener"))))
    ensures l.Some? ==> r.0.chatMessage.installed && r.0.chatMessage.listeners == st.chatMessage.listeners + [l.value]
    ensures l.Some? ==> (r.1.Failure? <==> !st.chatMessage.installed && connectorFailure.Some?)
    ensures l.Some? && r.1.Failure? ==> !r.0.chatMessage.registered
  {
    var (g, result) := AddReceivedListener(st.chatMessage, l, connectorFailure);
    (st.(chatMessage := g), result)
  }

  /** `removeMessageReceivedListener(listener)`. */
  function RemoveMessageListener(st: MessageListeners, l: Option<Connector.Listener>): (r: Result<MessageListeners, SkypeError>)
    ensures r.Failure? <==> l.None?
    ensures r.Success? ==>
      r.value.chatMessage == st.chatMessage &&
      r.value.message.listeners == Connector.RemoveFirst(st.message.listeners, l.value)
  {
    match SkypeApi.RemoveApiListener(st.message, l)
    case Failure(e) => Failure(e)
    case Success(g) => Success(st.(message := g))
  }

  /** `removeChatMessageReceivedListener(listener)` as written: when the
      last ChatMessage listener goes, it removes and clears the connector
      listener of the Message listeners instead of its own. */
  function RemoveChatMessageListenerAsWritten(st: MessageListeners, l: Option<Connector.Listener>): (r: Result<MessageListeners, SkypeError>)
    ensures r.Failure? <==> l.None?
    ensures r.Success? ==> r.value.chatMessage.listeners == Connector.RemoveFirst(st.chatMessage.listeners, l.value)
    ensures r.Success? ==>
      r.value.chatMessage.installed == st.chatMessage.installed &&
      r.value.chatMessage.registered == st.chatMessage.registered
    ensures r.Success? ==>
      r.value.message.listeners == st.message.listeners &&
      (r.value.message.installed <==> st.message.installed && |r.value.chatMessage.listeners| > 0) &&
      (r.value.message.registered <==> st.message.registered && |r.value.chatMessage.listeners| > 0)
  {
    match CheckNotNull("listener", l)
    case Failure(e) => Failure(e)
    case Success(_) =>
      var rest := Connector.RemoveFirst(st.chatMessage.listeners, l.value);
      var chat := st.chatMessage.(listeners := rest);
      if |rest| == 0 then Success(MessageListeners(st.message.(installed := false, registered := false), chat))
      else Success(st.(chatMessage := chat))
  }

  /** Removing the only ChatMessage listener while a Message listener is
      registered cuts that listener off from every received message, and
      leaves the ChatMessage connector listener installed with nobody to tell. */
  lemma MessageListenersCutOff(m: Connector.Listener, c: Connector.Listener, id: string)
    requires ' ' !in id
    ensures var st := MessageListeners(SkypeApi.Registration([m], true, true), SkypeApi.Registration([c], true, true));
      var after := RemoveChatMessageListenerAsWritten(st, Some(c)).value;
      Valid(st) && !Valid(after) &&
      MessageDelivery(st, MessagePrefix + id + ReceivedSuffix) == [m] &&
      after.message.listeners == [m] &&
      MessageDelivery(after, MessagePrefix + id + ReceivedSuffix) == []
  {
    ReceivedMessageFires(id);
    assert Connector.RemoveFirst([c], c) == [] by {
      Connector.RemoveFirstCount([c], c);
    }
  }

  /** `removeChatMessageReceivedListener(listener)` as intended: it removes
      its own connector listener and leaves the Message listeners alone. */
  function RemoveChatMessageListener(st: MessageListeners, l: Option<Connector.Listener>): (r: Result<MessageListeners, SkypeError>)
    ensures r.Failure? <==> l.None?
    ensures r.Success? ==>
      r.value.message == st.message &&
      r.value.chatMessage.listeners == Connector.RemoveFirst(st.chatMessage.listeners, l.value)
  {
    match SkypeApi.RemoveApiListener(st.chatMessage, l)
    case Failure(e) => Failure(e)
    case Success(g) => Success(st.(chatMessage := g))
  }

  /** With the intended removal every add and remove keeps each connector
      listener's field set exactly while its list has a listener, whatever
      the connector does, and a removal of a ChatMessage listener never
      changes what Message listeners receive. */
  lemma ListenersKeepValid(st: MessageListeners, l: Connector.Listener, notification: string,
                           connectorFailure: Option<Connector.ConnectorError>)
    requires Valid(st)
    ensures Valid(AddMessageListener(st, Some(l), connectorFailure).0)
    ensures Valid(AddChatMessageListener(st, Some(l), connectorFailure).0)
    ensures Valid(RemoveMessageListener(st, Some(l)).value)
    ensures Valid(RemoveChatMessageListener(st, Some(l)).value)
    ensures MessageDelivery(RemoveChatMessageListener(st, Some(l)).value, notification) == MessageDelivery(st, notification)
  {
    SkypeApi.RegistrationKeepsInvariant(st.message, l, connectorFailure);
    SkypeApi.RegistrationKeepsInvariant(st.chatMessage, l, connectorFailure);
  }
}

=== FILE: jp_stream.dfy ===
/** jp.sf.skype.Stream: one AP2AP stream of an application, to one friend,
    known by the id `<friend>:<number>`. Modelled are the id, the WRITE and
    DATAGRAM commands with the processor that waits for their completion,
    and the DISCONNECT command. */
module JpStream {
  import opened Wrappers
  import opened JavaText
  import opened SkypeUtils
  import JpSkype

  /** `getId()`: the friend's id, ':' and the stream number in decimal. */
  function StreamId(friend: string, number: int): (r: string)
    ensures StartsWith(r, friend + ":")
    ensures ':' !in friend ==> IndexOf(r, ':') == |friend|
    ensures r[|friend| + 1..] == IntToString(number)
  {
    var r := friend + ":" + IntToString(number);
    assert r[..|friend| + 1] == friend + ":";
    assert r == friend + [':'] + IntToString(number);
    assert ':' !in friend ==> IndexOf(r, ':') == |friend| by {
      if ':' !in friend {
        IndexOfJoined(friend, ':', IntToString(number));
      }
    }
    r
  }

  /** Stream ids of friends without ':' are equal only for the same friend and number. */
  lemma StreamIdInjective(f1: string, n1: int, f2: string, n2: int)
    requires ':' !in f1 && ':' !in f2
    requires StreamId(f1, n1) == StreamId(f2, n2)
    ensures f1 == f2 && n1 == n2
  {
    var s := StreamId(f1, n1);
    assert |f1| == |f2|;
    assert f1 == s[..|f1|] == f2;
    IntToStringInjective(n1, n2);
  }

  /** The header shared by the sending notices of application `app`. */
  function SendingHeader(app: string): (r: string)
    ensures EndsWith(r, " SENDING ")
  {
    var r := "APPLICATION " + app + " SENDING ";
    assert r[|r| - 9..] == " SENDING ";
    r
  }

  /** "ALTER APPLICATION <app><verb><id> <payload>": the one shape the
      WRITE and DATAGRAM commands share, `verb` with its spaces. */
  function StreamCommand(app: string, verb: string, id: string, payload: string): (r: string)
    ensures StartsWith(r, "ALTER APPLICATION " + app + verb + id + " ")
    ensures EndsWith(r, payload)
  {
    var head := "ALTER APPLICATION " + app + verb + id + " ";
    var r := head + payload;
    assert r[..|head|] == head;
    assert r[|r| - |payload|..] == payload;
    r
  }

  /** `write(text)`: the WRITE command for stream `id`. */
  function WriteCommand(app: string, id: string, text: string): (r: string)
    ensures StartsWith(r, "ALTER APPLICATION " + app + " WRITE " + id + " ")
    ensures EndsWith(r, text)
  {
    StreamCommand(app, " WRITE ", id, text)
  }

  /** `send(datagram)`: the DATAGRAM command for stream `id`. */
  function DatagramCommand(app: string, id: string, datagram: string): (r: string)
    ensures StartsWith(r, "ALTER APPLICATION " + app + " DATAGRAM " + id + " ")
    ensures EndsWith(r, datagram)
  {
    StreamCommand(app, " DATAGRAM ", id, datagram)
  }

  /** The payload follows the command's fixed part unchanged. */
  lemma PayloadRecovered(app: string, id: string, payload: string)
    ensures var head := "ALTER APPLICATION " + app + " WRITE " + id + " ";
      WriteCommand(app, id, payload)[|head|..] == payload
    ensures var head := "ALTER APPLICATION " + app + " DATAGRAM " + id + " ";
      DatagramCommand(app, id, payload)[|head|..] == payload
  {
    var w := "ALTER APPLICATION " + app + " WRITE " + id + " ";
    var d := "ALTER APPLICATION " + app + " DATAGRAM " + id + " ";
    assert (w + payload)[|w|..] == payload;
    assert (d + payload)[|d|..] == payload;
  }

  /** The write/send processor's state: the kept error text and whether
      the command was released. */
  datatype SendWait = SendWait(error: Option<string>, released: bool)

  const SendWaitStart := SendWait(None, false)

  /** The processor of `write` and `send` for one message: a notice that
      this stream is still sending changes nothing; the bare sending
      header (nothing left to send) releases; "ERROR <text>" keeps the
      text after "ERROR " and releases; anything else is ignored. */
  function SendStep(app: string, id: string, w: SendWait, message: string): (r: SendWait)
    requires ':' in id && !w.released
    ensures r.released <==> message == SendingHeader(app) || StartsWith(message, ErrorPrefix)
    ensures r.error.Some? <==> w.error.Some? || StartsWith(message, ErrorPrefix)
    ensures StartsWith(message, ErrorPrefix) ==> r.error == Some(message[|ErrorPrefix|..])
  {
    if StartsWith(message, SendingHeader(app) + id) then
      assert !StartsWith(message, ErrorPrefix) by {
        assert message[0] == 'A';
      }
      assert |message| > |SendingHeader(app)|;
      w
    else if message == SendingHeader(app) then
      assert !StartsWith(message, ErrorPrefix) by {
        assert message[0] == 'A';
      }
      w.(released := true)
    else if StartsWith(message, ErrorPrefix) then SendWait(Some(message[|ErrorPrefix|..]), true)
    else w
  }

  /** The messages the processor sees until it releases the command. */
  function SendRun(app: string, id: string, w: SendWait, messages: seq<string>): (r: SendWait)
    requires ':' in id
    ensures w.released ==> r == w
    ensures !w.released && r.released ==>
      exists k :: 0 <= k < |messages| && (messages[k] == SendingHeader(app) || StartsWith(messages[k], ErrorPrefix))
    ensures (forall k :: 0 <= k < |messages| ==> !StartsWith(messages[k], ErrorPrefix)) ==> r.error == w.error
    decreases |messages|
  {
    if w.released || |messages| == 0 then w
    else
      var next := SendRun(app, id, SendStep(app, id, w, messages[0]), messages[1..]);
      assert forall k :: 0 <= k < |messages| - 1 ==> messages[1..][k] == messages[k + 1];
      next
  }

  /** While Skype reports the stream as still sending, the command waits;
      the bare header then releases it with no error. */
  lemma SendingThenDone(app: string, id: string, progress: seq<string>)
    requires ':' in id
    requires forall k :: 0 <= k < |progress| ==> StartsWith(progress[k], SendingHeader(app) + id)
    ensures SendRun(app, id, SendWaitStart, progress) == SendWaitStart
    ensures SendRun(app, id, SendWaitStart, progress + [SendingHeader(app)]) == SendWait(None, true)
  {
    var h := SendingHeader(app);
    assert SendRun(app, id, SendWaitStart, progress) == SendWaitStart by {
      SendingPrefix(app, id, progress, []);
      assert progress + [] == progress;
    }
    assert SendRun(app, id, SendWaitStart, progress + [h]) == SendRun(app, id, SendWaitStart, [h]) by {
      SendingPrefix(app, id, progress, [h]);
    }
    assert SendRun(app, id, SendWaitStart, [h]) == SendWait(None, true) by {
      assert SendStep(app, id, SendWaitStart, h) == SendWait(None, true) by {
        assert |h + id| > |h|;
      }
      assert [h][1..] == [];
    }
  }

  lemma {:induction false} SendingPrefix(app: string, id: string, progress: seq<string>, rest: seq<string>)
    requires ':' in id
    requires forall k :: 0 <= k < |progress| ==> StartsWith(progress[k], SendingHeader(app) + id)
    ensures SendRun(app, id, SendWaitStart, progress + rest) == SendRun(app, id, SendWaitStart, rest)
    decreases |progress|
  {
    if |progress| > 0 {
      var all := progress + rest;
      var m := progress[0];
      assert all[0] == m && all[1..] == progress[1..] + rest;
      assert StartsWith(m, SendingHeader(app) + id);
      assert SendStep(app, id, SendWaitStart, m) == SendWaitStart;
      assert SendRun(app, id, SendWaitStart, all) == SendRun(app, id, SendWaitStart, all[1..]);
      SendingPrefix(app, id, progress[1..], rest);
    } else {
      assert progress + rest == rest;
    }
  }

  /** `write`/`send` as written: the kept text goes to `checkError`, so an
      error reply is swallowed (see JpSkype.KeptErrorSwallowed). */
  function SendResultAsWritten(app: string, id: string, command: string, messages: seq<string>): (r: Result<(), SkypeError>)
    requires ':' in id
    ensures var w := SendRun(app, id, SendWaitStart, messages);
      (!w.released ==> r == Failure(JpSkype.TimeOut(command))) &&
      (w.released ==> r == JpSkype.CheckKeptErrorAsWritten(w.error))
  {
    var w := SendRun(app, id, SendWaitStart, messages);
    if !w.released then Failure(JpSkype.TimeOut(command)) else JpSkype.CheckKeptErrorAsWritten(w.error)
  }

  /** `write`/`send` as intended: a kept error is raised. */
  function SendResult(app: string, id: string, command: string, messages: seq<string>): (r: Result<(), SkypeError>)
    requires ':' in id
    ensures var w := SendRun(app, id, SendWaitStart, messages);
      (!w.released ==> r == Failure(JpSkype.TimeOut(command))) &&
      (w.released ==> (r.Failure? <==> w.error.Some?))
  {
    var w := SendRun(app, id, SendWaitStart, messages);
    if !w.released then Failure(JpSkype.TimeOut(command)) else JpSkype.CheckKeptError(w.error)
  }

  /** An error reply to WRITE: as written `write` returns normally, as
      intended it raises Skype's code and message. */
  lemma WriteErrorOutcomes(app: string, id: string, command: string, code: int, message: string, rest: seq<string>)
    requires ':' in id
    requires IntMin <= code <= IntMax
    ensures SendResultAsWritten(app, id, command, [ErrorReply(code, message)] + rest) == Success(())
    ensures SendResult(app, id, command, [ErrorReply(code, message)] + rest) == Failure(CommandFailed(code, message))
  {
    var reply := ErrorReply(code, message);
    var w := SendStep(app, id, SendWaitStart, reply);
    assert w == SendWait(Some(reply[|ErrorPrefix|..]), true);
    assert SendRun(app, id, SendWaitStart, [reply] + rest) == w by {
      assert ([reply] + rest)[1..] == rest;
    }
    JpSkype.KeptErrorSwallowed(code, message);
    JpSkype.KeptErrorRaised(code, message);
  }

  /** `disconnect()` as written: it always names stream number 1 of the friend. */
  function DisconnectCommandAsWritten(app: string, friend: string, number: int): (r: string)
    ensures EndsWith(r, " DISCONNECT " + StreamId(friend, 1))
    ensures StartsWith(r, "ALTER APPLICATION " + app + " ")
  {
    var head := "ALTER APPLICATION " + app;
    var tail := " DISCONNECT " + StreamId(friend, 1);
    var r := head + tail;
    assert r[|r| - |tail|..] == tail;
    assert r[..|head| + 1] == head + " ";
    r
  }

  /** Disconnecting stream 2 asks Skype to close stream 1. */
  lemma DisconnectNamesOtherStream(app: string, friend: string)
    requires ':' !in friend
    ensures var tail := " DISCONNECT " + StreamId(friend, 2);
      !EndsWith(DisconnectCommandAsWritten(app, friend, 2), tail)
  {
    var tail := " DISCONNECT " + StreamId(friend, 2);
    var c := DisconnectCommandAsWritten(app, friend, 2);
    var one := " DISCONNECT " + StreamId(friend, 1);
    assert c[|c| - |one|..] == one;
    assert StreamId(friend, 1)[|friend| + 1..] != StreamId(friend, 2)[|friend| + 1..];
    assert one[12..] == StreamId(friend, 1) && tail[12..] == StreamId(friend, 2);
  }

  /** `disconnect()` as intended: it names the stream's own id. */
  function DisconnectCommand(app: string, friend: string, number: int): (r: string)
    ensures EndsWith(r, " DISCONNECT " + StreamId(friend, number))
    ensures StartsWith(r, "ALTER APPLICATION " + app + " ")
  {
    var head := "ALTER APPLICATION " + app;
    var tail := " DISCONNECT " + StreamId(friend, number);
    var r := head + tail;
    assert r[|r| - |tail|..] == tail;
    assert r[..|head| + 1] == head + " ";
    r
  }
}

=== FILE: linux_connector.dfy ===
/** com.skype.connector.linux.LinuxConnector: the Java side of the native
    library, which turns the library's integer status codes into
    `Connector.Status` and forwards received text. The static callbacks go
    through the singleton, so `instance` is `None` once it has been disposed. */
module LinuxConnector {
  import opened Wrappers
  import opened Connector
  import X11Framing
  import Octets
  import JavaWrapper

  /** The text fired as a received message after every status change. */
  const StatusChangedMessage := "ConnectorStatusChanged"

  /** The `switch` of `setConnectedStatus`. */
  function StatusForCode(code: int): (s: Status)
    ensures 0 <= code <= 4 ==> s != NotRunning
    ensures (code < 0 || code > 4) ==> s == NotRunning
  {
    if code == 0 then PendingAuthorization
    else if code == 1 then Attached
    else if code == 2 then Refused
    else if code == 3 then NotAvailable
    else if code == 4 then ApiAvailable
    else NotRunning
  }

  /** The code the native side sends for each status. */
  function CodeForStatus(s: Status): (code: int)
    ensures 0 <= code <= 5
  {
    match s
    case PendingAuthorization => 0
    case Attached => 1
    case Refused => 2
    case NotAvailable => 3
    case ApiAvailable => 4
    case NotRunning => 5
  }

  /** Every status has a code that `setConnectedStatus` maps back to it, and the codes 0..5 are all distinct. */
  lemma StatusCodeRoundTrip(s: Status, code: int)
    ensures StatusForCode(CodeForStatus(s)) == s
    ensures 0 <= code <= 5 ==> CodeForStatus(StatusForCode(code)) == code
  {
  }

  /** `setConnectedStatus(code)`: sets the mapped status and always fires
      "ConnectorStatusChanged"; a null singleton raises NullPointerException. */
  function SetConnectedStatus(instance: Option<ConnectorState>, code: int): (r: Option<(ConnectorState, seq<Task>)>)
    ensures r.Some? <==> instance.Some?
    ensures r.Some? ==> r.value.0 == instance.value.(status := StatusForCode(code))
    ensures r.Some? ==>
      r.value.1 == Schedule(instance.value, StatusChanged(StatusForCode(code))) + Schedule(instance.value, MessageReceived(StatusChangedMessage))
  {
    match instance
    case None => None
    case Some(st) =>
      var (next, tasks) := SetStatus(st, StatusForCode(code));
      Some((next, tasks + Schedule(next, MessageReceived(StatusChangedMessage))))
  }

  predicate EndsWithTasks(tasks: seq<Task>, suffix: seq<Task>) {
    |suffix| <= |tasks| && tasks[|tasks| - |suffix|..] == suffix
  }

  /** `receiveSkypeMessage(message)`: promotes the status to ATTACHED if
      needed, then forwards the text unchanged. */
  function ReceiveSkypeMessage(instance: Option<ConnectorState>, message: string): (r: Option<(ConnectorState, seq<Task>)>)
    ensures r.Some? <==> instance.Some?
    ensures r.Some? ==> r.value.0 == instance.value.(status := Attached)
    ensures r.Some? ==> EndsWithTasks(r.value.1, Schedule(instance.value, MessageReceived(message)))
    ensures r.Some? && instance.value.status == Attached ==> r.value.1 == Schedule(instance.value, MessageReceived(message))
  {
    match instance
    case None => None
    case Some(st) =>
      if st.status != Attached then
        var (next, tasks) := SetConnectedStatus(instance, 1).value;
        Some((next, tasks + Schedule(next, MessageReceived(message))))
      else Some((st, Schedule(st, MessageReceived(message))))
  }

  /** Once attached, further messages change no state and fire only themselves. */
  lemma ReceiveTwiceFiresStatusOnce(st: ConnectorState, m1: string, m2: string)
    ensures var first := ReceiveSkypeMessage(Some(st), m1).value;
      ReceiveSkypeMessage(Some(first.0), m2) == Some((first.0, Schedule(first.0, MessageReceived(m2))))
  {
  }

  /** `connectImpl`: a pending connector counts as attached. */
  function ConnectImpl(st: ConnectorState): (s: Status)
    ensures st.status == PendingAuthorization ==> s == Attached
    ensures st.status != PendingAuthorization ==> s == st.status
  {
    if st.status == PendingAuthorization then Attached else st.status
  }

  /** `connectImpl` never reports a pending connector, and a connector left
      at the status it reported reports the same status again. */
  lemma ConnectImplIdempotent(st: ConnectorState)
    ensures ConnectImpl(st) != PendingAuthorization
    ensures ConnectImpl(st.(status := ConnectImpl(st))) == ConnectImpl(st)
  {
  }

  /** The private constructor. `loadFails` says `System.loadLibrary` raised
      an Exception; the NOT_AVAILABLE it then sets is overwritten at once. */
  function Construct(loadFails: bool): (r: (ConnectorState, seq<Task>))
    ensures r.0.status == PendingAuthorization
    ensures r.0 == NewConnector.(status := PendingAuthorization)
  {
    var st := NewConnector;
    var failed := if loadFails then SetStatus(st, NotAvailable).0 else st;
    var (pending, tasks) := SetStatus(failed, PendingAuthorization);
    (pending, tasks)
  }

  /** `disposeImpl`: NOT_RUNNING through code 5, then the singleton is cleared. */
  function DisposeImpl(instance: Option<ConnectorState>): (r: (Option<ConnectorState>, Option<ConnectorState>))
    ensures r.1.None?
    ensures instance.Some? ==> r.0.Some? && r.0.value.status == NotRunning
  {
    match SetConnectedStatus(instance, 5)
    case None => (None, None)
    case Some((st, _)) => (Some(st), None)
  }

  /** After disposal, a late callback from the native thread finds no singleton. */
  lemma CallbackAfterDisposeFails(instance: Option<ConnectorState>, message: string)
    ensures ReceiveSkypeMessage(DisposeImpl(instance).1, message).None?
  {
  }

  /** When neither transport is found the X11 main loop still runs, and its
      first report (code 3) makes the connector NOT_AVAILABLE. */
  lemma NoSkypeReportsNotAvailable(st: ConnectorState, stale: seq<Octets.byte>)
    ensures JavaWrapper.InitTransport(JavaWrapper.DefaultTransport, false, false).actions == [JavaWrapper.StartX11Mainloop]
    ensures var code := X11Framing.MainloopStart(false, stale).reported[0];
      SetConnectedStatus(Some(st), code).value.0.status == NotAvailable
  {
  }
}

/** com.skype.connector.linux.dbus.LinuxDBusConnector: attaching over DBus
    and the local handling of avatar requests. */
module LinuxDBusConnector {
  import opened Wrappers
  import opened JavaText
  import opened Connector

  /** The notifications the attach listener queues; all others are ignored. */
  predicate IsAttachOutcome(notification: string) {
    notification == "OK" || notification == "CONNSTATUS OFFLINE" || notification == "ERROR 68"
  }

  /** The first queued outcome among the notifications seen after "NAME" was sent. */
  function FirstOutcome(notifications: seq<string>): (r: Option<string>)
    ensures r.Some? ==> IsAttachOutcome(r.value) && r.value in notifications
    ensures r.None? <==> forall k :: 0 <= k < |notifications| ==> !IsAttachOutcome(notifications[k])
  {
    if |notifications| == 0 then None
    else if IsAttachOutcome(notifications[0]) then Some(notifications[0])
    else
      var r := FirstOutcome(notifications[1..]);
      assert forall k :: 1 <= k < |notifications| ==> notifications[k] == notifications[1..][k - 1];
      r
  }

  /** The status an outcome notification stands for. */
  function OutcomeStatus(outcome: string): Option<Status> {
    if outcome == "OK" then Some(Attached)
    else if outcome == "CONNSTATUS OFFLINE" then Some(NotAvailable)
    else if outcome == "ERROR 68" then Some(Refused)
    else None
  }

  /** The result of `connect(timeout)`: state, commands sent, and the status
      returned (`None` while `queue.take()` is still blocked). */
  datatype Attach = Attach(state: ConnectorState, sent: seq<string>, status: Option<Status>)

  /** `connect(timeout)`. */
  function Connect(st: ConnectorState, frameworkRunning: bool, applicationName: string, notifications: seq<string>): (r: Attach)
    ensures !frameworkRunning ==> r.sent == [] && r.status == Some(NotRunning) && r.state.status == NotRunning
    ensures frameworkRunning ==> r.sent == ["NAME " + applicationName]
    ensures frameworkRunning && FirstOutcome(notifications).None? ==> r.status.None? && r.state.status == PendingAuthorization
    ensures frameworkRunning && FirstOutcome(notifications) == Some("OK") ==> r.status == Some(Attached)
    ensures frameworkRunning && FirstOutcome(notifications) == Some("CONNSTATUS OFFLINE") ==> r.status == Some(NotAvailable)
    ensures frameworkRunning && FirstOutcome(notifications) == Some("ERROR 68") ==> r.status == Some(Refused)
    ensures r.status.Some? ==> r.state.status == r.status.value
  {
    if !frameworkRunning then Attach(st.(status := NotRunning), [], Some(NotRunning))
    else
      var pending := st.(status := PendingAuthorization);
      match FirstOutcome(notifications)
      case None => Attach(pending, ["NAME " + applicationName], None)
      case Some(outcome) =>
        var s := OutcomeStatus(outcome).value;
        Attach(pending.(status := s), ["NAME " + applicationName], Some(s))
  }

  /** Notifications other than the three outcomes never decide the attach. */
  lemma OtherNotificationsIgnored(st: ConnectorState, name: string, noise: seq<string>, outcome: string, rest: seq<string>)
    requires IsAttachOutcome(outcome)
    requires forall k :: 0 <= k < |noise| ==> !IsAttachOutcome(noise[k])
    ensures Connect(st, true, name, noise + [outcome] + rest).status == OutcomeStatus(outcome)
  {
    FirstOutcomeAfterNoise(noise, outcome, rest);
  }

  lemma {:induction false} FirstOutcomeAfterNoise(noise: seq<string>, outcome: string, rest: seq<string>)
    requires IsAttachOutcome(outcome)
    requires forall k :: 0 <= k < |noise| ==> !IsAttachOutcome(noise[k])
    ensures FirstOutcome(noise + [outcome] + rest) == Some(outcome)
    decreases |noise|
  {
    if |noise| > 0 {
      assert (noise + [outcome] + rest)[1..] == noise[1..] + [outcome] + rest;
      FirstOutcomeAfterNoise(noise[1..], outcome, rest);
    }
  }

  /** What `sendCommand` does with a command. */
  datatype Routing =
    | ReadAvatar(userId: string, path: string, notification: string)
    | Forward(command: string)
    | IndexOutOfBounds

  /** `sendCommand(command)`: anything mentioning "avatar" in any letter case
      is served from the local database files and never reaches Skype. */
  function SendCommand(command: string): (r: Routing)
    ensures r.Forward? <==> !Contains(ToLower(command), "avatar")
    ensures r.Forward? ==> r.command == command
    ensures r.ReadAvatar? ==>
      |Split(command, " ")| > 5 && r.userId == Split(command, " ")[2] && r.path == Split(command, " ")[5] &&
      r.notification == "USER " + r.userId + " AVATAR 1 "
    ensures r.IndexOutOfBounds? <==> Contains(ToLower(command), "avatar") && |Split(command, " ")| <= 5
  {
    if Contains(ToLower(command), "avatar") then
      var split := Split(command, " ");
      if |split| <= 5 then IndexOutOfBounds
      else ReadAvatar(split[2], split[5], "USER " + split[2] + " AVATAR 1 ")
    else Forward(command)
  }

  /** The request `Skype` builds for an avatar, without a command tag. */
  function AvatarRequest(id: string, path: string): (r: string)
    ensures StartsWith(r, "GET USER " + id + " AVATAR 1 ") && EndsWith(r, path)
  {
    var head := "GET USER " + id + " AVATAR 1 ";
    var r := head + path;
    assert r[..|head|] == head && r[|r| - |path|..] == path;
    r
  }

  lemma AvatarRequestPieces(id: string, path: string)
    ensures Join(["GET", "USER", id, "AVATAR", "1", path], " ") == AvatarRequest(id, path)
  {
    JoinCons("1", [path], " ");
    JoinCons("AVATAR", ["1", path], " ");
    JoinCons(id, ["AVATAR", "1", path], " ");
    JoinCons("USER", [id, "AVATAR", "1", path], " ");
    JoinCons("GET", ["USER", id, "AVATAR", "1", path], " ");
    assert ["GET"] + ["USER", id, "AVATAR", "1", path] == ["GET", "USER", id, "AVATAR", "1", path];
  }

  /** The avatar request holds "AVATAR" right after "GET USER <id> ". */
  lemma AvatarWordAt(id: string, path: string)
    ensures var c := AvatarRequest(id, path);
      16 + |id| <= |c| && c[10 + |id|..16 + |id|] == "AVATAR"
  {
    var c := AvatarRequest(id, path);
    var front := "GET USER " + id;
    var middle := " AVATAR 1 ";
    assert c == front + middle + path;
    assert c[|front|..|front| + |middle|] == middle;
    assert c[|front| + 1..|front| + 7] == middle[1..7];
  }

  /** Text holding "AVATAR" at `at` mentions "avatar" once lower-cased. */
  lemma MentionsAvatar(command: string, at: nat)
    requires at + 6 <= |command| && command[at..at + 6] == "AVATAR"
    ensures Contains(ToLower(command), "avatar")
  {
    var lower := ToLower(command);
    forall k | 0 <= k < 6
      ensures lower[at + k] == "avatar"[k]
    {
      assert command[at + k] == "AVATAR"[k];
    }
    assert lower[at..at + 6] == "avatar";
    assert OccursAt(lower, "avatar", at);
  }

  /** For the untagged avatar request "GET USER <id> AVATAR 1 <path>" the
      user id and the target path are the ones written into it. */
  lemma AvatarRequestRoundTrip(id: string, path: string)
    requires |id| > 0 && |path| > 0 && ' ' !in id && ' ' !in path
    ensures SendCommand(AvatarRequest(id, path)) == ReadAvatar(id, path, "USER " + id + " AVATAR 1 ")
  {
    var pieces := ["GET", "USER", id, "AVATAR", "1", path];
    var command := AvatarRequest(id, path);
    assert Split(command, " ") == pieces by {
      AvatarRequestPieces(id, path);
      assert SeparatorFree(pieces, " ");
      SplitJoin(pieces, " ");
    }
    assert Contains(ToLower(command), "avatar") by {
      AvatarWordAt(id, path);
      MentionsAvatar(command, 10 + |id|);
    }
  }

  /** The steps of `disposeImpl`, in order. */
  datatype DisposeStep = RemoveFrameworkListener | DisposeFramework

  function DisposeImpl(): (r: seq<DisposeStep>)
    ensures |r| == 2 && r[0] == RemoveFrameworkListener && r[1] == DisposeFramework
  {
    [RemoveFrameworkListener, DisposeFramework]
  }
}

=== FILE: profile.dfy ===
/** com.skype.Profile: the user's own profile, read and written through
    `GET PROFILE <name>` / `SET PROFILE <name> <value>`. Modelled are the
    call-forwarding rules and their text, the language and rule lists, the
    two halves of the COUNTRY property, the birthday encoding and the
    call-forwarding flag. Property values are inputs. */
module Profile {
  import opened Wrappers
  import opened JavaText

  // ---------------------------------------------------------------------
  // Call-forwarding rules
  // ---------------------------------------------------------------------

  /** A call-forwarding rule: forward calls unanswered between two seconds to a target. */
  datatype CallForwardingRule = CallForwardingRule(startSecond: int, endSecond: int, target: string)

  /** The target as the constructor stores it: a number starting with '+'
      loses every '-', anything else is kept as given. */
  function NormalizeTarget(target: string): (r: string)
    ensures StartsWith(target, "+") ==> '-' !in r && StartsWith(r, "+")
    ensures !StartsWith(target, "+") ==> r == target
    ensures |r| <= |target|
  {
    if StartsWith(target, "+") then
      var r := RemoveAll(target, '-');
      assert r == [target[0]] + RemoveAll(target[1..], '-');
      r
    else target
  }

  /** Storing a stored target again changes nothing. */
  lemma NormalizeTargetIdempotent(target: string)
    ensures NormalizeTarget(NormalizeTarget(target)) == NormalizeTarget(target)
  {
  }

  /** `new CallForwardingRule(start, end, target)` */
  function NewRule(startSecond: int, endSecond: int, target: string): (r: CallForwardingRule)
    ensures r.startSecond == startSecond && r.endSecond == endSecond
    ensures r.target == NormalizeTarget(target)
  {
    CallForwardingRule(startSecond, endSecond, NormalizeTarget(target))
  }

  /** `CallForwardingRule.toString()`: the rule as Skype spells it. */
  function RuleText(rule: CallForwardingRule): (r: string)
    ensures EndsWith(r, "," + rule.target)
  {
    var r := IntToString(rule.startSecond) + "," + IntToString(rule.endSecond) + "," + rule.target;
    assert r == (IntToString(rule.startSecond) + "," + IntToString(rule.endSecond)) + ("," + rule.target);
    r
  }

  /** One rule of the CALL_FORWARD_RULES value: `split(",")`, ints in fields 0
      and 1, the target in field 2, any further fields ignored. Fewer than
      three fields throw ArrayIndexOutOfBoundsException and a field that is
      not an int throws NumberFormatException. */
  function ParseRule(text: string): (r: Result<CallForwardingRule, string>)
    ensures r.Success? ==> IntMin <= r.value.startSecond <= IntMax && IntMin <= r.value.endSecond <= IntMax
    ensures r.Success? ==> r.value.target == NormalizeTarget(r.value.target)
  {
    var fields := Split(text, ",");
    if |fields| == 0 then Failure("ArrayIndexOutOfBoundsException")
    else match ParseInt(fields[0])
      case None => Failure("NumberFormatException")
      case Some(startSecond) =>
        if |fields| < 2 then Failure("ArrayIndexOutOfBoundsException")
        else match ParseInt(fields[1])
          case None => Failure("NumberFormatException")
          case Some(endSecond) =>
            if |fields| < 3 then Failure("ArrayIndexOutOfBoundsException")
            else
              NormalizeTargetIdempotent(fields[2]);
              Success(NewRule(startSecond, endSecond, fields[2]))
  }

  /** The targets a rule can round-trip: not empty, and free of the two separators. */
  predicate PlainTarget(target: string) {
    target != "" && ',' !in target && ' ' !in target
  }

  /** A rule whose target is stored form and plain reads back from its text. */
  lemma RuleTextRoundTrip(rule: CallForwardingRule)
    requires IntMin <= rule.startSecond <= IntMax && IntMin <= rule.endSecond <= IntMax
    requires PlainTarget(rule.target) && NormalizeTarget(rule.target) == rule.target
    ensures ParseRule(RuleText(rule)) == Success(rule)
  {
    var a := IntToString(rule.startSecond);
    var b := IntToString(rule.endSecond);
    var fields := [a, b, rule.target];
    IntToStringHasNo(rule.startSecond, ',');
    IntToStringHasNo(rule.endSecond, ',');
    assert Join(fields, ",") == a + "," + b + "," + rule.target by {
      assert Join(fields[1..], ",") == b + "," + rule.target by {
        assert fields[1..][1..] == [rule.target];
      }
    }
    assert SeparatorFree(fields, ",");
    SplitJoin(fields, ",");
    ParseIntToString(rule.startSecond);
    ParseIntToString(rule.endSecond);
  }

  /** Rules parsed from the head and from the tail are the rules of the whole list. */
  lemma ConsParsed(texts: seq<string>, rules: seq<CallForwardingRule>)
    requires |texts| == |rules| > 0
    requires ParseRule(texts[0]) == Success(rules[0])
    requires forall k :: 0 <= k < |texts| - 1 ==> ParseRule(texts[1..][k]) == Success(rules[1..][k])
    ensures forall k :: 0 <= k < |texts| ==> ParseRule(texts[k]) == Success(rules[k])
  {
    forall k | 1 <= k < |texts| ensures ParseRule(texts[k]) == Success(rules[k]) {
      assert texts[k] == texts[1..][k - 1] && rules[k] == rules[1..][k - 1];
    }
  }

  /** `getAllCallForwardingRules()`: one rule per space-separated entry. */
  function ParseRules(value: string): (r: Result<seq<CallForwardingRule>, string>)
    ensures r.Success? ==> |r.value| == |Split(value, " ")|
  {
    ParseEach(Split(value, " "))
  }

  function ParseEach(texts: seq<string>): (r: Result<seq<CallForwardingRule>, string>)
    ensures r.Success? ==> |r.value| == |texts|
    decreases |texts|
  {
    if |texts| == 0 then Success([])
    else
      var head := ParseRule(texts[0]);
      var tail := ParseEach(texts[1..]);
      if head.Failure? then Failure(head.error)
      else if tail.Failure? then Failure(tail.error)
      else Success([head.value] + tail.value)
  }

  /** When every entry parses, the rules are the entries' rules, one each, in order. */
  lemma {:induction false} EachRuleParsed(texts: seq<string>)
    ensures ParseEach(texts).Success? ==>
      forall k :: 0 <= k < |texts| ==> ParseRule(texts[k]) == Success(ParseEach(texts).value[k])
    decreases |texts|
  {
    if |texts| > 0 && ParseEach(texts).Success? {
      var r := ParseEach(texts).value;
      var tail := ParseEach(texts[1..]);
      assert r[0] == ParseRule(texts[0]).value && r[1..] == tail.value;
      EachRuleParsed(texts[1..]);
      ConsParsed(texts, r);
    }
  }

  /** With no rule set the value is "", whose single empty entry is not a
      number: reading the rules throws instead of giving none. */
  lemma NoRulesThrows()
    ensures ParseRules("") == Failure("NumberFormatException")
  {
    assert Find("", " ") == -1;
    assert Find("", ",") == -1;
    assert Split("", ",") == [""];
  }

  // ---------------------------------------------------------------------
  // Lists written with toSpaceSeparatedString
  // ---------------------------------------------------------------------

  /** `toSpaceSeparatedString` as written: the values appended with no
      separator at all. */
  function ConcatAsWritten(values: seq<string>): (r: string)
    ensures |values| == 1 ==> r == values[0]
    decreases |values|
  {
    if |values| == 0 then "" else values[0] + ConcatAsWritten(values[1..])
  }

  /** Setting the languages ["en", "ja"] stores "enja", which reads back as
      the single language "enja". */
  lemma LanguagesConcatenated()
    ensures ConcatAsWritten(["en", "ja"]) == "enja"
    ensures Split(ConcatAsWritten(["en", "ja"]), " ") == ["enja"]
  {
    assert ConcatAsWritten(["en", "ja"]) == "en" + ConcatAsWritten(["ja"]);
    assert ["en", "ja"][1..] == ["ja"];
    var s := "enja";
    forall k | 0 <= k
      ensures !OccursAt(s, " ", k)
    {
      if k < |s| {
        assert s[k..k + 1][0] == s[k];
      }
    }
  }

  /** `toSpaceSeparatedString` as its name promises: the values separated by single spaces. */
  function SpaceSeparated(values: seq<string>): (r: string)
    ensures |values| == 1 ==> r == values[0]
  {
    Join(values, " ")
  }

  /** The value `setAllLanguages(values)` is meant to store, with the
      separator its helper's name promises: null stores no language. */
  function LanguagesValue(values: Option<seq<string>>): (r: string)
    ensures values.None? ==> r == ""
  {
    SpaceSeparated(if values.Some? then values.value else [])
  }

  /** `getAllLauguages()` */
  function Languages(value: string): (r: seq<string>)
    ensures ' ' !in value ==> r == [value]
  {
    assert ' ' !in value ==> Find(value, " ") == -1 by {
      if ' ' !in value {
        forall k | 0 <= k
          ensures !OccursAt(value, " ", k)
        {
          if k < |value| {
            assert value[k..k + 1][0] == value[k];
          }
        }
      }
    }
    Split(value, " ")
  }

  /** With the separator in place, languages free of spaces read back as
      written, as long as the last one is not empty. */
  lemma LanguagesRoundTrip(values: seq<string>)
    requires |values| > 0 && values[|values| - 1] != ""
    requires forall k :: 0 <= k < |values| ==> ' ' !in values[k]
    ensures Languages(LanguagesValue(Some(values))) == values
  {
    assert SeparatorFree(values, " ");
    SplitJoin(values, " ");
  }

  /** The texts of a list of rules. */
  function RuleTexts(rules: seq<CallForwardingRule>): (r: seq<string>)
    ensures |r| == |rules|
    ensures forall k :: 0 <= k < |rules| ==> r[k] == RuleText(rules[k])
  {
    seq(|rules|, k requires 0 <= k < |rules| => RuleText(rules[k]))
  }

  /** With the separator in place, `setAllCallForwardingRules` followed by
      `getAllCallForwardingRules` gives the rules back, for int-sized
      seconds and plain targets in stored form. */
  lemma RulesRoundTrip(rules: seq<CallForwardingRule>)
    requires |rules| > 0
    requires forall k :: 0 <= k < |rules| ==>
      IntMin <= rules[k].startSecond <= IntMax && IntMin <= rules[k].endSecond <= IntMax &&
      PlainTarget(rules[k].target) && NormalizeTarget(rules[k].target) == rules[k].target
    ensures ParseRules(SpaceSeparated(RuleTexts(rules))) == Success(rules)
  {
    var texts := RuleTexts(rules);
    forall k | 0 <= k < |texts|
      ensures ' ' !in texts[k] && texts[k] != ""
      ensures ParseRule(texts[k]) == Success(rules[k])
    {
      var rule := rules[k];
      IntToStringHasNo(rule.startSecond, ' ');
      IntToStringHasNo(rule.endSecond, ' ');
      RuleTextRoundTrip(rule);
    }
    assert SeparatorFree(texts, " ");
    SplitJoin(texts, " ");
    EachParsed(texts, rules);
  }

  /** The entries after the first still parse to the rules after the first. */
  lemma TailParsed(texts: seq<string>, rules: seq<CallForwardingRule>)
    requires |texts| == |rules| > 0
    requires forall k :: 0 <= k < |texts| ==> ParseRule(texts[k]) == Success(rules[k])
    ensures forall k :: 0 <= k < |texts| - 1 ==> ParseRule(texts[1..][k]) == Success(rules[1..][k])
  {
    forall k | 0 <= k < |texts| - 1 ensures ParseRule(texts[1..][k]) == Success(rules[1..][k]) {
      assert texts[1..][k] == texts[k + 1] && rules[1..][k] == rules[k + 1];
    }
  }

  /** A parsed first entry in front of a parsed tail parses to the whole list. */
  lemma ParsedStep(texts: seq<string>, rules: seq<CallForwardingRule>)
    requires |texts| == |rules| > 0
    requires ParseRule(texts[0]) == Success(rules[0])
    requires ParseEach(texts[1..]) == Success(rules[1..])
    ensures ParseEach(texts) == Success(rules)
  {
    assert [rules[0]] + rules[1..] == rules by { }
    assert ParseEach(texts) == Success([rules[0]] + rules[1..]) by { }
  }

  lemma {:induction false} EachParsed(texts: seq<string>, rules: seq<CallForwardingRule>)
    requires |texts| == |rules|
    requires forall k :: 0 <= k < |texts| ==> ParseRule(texts[k]) == Success(rules[k])
    ensures ParseEach(texts) == Success(rules)
    decreases |texts|
  {
    if |texts| > 0 {
      TailParsed(texts, rules);
      EachParsed(texts[1..], rules[1..]);
      ParsedStep(texts, rules);
    }
  }

  // ---------------------------------------------------------------------
  // Country, birthday and the call-forwarding flag
  // ---------------------------------------------------------------------

  /** `getCountryByISOCode()`: the COUNTRY value up to its first space; a
      value without one throws StringIndexOutOfBoundsException. */
  function CountryIsoCode(value: string): (r: Option<string>)
    ensures r.Some? <==> ' ' in value
    ensures r.Some? ==> ' ' !in r.value && StartsWith(value, r.value + " ")
  {
    Before(value, ' ')
  }

  /** `getCountry()`: the COUNTRY value after its first space, or the whole
      value when it has none. */
  function CountryName(value: string): (r: string)
    ensures ' ' !in value ==> r == value
    ensures ' ' in value ==> EndsWith(value, r) && |r| < |value|
  {
    value[IndexOf(value, ' ') + 1..]
  }

  /** A COUNTRY value built from a code without spaces splits back into it and the name. */
  lemma CountryParts(iso: string, name: string)
    requires ' ' !in iso
    ensures CountryIsoCode(iso + " " + name) == Some(iso)
    ensures CountryName(iso + " " + name) == name
  {
    IndexOfJoined(iso, ' ', name);
    assert iso + " " + name == iso + [' '] + name;
  }

  /** `setCountry(name)`: keeps the current code and writes the new name (null as ""). */
  function SetCountry(value: string, name: Option<string>): (r: Option<string>)
    ensures r.Some? <==> ' ' in value
  {
    match CountryIsoCode(value)
    case None => None
    case Some(iso) => Some(iso + " " + (if name.Some? then name.value else ""))
  }

  /** After `setCountry(x)` the country reads back as `x`, and the code is kept. */
  lemma SetCountryThenGet(value: string, name: Option<string>)
    requires ' ' in value
    ensures var after := SetCountry(value, name).value;
      CountryName(after) == (if name.Some? then name.value else "") &&
      CountryIsoCode(after) == CountryIsoCode(value)
  {
    CountryParts(CountryIsoCode(value).value, if name.Some? then name.value else "");
  }

  /** `setCountryByISOCode(code)`: writes the new code (null as "") before the current name. */
  function SetCountryIsoCode(value: string, iso: Option<string>): (r: string)
    ensures StartsWith(r, (if iso.Some? then iso.value else "") + " ")
  {
    var code := if iso.Some? then iso.value else "";
    var r := code + " " + CountryName(value);
    assert r[..|code + " "|] == code + " ";
    r
  }

  /** After `setCountryByISOCode(c)` for a code without spaces, the code reads
      back as `c` and the name is unchanged. */
  lemma SetCountryIsoCodeThenGet(value: string, iso: string)
    requires ' ' !in iso
    ensures CountryIsoCode(SetCountryIsoCode(value, Some(iso))) == Some(iso)
    ensures CountryName(SetCountryIsoCode(value, Some(iso))) == CountryName(value)
  {
    CountryParts(iso, CountryName(value));
  }

  /** A date as the protocol carries it, `yyyyMMdd`. */
  predicate IsDateText(s: string) {
    |s| == 8 && AllDigits(s)
  }

  type Date = s: string | IsDateText(s) witness "19700101"

  /** `setBirthDay(d)`: null is written as "0", a date as its `yyyyMMdd` text. */
  function BirthdayText(d: Option<Date>): (r: string)
    ensures r == "0" <==> d.None?
  {
    if d.None? then "0" else d.value
  }

  /** `getBirthDay()`: "0" reads as null; anything else must be a date, or
      IllegalStateException is raised. */
  function BirthdayOf(value: string): (r: Result<Option<Date>, string>)
    ensures value == "0" ==> r == Success(None)
    ensures r.Success? && r.value.Some? ==> r.value.value == value
  {
    if value == "0" then Success(None)
    else if IsDateText(value) then Success(Some(value))
    else Failure("IllegalStateException")
  }

  /** Every birthday, none included, reads back as written. */
  lemma BirthdayRoundTrip(d: Option<Date>)
    ensures BirthdayOf(BirthdayText(d)) == Success(d)
  {
  }

  /** `setCallForwarding(on)`: `("" + on).toUpperCase()`. */
  function CallForwardingFlag(on: bool): (r: string)
    ensures r == (if on then "TRUE" else "FALSE")
  {
    ToUpper(if on then "true" else "false")
  }

  /** `isCallForwarding()` reads back the flag `setCallForwarding` wrote. */
  lemma CallForwardingRoundTrip(on: bool)
    ensures ParseBoolean(CallForwardingFlag(on)) == on
  {
    assert CallForwardingFlag(on) == BooleanText(on);
  }
}

=== FILE: skype_api.dfy ===
/** com.skype.Skype: the static entry point of the API. Modelled here are
    the call-pad key names, the default-device spelling, the ids taken from
    the replies to CALL, CHAT CREATE, CREATE SMS and VOICEMAIL, the
    dispatch of CHATMESSAGE and CALL notifications, the registration of the
    chat and call listeners, and the exception-handler setting. */
module SkypeApi {
  import opened Wrappers
  import opened JavaText
  import opened SkypeUtils
  import Connector

  // ---------------------------------------------------------------------
  // Call-pad buttons
  // ---------------------------------------------------------------------

  /** A Skype.Button constant: its enum name and the key text it was declared with, if any. */
  datatype Button = Button(name: string, key: Option<string>)

  const KeySharp := Button("KEY_SHARP", Some("#"))
  const KeyAsterisk := Button("KEY_ASTERISK", Some("*"))
  const KeyPlus := Button("KEY_PLUS", Some("+"))

  /** `Button.getKey()`: the declared key, otherwise the enum name after its first '_'. */
  function ButtonKey(b: Button): (r: string)
    ensures b.key.Some? ==> r == b.key.value
    ensures b.key.None? ==> EndsWith(b.name, r)
    ensures b.key.None? && '_' !in b.name ==> r == b.name
    ensures b.key.None? && '_' in b.name ==> |r| < |b.name| && b.name[|b.name| - |r| - 1] == '_'
  {
    if b.key.Some? then b.key.value
    else b.name[IndexOf(b.name, '_') + 1..]
  }

  /** A constant named `<word>_<key>` without an explicit key sends `<key>`, whatever `<key>` holds. */
  lemma ButtonKeyFromName(word: string, key: string)
    requires '_' !in word
    ensures ButtonKey(Button(word + "_" + key, None)) == key
  {
    IndexOfJoined(word, '_', key);
    assert word + "_" + key == word + ['_'] + key;
  }

  /** KEY_PAGEUP sends "PAGEUP"; KEY_SHARP sends its declared "#". */
  lemma ButtonKeyExamples()
    ensures ButtonKey(Button("KEY_PAGEUP", None)) == "PAGEUP"
    ensures ButtonKey(KeySharp) == "#"
  {
    ButtonKeyFromName("KEY", "PAGEUP");
    assert "KEY" + "_" + "PAGEUP" == "KEY_PAGEUP";
  }

  // ---------------------------------------------------------------------
  // Audio and video devices
  // ---------------------------------------------------------------------

  /** The properties naming the audio input, audio output and video devices. */
  const DeviceProperties: set<string> := {"AUDIO_IN", "AUDIO_OUT", "VIDEO_IN"}

  /** `convertNullToDefaultDevice`: null (the default device) is spelled "". */
  function DeviceText(device: Option<string>): (r: string)
    ensures r == "" <==> device.None? || device == Some("")
    ensures device.Some? ==> r == device.value
  {
    if device.None? then "" else device.value
  }

  /** `convertDefaultDeviceToNull`: "" reads back as null. */
  function DeviceName(text: string): (r: Option<string>)
    ensures r.None? <==> text == ""
    ensures r.Some? ==> r.value == text
  {
    if text == "" then None else Some(text)
  }

  /** Every device but the one literally named "" reads back as written. */
  lemma DeviceRoundTrip(device: Option<string>)
    requires device != Some("")
    ensures DeviceName(DeviceText(device)) == device
  {
  }

  /** Every stored device text is written back unchanged. */
  lemma DeviceTextRoundTrip(text: string)
    ensures DeviceText(DeviceName(text)) == text
  {
  }

  /** `setAudioInputDevice(d)` (or the output or video setter) followed by
      the matching getter, when Skype stores the value it was sent: the
      getter returns `d`. */
  lemma DeviceSetThenGet(property: string, device: Option<string>)
    requires property in DeviceProperties && device != Some("")
    ensures var stored := SetGlobalProperty(property, DeviceText(device)).header;
      var read := PropertyValue(GetGlobalProperty(property).header, Success(Some(stored)));
      read.Success? && DeviceName(read.value) == device
  {
    var text := DeviceText(device);
    assert SetGlobalProperty(property, text).header == (property + " ") + text;
    assert !StartsWith((property + " ") + text, ErrorPrefix) by {
      assert ((property + " ") + text)[0] == property[0];
    }
    PropertyValueRoundTrip(property + " ", text);
  }

  // ---------------------------------------------------------------------
  // Ids in creation replies
  // ---------------------------------------------------------------------

  const StatusMarker := " STATUS "

  /** The reply headers of CALL, CHAT CREATE and CREATE SMS. */
  const CreationHeaders: set<string> := {"CALL ", "CHAT ", "SMS "}

  /** The id in the reply to CALL, CHAT CREATE and CREATE SMS: the text from
      the end of the header up to the first " STATUS " of the reply. A reply
      without one, or with one inside the header, throws
      StringIndexOutOfBoundsException. */
  function ObjectId(response: string, header: string): (r: Result<string, SkypeError>)
    ensures Find(response, StatusMarker) < |header| ==> r == Failure(Unchecked("StringIndexOutOfBoundsException"))
    ensures |header| <= Find(response, StatusMarker) ==> r == Success(response[|header|..Find(response, StatusMarker)])
    ensures r.Success? ==> |header| + |r.value| <= |response| && OccursAt(response, StatusMarker, |header| + |r.value|)
    ensures r.Success? ==> forall k :: 0 <= k < |header| + |r.value| ==> !OccursAt(response, StatusMarker, k)
  {
    var end := Find(response, StatusMarker);
    if |header| <= end then Success(response[|header|..end])
    else Failure(Unchecked("StringIndexOutOfBoundsException"))
  }

  /** In `<header><id> STATUS <rest>` no " STATUS " starts before the id ends. */
  lemma NoMarkerBefore(header: string, id: string, rest: string, k: nat)
    requires |header| > 0 && header[|header| - 1] == ' ' && ' ' !in header[..|header| - 1]
    requires ' ' !in id && id != "STATUS"
    requires k < |header| + |id|
    ensures !OccursAt(header + id + StatusMarker + rest, StatusMarker, k)
  {
    var s := header + id + StatusMarker + rest;
    var h := |header|;
    if k < h - 1 {
      assert s[k] == header[..h - 1][k];
    } else if k >= h {
      assert s[k] == id[k - h];
    } else {
      // After the header's final space the text would have to read "STATUS ".
      var j;
      if |id| >= 7 {
        j := 7;
        assert s[k + j] == id[6];
      } else if |id| < 6 {
        j := 1 + |id|;
        assert s[k + j] == StatusMarker[0];
      } else {
        assert exists m :: 0 <= m < 6 && id[m] != "STATUS"[m];
        var m :| 0 <= m < 6 && id[m] != "STATUS"[m];
        j := m + 1;
        assert s[k + j] == id[m];
      }
      assert s[k + j] != StatusMarker[j];
    }
  }

  /** Skype's reply `<header><id> STATUS <rest>` yields the id, for every id
      free of spaces except the word STATUS itself. */
  lemma ObjectIdOfReply(header: string, id: string, rest: string)
    requires header in CreationHeaders
    requires ' ' !in id && id != "STATUS"
    ensures ObjectId(header + id + StatusMarker + rest, header) == Success(id)
  {
    var s := header + id + StatusMarker + rest;
    var h := |header|;
    assert header[..h - 1] == "CALL" || header[..h - 1] == "CHAT" || header[..h - 1] == "SMS";
    forall k | 0 <= k < h + |id|
      ensures !OccursAt(s, StatusMarker, k)
    {
      NoMarkerBefore(header, id, rest, k);
    }
    assert s[h + |id|..h + |id| + 8] == StatusMarker;
    FindIs(s, StatusMarker, h + |id|);
    assert s[h..h + |id|] == id;
  }

  /** `call`, `chat` and `createSMS` after the exchange: a connector failure
      is converted, an error reply raises, and otherwise the id is cut out of
      the reply. */
  function CreatedObject(header: string, reply: Result<Option<string>, Connector.ConnectorError>): (r: Result<string, SkypeError>)
    ensures reply.Failure? ==> r == Failure(ConvertToSkypeException(reply.error))
    ensures reply.Success? && reply.value.Some? && StartsWith(reply.value.value, ErrorPrefix) ==> r.Failure?
    ensures reply.Success? && reply.value.None? ==> r == Failure(Unchecked("NullPointerException"))
    ensures r.Success? ==> reply.Success? && reply.value.Some? && ObjectId(reply.value.value, header) == r
  {
    match reply
    case Failure(e) => Failure(ConvertToSkypeException(e))
    case Success(response) =>
      match CheckError(response)
      case Failure(e) => Failure(e)
      case Success(_) =>
        if response.None? then Failure(Unchecked("NullPointerException"))
        else ObjectId(response.value, header)
  }

  /** The request `call(skypeId)` sends: a null id is refused first. */
  function CallRequest(skypeId: Option<string>): (r: Result<Request, SkypeError>)
    ensures r.Failure? <==> skypeId.None?
    ensures r.Success? ==> r.value.command == "CALL " + skypeId.value && r.value.header == "CALL "
  {
    match CheckNotNull("skypeIds", skypeId)
    case Failure(e) => Failure(e)
    case Success(_) => Success(Request("CALL " + skypeId.value, "CALL "))
  }

  /** Placing a call whose reply is `CALL <id> STATUS <rest>` gives the call `<id>`. */
  lemma CallGivesId(skypeId: string, id: string, rest: string)
    requires ' ' !in id && id != "STATUS"
    ensures CallRequest(Some(skypeId)).Success?
    ensures CreatedObject(CallRequest(Some(skypeId)).value.header, Success(Some("CALL " + id + StatusMarker + rest))) == Success(id)
  {
    var reply := "CALL " + id + StatusMarker + rest;
    assert !StartsWith(reply, ErrorPrefix) by {
      assert reply[0] == 'C';
    }
    ObjectIdOfReply("CALL ", id, rest);
  }

  /** The request `chat(skypeId)` sends. */
  function ChatRequest(skypeId: string): (r: Request)
    ensures r.command == "CHAT CREATE " + skypeId && r.header == "CHAT "
  {
    Request("CHAT CREATE " + skypeId, "CHAT ")
  }

  /** The request `createSMS(number, type)` sends. */
  function SmsRequest(smsType: string, number: string): (r: Request)
    ensures r.command == "CREATE SMS " + smsType + " " + number && r.header == "SMS "
  {
    Request("CREATE SMS " + smsType + " " + number, "SMS ")
  }

  const VoiceMailHeader := "VOICEMAIL "

  /** The id in the reply to VOICEMAIL: the token from the end of the header
      up to the next space; a reply with no space after the header throws. */
  function VoiceMailId(response: string): (r: Result<string, SkypeError>)
    ensures IndexOfFrom(response, ' ', |VoiceMailHeader|) < 0 ==> r == Failure(Unchecked("StringIndexOutOfBoundsException"))
    ensures IndexOfFrom(response, ' ', |VoiceMailHeader|) >= 0 ==>
      r == Success(response[|VoiceMailHeader|..IndexOfFrom(response, ' ', |VoiceMailHeader|)])
    ensures r.Success? ==> ' ' !in r.value
    ensures r.Success? ==> |VoiceMailHeader| + |r.value| < |response| && response[|VoiceMailHeader| + |r.value|] == ' '
  {
    var h := |VoiceMailHeader|;
    var end := IndexOfFrom(response, ' ', h);
    if end < 0 then Failure(Unchecked("StringIndexOutOfBoundsException"))
    else
      var id := response[h..end];
      assert forall k :: 0 <= k < |id| ==> id[k] == response[h + k];
      Success(id)
  }

  /** The reply `VOICEMAIL <id> <rest>` yields the id. */
  lemma VoiceMailIdOfReply(id: string, rest: string)
    requires ' ' !in id
    ensures VoiceMailId(VoiceMailHeader + id + " " + rest) == Success(id)
  {
    var s := VoiceMailHeader + id + " " + rest;
    var h := |VoiceMailHeader|;
    forall k | h <= k < h + |id|
      ensures s[k] != ' '
    {
      assert s[k] == id[k - h];
    }
    IndexOfFromIs(s, ' ', h, h + |id|);
    assert s[h..h + |id|] == id;
  }

  // ---------------------------------------------------------------------
  // Notifications
  // ---------------------------------------------------------------------

  /** A property notification `<object> <id> <property> <value>`. */
  datatype Notification = Notification(id: string, property: string, value: string)

  /** How a listener reads a notification: not its object type, a parse
      that throws, or the parts. */
  datatype Reading = NotForThisListener | Thrown(exception: string) | Parsed(notification: Notification)

  /** The parsing shared by the CHATMESSAGE and CALL listeners: after the
      prefix, the id runs to the first space and the property name to the
      next; the value is the rest. Missing spaces throw. */
  function ReadNotification(message: string, prefix: string): (r: Reading)
    ensures r.NotForThisListener? <==> !StartsWith(message, prefix)
    ensures r.Parsed? ==> ' ' !in r.notification.id && ' ' !in r.notification.property
    ensures r.Parsed? ==> message == prefix + r.notification.id + " " + r.notification.property + " " + r.notification.value
  {
    if !StartsWith(message, prefix) then NotForThisListener
    else
      var data := message[|prefix|..];
      var space := IndexOf(data, ' ');
      if space < 0 then Thrown("StringIndexOutOfBoundsException")
      else
        var id := data[..space];
        var rest := data[space + 1..];
        var second := IndexOf(rest, ' ');
        if second < 0 then Thrown("StringIndexOutOfBoundsException")
        else
          var property := rest[..second];
          var value := rest[second + 1..];
          assert message == prefix + id + " " + property + " " + value by {
            SpaceSplits(data, space);
            SpaceSplits(rest, second);
            Reassemble(message, prefix, data, id, rest, property, value);
          }
          Parsed(Notification(id, property, value))
  }

  lemma Reassemble(message: string, prefix: string, data: string, id: string, rest: string, property: string, value: string)
    requires StartsWith(message, prefix) && data == message[|prefix|..]
    requires data == id + " " + rest && rest == property + " " + value
    ensures message == prefix + id + " " + property + " " + value
  {
    assert message == prefix + data;
    assert prefix + data == prefix + id + " " + rest;
  }

  /** Text is the part before a space, the space, and the part after it. */
  lemma SpaceSplits(s: string, i: int)
    requires 0 <= i < |s| && s[i] == ' '
    ensures s == s[..i] + " " + s[i + 1..]
  {
  }

  /** Every well-formed notification reads back as its parts. */
  lemma ReadNotificationOf(prefix: string, id: string, property: string, value: string)
    requires ' ' !in id && ' ' !in property
    ensures ReadNotification(prefix + id + " " + property + " " + value, prefix) ==
      Parsed(Notification(id, property, value))
  {
    var message := prefix + id + " " + property + " " + value;
    var rest := property + " " + value;
    assert message[|prefix|..] == id + [' '] + rest;
    IndexOfJoined(id, ' ', rest);
    assert rest == property + [' '] + value;
    IndexOfJoined(property, ' ', value);
  }

  datatype ChatEvent = ChatMessageSent(id: string) | ChatMessageReceived(id: string)

  /** The CHATMESSAGE listener: a STATUS notification whose value is SENT or
      RECEIVED gives the event each registered listener is told of; any
      other message gives none. */
  function ChatMessageEvent(message: string): (r: Result<Option<ChatEvent>, string>)
    ensures !StartsWith(message, "CHATMESSAGE ") ==> r == Success(None)
    ensures r.Success? && r.value.Some? && r.value.value.ChatMessageSent? ==>
      message == "CHATMESSAGE " + r.value.value.id + " " + "STATUS" + " " + "SENT"
    ensures r.Success? && r.value.Some? && r.value.value.ChatMessageReceived? ==>
      message == "CHATMESSAGE " + r.value.value.id + " " + "STATUS" + " " + "RECEIVED"
  {
    match ReadNotification(message, "CHATMESSAGE ")
    case NotForThisListener => Success(None)
    case Thrown(e) => Failure(e)
    case Parsed(n) =>
      if n.property != "STATUS" then Success(None)
      else if n.value == "SENT" then Success(Some(ChatMessageSent(n.id)))
      else if n.value == "RECEIVED" then Success(Some(ChatMessageReceived(n.id)))
      else Success(None)
  }

  /** The status notifications of a chat message: SENT and RECEIVED fire the
      matching event and every other value fires nothing. */
  lemma ChatMessageStatusFires(id: string, value: string)
    requires ' ' !in id
    ensures ChatMessageEvent("CHATMESSAGE " + id + " STATUS " + value) ==
      Success(if value == "SENT" then Some(ChatMessageSent(id))
              else if value == "RECEIVED" then Some(ChatMessageReceived(id))
              else None)
  {
    var m := "CHATMESSAGE " + id + " STATUS " + value;
    assert m == "CHATMESSAGE " + id + " " + "STATUS" + " " + value by { }
    assert ReadNotification(m, "CHATMESSAGE ") == Parsed(Notification(id, "STATUS", value)) by {
      ReadNotificationOf("CHATMESSAGE ", id, "STATUS", value);
    }
  }

  /** Other properties of a chat message fire nothing. */
  lemma ChatMessageOtherPropertySilent(id: string, property: string, value: string)
    requires ' ' !in id && ' ' !in property && property != "STATUS"
    ensures ChatMessageEvent("CHATMESSAGE " + id + " " + property + " " + value) == Success(None)
  {
    ReadNotificationOf("CHATMESSAGE ", id, property, value);
  }

  /** Call.Type as the listener distinguishes it. */
  datatype CallType = IncomingPstn | OutgoingPstn | IncomingP2p | OutgoingP2p | OtherCallType

  datatype CallEvent = CallMaked(id: string) | CallReceived(id: string) | CallStatusChanged(id: string, status: string)

  /** The CALL listener. `fired` holds the calls whose listener event has
      fired; `callType` is the TYPE Skype reports for the call, and
      `statuses` the names Call.Status.valueOf accepts (any other throws
      IllegalArgumentException). RINGING tells the listeners once per call,
      as a made or a received call by its type; every STATUS notification
      then reaches the call's own status listeners. */
  function OnCallMessage(fired: set<string>, message: string, callType: CallType, statuses: set<string>): (r: Result<(set<string>, seq<CallEvent>), string>)
    ensures !StartsWith(message, "CALL ") ==> r == Success((fired, []))
    ensures r.Success? ==> fired <= r.value.0 && |r.value.1| <= 2
    ensures r.Success? && |r.value.1| > 0 ==> r.value.1[|r.value.1| - 1].CallStatusChanged?
    ensures r.Success? && |r.value.1| == 2 ==> r.value.1[0].id !in fired && r.value.0 == fired + {r.value.1[0].id}
    ensures r.Success? ==> r.value.0 == fired || (|r.value.1| > 0 && r.value.0 == fired + {r.value.1[|r.value.1| - 1].id})
  {
    match ReadNotification(message, "CALL ")
    case NotForThisListener => Success((fired, []))
    case Thrown(e) => Failure(e)
    case Parsed(n) =>
      if n.property != "STATUS" then Success((fired, []))
      else if n.value !in statuses then Failure("IllegalArgumentException")
      else
        var changed := CallStatusChanged(n.id, n.value);
        if n.value != "RINGING" || n.id in fired then Success((fired, [changed]))
        else
          var announce :=
            match callType
            case OutgoingP2p => [CallMaked(n.id)]
            case OutgoingPstn => [CallMaked(n.id)]
            case IncomingP2p => [CallReceived(n.id)]
            case IncomingPstn => [CallReceived(n.id)]
            case OtherCallType => [];
          Success((fired + {n.id}, announce + [changed]))
  }

  /** A call rings twice: the listeners hear of it once, by its type, and
      the status listeners twice. */
  lemma RingingAnnouncedOnce(fired: set<string>, id: string, callType: CallType, statuses: set<string>)
    requires ' ' !in id && id !in fired && "RINGING" in statuses
    requires callType != OtherCallType
    ensures var m := "CALL " + id + " STATUS RINGING";
      var first := OnCallMessage(fired, m, callType, statuses);
      first.Success? &&
      first.value.1 == [if callType.OutgoingP2p? || callType.OutgoingPstn? then CallMaked(id) else CallReceived(id),
                        CallStatusChanged(id, "RINGING")] &&
      OnCallMessage(first.value.0, m, callType, statuses) == Success((first.value.0, [CallStatusChanged(id, "RINGING")]))
  {
    var m := "CALL " + id + " STATUS RINGING";
    assert m == "CALL " + id + " " + "STATUS" + " " + "RINGING";
    ReadNotificationOf("CALL ", id, "STATUS", "RINGING");
  }

  /** Any other status of a known name reaches only the call's status listeners. */
  lemma OtherStatusOnlyChangesStatus(fired: set<string>, id: string, status: string, callType: CallType, statuses: set<string>)
    requires ' ' !in id && status in statuses && status != "RINGING"
    ensures OnCallMessage(fired, "CALL " + id + " STATUS " + status, callType, statuses) ==
      Success((fired, [CallStatusChanged(id, status)]))
  {
    assert "CALL " + id + " STATUS " + status == "CALL " + id + " " + "STATUS" + " " + status;
    ReadNotificationOf("CALL ", id, "STATUS", status);
  }

  // ---------------------------------------------------------------------
  // Listener registration and the exception handler
  // ---------------------------------------------------------------------

  /** The chat-message (or call) listeners with the shared connector
      listener that feeds them: `installed` says the field holding it is
      set, `registered` that the connector actually holds it. The field is
      set before the connector is asked, so a failed request leaves it set
      with nothing registered. */
  datatype Registration = Registration(listeners: seq<Connector.Listener>, installed: bool, registered: bool)

  /** The field is set exactly while someone listens, and the connector
      holds a listener only when the field is set. */
  predicate InstalledWhileListened(g: Registration) {
    (g.installed <==> |g.listeners| > 0) && (g.registered ==> g.installed)
  }

  /** The listeners are actually fed: the connector holds the listener
      whenever the field is set. */
  predicate Fed(g: Registration) {
    g.installed ==> g.registered
  }

  /** The non-null half of `addChatMessageListener` / `addCallListener`:
      the listener is appended and, when the field is null, it is set and
      the connector asked to hold the new connector listener, which can
      fail with `connectorFailure`. The failure that escapes is returned
      unconverted; each API converts it its own way. */
  function Subscribe(g: Registration, l: Connector.Listener, connectorFailure: Option<Connector.ConnectorError>)
    : (r: (Registration, Option<Connector.ConnectorError>))
    ensures r.0.listeners == g.listeners + [l] && r.0.installed
    ensures r.1.Some? <==> !g.installed && connectorFailure.Some?
    ensures r.1.Some? ==> r.1 == connectorFailure
    ensures g.installed ==> r.0.registered == g.registered
    ensures !g.installed ==> (r.0.registered <==> connectorFailure.None?)
  {
    if g.installed then (g.(listeners := g.listeners + [l]), None)
    else (Registration(g.listeners + [l], true, connectorFailure.None?), connectorFailure)
  }

  /** `addChatMessageListener` / `addCallListener`: a null listener is
      refused; otherwise it is appended and the connector listener is
      installed if it was not. A connector failure while installing it is
      converted and raised after the listener was appended and the field
      set, so later additions never ask the connector again. */
  function AddApiListener(g: Registration, l: Option<Connector.Listener>, connectorFailure: Option<Connector.ConnectorError>)
    : (r: (Registration, Result<(), SkypeError>))
    ensures l.None? ==> r == (g, Failure(NullPointer(NullMessage("listener"))))
    ensures l.Some? ==> r.0.listeners == g.listeners + [l.value] && r.0.installed
    ensures l.Some? ==> (r.1.Failure? <==> !g.installed && connectorFailure.Some?)
    ensures l.Some? && r.1.Failure? ==> r.1.error == ConvertToSkypeException(connectorFailure.value) && !r.0.registered
    ensures l.Some? ==> (r.0.registered <==> if g.installed then g.registered else connectorFailure.None?)
  {
    match CheckNotNull("listener", l)
    case Failure(e) => (g, Failure(e))
    case Success(_) =>
      var (after, failure) := Subscribe(g, l.value, connectorFailure);
      if failure.Some? then (after, Failure(ConvertToSkypeException(failure.value)))
      else (after, Success(()))
  }

  /** `removeChatMessageListener` / `removeCallListener`: drops the first
      occurrence; when no listener is left the connector listener is
      removed and the field cleared. */
  function RemoveApiListener(g: Registration, l: Option<Connector.Listener>): (r: Result<Registration, SkypeError>)
    ensures r.Failure? <==> l.None?
    ensures r.Success? ==> r.value.listeners == Connector.RemoveFirst(g.listeners, l.value)
    ensures r.Success? && |r.value.listeners| == 0 ==> !r.value.installed && !r.value.registered
    ensures r.Success? && |r.value.listeners| > 0 ==> r.value.installed == g.installed && r.value.registered == g.registered
  {
    match CheckNotNull("listener", l)
    case Failure(e) => Failure(e)
    case Success(_) =>
      var rest := Connector.RemoveFirst(g.listeners, l.value);
      if |rest| == 0 then Success(Registration(rest, false, false))
      else Success(g.(listeners := rest))
  }

  /** Adding and removing keep the field set exactly while someone listens
      and never leave the connector holding a listener whose field is
      cleared, whatever the connector does; the listeners stay fed as long
      as installing never fails. Removing takes out one occurrence. */
  lemma RegistrationKeepsInvariant(g: Registration, l: Connector.Listener, connectorFailure: Option<Connector.ConnectorError>)
    requires InstalledWhileListened(g)
    ensures InstalledWhileListened(AddApiListener(g, Some(l), connectorFailure).0)
    ensures InstalledWhileListened(RemoveApiListener(g, Some(l)).value)
    ensures Fed(g) && connectorFailure.None? ==> Fed(AddApiListener(g, Some(l), connectorFailure).0)
    ensures Fed(g) ==> Fed(RemoveApiListener(g, Some(l)).value)
    ensures multiset(RemoveApiListener(g, Some(l)).value.listeners) == multiset(g.listeners) - multiset{l}
  {
    Connector.RemoveFirstCount(g.listeners, l);
  }

  /** A failed install strands the listeners: the first addition raises,
      and every later one succeeds without asking the connector again,
      so none of them is fed until all are removed. */
  lemma FailedInstallNeverRetried(l: Connector.Listener, e: Connector.ConnectorError, m: Connector.Listener,
                                  later: Option<Connector.ConnectorError>)
    ensures var first := AddApiListener(Registration([], false, false), Some(l), Some(e));
      var second := AddApiListener(first.0, Some(m), later);
      first.1 == Failure(ConvertToSkypeException(e)) && InstalledWhileListened(first.0) && !Fed(first.0) &&
      second.1 == Success(()) && second.0.listeners == [l, m] && !Fed(second.0)
  {
  }

  datatype ExceptionHandler = DefaultHandler | CustomHandler(handler: nat)

  /** `setSkypeExceptionHandler`: null restores the default handler. */
  function SetSkypeExceptionHandler(handler: Option<ExceptionHandler>): (r: ExceptionHandler)
    ensures handler.None? ==> r == DefaultHandler
    ensures handler.Some? ==> r == handler.value
  {
    if handler.None? then DefaultHandler else handler.value
  }

  /** Installing the handler already in use changes nothing, and clearing
      the handler installs the same one as naming the default explicitly. */
  lemma SetSkypeExceptionHandlerIdempotent(handler: Option<ExceptionHandler>)
    ensures SetSkypeExceptionHandler(Some(SetSkypeExceptionHandler(handler))) == SetSkypeExceptionHandler(handler)
    ensures SetSkypeExceptionHandler(None) == SetSkypeExceptionHandler(Some(DefaultHandler))
  {
  }
}

=== FILE: skype_object.dfy ===
/** com.skype.SkypeObject: the user data every API object carries, a map
    from names to arbitrary objects. An object is an opaque reference, and
    a stored value may itself be null. */
module SkypeObject {
  import opened Wrappers

  /** An opaque object reference. */
  type Obj = nat

  /** The user-data map; a name mapped to `None` holds a stored null. */
  type UserData = map<string, Option<Obj>>

  /** `getData(name)`: the stored value, or null for a name never set. */
  function GetData(data: UserData, name: string): (r: Option<Obj>)
    ensures name !in data ==> r.None?
    ensures r.Some? ==> name in data && data[name] == r
  {
    if name in data then data[name] else None
  }

  /** `setData(name, value)`: the name now maps to the value and every
      other entry is kept. */
  function SetData(data: UserData, name: string, value: Option<Obj>): (r: UserData)
    ensures r.Keys == data.Keys + {name}
    ensures forall n :: n in data && n != name ==> r[n] == data[n]
  {
    data[name := value]
  }

  /** `getData(n)` after `setData(n, v)` returns `v`, and other names read as before. */
  lemma SetThenGet(data: UserData, name: string, value: Option<Obj>, other: string)
    requires other != name
    ensures GetData(SetData(data, name, value), name) == value
    ensures GetData(SetData(data, name, value), other) == GetData(data, other)
  {
  }

  /** A fresh object has no user data: every name reads as null. */
  lemma FreshHasNoData(name: string)
    ensures GetData(map[], name).None?
  {
  }

  /** `copyFrom(base)`: when `base` is a SkypeObject (`Some`) all its
      entries are put into this map, winning over existing ones; anything
      else leaves the map unchanged. */
  function CopyFrom(data: UserData, base: Option<UserData>): (r: UserData)
    ensures base.None? ==> r == data
    ensures base.Some? ==> r.Keys == data.Keys + base.value.Keys
    ensures base.Some? ==> forall n :: n in base.value ==> r[n] == base.value[n]
    ensures forall n :: n in data && (base.None? || n !in base.value) ==> r[n] == data[n]
  {
    if base.None? then data else data + base.value
  }

  /** After a copy every name reads as in the source when the source has
      it, and as before otherwise. */
  lemma CopyFromThenGet(data: UserData, base: UserData, name: string)
    ensures GetData(CopyFrom(data, Some(base)), name) ==
      (if name in base then GetData(base, name) else GetData(data, name))
  {
  }

  /** Copying into an object without data gives exactly the source's data. */
  lemma CopyIntoFresh(base: UserData)
    ensures CopyFrom(map[], Some(base)) == base
  {
  }
}

=== FILE: skype_utils.dfy ===
/** com.skype.Utils and com.skype.CommandFailedException: the request and
    expected-reply strings of the GET/SET property commands, the check for
    an `ERROR <code> <message>` reply, and the translation of connector
    failures into the API's exceptions. The reply a command receives is an
    input (the connector exchange is modelled in the Connector module). */
module SkypeUtils {
  import opened Wrappers
  import opened JavaText
  import Connector

  /** The exceptions the API layer raises. `Unchecked` stands for a Java
      runtime exception (by class name) that escapes the parser. */
  datatype SkypeError =
    | NotAttachedError
    | TimeOutError(message: string)
    | GeneralError(message: string)
    | CommandFailed(code: int, message: string)
    | NullPointer(message: string)
    | Unchecked(exception: string)

  const ErrorPrefix := "ERROR "

  /** `convertToSkypeException`: each connector failure becomes the API
      exception of the same kind, keeping its message. */
  function ConvertToSkypeException(e: Connector.ConnectorError): (r: SkypeError)
    ensures r.NotAttachedError? <==> e.NotAttached?
    ensures r.TimeOutError? <==> e.TimeOut?
    ensures r.GeneralError? <==> e.OtherFailure?
    ensures e.TimeOut? ==> r.message == e.message
    ensures e.OtherFailure? ==> r.message == e.message
  {
    match e
    case NotAttached(_) => NotAttachedError
    case TimeOut(m) => TimeOutError(m)
    case OtherFailure(m) => GeneralError(m)
  }

  /** The text the CommandFailedException constructor parses: the reply
      without one leading "ERROR ". */
  function ErrorBody(response: string): (r: string)
    ensures StartsWith(response, ErrorPrefix) ==> response == ErrorPrefix + r
    ensures !StartsWith(response, ErrorPrefix) ==> r == response
  {
    if StartsWith(response, ErrorPrefix) then response[|ErrorPrefix|..] else response
  }

  /** The CommandFailedException constructor: the code is the integer
      before the first space of the body and the message everything after
      it. A body without a space throws StringIndexOutOfBoundsException and
      a code that is not an int throws NumberFormatException. */
  function ParseCommandFailure(response: string): (r: Result<SkypeError, string>)
    ensures ' ' !in ErrorBody(response) ==> r == Failure("StringIndexOutOfBoundsException")
    ensures r.Success? ==> r.value.CommandFailed? && IntMin <= r.value.code <= IntMax
    ensures r.Success? ==> |r.value.message| < |response|
  {
    var body := ErrorBody(response);
    var space := IndexOf(body, ' ');
    if space < 0 then Failure("StringIndexOutOfBoundsException")
    else
      match ParseInt(body[..space])
      case None => Failure("NumberFormatException")
      case Some(code) => Success(CommandFailed(code, body[space + 1..]))
  }

  /** Every `ERROR <head> <message>` reply whose head has no space: the code
      is the head read as an int, and the message is the whole rest, spaces included. */
  lemma CommandFailureParts(head: string, message: string)
    requires ' ' !in head
    ensures ParseCommandFailure(ErrorPrefix + head + " " + message) ==
      match ParseInt(head)
      case Some(code) => Success(CommandFailed(code, message))
      case None => Failure("NumberFormatException")
  {
    var response := ErrorPrefix + head + " " + message;
    assert StartsWith(response, ErrorPrefix);
    assert ErrorBody(response) == head + [' '] + message;
    IndexOfJoined(head, ' ', message);
  }

  /** The reply Skype sends for a failed command. */
  function ErrorReply(code: int, message: string): (r: string)
    ensures StartsWith(r, ErrorPrefix)
  {
    ErrorPrefix + IntToString(code) + " " + message
  }

  /** Parsing an error reply gives back its code and message. */
  lemma ErrorReplyRoundTrip(code: int, message: string)
    requires IntMin <= code <= IntMax
    ensures ParseCommandFailure(ErrorReply(code, message)) == Success(CommandFailed(code, message))
  {
    IntToStringHasNo(code, ' ');
    CommandFailureParts(IntToString(code), message);
    ParseIntToString(code);
  }

  /** The reply to hanging up a call that has already ended carries code 24
      and the text after it. */
  lemma InactiveCallExample()
    ensures ParseCommandFailure(ErrorReply(24, "Cannot hangup inactive call")) ==
      Success(CommandFailed(24, "Cannot hangup inactive call"))
  {
    ErrorReplyRoundTrip(24, "Cannot hangup inactive call");
  }

  /** Without the "ERROR " prefix the same body parses the same way. */
  lemma PrefixIsOptional(body: string)
    requires !StartsWith(body, ErrorPrefix)
    ensures ParseCommandFailure(ErrorPrefix + body) == ParseCommandFailure(body)
  {
    assert StartsWith(ErrorPrefix + body, ErrorPrefix);
    assert (ErrorPrefix + body)[|ErrorPrefix|..] == body;
  }

  /** `checkError`: a missing reply or one not starting with "ERROR " is
      accepted; an error reply raises CommandFailedException, or the runtime
      exception its constructor throws. */
  function CheckError(response: Option<string>): (r: Result<(), SkypeError>)
    ensures r.Failure? <==> response.Some? && StartsWith(response.value, ErrorPrefix)
    ensures r.Failure? ==> r.error.CommandFailed? || r.error.Unchecked?
  {
    match response
    case None => Success(())
    case Some(text) =>
      if !StartsWith(text, ErrorPrefix) then Success(())
      else
        match ParseCommandFailure(text)
        case Success(e) => Failure(e)
        case Failure(name) => Failure(Unchecked(name))
  }

  /** A command and the header its reply must start with. */
  datatype Request = Request(command: string, header: string)

  /** `getProperty(type, id, name)` and `getPropertyWithCommandId`. */
  function GetObjectProperty(objectType: string, id: string, name: string): (r: Request)
    ensures EndsWith(r.header, " ") && r.command == "GET " + r.header[..|r.header| - 1]
  {
    var header := objectType + " " + id + " " + name + " ";
    assert header[..|header| - 1] == objectType + " " + id + " " + name;
    Request("GET " + objectType + " " + id + " " + name, header)
  }

  /** `getProperty(type, name)` */
  function GetTypeProperty(objectType: string, name: string): (r: Request)
    ensures EndsWith(r.header, " ") && r.command == "GET " + r.header[..|r.header| - 1]
  {
    var header := objectType + " " + name + " ";
    assert header[..|header| - 1] == objectType + " " + name;
    Request("GET " + objectType + " " + name, header)
  }

  /** `getProperty(name)`: unlike the other forms the command keeps the
      trailing space of the header. */
  function GetGlobalProperty(name: string): (r: Request)
    ensures EndsWith(r.header, " ") && r.command == "GET " + r.header
  {
    Request("GET " + name + " ", name + " ")
  }

  /** `setProperty(type, id, name, value)`: the reply echoes the command
      without its "SET " keyword. */
  function SetObjectProperty(objectType: string, id: string, name: string, value: string): (r: Request)
    ensures r.command == "SET " + r.header && EndsWith(r.header, value)
  {
    var header := objectType + " " + id + " " + name + " " + value;
    Request("SET " + header, header)
  }

  /** `setProperty(type, name, value)` */
  function SetTypeProperty(objectType: string, name: string, value: string): (r: Request)
    ensures r.command == "SET " + r.header && EndsWith(r.header, value)
  {
    var header := objectType + " " + name + " " + value;
    Request("SET " + header, header)
  }

  /** `setProperty(name, value)` */
  function SetGlobalProperty(name: string, value: string): (r: Request)
    ensures r.command == "SET " + r.header && EndsWith(r.header, value)
  {
    var header := name + " " + value;
    Request("SET " + header, header)
  }

  /** `executeWithErrorCheck(command)`: the command is its own expected reply. */
  function PlainCommand(command: string): (r: Request)
    ensures r.command == r.header && r.command == command
  {
    Request(command, command)
  }

  /** What `getProperty` returns for the connector's reply: the text after
      the header. A connector failure is converted; a missing reply throws
      NullPointerException once it is cut. */
  function PropertyValue(header: string, reply: Result<Option<string>, Connector.ConnectorError>): (r: Result<string, SkypeError>)
    ensures reply.Failure? ==> r == Failure(ConvertToSkypeException(reply.error))
    ensures reply.Success? && reply.value.Some? && StartsWith(reply.value.value, ErrorPrefix) ==> r.Failure?
    ensures r.Success? ==> reply.Success? && reply.value.Some? && |header| <= |reply.value.value|
    ensures r.Success? ==> EndsWith(reply.value.value, r.value) && |r.value| == |reply.value.value| - |header|
  {
    match reply
    case Failure(e) => Failure(ConvertToSkypeException(e))
    case Success(response) =>
      match CheckError(response)
      case Failure(e) => Failure(e)
      case Success(_) =>
        match response
        case None => Failure(Unchecked("NullPointerException"))
        case Some(text) =>
          if |header| <= |text| then Success(text[|header|..])
          else Failure(Unchecked("StringIndexOutOfBoundsException"))
  }

  /** Every value Skype reports under the header comes back unchanged. */
  lemma PropertyValueRoundTrip(header: string, value: string)
    requires !StartsWith(header + value, ErrorPrefix)
    ensures PropertyValue(header, Success(Some(header + value))) == Success(value)
  {
    assert (header + value)[|header|..] == value;
  }

  /** What `setProperty` and `executeWithErrorCheck` do with the reply: only
      a connector failure or an error reply raises. */
  function SetResult(reply: Result<Option<string>, Connector.ConnectorError>): (r: Result<(), SkypeError>)
    ensures r.Success? <==> reply.Success? && (reply.value.None? || !StartsWith(reply.value.value, ErrorPrefix))
    ensures reply.Failure? ==> r == Failure(ConvertToSkypeException(reply.error))
  {
    match reply
    case Failure(e) => Failure(ConvertToSkypeException(e))
    case Success(response) => CheckError(response)
  }

  /** The message of the NullPointerException `checkNotNull` throws for the argument `name`. */
  function NullMessage(name: string): string {
    "The " + name + " must not be null."
  }

  /** `checkNotNull(name, value)`: throws NullPointerException, naming the
      argument, exactly when the value is null. */
  function CheckNotNull<T>(name: string, value: Option<T>): (r: Result<(), SkypeError>)
    ensures r.Success? <==> value.Some?
    ensures r.Failure? ==> r.error == NullPointer(NullMessage(name))
  {
    if value.None? then Failure(NullPointer(NullMessage(name))) else Success(())
  }

  /** `convertToArray`: the comma-separated pieces, each trimmed, in order. */
  function ConvertToArray(listString: string): (r: seq<string>)
    ensures |r| == |Split(listString, ",")|
    ensures forall k :: 0 <= k < |r| ==> r[k] == Trim(Split(listString, ",")[k])
  {
    var pieces := Split(listString, ",");
    seq(|pieces|, k requires 0 <= k < |pieces| => Trim(pieces[k]))
  }

  /** The reply of a SEARCH command: the comma list after the header, read
      by `convertToArray`. */
  function SearchResult(header: string, reply: Result<Option<string>, Connector.ConnectorError>): (r: Result<seq<string>, SkypeError>)
    ensures r.Success? <==> PropertyValue(header, reply).Success?
    ensures r.Success? ==> r.value == ConvertToArray(PropertyValue(header, reply).value)
  {
    match PropertyValue(header, reply)
    case Failure(e) => Failure(e)
    case Success(data) => Success(ConvertToArray(data))
  }

  /** A search reply listing comma-free, trimmed ids reads back as those ids. */
  lemma SearchResultListed(header: string, ids: seq<string>)
    requires |header| > 0 && header[0] != 'E'
    requires SeparatorFree(ids, ",") && SplitKeepsAll(ids)
    requires forall k :: 0 <= k < |ids| ==> TrimmedPiece(ids[k])
    ensures SearchResult(header, Success(Some(header + Join(ids, ",")))) == Success(ids)
  {
    var list := Join(ids, ",");
    var reply := header + list;
    assert !StartsWith(reply, ErrorPrefix) by {
      if |ErrorPrefix| <= |reply| {
        assert reply[..|ErrorPrefix|][0] == header[0];
        assert ErrorPrefix[0] == 'E';
      }
    }
    assert PropertyValue(header, Success(Some(reply))) == Success(list) by {
      PropertyValueRoundTrip(header, list);
    }
    assert ConvertToArray(list) == ids by {
      ConvertToArrayJoin(ids);
    }
  }

  /** A space-separated list as Skype reports ids: none for "", otherwise
      `split(" ")`. */
  function SpaceList(list: string): (r: seq<string>)
    ensures list == "" ==> r == []
    ensures list != "" && ' ' !in list ==> r == [list]
  {
    if list == "" then [] else
      assert ' ' !in list ==> Find(list, " ") == -1 by {
        if ' ' !in list {
          forall k | 0 <= k
            ensures !OccursAt(list, " ", k)
          {
            if k < |list| {
              assert list[k..k + 1][0] == list[k];
            }
          }
        }
      }
      Split(list, " ")
  }

  /** Ids without spaces, the last one not empty, read back from the list. */
  lemma SpaceListJoin(ids: seq<string>)
    requires |ids| > 0 && ids[|ids| - 1] != ""
    requires forall k :: 0 <= k < |ids| ==> ' ' !in ids[k]
    ensures SpaceList(Join(ids, " ")) == ids
  {
    JoinNonEmpty(ids, " ");
    assert SeparatorFree(ids, " ");
    SplitJoin(ids, " ");
  }

  /** A piece that neither starts nor ends with white space. */
  predicate TrimmedPiece(p: string) {
    |p| > 0 ==> !IsTrimmed(p[0]) && !IsTrimmed(p[|p| - 1])
  }

  /** The list Skype sends for comma-free, trimmed items reads back as those
      items, provided the last one is not empty (Java's split drops it). */
  lemma ConvertToArrayJoin(items: seq<string>)
    requires SeparatorFree(items, ",") && SplitKeepsAll(items)
    requires forall k :: 0 <= k < |items| ==> TrimmedPiece(items[k])
    ensures ConvertToArray(Join(items, ",")) == items
  {
    var text := Join(items, ",");
    assert Split(text, ",") == items by {
      SplitJoin(items, ",");
    }
    var r := ConvertToArray(text);
    forall k | 0 <= k < |items|
      ensures r[k] == items[k]
    {
      assert r[k] == Trim(items[k]);
      TrimIdentity(items[k]);
    }
  }

  /** An empty list string gives one empty element, not an empty array. */
  lemma EmptyListHasOneElement()
    ensures ConvertToArray("") == [""]
  {
    assert Find("", ",") == -1;
    assert Trim("") == "";
  }
}

=== FILE: sms.dfy ===
/** com.skype.SMS: the SMS properties whose reading is more than a lookup
    (target numbers and target statuses, the checked-failure flag, the
    price and the content chunks), the fixed commands on an SMS, and the
    identity test `equals`. Property values are inputs. */
module Sms {
  import opened Wrappers
  import opened JavaText
  import opened SkypeUtils
  import Connector

  // ---------------------------------------------------------------------
  // Target statuses
  // ---------------------------------------------------------------------

  /** `SMS.TargetStatus.Status` */
  datatype TargetState =
    | TargetAnalyzing | TargetUndefined | TargetAcceptable | TargetNotRoutable
    | TargetDeliveryPending | TargetDeliverySuccessful | TargetDeliveryFailed | TargetUnknown

  /** The enum constant's name, as Skype spells the status. */
  function TargetStateName(s: TargetState): (r: string)
    ensures r != "" && '=' !in r && ',' !in r
  {
    match s
    case TargetAnalyzing => "TARGET_ANALYZING"
    case TargetUndefined => "TARGET_UNDEFINED"
    case TargetAcceptable => "TARGET_ACCEPTABLE"
    case TargetNotRoutable => "TARGET_NOT_ROUTABLE"
    case TargetDeliveryPending => "TARGET_DELIVERY_PENDING"
    case TargetDeliverySuccessful => "TARGET_DELIVERY_SUCCESSFUL"
    case TargetDeliveryFailed => "TARGET_DELIVERY_FAILED"
    case TargetUnknown => "UNKNOWN"
  }

  /** `TargetStatus.Status.valueOf(name)`: the constant with exactly this
      name, or None where Java throws IllegalArgumentException. */
  function TargetStateOf(name: string): (r: Option<TargetState>)
    ensures r.Some? ==> TargetStateName(r.value) == name
  {
    if name == "TARGET_ANALYZING" then Some(TargetAnalyzing)
    else if name == "TARGET_UNDEFINED" then Some(TargetUndefined)
    else if name == "TARGET_ACCEPTABLE" then Some(TargetAcceptable)
    else if name == "TARGET_NOT_ROUTABLE" then Some(TargetNotRoutable)
    else if name == "TARGET_DELIVERY_PENDING" then Some(TargetDeliveryPending)
    else if name == "TARGET_DELIVERY_SUCCESSFUL" then Some(TargetDeliverySuccessful)
    else if name == "TARGET_DELIVERY_FAILED" then Some(TargetDeliveryFailed)
    else if name == "UNKNOWN" then Some(TargetUnknown)
    else None
  }

  /** Every status is found again under its name. */
  lemma TargetStateRoundTrip(s: TargetState)
    ensures TargetStateOf(TargetStateName(s)) == Some(s)
  {
  }

  /** `SMS.TargetStatus`: a target number and its status; two are equal
      exactly when both parts are. */
  datatype TargetStatus = TargetStatus(number: string, state: TargetState)

  /** One `<number>=<status>` entry: `split("=")`, the number in field 0 and
      the status name in field 1. Fewer than two fields throw
      ArrayIndexOutOfBoundsException and an unknown name
      IllegalArgumentException. */
  function ParseTarget(entry: string): (r: Result<TargetStatus, string>)
    ensures r.Success? ==> |Split(entry, "=")| >= 2
    ensures r.Success? ==> r.value.number == Split(entry, "=")[0]
    ensures r.Success? ==> TargetStateName(r.value.state) == Split(entry, "=")[1]
  {
    var elements := Split(entry, "=");
    if |elements| < 2 then Failure("ArrayIndexOutOfBoundsException")
    else match TargetStateOf(elements[1])
      case None => Failure("IllegalArgumentException")
      case Some(state) => Success(TargetStatus(elements[0], state))
  }

  /** The entry text of one target. */
  function TargetText(t: TargetStatus): (r: string)
    ensures StartsWith(r, t.number + "=")
  {
    var r := t.number + "=" + TargetStateName(t.state);
    assert r[..|t.number + "="|] == t.number + "=";
    r
  }

  /** A target whose number has no '=' reads back from its entry. */
  lemma ParseTargetText(t: TargetStatus)
    requires '=' !in t.number
    ensures ParseTarget(TargetText(t)) == Success(t)
  {
    var name := TargetStateName(t.state);
    var parts := [t.number, name];
    assert Join(parts, "=") == TargetText(t) by {
      assert parts[1..] == [name];
    }
    assert SeparatorFree(parts, "=");
    SplitJoin(parts, "=");
    TargetStateRoundTrip(t.state);
  }

  /** `getAllTargetStatuses()`: the TARGET_STATUSES value cut at ", ", each
      entry parsed in order; the first bad entry throws. */
  function TargetStatuses(data: string): (r: Result<seq<TargetStatus>, string>)
    ensures r.Success? ==> |r.value| == |Split(data, ", ")|
    ensures r.Success? ==> forall k :: 0 <= k < |r.value| ==> ParseTarget(Split(data, ", ")[k]) == Success(r.value[k])
  {
    EachTargetParsed(Split(data, ", "));
    ParseTargets(Split(data, ", "))
  }

  function ParseTargets(entries: seq<string>): (r: Result<seq<TargetStatus>, string>)
    ensures r.Success? ==> |r.value| == |entries|
    decreases |entries|
  {
    if |entries| == 0 then Success([])
    else
      var head := ParseTarget(entries[0]);
      var tail := ParseTargets(entries[1..]);
      if head.Failure? then Failure(head.error)
      else if tail.Failure? then Failure(tail.error)
      else Success([head.value] + tail.value)
  }

  /** When every entry parses, the statuses are the entries' statuses, in order. */
  lemma {:induction false} EachTargetParsed(entries: seq<string>)
    ensures ParseTargets(entries).Success? ==>
      forall k :: 0 <= k < |entries| ==> ParseTarget(entries[k]) == Success(ParseTargets(entries).value[k])
    decreases |entries|
  {
    if |entries| > 0 && ParseTargets(entries).Success? {
      var r := ParseTargets(entries).value;
      var tail := ParseTargets(entries[1..]);
      assert r[0] == ParseTarget(entries[0]).value && r[1..] == tail.value;
      EachTargetParsed(entries[1..]);
      forall k | 1 <= k < |entries| ensures ParseTarget(entries[k]) == Success(r[k]) {
        assert entries[k] == entries[1..][k - 1] && r[k] == r[1..][k - 1];
      }
    }
  }

  /** A parsed first entry in front of parsed entries parses to the whole list. */
  lemma TargetsStep(entries: seq<string>, targets: seq<TargetStatus>)
    requires |entries| == |targets| > 0
    requires ParseTarget(entries[0]) == Success(targets[0])
    requires ParseTargets(entries[1..]) == Success(targets[1..])
    ensures ParseTargets(entries) == Success(targets)
  {
    assert [targets[0]] + targets[1..] == targets by { }
    assert ParseTargets(entries) == Success([targets[0]] + targets[1..]) by { }
  }

  lemma {:induction false} TargetsParsed(entries: seq<string>, targets: seq<TargetStatus>)
    requires |entries| == |targets|
    requires forall k :: 0 <= k < |entries| ==> ParseTarget(entries[k]) == Success(targets[k])
    ensures ParseTargets(entries) == Success(targets)
    decreases |entries|
  {
    if |entries| > 0 {
      var rest := entries[1..];
      forall k | 0 <= k < |rest| ensures ParseTarget(rest[k]) == Success(targets[1..][k]) {
        assert rest[k] == entries[k + 1] && targets[1..][k] == targets[k + 1];
      }
      TargetsParsed(rest, targets[1..]);
      TargetsStep(entries, targets);
    }
  }

  /** The TARGET_STATUSES value Skype sends for some targets. */
  function TargetStatusesText(targets: seq<TargetStatus>): (r: string)
    ensures |targets| == 1 ==> r == TargetText(targets[0])
  {
    Join(seq(|targets|, k requires 0 <= k < |targets| => TargetText(targets[k])), ", ")
  }

  /** A non-empty list of targets whose numbers hold neither ',' nor '='
      reads back in order. */
  lemma TargetStatusesRoundTrip(targets: seq<TargetStatus>)
    requires |targets| > 0
    requires forall k :: 0 <= k < |targets| ==> ',' !in targets[k].number && '=' !in targets[k].number
    ensures TargetStatuses(TargetStatusesText(targets)) == Success(targets)
  {
    var entries := seq(|targets|, k requires 0 <= k < |targets| => TargetText(targets[k]));
    forall k | 0 <= k < |entries|
      ensures ',' !in entries[k] && entries[k] != ""
      ensures ParseTarget(entries[k]) == Success(targets[k])
    {
      var t := targets[k];
      assert entries[k] == t.number + "=" + TargetStateName(t.state);
      assert entries[k][|t.number|] == '=';
      ParseTargetText(t);
    }
    assert SeparatorFree(entries, ", ");
    SplitJoin(entries, ", ");
    TargetsParsed(entries, targets);
  }

  /** With no target the value is "", whose single empty entry has no
      status field: reading the statuses throws. */
  lemma NoTargetsThrows()
    ensures TargetStatuses("") == Failure("ArrayIndexOutOfBoundsException")
  {
    assert Find("", ", ") == -1;
    assert Find("", "=") == -1;
    assert Split("", ", ") == [""];
    assert Split("", "=") == [""];
  }

  /** `getAllTargetNumbers()`: the TARGET_NUMBERS value cut at ", ". */
  function TargetNumbers(value: string): (r: seq<string>)
    ensures Find(value, ", ") < 0 ==> r == [value]
  {
    Split(value, ", ")
  }

  /** Numbers without commas, the last one not empty, read back from the
      list Skype sends. */
  lemma TargetNumbersRoundTrip(numbers: seq<string>)
    requires |numbers| > 0 && numbers[|numbers| - 1] != ""
    requires forall k :: 0 <= k < |numbers| ==> ',' !in numbers[k]
    ensures TargetNumbers(Join(numbers, ", ")) == numbers
  {
    assert SeparatorFree(numbers, ", ");
    SplitJoin(numbers, ", ");
  }

  // ---------------------------------------------------------------------
  // Flags, price and chunks
  // ---------------------------------------------------------------------

  /** `isCheckedFailure()`: the negation of IS_FAILED_UNSEEN read as a boolean. */
  function IsCheckedFailure(isFailedUnseen: string): (r: bool)
    ensures r <==> !EqualsIgnoreCase(isFailedUnseen, "true")
  {
    !ParseBoolean(isFailedUnseen)
  }

  /** A failure is checked exactly when Skype does not report it unseen. */
  lemma CheckedFailureFlag(unseen: bool)
    ensures IsCheckedFailure(BooleanText(unseen)) == !unseen
  {
  }

  /** `new BigDecimal(price).scaleByPowerOfTen(-parseInt(precision))`:
      the PRICE text read as a BigDecimal, moved `precision` places to the
      right of the point. Either text malformed is a NumberFormatException;
      a scale pushed past the `int` range is an ArithmeticException. */
  function Price(price: string, precision: string): (r: Result<Decimal, string>)
    ensures r == Failure("NumberFormatException") <==> ParseDecimal(price).None? || ParseInt(precision).None?
    ensures r.Success? ==> r.value.unscaled == ParseDecimal(price).value.unscaled
    ensures (ParseDecimal(price).Some? && ParseInt(precision).Some? && ParseInt(precision).value != IntMin &&
             IntMin <= ParseDecimal(price).value.scale + ParseInt(precision).value <= IntMax) ==>
      r == Success(Decimal(ParseDecimal(price).value.unscaled, ParseDecimal(price).value.scale + ParseInt(precision).value))
    ensures r.Failure? && r.error != "NumberFormatException" ==>
      r.error == "ArithmeticException" && ParseDecimal(price).value.unscaled != 0
  {
    match ParseDecimal(price)
    case None => Failure("NumberFormatException")
    case Some(d) =>
      match ParseInt(precision)
      case None => Failure("NumberFormatException")
      case Some(places) =>
        // `-places` is Java `int` negation: the negation of IntMin is IntMin.
        match ScaleByPowerOfTen(d, ToInt32(0 - places))
        case None => Failure("ArithmeticException")
        case Some(moved) => Success(moved)
  }

  /** A parsed PRICE moved by a parsed precision whose negation needs no wrap-around. */
  lemma PriceOf(price: string, precision: string, d: Decimal, places: int)
    requires ParseDecimal(price) == Some(d) && ParseInt(precision) == Some(places)
    requires places != IntMin && IntMin <= d.scale + places <= IntMax
    ensures Price(price, precision) == Success(Decimal(d.unscaled, d.scale + places))
  {
  }

  /** A price written as `units` and a precision reads back as
      `units × 10^(−places)`: PRICE 1234 with PRICE_PRECISION 2 is 12.34. */
  lemma PriceRoundTrip(units: int, places: nat)
    requires places <= IntMax
    ensures Price(IntToString(units), IntToString(places)) == Success(Decimal(units, places))
  {
    ParseDecimalInteger(units);
    ParseIntToString(places);
  }

  /** A PRICE with a decimal point keeps its fraction digits in the scale:
      "12.5" with PRICE_PRECISION 2 is 1250 with scale 3, that is 0.125. */
  lemma PricePointed(whole: string, fraction: string, places: nat)
    requires AllDigits(whole) && AllDigits(fraction) && |whole| + |fraction| > 0
    requires |fraction| + places <= IntMax
    ensures Price(whole + "." + fraction, IntToString(places)) ==
      Success(Decimal(DigitsValue(whole + fraction), |fraction| + places))
  {
    var d := Decimal(DigitsValue(whole + fraction), |fraction|);
    ParseDecimalPointed(whole, fraction);
    ParseIntToString(places);
    PriceOf(whole + "." + fraction, IntToString(places), d, places);
    assert Decimal(d.unscaled, d.scale + places) == Decimal(DigitsValue(whole + fraction), |fraction| + places);
  }

  /** A PRICE in exponent form lowers the scale by its exponent: "1E3"
      with PRICE_PRECISION 2 is 1 with scale -1, that is 10. */
  lemma PriceExponent(digits: string, x: int, places: nat)
    requires AllDigits(digits) && |digits| > 0
    requires IntMin <= 0 - x <= IntMax && IntMin <= places - x <= IntMax && places <= IntMax
    ensures Price(digits + "E" + IntToString(x), IntToString(places)) ==
      Success(Decimal(DigitsValue(digits), places - x))
  {
    var d := Decimal(DigitsValue(digits), 0 - x);
    ParseSignedToString(x);
    ParseDecimalExponent(digits, IntToString(x), x);
    ParseIntToString(places);
    PriceOf(digits + "E" + IntToString(x), IntToString(places), d, places);
    assert Decimal(d.unscaled, d.scale + places) == Decimal(DigitsValue(digits), places - x);
  }

  /** The request for chunk `i`. */
  function ChunkRequest(id: string, i: nat): (r: Request)
    ensures r == GetObjectProperty("SMS", id, "CHUNK " + IntToString(i))
    ensures EndsWith(r.header, IntToString(i) + " ")
  {
    var r := GetObjectProperty("SMS", id, "CHUNK " + IntToString(i));
    assert r.header == ("SMS " + id + " CHUNK ") + (IntToString(i) + " ");
    r
  }

  /** The value of chunk `i` read from its reply. */
  function ChunkValue(id: string, i: nat, reply: Result<Option<string>, Connector.ConnectorError>): Result<string, SkypeError> {
    PropertyValue(ChunkRequest(id, i).header, reply)
  }

  /** Chunks `0 .. n-1` read in order, chunk `i` from `chunkReply(i)`; the
      first read that fails is the exception thrown. */
  function ReadChunks(id: string, n: nat, chunkReply: nat -> Result<Option<string>, Connector.ConnectorError>): (r: Result<seq<string>, SkypeError>)
    ensures r.Success? <==> forall i :: 0 <= i < n ==> ChunkValue(id, i, chunkReply(i)).Success?
    ensures r.Success? ==> |r.value| == n && forall i :: 0 <= i < n ==> ChunkValue(id, i, chunkReply(i)) == Success(r.value[i])
    ensures r.Failure? ==> exists i :: 0 <= i < n && ChunkValue(id, i, chunkReply(i)) == Failure(r.error) &&
                                       (forall j :: 0 <= j < i ==> ChunkValue(id, j, chunkReply(j)).Success?)
  {
    if n == 0 then Success([])
    else
      match ReadChunks(id, n - 1, chunkReply)
      case Failure(e) => Failure(e)
      case Success(front) =>
        match ChunkValue(id, n - 1, chunkReply(n - 1))
        case Failure(e) => Failure(e)
        case Success(v) => Success(front + [v])
  }

  /** `getAllContentChunks()`: CHUNKING chunks, chunk `i` read from the
      property `CHUNK i`. A count that is not an int throws
      NumberFormatException and a negative one NegativeArraySizeException. */
  function ContentChunks(id: string, chunking: string, chunkReply: nat -> Result<Option<string>, Connector.ConnectorError>): (r: Result<seq<string>, SkypeError>)
    ensures ParseInt(chunking).None? ==> r == Failure(Unchecked("NumberFormatException"))
    ensures ParseInt(chunking).Some? && ParseInt(chunking).value < 0 ==> r == Failure(Unchecked("NegativeArraySizeException"))
    ensures r.Success? ==> ParseInt(chunking).Some? && |r.value| == ParseInt(chunking).value
    ensures r.Success? ==> forall i :: 0 <= i < |r.value| ==> ChunkValue(id, i, chunkReply(i)) == Success(r.value[i])
  {
    match ParseInt(chunking)
    case None => Failure(Unchecked("NumberFormatException"))
    case Some(count) =>
      if count < 0 then Failure(Unchecked("NegativeArraySizeException"))
      else ReadChunks(id, count, chunkReply)
  }

  /** A chunk written after its reply header reads back as written. */
  lemma ChunkValueRoundTrip(id: string, i: nat, text: string)
    ensures ChunkValue(id, i, Success(Some(ChunkRequest(id, i).header + text))) == Success(text)
  {
    var header := ChunkRequest(id, i).header;
    assert !StartsWith(header + text, ErrorPrefix) by {
      assert (header + text)[0] == 'S';
    }
    PropertyValueRoundTrip(header, text);
  }

  /** When Skype reports CHUNKING as the number of chunks and answers each
      `CHUNK i` request with chunk `i`, the chunks come back in order. */
  lemma ContentChunksRoundTrip(id: string, chunks: seq<string>)
    requires |chunks| <= IntMax
    ensures ContentChunks(id, IntToString(|chunks|),
      (i: nat) => Success(Some(ChunkRequest(id, i).header + if i < |chunks| then chunks[i] else ""))) == Success(chunks)
  {
    var reply := (i: nat) => Success(Some(ChunkRequest(id, i).header + if i < |chunks| then chunks[i] else ""));
    ParseIntToString(|chunks|);
    forall i | 0 <= i < |chunks| {
      ChunkValueRoundTrip(id, i, chunks[i]);
    }
    var r := ReadChunks(id, |chunks|, reply);
    assert r.Success?;
    assert r.value == chunks;
  }

  /** The commands of `toCheckedFailure()`, `send()` and `delete()`, each its own expected reply. */
  datatype SmsAction = MarkSeen | Send | Delete

  function ActionRequest(action: SmsAction, id: string): (r: Request)
    ensures r.command == r.header
    ensures r.command == match action
      case MarkSeen => "SET SMS " + id + " SEEN"
      case Send => "ALTER SMS " + id + " SEND"
      case Delete => "DELETE SMS " + id
  {
    match action
    case MarkSeen => PlainCommand("SET SMS " + id + " SEEN")
    case Send => PlainCommand("ALTER SMS " + id + " SEND")
    case Delete => PlainCommand("DELETE SMS " + id)
  }

  // ---------------------------------------------------------------------
  // Identity
  // ---------------------------------------------------------------------

  /** The objects `equals` can be handed: an SMS, a Chat, or anything else. */
  datatype Compared = SmsObject(smsId: string) | ChatObject(chatId: string) | OtherObject

  /** `SMS.equals` as written: only a Chat with the same id compares equal,
      so an SMS is not even equal to itself. */
  function EqualsAsWritten(id: string, compared: Compared): (r: bool)
    ensures r <==> compared == ChatObject(id)
  {
    match compared
    case ChatObject(other) => id == other
    case _ => false
  }

  /** An SMS is not equal to itself under the written test, though it has
      one hash code. */
  lemma NotEqualToItself(id: string)
    ensures !EqualsAsWritten(id, SmsObject(id))
    ensures EqualsAsWritten(id, ChatObject(id))
  {
  }

  /** `SMS.equals` as intended: another SMS with the same id. */
  function Equals(id: string, compared: Compared): (r: bool)
    ensures r <==> compared == SmsObject(id)
  {
    match compared
    case SmsObject(other) => id == other
    case _ => false
  }

  /** The intended test is reflexive and symmetric, and agrees with the
      id-based hash code. */
  lemma EqualsIsIdentity(a: string, b: string)
    ensures Equals(a, SmsObject(a))
    ensures Equals(a, SmsObject(b)) <==> Equals(b, SmsObject(a))
    ensures Equals(a, SmsObject(b)) ==> a == b
    ensures !Equals(a, ChatObject(a))
  {
  }
}

=== FILE: stream.dfy ===
/** com.skype.Stream: one AP2AP stream of an application, named
    `<friend>:<n>`. Modelled are the friend a stream id names, the WRITE,
    DATAGRAM and DISCONNECT commands, and the test that ends the wait of
    `write`. A stream is identified by its id string, as its `equals` and
    `hashCode` do. */
module Stream {
  import opened Wrappers
  import opened JavaText
  import opened SkypeUtils
  import Application

  /** `getFriend()`: the friend id is the stream id up to its first ':';
      an id without one throws StringIndexOutOfBoundsException. */
  function FriendOfStream(id: string): (r: Option<string>)
    ensures r.Some? <==> ':' in id
    ensures r.Some? ==> ':' !in r.value && StartsWith(id, r.value + ":")
  {
    Before(id, ':')
  }

  /** The stream `<friend>:<n>` belongs to `<friend>`. */
  lemma FriendOfStreamId(friend: string, n: string)
    requires ':' !in friend
    ensures FriendOfStream(friend + ":" + n) == Some(friend)
  {
    IndexOfJoined(friend, ':', n);
    assert friend + ":" + n == friend + [':'] + n;
  }

  /** The header of a WRITE: the command without its text, and the expected reply. */
  function WriteHeader(appName: string, id: string): (r: string)
    ensures StartsWith(r, "ALTER APPLICATION " + appName + " WRITE ") && EndsWith(r, id)
  {
    var head := "ALTER APPLICATION " + appName + " WRITE ";
    var r := head + id;
    assert r[..|head|] == head && r[|r| - |id|..] == id;
    r
  }

  /** `write(text)` as written: `checkNotNull(text, "text")` passes the text
      as the name and the literal "text" as the value, so nothing is ever
      refused, and a null text is sent as the characters "null". */
  function WriteRequestAsWritten(appName: string, id: string, text: Option<string>): (r: Result<Request, SkypeError>)
    ensures r.Success?
    ensures r.value.header == WriteHeader(appName, id)
    ensures r.value.command == WriteHeader(appName, id) + " " + (if text.Some? then text.value else "null")
  {
    var shown := if text.Some? then text.value else "null";
    match CheckNotNull(shown, Some("text"))
    case Failure(e) => Failure(e)
    case Success(_) => Success(Request(WriteHeader(appName, id) + " " + shown, WriteHeader(appName, id)))
  }

  /** A null text is not refused: the command writes "null" on the stream. */
  lemma WriteNullNotRefused(appName: string, id: string)
    ensures WriteRequestAsWritten(appName, id, None) ==
      Success(Request(WriteHeader(appName, id) + " null", WriteHeader(appName, id)))
  {
    assert WriteHeader(appName, id) + " " + "null" == WriteHeader(appName, id) + " null";
  }

  /** `write(text)` with the arguments of the null check in their intended
      order: a null text raises NullPointerException naming "text". */
  function WriteRequest(appName: string, id: string, text: Option<string>): (r: Result<Request, SkypeError>)
    ensures r.Failure? <==> text.None?
    ensures r.Failure? ==> r.error == NullPointer(NullMessage("text"))
    ensures r.Success? ==> r.value.header == WriteHeader(appName, id) && StartsWith(r.value.command, r.value.header + " ")
  {
    match CheckNotNull("text", text)
    case Failure(e) => Failure(e)
    case Success(_) =>
      var header := WriteHeader(appName, id);
      assert (header + " " + text.value)[..|header + " "|] == header + " ";
      Success(Request(header + " " + text.value, header))
  }

  /** The text written is the whole rest of the command after the header and
      a space, which is how the READ reply on the other side is cut. */
  lemma WriteTextRecovered(appName: string, id: string, text: string)
    ensures var w := WriteRequest(appName, id, Some(text)).value;
      w.command[|w.header| + 1..] == text
  {
    var header := WriteHeader(appName, id);
    assert (header + " " + text)[|header| + 1..] == text;
  }

  /** `send(datagram)` as written, with the same swapped null check. */
  function SendRequestAsWritten(appName: string, id: string, datagram: Option<string>): (r: Request)
    ensures r.header == "ALTER APPLICATION " + appName + " DATAGRAM " + id
    ensures r.command == r.header + " " + (if datagram.Some? then datagram.value else "null")
  {
    var header := "ALTER APPLICATION " + appName + " DATAGRAM " + id;
    Request(header + " " + (if datagram.Some? then datagram.value else "null"), header)
  }

  /** `send(datagram)` with the intended null check. */
  function SendRequest(appName: string, id: string, datagram: Option<string>): (r: Result<Request, SkypeError>)
    ensures r.Failure? <==> datagram.None?
    ensures r.Failure? ==> r.error == NullPointer(NullMessage("datagram"))
    ensures r.Success? ==> r == Success(SendRequestAsWritten(appName, id, datagram))
  {
    match CheckNotNull("datagram", datagram)
    case Failure(e) => Failure(e)
    case Success(_) => Success(SendRequestAsWritten(appName, id, datagram))
  }

  /** As written a null datagram is not refused: it goes out exactly as the
      text "null" would, where the intended check refuses it. */
  lemma SendNullNotRefused(appName: string, id: string)
    ensures SendRequestAsWritten(appName, id, None) == SendRequestAsWritten(appName, id, Some("null"))
    ensures SendRequest(appName, id, None).Failure?
  {
  }

  /** The part of a DATAGRAM command after "ALTER APPLICATION <name> " is
      what the receiving side's notice carries after "APPLICATION <name> ",
      and it parses back into the stream id and the datagram. */
  lemma SendMatchesDatagramNotice(appName: string, id: string, datagram: string)
    requires ' ' !in id
    ensures var c := SendRequest(appName, id, Some(datagram)).value.command;
      var prefix := "ALTER APPLICATION " + appName + " ";
      StartsWith(c, prefix) &&
      StartsWith(c[|prefix|..], Application.DatagramPrefix) &&
      Application.DatagramParts(c[|prefix|..]) == Some((id, datagram))
  {
    var prefix := "ALTER APPLICATION " + appName + " ";
    var notice := Application.DatagramPrefix + id + " " + datagram;
    var c := SendRequest(appName, id, Some(datagram)).value.command;
    assert c == prefix + notice;
    assert c[|prefix|..] == notice;
    assert notice[..|Application.DatagramPrefix|] == Application.DatagramPrefix;
    Application.DatagramPartsOf(id, datagram);
  }

  /** `disconnect()`: the command is its own expected reply, and it names
      this stream, unlike the jp version (JpStream.DisconnectNamesOtherStream). */
  function DisconnectRequest(appName: string, id: string): (r: Request)
    ensures r.header == r.command
    ensures EndsWith(r.command, " DISCONNECT " + id)
    ensures StartsWith(r.command, "ALTER APPLICATION " + appName + " ")
  {
    var head := "ALTER APPLICATION " + appName;
    var tail := " DISCONNECT " + id;
    var r := PlainCommand(head + tail);
    var c := head + tail;
    assert c[|c| - |tail|..] == tail;
    assert c[..|head| + 1] == head + " " by {
      assert c[..|head|] == head;
      assert c[|head|] == tail[0] == ' ';
      assert c[..|head| + 1] == c[..|head|] + [c[|head|]];
    }
    r
  }

  /** The entries of a SENDING list, `<stream>=<bytes>` each: the writer
      keeps waiting while one names its stream. An entry without '=' throws
      in the listener. */
  function StillSending(entries: seq<string>, id: string): (r: Result<bool, string>)
    ensures r.Success? && !r.value ==> forall k :: 0 <= k < |entries| ==> Before(entries[k], '=') != Some(id)
    decreases |entries|
  {
    if |entries| == 0 then Success(false)
    else
      match Before(entries[0], '=')
      case None => Failure("StringIndexOutOfBoundsException")
      case Some(stream) =>
        if stream == id then Success(true)
        else
          var r := StillSending(entries[1..], id);
          assert forall k :: 1 <= k < |entries| ==> entries[k] == entries[1..][k - 1];
          r
  }

  /** On a well-formed list the writer waits exactly when an entry names its stream. */
  lemma {:induction false} StillSendingIff(entries: seq<string>, id: string)
    requires forall k :: 0 <= k < |entries| ==> '=' in entries[k]
    ensures StillSending(entries, id).Success?
    ensures StillSending(entries, id).value <==> exists k :: 0 <= k < |entries| && Before(entries[k], '=') == Some(id)
    decreases |entries|
  {
    if |entries| > 0 {
      var rest := entries[1..];
      assert forall k :: 0 <= k < |rest| ==> rest[k] == entries[k + 1];
      StillSendingIff(rest, id);
      if Before(entries[0], '=') != Some(id) {
        if exists k :: 0 <= k < |entries| && Before(entries[k], '=') == Some(id) {
          var k :| 0 <= k < |entries| && Before(entries[k], '=') == Some(id);
          assert rest[k - 1] == entries[k];
        }
      }
    }
  }

  /** What wakes a waiting `write`: a message from Skype, or the application
      reporting a stream disconnected. */
  datatype WriteWake = Notice(message: string) | StreamDisconnected(stream: string)

  /** The test in `write`'s listeners: true when the wait ends. A SENDING
      notice for the application with an empty list ends it; one whose list
      still names this stream does not; the disconnection of this stream
      ends it. */
  function WriteWaitEnds(appName: string, id: string, wake: WriteWake): (r: Result<bool, string>)
    ensures wake.StreamDisconnected? ==> r == Success(wake.stream == id)
    ensures wake.Notice? && wake.message == "APPLICATION " + appName + " SENDING " ==> r == Success(true)
    ensures wake.Notice? && !StartsWith(wake.message, "APPLICATION " + appName + " SENDING ") ==> r == Success(false)
  {
    match wake
    case StreamDisconnected(s) => Success(s == id)
    case Notice(message) =>
      var header := "APPLICATION " + appName + " SENDING ";
      if !StartsWith(message, header) then Success(false)
      else
        var data := message[|header|..];
        if data == "" then Success(true)
        else
          match StillSending(Split(data, " "), id)
          case Failure(e) => Failure(e)
          case Success(waiting) => Success(!waiting)
  }

  /** A SENDING list with this stream still in it keeps the writer waiting;
      once the list names only other streams the wait ends. */
  lemma WriteWaitsWhileListed(appName: string, id: string, entries: seq<string>)
    requires |entries| > 0 && entries[|entries| - 1] != ""
    requires forall k :: 0 <= k < |entries| ==> '=' in entries[k] && ' ' !in entries[k]
    ensures var m := "APPLICATION " + appName + " SENDING " + Join(entries, " ");
      WriteWaitEnds(appName, id, Notice(m)) ==
        Success(!exists k :: 0 <= k < |entries| && Before(entries[k], '=') == Some(id))
  {
    var header := "APPLICATION " + appName + " SENDING ";
    var data := Join(entries, " ");
    var m := header + data;
    assert m[..|header|] == header;
    assert m[|header|..] == data;
    assert data != "" by {
      JoinNonEmpty(entries, " ");
    }
    assert SeparatorFree(entries, " ");
    SplitJoin(entries, " ");
    StillSendingIff(entries, id);
  }
}

=== FILE: transport.dfy ===
/** The transport switch of the Linux native library (javawrapper.c): which
    of X11 and DBus carries the Skype API, which threads `init` starts, and
    where `sendSkypeMessage` sends a command. The detection calls themselves
    are inputs. */
module JavaWrapper {

  /** `messagingMethod`: 0 is X11, 1 is DBus. */
  datatype Transport = X11 | DBus

  /** The static initial value `messagingMethod = 0`. */
  const DefaultTransport := X11

  /** The detection calls `init` makes, in order. */
  datatype Probe = ProbeX11 | ProbeDBus

  /** What `init` starts after choosing. */
  datatype Action = StartX11Mainloop | InitDBusConnection | StartDBusMainloop

  datatype Init = Init(probes: seq<Probe>, transport: Transport, actions: seq<Action>)

  /** Reference reading of the transport priority: the first detected
      transport in `candidates`, else the value already held. */
  function FirstDetected(candidates: seq<(Transport, bool)>, current: Transport): Transport
    decreases |candidates|
  {
    if |candidates| == 0 then current
    else if candidates[0].1 then candidates[0].0
    else FirstDetected(candidates[1..], current)
  }

  /** The threads started for a transport. */
  function StartActions(t: Transport): (r: seq<Action>)
    ensures t == X11 ==> r == [StartX11Mainloop]
    ensures t == DBus ==> r == [InitDBusConnection, StartDBusMainloop]
  {
    match t
    case X11 => [StartX11Mainloop]
    case DBus => [InitDBusConnection, StartDBusMainloop]
  }

  /** `init`: X11 is probed first and DBus only when X11 is not found; when
      neither is found `messagingMethod` keeps its value. */
  function InitTransport(current: Transport, x11Found: bool, dbusFound: bool): (r: Init)
    ensures r.probes == (if x11Found then [ProbeX11] else [ProbeX11, ProbeDBus])
    ensures x11Found ==> r.transport == X11
    ensures r.transport == DBus <==> !x11Found && (dbusFound || current == DBus)
    ensures r.actions == StartActions(r.transport)
  {
    var transport := if x11Found then X11 else if dbusFound then DBus else current;
    Init(if x11Found then [ProbeX11] else [ProbeX11, ProbeDBus], transport, StartActions(transport))
  }

  /** `init` follows the priority X11, then DBus. */
  lemma InitFollowsPriority(current: Transport, x11Found: bool, dbusFound: bool)
    ensures InitTransport(current, x11Found, dbusFound).transport == FirstDetected([(X11, x11Found), (DBus, dbusFound)], current)
  {
    var cs := [(X11, x11Found), (DBus, dbusFound)];
    assert cs[1..] == [(DBus, dbusFound)];
    assert cs[1..][1..] == [];
    assert FirstDetected(cs[1..], current) == if dbusFound then DBus else FirstDetected(cs[1..][1..], current);
    assert FirstDetected(cs, current) == if x11Found then X11 else FirstDetected(cs[1..], current);
  }

  /** On a fresh library neither transport found still starts the X11 main
      loop, which then reports that Skype is not available. */
  lemma NothingFoundStartsX11()
    ensures InitTransport(DefaultTransport, false, false).actions == [StartX11Mainloop]
  {
  }

  /** Where `sendSkypeMessage` hands a command. */
  datatype Route = ToX11 | ToDBus

  function SendRoute(transport: Transport): (r: Route)
    ensures r == ToX11 <==> transport == X11
  {
    if transport == X11 then ToX11 else ToDBus
  }

  /** Commands go through exactly the transport whose threads `init` started. */
  lemma SendUsesStartedTransport(current: Transport, x11Found: bool, dbusFound: bool)
    ensures var i := InitTransport(current, x11Found, dbusFound);
      (SendRoute(i.transport) == ToX11 <==> StartX11Mainloop in i.actions) &&
      (SendRoute(i.transport) == ToDBus <==> StartDBusMainloop in i.actions)
  {
  }
}

=== FILE: user.dfy ===
/** com.skype.User: the registry that interns one User (or Friend) object
    per Skype id, the upgrade of a plain User to a Friend, the chat-message
    history, and the two properties whose reading is more than a lookup.
    A User is identified by its id, as its `equals`, `hashCode` and
    `toString` are. */
module User {
  import opened Wrappers
  import opened JavaText
  import opened SkypeUtils
  import opened SkypeObject
  import Connector
  import Profile

  /** Whether the interned object is a plain User or a Friend. */
  datatype Kind = PlainUser | FriendUser

  /** An interned user object: its id, its class and its user data. */
  datatype UserObject = UserObject(id: string, kind: Kind, data: UserData)

  /** The static `users` map. */
  type Registry = map<string, UserObject>

  /** Every entry is filed under its own id. */
  predicate Valid(users: Registry) {
    forall id :: id in users ==> users[id].id == id
  }

  /** `getInstance(id)`: the interned object, created as a plain User on first request. */
  function GetInstance(users: Registry, id: string): (r: (Registry, UserObject))
    ensures r.1.id == id || (id in users && r.1 == users[id])
    ensures id in r.0 && r.0[id] == r.1
    ensures id in users ==> r.0 == users && r.1 == users[id]
    ensures id !in users ==> r.1 == UserObject(id, PlainUser, map[]) && r.0.Keys == users.Keys + {id}
    ensures forall other :: other in users && other != id ==> other in r.0 && r.0[other] == users[other]
  {
    if id in users then (users, users[id])
    else
      var u := UserObject(id, PlainUser, map[]);
      (users[id := u], u)
  }

  /** Asking twice for the same id gives the same object and leaves the registry as it was. */
  lemma GetInstanceStable(users: Registry, id: string)
    requires Valid(users)
    ensures var (once, u) := GetInstance(users, id);
      Valid(once) && u.id == id && GetInstance(once, id) == (once, u)
  {
  }

  /** `getFriendInstance(id)`: a Friend with this id. An existing Friend is
      returned as it is; an existing plain User is replaced by a new Friend
      carrying a copy of its user data; an unknown id gets a new Friend. */
  function GetFriendInstance(users: Registry, id: string): (r: (Registry, UserObject))
    requires Valid(users)
    ensures r.1.id == id && r.1.kind == FriendUser
    ensures id in r.0 && r.0[id] == r.1
    ensures r.0.Keys == users.Keys + {id}
    ensures forall other :: other in users && other != id ==> r.0[other] == users[other]
    ensures id in users && users[id].kind == FriendUser ==> r == (users, users[id])
    ensures id in users ==> r.1.data == users[id].data
    ensures id !in users ==> r.1.data == map[]
  {
    if id !in users then
      var friend := UserObject(id, FriendUser, map[]);
      (users[id := friend], friend)
    else
      var user := users[id];
      if user.kind == FriendUser then (users, user)
      else
        CopyIntoFresh(user.data);
        var friend := UserObject(id, FriendUser, CopyFrom(map[], Some(user.data)));
        (users[id := friend], friend)
  }

  /** Both lookups keep every entry filed under its own id. */
  lemma LookupsKeepValid(users: Registry, id: string)
    requires Valid(users)
    ensures Valid(GetInstance(users, id).0)
    ensures Valid(GetFriendInstance(users, id).0)
  {
  }

  /** Once an id has a Friend, `getInstance` and `getFriendInstance` both
      return that same Friend and change nothing. */
  lemma FriendIsInterned(users: Registry, id: string)
    requires Valid(users)
    ensures var (after, friend) := GetFriendInstance(users, id);
      GetInstance(after, id) == (after, friend) &&
      GetFriendInstance(after, id) == (after, friend)
  {
  }

  /** `dispose()`: only this id leaves the registry. */
  function Dispose(users: Registry, id: string): (r: Registry)
    ensures id !in r
    ensures r.Keys == users.Keys - {id}
    ensures forall other :: other in r ==> r[other] == users[other]
  {
    users - {id}
  }

  /** After `dispose` the next `getInstance` creates a new plain User with no data. */
  lemma DisposeForgets(users: Registry, id: string)
    ensures GetInstance(Dispose(users, id), id).1 == UserObject(id, PlainUser, map[])
  {
  }

  /** `isVideoCapable()` parses the literal "IS_VIDEO_CAPABLE", not the
      property, so it is false for every user. */
  function IsVideoCapable(u: UserObject): (r: bool)
    ensures !r
  {
    assert |"IS_VIDEO_CAPABLE"| != |"true"|;
    ParseBoolean("IS_VIDEO_CAPABLE")
  }

  /** `isVideoCapable()` as its documentation describes it: true when the
      user's client can do video chats, that is the IS_VIDEO_CAPABLE
      property read as a boolean; a failed read is passed on. */
  function VideoCapable(id: string, reply: Result<Option<string>, Connector.ConnectorError>): (r: Result<bool, SkypeError>)
    ensures var value := PropertyValue(GetObjectProperty("USER", id, "IS_VIDEO_CAPABLE").header, reply);
      (value.Failure? ==> r == Failure(value.error)) &&
      (value.Success? ==> r == Success(EqualsIgnoreCase(value.value, "true")))
  {
    match PropertyValue(GetObjectProperty("USER", id, "IS_VIDEO_CAPABLE").header, reply)
    case Failure(e) => Failure(e)
    case Success(value) => Success(ParseBoolean(value))
  }

  /** The flag Skype reports for a user is the flag read back. */
  lemma VideoCapableRoundTrip(id: string, capable: bool)
    ensures var header := GetObjectProperty("USER", id, "IS_VIDEO_CAPABLE").header;
      VideoCapable(id, Success(Some(header + BooleanText(capable)))) == Success(capable)
  {
    var header := GetObjectProperty("USER", id, "IS_VIDEO_CAPABLE").header;
    assert !StartsWith(header + BooleanText(capable), ErrorPrefix) by {
      assert (header + BooleanText(capable))[0] == 'U';
    }
    PropertyValueRoundTrip(header, BooleanText(capable));
  }

  /** For a video-capable user the method as written still answers false. */
  lemma VideoCapableIgnored(u: UserObject)
    ensures var header := GetObjectProperty("USER", u.id, "IS_VIDEO_CAPABLE").header;
      VideoCapable(u.id, Success(Some(header + "TRUE"))) == Success(true) && !IsVideoCapable(u)
  {
    VideoCapableRoundTrip(u.id, true);
  }

  /** The SEARCH command of `getHistory(type)`. */
  function HistoryRequest(historyType: string, id: string): (r: Request)
    ensures r.command == "SEARCH " + historyType + " " + id
    ensures r.header == historyType + " "
  {
    Request("SEARCH " + historyType + " " + id, historyType + " ")
  }

  /** The sequence backwards, as `Collections.reverse` leaves it. */
  function Reverse<T>(s: seq<T>): (r: seq<T>)
    ensures |r| == |s|
    ensures forall k :: 0 <= k < |s| ==> r[k] == s[|s| - 1 - k]
  {
    seq(|s|, k requires 0 <= k < |s| => s[|s| - 1 - k])
  }

  /** Reversing twice gives the original order back. */
  lemma ReverseReverse<T>(s: seq<T>)
    ensures Reverse(Reverse(s)) == s
  {
  }

  /** `getAllChatMessages()`: the CHATMESSAGES history, newest last in the
      reply, returned in reverse order. */
  function AllChatMessages(reply: Result<Option<string>, Connector.ConnectorError>): (r: Result<seq<string>, SkypeError>)
    ensures r.Success? <==> SearchResult("CHATMESSAGES ", reply).Success?
    ensures r.Success? ==> |r.value| == |SearchResult("CHATMESSAGES ", reply).value|
    ensures r.Success? ==> forall k :: 0 <= k < |r.value| ==>
      r.value[k] == SearchResult("CHATMESSAGES ", reply).value[|r.value| - 1 - k]
  {
    match SearchResult("CHATMESSAGES ", reply)
    case Failure(e) => Failure(e)
    case Success(ids) => Success(Reverse(ids))
  }

  /** `getAllCalls()`: the CALLS history in reply order. */
  function AllCalls(reply: Result<Option<string>, Connector.ConnectorError>): (r: Result<seq<string>, SkypeError>)
    ensures reply.Failure? ==> r == Failure(ConvertToSkypeException(reply.error))
    ensures r.Success? <==> PropertyValue("CALLS ", reply).Success?
    ensures r.Success? ==> r.value == ConvertToArray(PropertyValue("CALLS ", reply).value)
  {
    SearchResult("CALLS ", reply)
  }

  /** For a reply listing message ids the messages come back newest first. */
  lemma ChatHistoryReversed(ids: seq<string>)
    requires SeparatorFree(ids, ",") && SplitKeepsAll(ids)
    requires forall k :: 0 <= k < |ids| ==> TrimmedPiece(ids[k])
    ensures AllChatMessages(Success(Some("CHATMESSAGES " + Join(ids, ",")))) == Success(Reverse(ids))
  {
    SearchResultListed("CHATMESSAGES ", ids);
  }

  /** For a reply listing call ids the calls come back in the order listed. */
  lemma CallHistoryInOrder(ids: seq<string>)
    requires SeparatorFree(ids, ",") && SplitKeepsAll(ids)
    requires forall k :: 0 <= k < |ids| ==> TrimmedPiece(ids[k])
    ensures AllCalls(Success(Some("CALLS " + Join(ids, ",")))) == Success(ids)
  {
    SearchResultListed("CALLS ", ids);
  }

  /** `getBirthDay()`: the user's BIRTHDAY property read the way the profile's is. */
  function BirthDay(id: string, reply: Result<Option<string>, Connector.ConnectorError>): (r: Result<Option<Profile.Date>, SkypeError>)
    ensures var value := PropertyValue(GetObjectProperty("USER", id, "BIRTHDAY").header, reply);
      (value == Success("0") ==> r == Success(None)) &&
      (r.Success? && r.value.Some? ==> value == Success(r.value.value)) &&
      (value.Failure? ==> r == Failure(value.error))
  {
    match PropertyValue(GetObjectProperty("USER", id, "BIRTHDAY").header, reply)
    case Failure(e) => Failure(e)
    case Success(value) =>
      match Profile.BirthdayOf(value)
      case Failure(name) => Failure(Unchecked(name))
      case Success(d) => Success(d)
  }
}

=== FILE: windows_connector.dfy ===
/** com.skype.connector.windows.WindowsConnector: the SWT window that talks
    to the Skype client with registered window messages and WM_COPYDATA.
    The window system is an input: a message arrives as a `WindowMessage`,
    one pass of the connect loop as a `Round`, a registry value as a
    `RegistryValue`. Text is handled in characters; the UTF-8 conversion of
    the copied buffer is not part of this model. */
module WindowsConnector {
  import opened Wrappers
  import opened Connector

  /** The attach response codes of the Skype API. */
  const AttachSuccess := 0
  const AttachPendingAuthorization := 1
  const AttachRefused := 2
  const AttachNotAvailable := 3
  const AttachApiAvailable := 0x8001

  /** The code of a response Skype may send. */
  predicate KnownAttachCode(code: int) {
    code == AttachSuccess || code == AttachPendingAuthorization || code == AttachRefused ||
    code == AttachNotAvailable || code == AttachApiAvailable
  }

  /** The `switch (lParam)` of `messageReceived`: any other code means NOT_RUNNING. */
  function AttachStatus(code: int): (s: Status)
    ensures s == NotRunning <==> !KnownAttachCode(code)
    ensures s == Attached <==> code == AttachSuccess
    ensures s == PendingAuthorization <==> code == AttachPendingAuthorization
  {
    if code == AttachPendingAuthorization then PendingAuthorization
    else if code == AttachSuccess then Attached
    else if code == AttachRefused then Refused
    else if code == AttachNotAvailable then NotAvailable
    else if code == AttachApiAvailable then ApiAvailable
    else NotRunning
  }

  /** The response code Skype sends for a status; NOT_RUNNING has none. */
  function AttachCode(s: Status): (code: Option<int>)
    ensures code.Some? <==> s != NotRunning
    ensures code.Some? ==> KnownAttachCode(code.value)
  {
    match s
    case Attached => Some(AttachSuccess)
    case PendingAuthorization => Some(AttachPendingAuthorization)
    case Refused => Some(AttachRefused)
    case NotAvailable => Some(AttachNotAvailable)
    case ApiAvailable => Some(AttachApiAvailable)
    case NotRunning => None
  }

  /** The code table is a bijection between the known codes and the statuses other than NOT_RUNNING. */
  lemma AttachCodeRoundTrip(s: Status, code: int)
    ensures AttachCode(s).Some? ==> AttachStatus(AttachCode(s).value) == s
    ensures KnownAttachCode(code) ==> AttachCode(AttachStatus(code)) == Some(code)
  {
  }

  /** The window procedure's state: the connector and `skypeWindowHandle`,
      which starts at 0 and is set by the attach-success response. */
  datatype WindowState = WindowState(conn: ConnectorState, skypeWindow: int)

  /** A message delivered to the connector's window. `CopyData` carries
      `cbData` characters of the copied block. */
  datatype WindowMessage =
    | AttachMessage(wParam: int, lParam: int)
    | CopyData(wParam: int, data: string)
    | OtherMessage(msg: int)

  /** What `messageReceived` does with a message: handles it (returning 1),
      passes it to `DefWindowProc`, or faults — a zero-length block makes
      `new byte[-1]` raise NegativeArraySizeException. */
  datatype Dispatch =
    | Handled(state: WindowState, tasks: seq<Task>)
    | DefaultProc
    | NegativeArraySize

  /** The C string terminator put after every command. */
  const Terminator: char := '\0'

  /** The block `sendCommand` copies: the command and its terminator. */
  function Frame(command: string): (data: string)
    ensures |data| == |command| + 1 && data[|command|] == Terminator
    ensures data[..|command|] == command
  {
    command + [Terminator]
  }

  /** The text `messageReceived` makes of a copied block: all but its last
      character; an empty block has no text. */
  function Unframe(data: string): (text: Option<string>)
    ensures text.None? <==> |data| == 0
    ensures text.Some? ==> |text.value| + 1 == |data| && text.value == data[..|data| - 1]
  {
    if |data| == 0 then None else Some(data[..|data| - 1])
  }

  /** Unframing undoes framing; a terminated block is the frame of its text. */
  lemma FrameRoundTrip(command: string, data: string)
    ensures Unframe(Frame(command)) == Some(command)
    ensures |data| > 0 && data[|data| - 1] == Terminator ==> Frame(Unframe(data).value) == data
  {
    if |data| > 0 && data[|data| - 1] == Terminator {
      assert data[..|data| - 1] + [Terminator] == data;
    }
  }

  /** `messageReceived(hwnd, msg, wParam, lParam)`, the window procedure. */
  function WindowProc(ws: WindowState, m: WindowMessage): (r: Dispatch)
    ensures m.AttachMessage? ==> r.Handled? && r.state.conn.status == AttachStatus(m.lParam)
    ensures m.AttachMessage? ==>
      r.state.skypeWindow == (if m.lParam == AttachSuccess then m.wParam else ws.skypeWindow)
    ensures m.CopyData? && m.wParam != ws.skypeWindow ==> r == DefaultProc
    ensures m.CopyData? && m.wParam == ws.skypeWindow ==>
      (r == NegativeArraySize <==> |m.data| == 0)
    ensures m.CopyData? && m.wParam == ws.skypeWindow && |m.data| > 0 ==>
      r == Handled(ws, Schedule(ws.conn, MessageReceived(Unframe(m.data).value)))
    ensures m.OtherMessage? ==> r == DefaultProc
  {
    match m
    case AttachMessage(wParam, lParam) =>
      var window := if lParam == AttachSuccess then wParam else ws.skypeWindow;
      var (conn, tasks) := SetStatus(ws.conn, AttachStatus(lParam));
      Handled(WindowState(conn, window), tasks)
    case CopyData(wParam, data) =>
      if wParam != ws.skypeWindow then DefaultProc
      else
        (match Unframe(data)
         case None => NegativeArraySize
         case Some(text) => Handled(ws, Schedule(ws.conn, MessageReceived(text))))
    case OtherMessage(_) => DefaultProc
  }

  /** The WM_COPYDATA request `sendCommand` posts to Skype's window. */
  datatype CopyRequest = CopyRequest(target: int, sender: int, data: string, length: nat)

  /** `sendCommand(command)`: the terminated command, addressed to Skype's window. */
  function SendCommand(ws: WindowState, windowHandle: int, command: string): (r: CopyRequest)
    ensures r.target == ws.skypeWindow && r.sender == windowHandle
    ensures r.length == |r.data| && Unframe(r.data) == Some(command)
  {
    var data := Frame(command);
    FrameRoundTrip(command, data);
    CopyRequest(ws.skypeWindow, windowHandle, data, |data|)
  }

  /** Once Skype's window `skype` has attached, a block it copies back
      delivers exactly the text, and copies from any other window are
      left to the default procedure. */
  lemma CopyAcceptedOnlyFromAttachedWindow(st: ConnectorState, skype: int, other: int, text: string)
    requires other != skype
    ensures var attached := WindowProc(WindowState(st, 0), AttachMessage(skype, AttachSuccess));
      attached.Handled? &&
      WindowProc(attached.state, CopyData(skype, Frame(text))) ==
        Handled(attached.state, Schedule(attached.state.conn, MessageReceived(text))) &&
      WindowProc(attached.state, CopyData(other, Frame(text))) == DefaultProc
  {
    FrameRoundTrip(text, Frame(text));
  }

  /** One pass of the connect loop: the milliseconds `wait(timeout)` took
      and the status the callbacks had set when it returned. */
  datatype Round = Round(waited: int, status: Status)

  /** The status one pass reads: a full wait first sets NOT_RUNNING. */
  function RoundStatus(timeout: int, round: Round): (s: Status)
    ensures timeout <= round.waited ==> s == NotRunning
    ensures timeout > round.waited ==> s == round.status
  {
    if timeout <= round.waited then NotRunning else round.status
  }

  /** `connect(timeout)`: the first status other than PENDING_AUTHORIZATION,
      or `None` when every pass given is still pending. */
  function Connect(timeout: int, rounds: seq<Round>): (r: Option<Status>)
    ensures r.Some? ==> r.value != PendingAuthorization
    ensures r.None? <==> forall i :: 0 <= i < |rounds| ==> RoundStatus(timeout, rounds[i]) == PendingAuthorization
    ensures r.Some? ==> exists i :: 0 <= i < |rounds| && RoundStatus(timeout, rounds[i]) == r.value
    ensures |rounds| > 0 && RoundStatus(timeout, rounds[0]) != PendingAuthorization ==>
      r == Some(RoundStatus(timeout, rounds[0]))
    decreases |rounds|
  {
    if |rounds| == 0 then None
    else
      var s := RoundStatus(timeout, rounds[0]);
      if s != PendingAuthorization then Some(s)
      else
        var r := Connect(timeout, rounds[1..]);
        assert forall i :: 0 < i < |rounds| ==> rounds[i] == rounds[1..][i - 1];
        if r.Some? then
          var j :| 0 <= j < |rounds[1..]| && RoundStatus(timeout, rounds[1..][j]) == r.value;
          assert RoundStatus(timeout, rounds[j + 1]) == r.value;
          r
        else r
  }

  /** A pass whose wait ran out ends the loop with NOT_RUNNING, unless an earlier pass already returned. */
  lemma {:induction false} ConnectGivesUpAfterFullWait(timeout: int, rounds: seq<Round>, k: nat)
    requires k < |rounds| && timeout <= rounds[k].waited
    ensures Connect(timeout, rounds).Some?
    ensures (forall i :: 0 <= i < k ==> RoundStatus(timeout, rounds[i]) == PendingAuthorization) ==>
      Connect(timeout, rounds) == Some(NotRunning)
    decreases k
  {
    if k > 0 && RoundStatus(timeout, rounds[0]) == PendingAuthorization {
      assert rounds[1..][k - 1] == rounds[k];
      ConnectGivesUpAfterFullWait(timeout, rounds[1..], k - 1);
      assert forall i :: 0 <= i < k - 1 ==> rounds[1..][i] == rounds[i + 1];
    }
  }

  /** `sendApplicationName(name)`: the command and the single header it waits for. */
  function ApplicationNameCommand(applicationName: string): (r: (string, seq<string>))
    ensures r.0 == "NAME " + applicationName && r.1 == [r.0]
  {
    var command := "NAME " + applicationName;
    (command, [command])
  }

  /** With this `sendApplicationName`, `connect()` names the application
      before PROTOCOL 9999, and a NAME exchange that times out leaves the
      connector NOT_RUNNING without PROTOCOL ever being sent. */
  lemma ConnectNamesApplicationFirst(st: ConnectorState, applicationName: string, nameTimedOut: bool, protocolTimedOut: bool)
    ensures var name := ApplicationNameCommand(applicationName).0;
      var c := Connector.Connect(st, Platform(None, Success(Attached), Some(name), nameTimedOut, protocolTimedOut));
      (!nameTimedOut ==> c.sent == [name, ProtocolCommand]) &&
      (nameTimedOut ==> c.sent == [name] && c.result == Failure(NotAttached(NotRunning)) && c.state.status == NotRunning)
  {
  }

  /** A registry value: absent (the key does not open or the value does not
      exist) or present with the characters stored, terminator included;
      `readOk` says whether the second query succeeded. */
  datatype RegistryValue = Absent | Present(stored: string, readOk: bool)

  /** `getRegistryValue`: null when absent, "" when empty or unreadable,
      otherwise the stored characters without the terminator. */
  function RegistryRead(v: RegistryValue): (r: Option<string>)
    ensures r.None? <==> v.Absent?
    ensures v.Present? && (|v.stored| == 0 || !v.readOk) ==> r == Some("")
    ensures v.Present? && |v.stored| > 0 && v.readOk ==> r == Some(v.stored[..|v.stored| - 1])
  {
    match v
    case Absent => None
    case Present(stored, readOk) =>
      if |stored| == 0 || !readOk then Some("") else Some(stored[..|stored| - 1])
  }

  /** A value stored with its terminator reads back as the text. */
  lemma RegistryRoundTrip(text: string)
    ensures RegistryRead(Present(Frame(text), true)) == Some(text)
  {
  }

  /** `getInstalledPath`: the per-user value, else the machine-wide one. */
  function InstalledPath(currentUser: RegistryValue, localMachine: RegistryValue): (r: Option<string>)
    ensures currentUser.Present? ==> r == RegistryRead(currentUser)
    ensures currentUser.Absent? ==> r == RegistryRead(localMachine)
    ensures r.None? <==> currentUser.Absent? && localMachine.Absent?
  {
    if RegistryRead(currentUser).Some? then RegistryRead(currentUser) else RegistryRead(localMachine)
  }

  /** The resources `initialize` acquires for its window, in order. */
  datatype SetupStep = CallbackStep | HeapStep | ModuleStep | CursorStep | ClassNameStep | RegisterStep | WindowStep

  const SetupOrder: seq<SetupStep> := [CallbackStep, HeapStep, ModuleStep, CursorStep, ClassNameStep, RegisterStep, WindowStep]

  /** The ConnectorException message for each failed step. */
  function SetupMessage(s: SetupStep): (r: string)
    ensures |r| > 31 && r[..31] == "The Windows connector couldn't " && r[|r| - 1] == '.'
  {
    match s
    case CallbackStep => "The Windows connector couldn't get a callback resource."
    case HeapStep => "The Windows connector couldn't get the heap handle."
    case ModuleStep => "The Windows connector couldn't get the module handle."
    case CursorStep => "The Windows connector couldn't get a cursor handle."
    case ClassNameStep => "The Windows connector couldn't get a resource."
    case RegisterStep => "The Windows connector couldn't register a window class."
    case WindowStep => "The Windows connector couldn't create a window."
  }

  /** Each step's message names that step alone, so the message tells which resource failed. */
  lemma SetupMessagesDistinct(a: SetupStep, b: SetupStep)
    ensures SetupMessage(a) == SetupMessage(b) <==> a == b
  {
    if a != b {
      var ma := SetupMessage(a);
      var mb := SetupMessage(b);
      assert |ma| != |mb| || ma[35] != mb[35] || ma[36] != mb[36] || ma[40] != mb[40];
    }
  }

  /** The first of `steps` that failed. */
  function FirstFailed(steps: seq<SetupStep>, failed: set<SetupStep>): (r: Option<SetupStep>)
    ensures r.None? <==> forall i :: 0 <= i < |steps| ==> steps[i] !in failed
    ensures r.Some? ==> r.value in failed && r.value in steps
    ensures r.Some? ==> exists k :: FailsFirstAt(steps, failed, k) && steps[k] == r.value
    decreases |steps|
  {
    if |steps| == 0 then None
    else if steps[0] in failed then
      assert FailsFirstAt(steps, failed, 0);
      Some(steps[0])
    else
      var r := FirstFailed(steps[1..], failed);
      assert forall i :: 0 < i < |steps| ==> steps[i] == steps[1..][i - 1];
      if r.Some? then
        var k :| FailsFirstAt(steps[1..], failed, k) && steps[1..][k] == r.value;
        assert FailsFirstAt(steps, failed, k + 1);
        r
      else r
  }

  /** `steps[k]` failed and every step before it succeeded. */
  predicate FailsFirstAt(steps: seq<SetupStep>, failed: set<SetupStep>, k: int) {
    0 <= k < |steps| && steps[k] in failed && forall i :: 0 <= i < k ==> steps[i] !in failed
  }

  /** `initialize()`: the window thread reports the first step that failed
      and the caller raises it; otherwise the window exists. */
  function Initialize(failed: set<SetupStep>): (r: Result<(), string>)
    ensures r.Success? <==> failed == {}
    ensures r.Failure? ==> exists k :: FailsFirstAt(SetupOrder, failed, k) && r.error == SetupMessage(SetupOrder[k])
  {
    match FirstFailed(SetupOrder, failed)
    case None =>
      forall s: SetupStep ensures s !in failed {
        var i := match s
          case CallbackStep => 0 case HeapStep => 1 case ModuleStep => 2 case CursorStep => 3
          case ClassNameStep => 4 case RegisterStep => 5 case WindowStep => 6;
        assert SetupOrder[i] == s;
      }
      Success(())
    case Some(s) => Failure(SetupMessage(s))
  }
}

/** com.skype.connector.win32.Win32Connector: the JNI bridge to a native
    window procedure. The native calls are inputs; the connect loop is
    modelled twice, as the source writes it and with the deadline its
    timeout parameter promises. */
module Win32Connector {
  import opened Wrappers
  import opened Connector
  import WindowsConnector

  /** The text fired as a received message after every attach response. */
  const StatusChangedMessage := "ConnectorStatusChanged"

  /** `jni_onAttach(code)`: a known code sets its status, an unknown code
      changes nothing; "ConnectorStatusChanged" is fired either way. */
  function OnAttach(st: ConnectorState, code: int): (r: (ConnectorState, seq<Task>))
    ensures WindowsConnector.KnownAttachCode(code) ==>
      r.0 == st.(status := WindowsConnector.AttachStatus(code)) &&
      r.1 == Schedule(st, StatusChanged(r.0.status)) + Schedule(st, MessageReceived(StatusChangedMessage))
    ensures !WindowsConnector.KnownAttachCode(code) ==>
      r.0 == st && r.1 == Schedule(st, MessageReceived(StatusChangedMessage))
  {
    if WindowsConnector.KnownAttachCode(code) then
      var (next, tasks) := SetStatus(st, WindowsConnector.AttachStatus(code));
      (next, tasks + Schedule(next, MessageReceived(StatusChangedMessage)))
    else (st, Schedule(st, MessageReceived(StatusChangedMessage)))
  }

  /** The two connectors agree on every known code and differ on the rest:
      the SWT one reports NOT_RUNNING, this one keeps the status. */
  lemma OnAttachAgreesOnKnownCodes(st: ConnectorState, code: int)
    ensures WindowsConnector.KnownAttachCode(code) ==>
      OnAttach(st, code).0.status == WindowsConnector.AttachStatus(code)
    ensures !WindowsConnector.KnownAttachCode(code) ==>
      OnAttach(st, code).0.status == st.status && WindowsConnector.AttachStatus(code) == NotRunning
  {
  }

  /** `jni_onSkypeMessage(message)`: the text is forwarded unchanged. */
  function OnSkypeMessage(st: ConnectorState, message: string): (r: seq<Task>)
    ensures forall k :: 0 <= k < |r| ==> r[k].notice == MessageReceived(message)
    ensures |r| > 0 <==> |st.syncListeners| > 0 || |st.asyncListeners| > 0
  {
    Schedule(st, MessageReceived(message))
  }

  /** One pass of the loop: `tick` is the difference of the two clock
      reads taken back to back, `status` what the callbacks had set. */
  datatype Tick = Tick(tick: int, status: Status)

  /** The status a pass reads: NOT_RUNNING is set only if the timeout is at most the tick. */
  function TickStatus(timeout: int, t: Tick): (s: Status)
    ensures timeout <= t.tick ==> s == NotRunning
    ensures timeout > t.tick ==> s == t.status
  {
    if timeout <= t.tick then NotRunning else t.status
  }

  /** Whether a pass leaves the loop. */
  predicate Leaves(s: Status) {
    s != PendingAuthorization && s != NotRunning
  }

  /** `connect(timeout)` as written: it leaves only on a status other than
      PENDING_AUTHORIZATION and NOT_RUNNING. */
  function ConnectAsWritten(timeout: int, ticks: seq<Tick>): (r: Option<Status>)
    ensures r.Some? ==> Leaves(r.value)
    ensures r.None? <==> forall i :: 0 <= i < |ticks| ==> !Leaves(TickStatus(timeout, ticks[i]))
    decreases |ticks|
  {
    if |ticks| == 0 then None
    else if Leaves(TickStatus(timeout, ticks[0])) then Some(TickStatus(timeout, ticks[0]))
    else
      assert forall i :: 0 < i < |ticks| ==> ticks[i] == ticks[1..][i - 1];
      ConnectAsWritten(timeout, ticks[1..])
  }

  /** The loop never gives up: while Skype answers nothing but pending or
      not running, it runs on for any number of passes and any timeout,
      since the NOT_RUNNING the timeout sets is itself a reason to go on. */
  lemma ConnectAsWrittenNeverGivesUp(timeout: int, ticks: seq<Tick>)
    requires forall i :: 0 <= i < |ticks| ==> !Leaves(ticks[i].status)
    ensures ConnectAsWritten(timeout, ticks).None?
  {
  }

  /** A concrete run: Skype is not running, the timeout is a second and
      every pass lasts its one-second sleep; after an hour of passes the
      loop is still running. */
  lemma ConnectAsWrittenCounterexample()
    ensures ConnectAsWritten(1000, seq(3600, _ => Tick(0, NotRunning))).None?
  {
    ConnectAsWrittenNeverGivesUp(1000, seq(3600, _ => Tick(0, NotRunning)));
  }

  /** One pass as the corrected loop sees it: the milliseconds it took,
      sleep included, and the status the callbacks had set. */
  datatype Pass = Pass(elapsed: nat, status: Status)

  /** The milliseconds the passes took together. */
  function Elapsed(passes: seq<Pass>): (t: nat)
    ensures |passes| > 0 ==> t >= passes[0].elapsed
    decreases |passes|
  {
    if |passes| == 0 then 0 else passes[0].elapsed + Elapsed(passes[1..])
  }

  /** The sleep between two passes. */
  const PassPause := 1000

  /** The connect loop with a deadline: the time `spent` so far plus each
      pass is measured against the timeout, which ends the loop with
      NOT_RUNNING; before it, the first status that leaves is returned. */
  function ConnectWithDeadline(timeout: int, spent: nat, passes: seq<Pass>): (r: Option<Status>)
    ensures r.Some? ==> r.value != PendingAuthorization
    ensures r == Some(NotRunning) ==> timeout <= spent + Elapsed(passes)
    ensures r.Some? && r.value != NotRunning ==> exists i :: 0 <= i < |passes| && passes[i].status == r.value
    ensures |passes| > 0 && spent + passes[0].elapsed < timeout && Leaves(passes[0].status) ==>
      r == Some(passes[0].status)
    decreases |passes|
  {
    if |passes| == 0 then None
    else
      var total := spent + passes[0].elapsed;
      if timeout <= total then Some(NotRunning)
      else if Leaves(passes[0].status) then Some(passes[0].status)
      else
        var r := ConnectWithDeadline(timeout, total, passes[1..]);
        if r.Some? && r.value != NotRunning then
          var j :| 0 <= j < |passes[1..]| && passes[1..][j].status == r.value;
          assert passes[j + 1].status == r.value;
          r
        else r
  }

  /** With every pass lasting at least the pause, the corrected loop
      returns within the passes that cover the timeout. */
  lemma {:induction false} ConnectWithDeadlineGivesUp(timeout: int, spent: nat, passes: seq<Pass>)
    requires forall i :: 0 <= i < |passes| ==> passes[i].elapsed >= PassPause
    requires |passes| > 0 && timeout <= spent + |passes| * PassPause
    ensures ConnectWithDeadline(timeout, spent, passes).Some?
    decreases |passes|
  {
    var total := spent + passes[0].elapsed;
    if total < timeout && !Leaves(passes[0].status) {
      assert |passes| > 1;
      assert forall i :: 0 <= i < |passes[1..]| ==> passes[1..][i] == passes[i + 1];
      ConnectWithDeadlineGivesUp(timeout, total, passes[1..]);
    }
  }

  /** On the counterexample's input the corrected loop reports NOT_RUNNING after the first pass. */
  lemma ConnectWithDeadlineEndsCounterexample()
    ensures ConnectWithDeadline(1000, 0, seq(3600, _ => Pass(PassPause, NotRunning))) == Some(NotRunning)
  {
  }
}

=== FILE: wrappers.dfy ===
/** The optional-value and outcome types used throughout the model in place
    of Java's null references and thrown exceptions. */
module Wrappers {

  /** A value that may be absent; stands for a Java reference that may be null. */
  datatype Option<+T> = None | Some(value: T)

  /** The outcome of a Java call that either returns a value or throws. */
  datatype Result<+T, +E> = Success(value: T) | Failure(error: E)
}

/** Raw bytes as native code and byte arrays hold them. */
module Octets {

  newtype byte = b: int | 0 <= b < 256

  /** The C string terminator. */
  const Nul: byte := 0
}

=== FILE: x11_framing.dfy ===
/** The X11 transport of the Linux connector (x11wrapper.c): Skype discovery
    through the `_SKYPE_INSTANCE` root-window property, the cutting of a
    NUL-terminated command into 20-byte ClientMessage payloads, and the main
    loop that glues payloads back together and reports the attach status.
    Xlib calls are abstracted: an event is the part of `XClientMessageEvent`
    the code reads or writes. */
module X11Framing {
  import opened Octets

  /** Bytes carried by one ClientMessage of format 8 (`data.b`). */
  const PayloadSize := 20

  /** Size of the main loop's reassembly buffer `char buffer[17000]`. */
  const BufferSize := 17000

  /** X protocol error codes `BadValue` and `BadWindow`. */
  const BadValue := 2
  const BadWindow := 3

  /** Xlib's `Success` status. */
  const XSuccess := 0

  predicate NulFree(s: seq<byte>) {
    forall k :: 0 <= k < |s| ==> s[k] != Nul
  }

  type Payload = s: seq<byte> | |s| == PayloadSize witness seq(PayloadSize, _ => Nul)

  /** The atoms naming the first and the following fragments of a command. */
  datatype Atom = MessageBegin | Message | OtherAtom(id: nat)

  datatype ClientMessage = ClientMessage(messageType: Atom, format: int, data: Payload)

  // ---------------------------------------------------------------------
  // Discovery and error trapping
  // ---------------------------------------------------------------------

  /** What `XGetWindowProperty` returned for `_SKYPE_INSTANCE`. */
  datatype PropertyReply = PropertyReply(status: int, format: int, itemCount: int, value: nat)

  /** The result of `x11DetectSkype` and the value it leaves in `skype_win`. */
  datatype Detection = Detection(result: int, skypeWindow: int)

  /** `x11DetectSkype`: found only for a successful read of one 32-bit item. */
  function DetectSkype(p: PropertyReply): (r: Detection)
    ensures r.result == 1 <==> p.status == XSuccess && p.format == 32 && p.itemCount == 1
    ensures r.result == 0 <==> r.result != 1
    ensures r.result == 0 ==> r.skypeWindow == -1
    ensures r.result == 1 ==> 0 <= r.skypeWindow < 0x1_0000_0000 && (p.value - r.skypeWindow) % 0x1_0000_0000 == 0
  {
    if p.status != XSuccess || p.format != 32 || p.itemCount != 1 then Detection(0, -1)
    else Detection(1, p.value % 0x1_0000_0000)
  }

  /** `untrap_errors`: the send counts as failed only for BadValue and BadWindow. */
  function SendSucceeded(xerror: int): (ok: bool)
    ensures !ok <==> xerror in {BadValue, BadWindow}
  {
    xerror != BadValue && xerror != BadWindow
  }

  // ---------------------------------------------------------------------
  // Sending: one command as a run of ClientMessages
  // ---------------------------------------------------------------------

  /** How many bytes of the NUL-terminated text of length `len` event `k` carries. */
  function ChunkLength(len: nat, k: nat): int {
    if len + 1 - PayloadSize * k < PayloadSize then len + 1 - PayloadSize * k else PayloadSize
  }

  /** What a run of events sent for `msg` looks like: `|msg|/20 + 1` events of
      format 8, the first one MESSAGE_BEGIN and the others MESSAGE, event `k`
      starting with bytes `[20k, min(20k+20, |msg|+1))` of `msg` plus its NUL. */
  predicate IsFraming(msg: seq<byte>, events: seq<ClientMessage>) {
    |events| == |msg| / PayloadSize + 1 &&
    forall k :: 0 <= k < |events| ==>
      events[k].format == 8 &&
      events[k].messageType == (if k == 0 then MessageBegin else Message) &&
      0 < ChunkLength(|msg|, k) <= PayloadSize &&
      events[k].data[..ChunkLength(|msg|, k)] == (msg + [Nul])[PayloadSize * k..PayloadSize * k + ChunkLength(|msg|, k)]
  }

  /** `x11sendMessageInternal`: the events sent for the C string `msg`
      (`strlen` stops at the first NUL, so `msg` holds none). A short last
      chunk leaves the previous event's bytes after its NUL. */
  method SendMessage(msg: seq<byte>) returns (events: seq<ClientMessage>)
    requires NulFree(msg)
    ensures IsFraming(msg, events)
  {
    var cstr := msg + [Nul];
    var len := |msg|;
    var data: Payload := seq(PayloadSize, _ => Nul);
    var atom := MessageBegin;
    var pos := 0;
    events := [];
    // The body of the C do-while runs at least once; since `pos == 0 <= len`
    // on entry, a while loop with the same test is equivalent.
    while pos <= len
      invariant pos <= len ==> pos == PayloadSize * |events|
      invariant pos > len ==> pos == len + 1 && |events| == len / PayloadSize + 1
      invariant |events| <= len / PayloadSize + 1
      invariant atom == (if |events| == 0 then MessageBegin else Message)
      invariant forall k :: 0 <= k < |events| ==>
        events[k].format == 8 &&
        events[k].messageType == (if k == 0 then MessageBegin else Message) &&
        0 < ChunkLength(len, k) <= PayloadSize &&
        events[k].data[..ChunkLength(len, k)] == cstr[PayloadSize * k..PayloadSize * k + ChunkLength(len, k)]
      decreases len + 1 - pos
    {
      var i := 0;
      while i < PayloadSize && i + pos <= len
        invariant 0 <= i <= PayloadSize && i + pos <= len + 1
        invariant data[..i] == cstr[pos..pos + i]
      {
        data := data[i := cstr[i + pos]];
        i := i + 1;
      }
      assert i == ChunkLength(len, |events|);
      events := events + [ClientMessage(atom, 8, data)];
      atom := Message;
      pos := pos + i;
    }
  }

  // ---------------------------------------------------------------------
  // Receiving: the main loop
  // ---------------------------------------------------------------------

  /** The number of bytes the main loop copies from a payload: up to the first NUL, at most 20. */
  function FragmentLength(data: Payload): (n: nat)
    ensures n <= PayloadSize && NulFree(data[..n])
    ensures n < PayloadSize ==> data[n] == Nul
  {
    FragmentLengthFrom(data, 0)
  }

  function FragmentLengthFrom(data: Payload, i: nat): (n: nat)
    requires i <= PayloadSize && NulFree(data[..i])
    ensures i <= n <= PayloadSize && NulFree(data[..n])
    ensures n < PayloadSize ==> data[n] == Nul
    decreases PayloadSize - i
  {
    if i == PayloadSize || data[i] == Nul then i
    else
      assert data[..i + 1] == data[..i] + [data[i]];
      FragmentLengthFrom(data, i + 1)
  }

  /** A NUL-free prefix ended by a NUL (or by the end) has exactly the fragment's length. */
  lemma FragmentLengthUnique(data: Payload, n: nat)
    requires n <= PayloadSize && NulFree(data[..n])
    requires n < PayloadSize ==> data[n] == Nul
    ensures FragmentLength(data) == n
  {
    var m := FragmentLength(data);
    assert forall k :: 0 <= k < n ==> data[k] != Nul by {
      forall k | 0 <= k < n
        ensures data[k] != Nul
      {
        assert data[..n][k] == data[k];
      }
    }
    assert forall k :: 0 <= k < m ==> data[k] != Nul by {
      forall k | 0 <= k < m
        ensures data[k] != Nul
      {
        assert data[..m][k] == data[k];
      }
    }
  }

  /** The text the main loop appends for one payload. */
  function Fragment(data: Payload): seq<byte> {
    data[..FragmentLength(data)]
  }

  /** The main loop's variables: the reassembly buffer (as the C string it
      holds), the status, what it handed to Java so far, and whether `strcat`
      has written past the end of the buffer (after which nothing is modelled). */
  datatype Receiver = Receiver(buffer: seq<byte>, status: int, delivered: seq<seq<byte>>, reported: seq<int>, overflow: bool)

  /** One iteration of the main loop for a ClientMessage. */
  function Step(rc: Receiver, ev: ClientMessage): Receiver {
    if rc.overflow then rc
    else
      var seen := if rc.status == 0 then rc.(status := 1, reported := rc.reported + [1]) else rc;
      if ev.format != 8 then seen
      else
        var frag := Fragment(ev.data);
        if |seen.buffer| + |frag| + 1 > BufferSize then seen.(overflow := true)
        else if |frag| < PayloadSize then seen.(buffer := [], delivered := seen.delivered + [seen.buffer + frag])
        else seen.(buffer := seen.buffer + frag)
  }

  /** The main loop over a run of events. */
  function ReceiveAll(rc: Receiver, events: seq<ClientMessage>): Receiver
    decreases |events|
  {
    if |events| == 0 then rc else Step(ReceiveAll(rc, events[..|events| - 1]), events[|events| - 1])
  }

  /** The state before the first event: `buffer` is whatever the stack held,
      the status 0 when Skype was detected and 3 otherwise, reported at once. */
  function MainloopStart(detected: bool, stale: seq<byte>): (r: Receiver)
    ensures r.status == (if detected then 0 else 3) && r.reported == [r.status]
    ensures r.buffer == stale && r.delivered == []
  {
    var status := if detected then 0 else 3;
    Receiver(stale, status, [], [status], false)
  }

  /** The main loop with the buffer cleared before the first event. */
  function CleanMainloopStart(detected: bool): (r: Receiver)
    ensures r.buffer == [] && r.delivered == []
    ensures r.status == (if detected then 0 else 3) && r.reported == [r.status]
  {
    MainloopStart(detected, [])
  }

  /** `x11Mainloop` over a run of events, copying byte by byte as the C loop does. */
  method Mainloop(start: Receiver, events: seq<ClientMessage>) returns (rc: Receiver)
    ensures rc == ReceiveAll(start, events)
  {
    rc := start;
    var e := 0;
    while e < |events|
      invariant 0 <= e <= |events|
      invariant rc == ReceiveAll(start, events[..e])
    {
      var ev := events[e];
      assert events[..e + 1][..e] == events[..e];
      if !rc.overflow {
        if rc.status == 0 {
          rc := rc.(status := 1, reported := rc.reported + [1]);
        }
        if ev.format == 8 {
          var buf: seq<byte> := [];
          var i := 0;
          while i < PayloadSize && ev.data[i] != Nul
            invariant 0 <= i <= PayloadSize && buf == ev.data[..i]
            invariant NulFree(buf)
          {
            buf := buf + [ev.data[i]];
            i := i + 1;
          }
          FragmentLengthUnique(ev.data, i);
          if |rc.buffer| + |buf| + 1 > BufferSize {
            rc := rc.(overflow := true);
          } else {
            rc := rc.(buffer := rc.buffer + buf);
            if i < PayloadSize {
              rc := rc.(buffer := [], delivered := rc.delivered + [rc.buffer]);
            }
          }
        }
      }
      e := e + 1;
    }
    assert events[..e] == events;
  }

  /** The only message boundary is a short fragment: a payload delivers the
      buffer exactly when fewer than 20 bytes precede its first NUL. */
  lemma DeliversOnShortFragment(rc: Receiver, ev: ClientMessage)
    requires !rc.overflow && ev.format == 8 && |rc.buffer| + |Fragment(ev.data)| + 1 <= BufferSize
    ensures |Step(rc, ev).delivered| == |rc.delivered| + (if FragmentLength(ev.data) < PayloadSize then 1 else 0)
    ensures FragmentLength(ev.data) < PayloadSize ==>
      Step(rc, ev).buffer == [] && Step(rc, ev).delivered == rc.delivered + [rc.buffer + Fragment(ev.data)]
    ensures FragmentLength(ev.data) == PayloadSize ==> Step(rc, ev).buffer == rc.buffer + ev.data
  {
  }

  /** The atom is never looked at, and payloads whose format is not 8 change nothing but the status. */
  lemma IgnoresAtomAndOtherFormats(rc: Receiver, ev: ClientMessage, a: Atom)
    ensures Step(rc, ev) == Step(rc, ev.(messageType := a))
    ensures ev.format != 8 && !rc.overflow ==>
      Step(rc, ev).buffer == rc.buffer && Step(rc, ev).delivered == rc.delivered
  {
  }

  /** The status goes from 0 to 1 on the first ClientMessage, whatever its format, and is reported once. */
  lemma {:induction false} StatusReportedOnce(detected: bool, stale: seq<byte>, events: seq<ClientMessage>)
    requires |events| > 0
    ensures var rc := ReceiveAll(MainloopStart(detected, stale), events);
      rc.status == (if detected then 1 else 3) && rc.reported == (if detected then [0, 1] else [3])
    decreases |events|
  {
    if |events| > 1 {
      StatusReportedOnce(detected, stale, events[..|events| - 1]);
    }
  }

  /** Event `k` of a framing, when it is not the last, carries bytes
      `[20k, 20k+20)` of the message in full. */
  lemma FullChunk(msg: seq<byte>, events: seq<ClientMessage>, k: nat)
    requires NulFree(msg) && IsFraming(msg, events) && k < |msg| / PayloadSize
    ensures events[k].format == 8
    ensures Fragment(events[k].data) == events[k].data == msg[PayloadSize * k..PayloadSize * k + PayloadSize]
  {
    var ev := events[k];
    assert ChunkLength(|msg|, k) == PayloadSize;
    assert ev.data[..PayloadSize] == ev.data;
    assert ev.data == msg[PayloadSize * k..PayloadSize * k + PayloadSize] by {
      assert (msg + [Nul])[PayloadSize * k..PayloadSize * k + PayloadSize] == msg[PayloadSize * k..PayloadSize * k + PayloadSize];
    }
    assert NulFree(ev.data);
    FragmentLengthUnique(ev.data, PayloadSize);
  }

  /** The last event of a framing carries the rest of the message and then a NUL. */
  lemma LastChunk(msg: seq<byte>, events: seq<ClientMessage>)
    requires NulFree(msg) && IsFraming(msg, events)
    ensures var last := |msg| / PayloadSize;
      events[last].format == 8 &&
      FragmentLength(events[last].data) < PayloadSize &&
      Fragment(events[last].data) == msg[PayloadSize * last..]
  {
    var last := |msg| / PayloadSize;
    var ev := events[last];
    var n := ChunkLength(|msg|, last);
    assert n == |msg| + 1 - PayloadSize * last;
    var tail := msg[PayloadSize * last..];
    assert ev.data[..n] == tail + [Nul] by {
      assert (msg + [Nul])[PayloadSize * last..PayloadSize * last + n] == tail + [Nul];
    }
    assert ev.data[..n - 1] == tail;
    assert ev.data[n - 1] == Nul;
    FragmentLengthUnique(ev.data, n - 1);
  }

  /** Receiving the first `j + 1` events is receiving the first `j`, then event `j`. */
  lemma ReceiveOneMore(rc: Receiver, events: seq<ClientMessage>, j: nat)
    requires j < |events|
    ensures ReceiveAll(rc, events[..j + 1]) == Step(ReceiveAll(rc, events[..j]), events[j])
  {
    assert events[..j + 1][..j] == events[..j];
    assert events[..j + 1][j] == events[j];
  }

  /** After `j` full chunks of a framed message the buffer holds the first `20j` bytes. */
  lemma {:induction false} ReceivePrefix(msg: seq<byte>, events: seq<ClientMessage>, start: Receiver, j: nat)
    requires NulFree(msg) && |msg| < BufferSize && IsFraming(msg, events)
    requires start.buffer == [] && !start.overflow
    requires j <= |msg| / PayloadSize
    ensures var rc := ReceiveAll(start, events[..j]);
      rc.buffer == msg[..PayloadSize * j] && rc.delivered == start.delivered && !rc.overflow
    decreases j
  {
    if j > 0 {
      var k := j - 1;
      ReceivePrefix(msg, events, start, k);
      ReceiveOneMore(start, events, k);
      FullChunk(msg, events, k);
      DeliversOnShortFragment(ReceiveAll(start, events[..k]), events[k]);
      assert msg[..PayloadSize * j] == msg[..PayloadSize * k] + msg[PayloadSize * k..PayloadSize * j];
    }
  }

  /** Round trip: the events sent for a NUL-free message shorter than the
      buffer, fed to a main loop whose buffer is empty, deliver exactly that
      message and leave the buffer empty. */
  lemma RoundTrip(msg: seq<byte>, events: seq<ClientMessage>, start: Receiver)
    requires NulFree(msg) && |msg| < BufferSize && IsFraming(msg, events)
    requires start.buffer == [] && !start.overflow
    ensures ReceiveAll(start, events).delivered == start.delivered + [msg]
    ensures ReceiveAll(start, events).buffer == [] && !ReceiveAll(start, events).overflow
  {
    var last := |msg| / PayloadSize;
    ReceivePrefix(msg, events, start, last);
    ReceiveOneMore(start, events, last);
    assert events[..last + 1] == events;
    LastChunk(msg, events);
    DeliversOnShortFragment(ReceiveAll(start, events[..last]), events[last]);
    assert msg[..PayloadSize * last] + msg[PayloadSize * last..] == msg;
  }

  /** The events for a message, received by a main loop started with an empty buffer, give back the message. */
  method SendThenReceive(msg: seq<byte>, detected: bool) returns (delivered: seq<seq<byte>>)
    requires NulFree(msg) && |msg| < BufferSize
    ensures delivered == [msg]
  {
    var events := SendMessage(msg);
    var rc := Mainloop(CleanMainloopStart(detected), events);
    RoundTrip(msg, events, CleanMainloopStart(detected));
    delivered := rc.delivered;
  }

  /** The single payload sent for the one-byte command "x". */
  const SingleX: Payload := [0x78, 0, 0, 0, 0, 0, 0, 0, 0, 0, 0, 0, 0, 0, 0, 0, 0, 0, 0, 0]

  /** The buffer is not cleared before the first event: whatever text the
      stack held ("A" here) is glued in front of the first message. */
  lemma StaleBufferCorruptsFirstMessage()
    ensures IsFraming([0x78], [ClientMessage(MessageBegin, 8, SingleX)])
    ensures ReceiveAll(MainloopStart(true, [0x41]), [ClientMessage(MessageBegin, 8, SingleX)]).delivered == [[0x41, 0x78]]
  {
    var msg: seq<byte> := [0x78];
    var events := [ClientMessage(MessageBegin, 8, SingleX)];
    assert ChunkLength(1, 0) == 2;
    assert SingleX[..2] == (msg + [Nul])[0..2];
    assert IsFraming(msg, events);
    FragmentLengthUnique(SingleX, 1);
    assert Fragment(SingleX) == [0x78];
    assert events[..0] == [];
    var start := MainloopStart(true, [0x41]);
    assert ReceiveAll(start, events) == Step(start, events[0]);
    var glued: seq<byte> := [0x41] + [0x78];
    assert glued == [0x41, 0x78];
    assert Step(start, events[0]).delivered == [glued];
  }
}
